=== FILE: README.md ===
# SoundBridge control plane in Dafny

This project models the per-guild control plane of SoundBridge, a Discord
bot that streams internet radio into voice channels and bridges its state
to Second Life. The audio samples themselves pass through numpy, scipy
and ffmpeg; what is modelled is the bookkeeping around them:

- adaptive quality and recovery: quality stepping with cooldowns, the
  resource-to-quality table, recovery attempt counting with backoff and a
  cap, stream reconnection, health and connection classification, the
  maintenance state machine and alert throttling;
- audio parameter state: clamped volume, EQ, compression and crossfade
  settings, volume ramps, mixer stream lists and mix weights, EQ band and
  filter-bank registries, filter specification checks, the coefficient
  cache and the PCM byte cursor handed to the voice client;
- guild state stores: the guild state manager, favorites numbering over
  the favorites table, the event bus with its routing and history, and the
  configuration merge and environment overrides;
- security and rate control: token buckets, the permission hierarchy and
  outbound webhooks with their retry schedule;
- cross-platform sync: command conflict classification and resolution,
  pending-update pruning, wildcard event patterns and the Second Life
  connection registry;
- parsers and formatters: the ICY-tolerant HTTP status-line reader
  (section 4 of RFC 9112), string truncation and key shortening for
  Second Life responses, the request validators and device detection.

One Dafny module stands for one source file. Objects whose methods update
their fields are classes whose methods state, with `old(...)`, the new
value of every field they may change (contracts deliberately weaker are
listed under Left out); the pure parts are functions whose contracts, together with
the lemmas beside them, state what the code promises. Wall-clock time is
an explicit `now` (seconds on a real-valued clock); Discord, HTTP, SQLite,
the operating system and the scipy routines are parameters of the
operations that use them. Python's dynamically typed values are the
`Values.Value` datatype; integers and reals are exact. Audio travels
between the services as int16 PCM bytes: each audio entry point has a
member on the decoded samples and one on the bytes, which decodes them as
`np.frombuffer` does and takes the source's fallback when the byte count
is odd. Alert titles carry the characters the source file holds at their
head: its emoji were saved after a wrong decoding, so the recovery and
maintenance titles begin with four Latin-1 and Windows-1252 characters
rather than the emoji.

Where the repository's design description and its code disagree, this model
follows the code:

- the mixer's REPLACE mode keeps the highest-priority streams (every one
  tied at the maximum weighs 1), not the newest source;
- quality steps down when the average CPU reading exceeds the guild's
  limit and up when it is below half of it, guarded by cooldowns; there
  is no latency or underrun input;
- health is a per-check classification (healthy, warning, critical,
  offline, unknown), not a Healthy/Degraded/Unhealthy/Failed state machine with a
  terminal state;
- recovery backoff is a deterministic exponential delay with a 300-second
  cap and no jitter, and the attempt cap is three per hour per guild and
  issue kind;
- a memory reading between 90 % and 95 % raises a warning and only 95 % or
  more is critical, while CPU is critical from 90 %.

## Model

| member | source | states |
|---|---|---|
| `AudioTypes.DefaultAudioConfig` | audio/interfaces.py:49-82 | the default configuration: volume 0.8, target -23 LUFS, HIGH quality, 48 kHz stereo 16-bit, flat and disabled EQ, CPU limit 50 %, crossfade 3 s |
| `AudioTypes.IsActiveIff` | audio/interfaces.py:127-132 | a stream is inactive exactly when it has an end time and the instant is past it |
| `AudioTypes.CompressIsGainForm` | audio/effects_chain.py:418-434 | the sign-and-magnitude compressor equals the source's form: the sample times (threshold + excess·(1-ratio)) / |x| |
| `AudioTypes.SquashBetween` | audio/effects_chain.py:428-432 | a magnitude over the threshold is compressed to a value between the threshold and itself |
| `AudioTypes.CompressShrinks` | audio/effects_chain.py:418-434 | compression keeps a sample's sign and never increases its magnitude |
| `AudioTypes.ClipInt16` | audio/effects_chain.py:368-370 | the result lies in the int16 range, equals the truncated sample inside it and the nearer bound outside it |
| `AudioTypes.ChunkAt` | audio/interfaces.py:198-205 | the chunk is empty at or past the end, otherwise the bytes from the position up to the frame size or the end, never longer than the frame size |
| `AudioTypes.Int16At` | audio/audio_processor.py:322 | a sample read from two little-endian bytes lies in the int16 range |
| `AudioTypes.Int16BytesRead` | audio/audio_processor.py:322-350 | writing an int16 sample as two bytes and reading them back gives the sample |
| `AudioTypes.Int16AtWritten` | audio/audio_processor.py:322-350 | reading two bytes as a sample and writing it back gives the same two bytes |
| `AudioTypes.FromBuffer` | audio/audio_processor.py:322 | decoding fails exactly for an odd byte count; otherwise it gives half as many samples, all in the int16 range |
| `AudioTypes.ToBytes` | audio/audio_processor.py:349-350 | int16 samples are written as twice as many bytes |
| `AudioTypes.FromBufferToBytes` | audio/audio_processor.py:322-350 | decoding the bytes written for int16 samples gives the samples back |
| `AudioTypes.ToBytesFromBuffer` | audio/audio_processor.py:322-350 | writing back the samples decoded from an even number of bytes gives the bytes back |
| `AudioTypes.DrainIsRest` | audio/interfaces.py:198-205 | successive reads from a position until an empty read concatenate to exactly the rest of the audio data |
| `AudioTypes.ProcessedAudioSource.constructor` | audio/interfaces.py:189-196 | a new source holds the data and format with the cursor at 0 |
| `AudioTypes.ProcessedAudioSource.Read` | audio/interfaces.py:198-205 | the chunk is the `ChunkAt` slice, the cursor advances by its length, and a read at the end is empty |
| `AudioTypes.ProcessedAudioSource.Seek` | audio/interfaces.py:207-209 | the cursor becomes the target clamped into [0, length] |
| `AudioTypes.ProcessedAudioSource.RemainingBytes` | audio/interfaces.py:211-213 | the result is max(0, length - position), so position plus result is the length |
| `Recovery.BackoffDelay` | monitoring/recovery_manager.py:88-95 | no delay for the first attempt, at least 2 s for later ones, never more than the 300 s cap |
| `Recovery.BackoffMonotone` | monitoring/recovery_manager.py:88-95 | a later attempt never waits less than an earlier one |
| `Recovery.AttemptsAfterCounts` | monitoring/recovery_manager.py:71-86 | a refused attempt leaves the counters alone; a permitted one raises the key's counter by exactly one (to 1 after an expired reset); a success deletes the key |
| `Recovery.AttemptsIndependent` | monitoring/recovery_manager.py:65-86 | an attempt on one (guild, issue) key never changes the counter of another key |
| `Recovery.CapHolds` | monitoring/recovery_manager.py:181-193 | a key at three attempts whose last attempt is less than an hour old is refused and nothing changes |
| `Recovery.SuccessCount` | monitoring/recovery_manager.py:439-440 | the number of successful results is at most the number of results |
| `Recovery.SuccessCountAppend` | monitoring/recovery_manager.py:439-440 | one more result adds one success exactly when it succeeded |
| `Recovery.Recent` | monitoring/recovery_manager.py:443-446 | exactly the results at most 24 hours (86400 s) old are kept |
| `Recovery.RecentOfFreshHistory` | monitoring/recovery_manager.py:443-446 | a history wholly inside the window is its own recent part |
| `Recovery.Rate` | monitoring/recovery_manager.py:441-448 | a success rate lies in [0,1], is 0 for no attempts, and times the attempts gives the successes |
| `Recovery.Stats` | monitoring/recovery_manager.py:429-457 | total and successful counts of the whole history and of its last 24 hours, each rate their `Rate`; recent counts are bounded by the totals and an empty history gives all zeros |
| `Recovery.FreshHistoryStats` | monitoring/recovery_manager.py:429-457 | when every result is under 24 hours old the recent figures equal the overall ones |
| `Recovery.RecoveryManager.constructor` | monitoring/recovery_manager.py:27-51 | a new manager has no counters, no attempt times and no history |
| `Recovery.RecoveryManager.AddToHistory` | monitoring/recovery_manager.py:421-427 | the history becomes the newest 1000 of the old history plus the new result, which ends it; counters are untouched |
| `Recovery.RecoveryManager.ResetRecoveryAttempts` | monitoring/recovery_manager.py:195-209 | exactly the key's counter and last-attempt time are removed; nothing else changes |
| `Recovery.RecoveryManager.CanAttemptRecovery` | monitoring/recovery_manager.py:167-193 | the answer is the `CanAttempt` rule (fewer than three attempts, or the hour window elapsed); a permitted key at the cap is reset first, otherwise nothing changes |
| `Recovery.RecoveryManager.AttemptRecovery` | monitoring/recovery_manager.py:53-165 | a refused attempt reports the current count and records nothing else; a permitted one records the new count and time, waits the backoff, and on success clears the key |
| `Recovery.RecoveryManager.CountAttempt` | monitoring/recovery_manager.py:82-85 | the counter becomes one more than before and the attempt is stamped; after a success both entries are removed instead |
| `Recovery.RecoveryManager.GetRecoveryHistory` | monitoring/recovery_manager.py:211-227 | exactly the history entries of that guild inside the last `hours` hours are returned |
| `AudioProcessing.Rank` | audio/interfaces.py:15-20 | the four quality levels occupy ranks 0 to 3 |
| `AudioProcessing.StepDown` | audio/audio_processor.py:503-535 | reducing moves exactly one level down, and LOW stays LOW |
| `AudioProcessing.StepUp` | audio/audio_processor.py:537-569 | increasing moves exactly one level up, and ULTRA stays ULTRA |
| `AudioProcessing.StepUpThenDown` | audio/audio_processor.py:503-569 | below ULTRA, a step up followed by a step down returns to the starting level |
| `AudioProcessing.ValidConfigFacts` | audio/audio_processor.py:571-602 | the defaults pass `_validate_config`, the quality level plays no part in validity, and a valid config has a positive rate and one or two channels |
| `AudioProcessing.NeedsRestartFacts` | audio/audio_processor.py:604-610 | a config never needs a restart against itself, and any change of quality level needs one |
| `AudioProcessing.QualityScore` | audio/audio_processor.py:435-455 | the score lies in [0.1, 1], is 1 at 50 ms of latency or less and bottoms out at 0.1 from 140 ms |
| `AudioProcessing.QualityScoreAntitone` | audio/audio_processor.py:435-455 | more latency never gives a higher score |
| `AudioProcessing.PerformanceDecision` | audio/audio_processor.py:479-501 | nothing happens with fewer than 3 CPU samples; an average above the limit reduces; an increase needs an average below half the limit and a level below ULTRA |
| `AudioProcessing.ScaleToInt16` | audio/audio_processor.py:347-348 | the result is in the int16 range and equals the truncated x·32767 for x in [-1,1] |
| `AudioProcessing.ProcessAudioData` | audio/audio_processor.py:304-355 | the output has as many samples as the input, every one in the int16 range; empty input gives empty output |
| `AudioProcessing.ProcessedSampleAt` | audio/audio_processor.py:336-348 | each processed sample lies in the int16 range |
| `AudioProcessing.ProcessAudioBytes` | audio/audio_processor.py:304-355 | the output has the input's length; an odd byte count comes back unchanged (the `except` path), otherwise the output decodes to `ProcessAudioData` of the input's samples |
| `AudioProcessing.NeutralProcessingStepsTowardZero` | audio/audio_processor.py:322-350 | with normalization, AGC, compression and EQ off and volume 1, every positive sample comes out one lower, every negative one one higher, and 0 stays 0 |
| `AudioProcessing.NeutralSample` | audio/audio_processor.py:326-350 | one int16 sample divided by 32768, scaled by 32767 and cast moves one step toward zero |
| `AudioProcessing.AudioProcessor.constructor` | audio/audio_processor.py:30-51 | a new processor has no guild state at all |
| `AudioProcessing.AudioProcessor.StartProcessing` | audio/audio_processor.py:181-220 | starting an active guild changes nothing; otherwise the guild becomes active with an empty buffer, a lock, an empty CPU history and a config (the default if none was stored) |
| `AudioProcessing.AudioProcessor.StopProcessing` | audio/audio_processor.py:222-265 | stopping an inactive guild changes nothing; otherwise the guild is marked inactive and its buffer, lock and CPU history are deleted, config and metrics kept |
| `AudioProcessing.AudioProcessor.SetConfig` | audio/audio_processor.py:113-159 | an invalid config is refused and nothing changes; a valid one is stored, and an active guild whose parameters changed is restarted with a fresh buffer and history |
| `AudioProcessing.AudioProcessor.Restart` | audio/audio_processor.py:143-145 | stopping and restarting an active guild leaves it active with the same config, empty buffer and CPU history, and a lock; nothing else changes |
| `AudioProcessing.AudioProcessor.PushCpuSample` | audio/audio_processor.py:426-430 | the sample becomes the newest of the guild's CPU history, which keeps its last ten entries; nothing else changes |
| `AudioProcessing.AudioProcessor.GetConfig` | audio/audio_processor.py:161-175 | the stored config is returned, or the default is created, stored and returned; nothing else changes |
| `AudioProcessing.AudioProcessor.UpdateProcessingMetrics` | audio/audio_processor.py:402-433 | the guild's metrics record the latency and its quality score, and its CPU history gains a sample and keeps at most 10 |
| `AudioProcessing.AudioProcessor.ReduceQuality` | audio/audio_processor.py:503-535 | within 10 s of the last adjustment, or at LOW, nothing changes; otherwise the level moves one step down and the adjustment time is recorded |
| `AudioProcessing.AudioProcessor.IncreaseQuality` | audio/audio_processor.py:537-569 | within 30 s of the last adjustment, or at ULTRA, nothing changes; otherwise the level moves one step up and the adjustment time is recorded |
| `AudioProcessing.Adjustment` | audio/audio_processor.py:503-560 | no change without a decision or within 10 s of the last adjustment, no increase within 30 s; otherwise exactly one step in the decided direction unless the level is already at that end |
| `AudioProcessing.AudioProcessor.CheckGuildPerformance` | audio/audio_processor.py:479-501 | nothing changes unless `Adjustment` of the decision, the level and the time since the last adjustment gives a level; then only that guild's quality is set to it and its cooldown stamped now |
| `Mixer.MaxPriority` | audio/mixer.py:409-413 | the maximum priority bounds every stream's priority and is attained by one of them |
| `Mixer.WeightsOf` | audio/mixer.py:400-436 | the weight dictionary has an entry for exactly the ids of the streams assigned so far |
| `Mixer.ReplaceWeights` | audio/mixer.py:409-413 | in REPLACE mode a stream weighs 1 exactly when its priority is the maximum and 0 exactly when it is below it |
| `Mixer.WeightsOfLookup` | audio/mixer.py:400-436 | with distinct stream ids each stream's dictionary entry is its own weight |
| `Mixer.OverlayPartialSum` | audio/mixer.py:415-419 | the OVERLAY weights of the first k streams sum to at most k/n |
| `Mixer.OverlayWeightsBounded` | audio/mixer.py:415-419 | OVERLAY weights (volume/len) sum to at most 1 when every volume is at most 1 |
| `Mixer.PriorityPartialSum` | audio/mixer.py:421-426 | the PRIORITY weights of a prefix sum to at most its share of the total priority |
| `Mixer.PriorityWeightsBounded` | audio/mixer.py:421-426 | PRIORITY weights (priority/total × volume) sum to at most 1 for non-negative priorities and volumes at most 1 |
| `Mixer.SameWeightsSameSum` | audio/mixer.py:421-426 | with a non-positive total priority the PRIORITY weights fall back to the OVERLAY ones |
| `Mixer.PickHighestPriority` | audio/mixer.py:353-367 | the loop's pick is `ReplacePick`: the first present stream whose priority is strictly above every earlier candidate's, starting from -1; none only when every present stream has priority -1 or less |
| `Mixer.ReplaceScan` | audio/mixer.py:356-360 | a scan only ever picks a stream whose id has a chunk |
| `Mixer.ReplacePick` | audio/mixer.py:353-360 | the REPLACE pick is a stream whose id has a chunk |
| `Mixer.ReplaceScanIsChoice` | audio/mixer.py:353-360 | from any point of the scan, the result is the first present stream above all earlier candidates, or none when no present priority exceeds -1 |
| `Mixer.ReplaceChoiceUnique` | audio/mixer.py:353-360 | at most one stream meets the REPLACE rule |
| `Mixer.ReplacePickIsChoice` | audio/mixer.py:353-360 | whenever a stream meets the REPLACE rule, the pick is that stream |
| `Mixer.ChunkIndex` | audio/mixer.py:362-363 | the first chunk carrying the id, found whenever one does |
| `Mixer.ReplaceMix` | audio/mixer.py:353-367 | REPLACE returns one of the input chunks unchanged |
| `Mixer.ReplaceMixOfChoice` | audio/mixer.py:353-367 | when a stream with a non-empty id meets the REPLACE rule, the result is the first chunk carrying its id |
| `Mixer.ReplaceMixWithoutChoice` | audio/mixer.py:364-367 | when no present stream has a priority above -1 the first chunk is returned |
| `Mixer.MixOf` | audio/mixer.py:347-398 | the mix of equal-length chunks under a mode has their length |
| `Mixer.Faded` | audio/mixer.py:451-477 | outside a running crossfade the mix is kept; during one every sample is scaled by elapsed/duration |
| `Mixer.MixOutput` | audio/mixer.py:282-345 | the output has the longest chunk's length and every sample lies within int16 |
| `Mixer.SingleChunkPassesThrough` | audio/mixer.py:353-355 | a single chunk without crossfade comes out as its own int16 clip, whatever the mode |
| `Mixer.Reweighed` | audio/mixer.py:400-436 | a guild with streams gets the weights of its streams, and an emptied guild keeps its old weights |
| `Mixer.Pad` | audio/mixer.py:314-320 | padding keeps the samples and appends zeros up to the longest length |
| `Mixer.MaxLen` | audio/mixer.py:302-309 | the padded length bounds every chunk and is attained by one of them |
| `Mixer.PadAll` | audio/mixer.py:314-320 | every chunk keeps its id and is zero-padded to the common length |
| `Mixer.WeightedSum` | audio/mixer.py:369-383 | the weighted mix has the common length |
| `Mixer.Average` | audio/mixer.py:479-486 | the averaged mix has the common length |
| `Mixer.ClipAll` | audio/mixer.py:329-330 | each output sample is the int16 clip of the mixed sample |
| `Mixer.NonEmpty` | audio/mixer.py:305-309 | only non-empty chunks are kept, in order |
| `Mixer.DecodeChunks` | audio/mixer.py:303-309 | the chunks decode exactly when none has an odd byte count, and then each keeps its id and holds its decoded samples |
| `Mixer.FirstNonEmptyIndex` | audio/mixer.py:341-345 | the search stops at the first non-empty chunk, past only empty ones, or at the end |
| `Mixer.FirstNonEmpty` | audio/mixer.py:341-345 | the fallback is empty exactly when every chunk is empty |
| `Mixer.Scale` | audio/mixer.py:466-473 | every sample is multiplied by the fade factor |
| `Mixer.CrossfadeStep` | audio/mixer.py:458-473 | the crossfade ends exactly when the elapsed time reaches the duration; before that the factor is elapsed/duration, in [0,1) |
| `Mixer.BuildWeights` | audio/mixer.py:400-436 | the loop builds exactly the `WeightsOf` dictionary of the stream list |
| `Mixer.AudioMixer.constructor` | audio/mixer.py:29-49 | a new mixer holds no streams, buffers, volumes, modes, crossfades or weights |
| `Mixer.AudioMixer.CalculateMixWeights` | audio/mixer.py:400-436 | a guild without streams keeps its weights; otherwise its dictionary is rebuilt from its streams; nothing else changes |
| `Mixer.AudioMixer.CleanupStreamResources` | audio/mixer.py:502-507 | exactly the stream's buffer and volume are dropped |
| `Mixer.AudioMixer.ClearAllStreams` | audio/mixer.py:493-500 | the guild's list and weights are emptied and the buffers and volumes of all its streams dropped |
| `Mixer.AudioMixer.AddStream` | audio/mixer.py:51-100 | the stream ends the guild's list (in REPLACE mode it is the only one); a new guild records the mode; REPLACE drops the volumes and buffers of the guild's old streams; the stream's volume and an empty buffer are registered; the guild's weights become those of its new list and no other guild's weights, list or crossfade changes |
| `Mixer.AudioMixer.RemoveStream` | audio/mixer.py:102-149 | False exactly when no stream has that id, and then nothing changes; otherwise the first stream with the id is removed with its buffer and volume, and the weights are `Reweighed` under the guild's mode |
| `Mixer.AudioMixer.SetStreamVolume` | audio/mixer.py:151-184 | False for an unknown stream with nothing changed; otherwise the volume is clamped to [0,1] and stored in the registry and the first matching stream, the weights are `Reweighed`, and modes, crossfades and buffers are kept |
| `Mixer.AudioMixer.CrossfadeToStream` | audio/mixer.py:186-222 | a crossfade is recorded exactly when the target stream exists; streams and weights are untouched |
| `Mixer.AudioMixer.SetMixingMode` | audio/mixer.py:228-250 | the mode is stored and the guild's weights are recomputed for it when it has streams; streams, buffers, volumes and crossfades are unchanged |
| `Mixer.AudioMixer.GetActiveStreams` | audio/mixer.py:224-226 | the guild's stream list, or empty for an unknown guild |
| `Mixer.AudioMixer.MixArrays` | audio/mixer.py:347-398 | the result is `MixOf` the guild's mode, weights and streams: REPLACE or a single array returns one input unchanged; OVERLAY and PRIORITY give the weighted sum with their defaults; otherwise the average |
| `Mixer.AudioMixer.MixAudioStreams` | audio/mixer.py:282-345 | no non-empty input gives empty output and no change; otherwise the output is `MixOutput` of the guild's mode, weights, streams and crossfade at entry; a finished crossfade is removed and nothing else changes |
| `Mixer.AudioMixer.FadedMix` | audio/mixer.py:313-330 | the padded, mixed, faded and clipped samples are `MixOutput` of the guild's settings |
| `Mixer.AudioMixer.MixAudioStreamsBytes` | audio/mixer.py:282-345 | a chunk with an odd byte count gives the first non-empty chunk as it came, with no change; otherwise the output is empty for no non-empty chunk, and else decodes to `MixOutput` of the decoded chunks, with the crossfade and other state as for `MixAudioStreams` |
| `Mixer.AudioMixer.EndFinishedCrossfade` | audio/mixer.py:466-470 | a crossfade that has run its course is deleted; nothing else changes |
| `Effects.Preset` | audio/effects_chain.py:38-49 | a name has a preset exactly when it is one of the nine known names, and every preset band lies in [-12,12] |
| `Effects.PresetValues` | audio/effects_chain.py:38-49 | rock is (4,2,3), bass_boost (8,0,0), vocal (-2,4,2), and names are case-sensitive |
| `Effects.ClampBand` | audio/effects_chain.py:190-192 | a band is clamped into [-12,12] and an in-range band is kept |
| `Effects.PresetSurvivesClamp` | audio/effects_chain.py:239-244 | a known preset's bands pass the `set_eq` clamp unchanged |
| `Effects.EnabledOnly` | audio/effects_chain.py:363-367 | only enabled effects are kept |
| `Effects.DisabledEffectsIgnored` | audio/effects_chain.py:363-367 | processing through a chain equals processing through its enabled effects alone, in order |
| `Effects.InertChainIsIdentity` | audio/effects_chain.py:376-396 | effect kinds without a processor leave the sample unchanged |
| `Effects.FindFirstOfKind` | audio/effects_chain.py:455-464 | the first effect of the kind is found (`IndexOfKind`), or none exists |
| `Effects.FindById` | audio/effects_chain.py:114-120 | the first effect with the id is found (`IndexOfId`), or none has it |
| `Effects.IndexOfKind` | audio/effects_chain.py:455-464 | the index of the first effect of the kind, or the length when there is none |
| `Effects.IndexOfId` | audio/effects_chain.py:114-120 | the index of the first effect with the id, or the length when there is none |
| `Effects.SetEqOutcome` | audio/effects_chain.py:174-225 | the chain either keeps its length (a found EQ is updated) or gains exactly the new EQ effect |
| `Effects.MergeKeepsFirstOfKind` | audio/effects_chain.py:200-206 | merging parameters never moves the first effect of a kind |
| `Effects.AppendFirstOfKind` | audio/effects_chain.py:208-220 | an appended EQ is the first EQ when the chain had none |
| `Effects.SetEqStoresBands` | audio/effects_chain.py:174-225 | with distinct non-empty ids, afterwards the first EQ effect holds the three bands, and the call fails only when the EQ found has no parameter entry |
| `Effects.EffectsChain.constructor` | audio/effects_chain.py:28-54 | a new chain manager has no chains, parameters or crossfades and shares the given configs |
| `Effects.EffectsChain.UpdateAudioConfig` | audio/effects_chain.py:466-476 | only a guild that already has a config is updated |
| `Effects.EffectsChain.AddEffect` | audio/effects_chain.py:56-100 | the effect is appended enabled under the new id, with its parameters stored |
| `Effects.EffectsChain.RemoveEffect` | audio/effects_chain.py:102-140 | False exactly when no effect has the id, with nothing changed; otherwise the first such effect and its parameters are removed |
| `Effects.EffectsChain.UpdateEffect` | audio/effects_chain.py:142-173 | True exactly when the effect exists and has a parameter entry; the first effect with the id gets the new parameters merged whenever it exists, the registry entry only on success |
| `Effects.EffectsChain.SetEq` | audio/effects_chain.py:175-225 | bands are clamped to [-12,12]; the chain, registry and result are `SetEqOutcome`'s (the first EQ with a non-empty id is updated, otherwise a new one appended); on success the guild's config carries the clamped bands |
| `Effects.EffectsChain.ApplyEqPreset` | audio/effects_chain.py:227-255 | an unknown preset returns False and changes nothing; a known one changes the chain and registry as `SetEqOutcome` of its bands and, on success, records the bands and the preset name in the config |
| `Effects.EffectsChain.EnableCrossfade` | audio/effects_chain.py:257-294 | the duration is clamped to [0.1,10] and stored, also in the config when there is one |
| `Effects.EffectsChain.EnableDucking` | audio/effects_chain.py:296-335 | level and sensitivity are clamped to [0,1] and a DUCKING effect with fixed attack and release is appended; only the new effect's parameters are added, and the guild's config (when it has one) turns ducking on with the clamped level and sensitivity, nothing else |
| `Effects.EffectsChain.ProcessAudioEffects` | audio/effects_chain.py:341-374 | empty input or a guild without a chain returns the input; otherwise each sample runs through the chain and is clipped to int16 |
| `Effects.EffectsChain.ProcessAudioEffectsBytes` | audio/effects_chain.py:341-374 | an odd byte count or a guild without a chain returns the input; otherwise the output decodes to the input's samples run through the chain and clipped to int16 |
| `Effects.CountKind` | audio/effects_chain.py:478-506 | a per-type count never exceeds the number of effects |
| `Effects.CountsAddUp` | audio/effects_chain.py:478-506 | the per-type counts of the statistics add up to the total number of effects |
| `Volume.SmoothstepBounds` | audio/volume_manager.py:427-429 | the cubic ease p²(3-2p) maps [0,1] into [0,1] and fixes both ends |
| `Volume.InterpolateBetween` | audio/volume_manager.py:429-431 | an eased value between 0 and 1 gives a volume between the start and the target |
| `Volume.StepRamp` | audio/volume_manager.py:412-437 | the ramp ends exactly when the elapsed time reaches the duration, returning the target; before that the volume stays between start and target |
| `Volume.EasedBetween` | audio/volume_manager.py:426-431 | during a ramp the interpolated volume lies between the start and the target |
| `Volume.RampStartsAtStart` | audio/volume_manager.py:426-431 | at the ramp's start instant the volume is the start volume |
| `Volume.Mean` | audio/volume_manager.py:214 | the mean times the number of values is their sum |
| `Volume.Variance` | audio/volume_manager.py:546-553 | the variance is 0 for fewer than two values and never negative |
| `Volume.ConstantHasNoVariance` | audio/volume_manager.py:546-553 | equal values have no squared deviation from their value |
| `Volume.MaxOf` | audio/volume_manager.py:216 | the maximum bounds every value from above |
| `Volume.MinOf` | audio/volume_manager.py:216 | the minimum bounds every value from below |
| `Volume.ExtremesAttained` | audio/volume_manager.py:216 | the maximum and the minimum are values of the sequence |
| `Volume.MeanBetween` | audio/volume_manager.py:214 | the mean lies between any lower and upper bound of the values |
| `Volume.Summarize` | audio/volume_manager.py:209-217 | there is a summary exactly when there is history; its range and variance are non-negative and its average lies between the extremes of the last ten values |
| `Volume.PipelineSample` | audio/volume_manager.py:264-302 | after the final limiter a pipeline sample lies in [-1,1] |
| `Volume.PipelineOut` | audio/volume_manager.py:295-298 | a limited sample scaled by 32767 and truncated lies in [-32767,32767] |
| `Volume.NeutralPipeline` | audio/volume_manager.py:264-302 | with AGC, compression and normalization off and volume 1, a sample is only scaled by 1/32768 |
| `Volume.SmoothVolume` | audio/volume_manager.py:412-437 | a finished ramp gives its target, a running one a volume between start and target, and a guild with neither ramp nor smoothing 0.8 |
| `Volume.VolumeManager.constructor` | audio/volume_manager.py:30-55 | a new manager holds no per-guild settings and shares the given configs |
| `Volume.VolumeManager.MasterVolume` | audio/volume_manager.py:104-107 | an unset guild reads 0.8, and every stored volume lies in [0,1] |
| `Volume.VolumeManager.SetMasterVolume` | audio/volume_manager.py:57-102 | the volume is clamped to [0,1] and stored, and a 0.5 s ramp from the previous volume to it starts now; normalization, AGC, compression, metrics, analysis times and configs are unchanged |
| `Volume.VolumeManager.SetNormalizationTarget` | audio/volume_manager.py:109-142 | the target is clamped to [-30,-16] LUFS and stored, also in the config when there is one |
| `Volume.VolumeManager.EnableAutoGainControl` | audio/volume_manager.py:144-167 | the flag is stored, also in the config when there is one |
| `Volume.VolumeManager.SetDynamicRangeCompression` | audio/volume_manager.py:169-195 | the ratio is clamped to [0,1] and stored, also in the config when there is one |
| `Volume.VolumeManager.CurrentSmoothVolume` | audio/volume_manager.py:412-437 | the result is `SmoothVolume`; a finished ramp is deleted, a running one kept, and the smoothed volume recorded |
| `Volume.VolumeManager.UpdateVolumeMetrics` | audio/volume_manager.py:450-471 | the metrics and analysis time are stored, and an RMS value is appended to a history that keeps the newest 100 |
| `Volume.WithSummary` | audio/volume_manager.py:210-215 | the three derived figures are set and every other metric is kept |
| `Volume.WithSummaryIdempotent` | audio/volume_manager.py:210-215 | merging the same summary twice equals merging it once |
| `Volume.VolumeManager.GetVolumeMetrics` | audio/volume_manager.py:197-224 | the stored metrics (or an empty dict) with the history's summary merged in when there is history; a guild with stored metrics keeps the merged dict, no other guild changes |
| `Volume.VolumeManager.ProcessAudioVolume` | audio/volume_manager.py:226-262 | empty input returns empty with no change; otherwise every sample goes through the pipeline, lands in [-32767,32767], and the metrics are recorded |
| `Volume.VolumeManager.ProcessAudioVolumeBytes` | audio/volume_manager.py:226-262 | empty input or an odd byte count returns the input with empty metrics and no change; otherwise the metrics are recorded and the output decodes to the input's samples through the pipeline |
| `AdvancedTypes.FirstBadCutoff` | audio/interfaces/advanced_interfaces.py:67-72 | the first cutoff outside (0, nyquist) is found, or every cutoff is inside |
| `AdvancedTypes.NewFilterSpecification` | audio/interfaces/advanced_interfaces.py:45-72 | a specification is built exactly when the rate and order are positive and there is at least one cutoff, all strictly between 0 and nyquist; each failure has its own error in the order rate, order, no cutoff, and then the first out-of-range cutoff (by `FirstBadCutoff`) named |
| `AdvancedTypes.DivideAll` | audio/interfaces/advanced_interfaces.py:94-99 | every coefficient is divided by the leading denominator coefficient |
| `AdvancedTypes.NewFilterCoefficients` | audio/interfaces/advanced_interfaces.py:75-99 | empty numerator or denominator is refused; otherwise both are divided by the leading denominator coefficient, which becomes 1 |
| `AdvancedTypes.NormalizedIsFixedPoint` | audio/interfaces/advanced_interfaces.py:94-99 | already-normalised coefficients are returned unchanged |
| `AdvancedTypes.NewAudioBuffer` | audio/interfaces/advanced_interfaces.py:102-134 | a buffer is built exactly when its shape, rate, channel count and bit depth are valid; the first broken rule is reported, in the order dimensions, shape against channels, rate, channels, bit depth |
| `AdvancedTypes.Duration` | audio/interfaces/advanced_interfaces.py:137-139 | the duration is non-negative and times the sample rate gives the frame count |
| `AdvancedTypes.StereoTwoDNotMono` | audio/interfaces/advanced_interfaces.py:116-149 | a valid two-dimensional stereo buffer has two columns and is not mono |
| `AdvancedTypes.NewFrequencyBand` | audio/interfaces/advanced_interfaces.py:152-170 | a band is built exactly when its centre and Q are positive and its gain is within ±24 dB |
| `AdvancedTypes.QSpread` | audio/interfaces/advanced_interfaces.py:173-188 | the Q spread factor is greater than 1 |
| `AdvancedTypes.EdgesBracketCenter` | audio/interfaces/advanced_interfaces.py:173-188 | without a bandwidth the edges bracket the centre strictly and the centre is their geometric mean |
| `AdvancedTypes.BandwidthEdges` | audio/interfaces/advanced_interfaces.py:173-188 | with a bandwidth the edges bracket the centre and lie exactly one bandwidth apart |
| `AdvancedTypes.NewSpectrumAnalysis` | audio/interfaces/advanced_interfaces.py:191-212 | an analysis is built exactly when the three arrays have equal length |
| `AdvancedTypes.FrequencyResolution` | audio/interfaces/advanced_interfaces.py:215-217 | the resolution times the window size is the sample rate |
| `AdvancedProcessing.OptimalQuality` | audio/processing/advanced_processor.py:384-411 | LOW exactly when CPU ≥ 80 or memory ≥ 85; MEDIUM exactly when not LOW and CPU ≥ 60 or memory ≥ 70; HIGH otherwise; never ULTRA |
| `AdvancedProcessing.OptimalQualityMonotone` | audio/processing/advanced_processor.py:384-411 | more CPU and memory load never yields a better quality |
| `AdvancedProcessing.ParametersRiseWithQuality` | audio/processing/advanced_processor.py:413-459 | every processing parameter strictly grows with the quality level, and the filter-order cap stays within 20 |
| `AdvancedProcessing.NoiseAlphaMatchesParameters` | audio/processing/advanced_processor.py:292-335 | the noise-reduction strength used per quality equals the table's alpha and lies in [1.5,3] |
| `AdvancedProcessing.BumpStats` | audio/processing/advanced_processor.py:337-358 | a call adds one to the guild's count and the buffer size to its sample total, and records the size |
| `AdvancedProcessing.AdvancedAudioProcessor.constructor` | audio/processing/advanced_processor.py:31-55 | a new processor has no per-guild state and a zero call count |
| `AdvancedProcessing.AdvancedAudioProcessor.QualityOf` | audio/processing/advanced_processor.py:73 | the stored quality, HIGH when none was set |
| `AdvancedProcessing.AdvancedAudioProcessor.SetQuality` | audio/processing/advanced_processor.py:172-185 | exactly the guild's quality is replaced |
| `AdvancedProcessing.AdvancedAudioProcessor.SetNoiseProfile` | audio/processing/advanced_processor.py:112-125 | exactly the guild's noise profile is replaced |
| `AdvancedProcessing.AdvancedAudioProcessor.GetOrCreateEqualizer` | audio/processing/advanced_processor.py:286-290 | an existing equalizer is returned; otherwise an empty one at the processor's rate is created and stored |
| `AdvancedProcessing.AdvancedAudioProcessor.ApplyEqPreset` | audio/processing/advanced_processor.py:187-216 | the guild's equalizer (new if missing) holds exactly the preset's bands under ids 1..n, each with its `BandFilter`, processed in the order 1..n; other guilds' equalizers, the noise profiles, quality settings and statistics are untouched |
| `ParametricEq.ParametricEqualizer.LoadBands` | audio/processing/advanced_processor.py:199-209 | after the reset and the additions the equalizer holds exactly the preset's bands under ids 1..n, the `BandFilter` of each, the id list and the processing order 1..n, in a fresh bank |
| `AdvancedProcessing.AdvancedAudioProcessor.ClearGuildData` | audio/processing/advanced_processor.py:263-280 | the guild's equalizer, noise profile, quality and statistics are all removed |
| `AdvancedProcessing.AdvancedAudioProcessor.ProcessAudioBuffer` | audio/processing/advanced_processor.py:57-98 | the buffer is denoised when the guild has a profile, then run through the equalizer's filters when it has bands; the statistics move on by one call; a guild without an equalizer gets a new empty one and no other guild's changes |
| `AdvancedProcessing.AdvancedAudioProcessor.PresetThenProcessAsWritten` | audio/processing/advanced_processor.py:57-98 | as written, after any preset the EQ stage hands back the (denoised) input unchanged |
| `AdvancedProcessing.AdvancedAudioProcessor.RecordCall` | audio/processing/advanced_processor.py:337-363 | the guild's statistics are bumped and the global count rises by one |
| `AdvancedProcessing.AdvancedAudioProcessor.GuildSummary` | audio/processing/advanced_processor.py:127-170 | the guild's quality, whether it has a noise profile, and its equalizer's band count |
| `ParametricEq.BandFilter` | audio/processing/parametric_eq.py:265-298 | a band under 0.1 dB of gain, or one whose design fails, gets the pass-through filter; otherwise the designed filter |
| `ParametricEq.DesignAsWritten` | audio/filters/design/filter_designer.py:207-213 | as written, the Butterworth design with band type "peak" fails for every band |
| `ParametricEq.BandFilterAsWritten` | audio/processing/parametric_eq.py:265-298 | as written, every band gets the pass-through filter |
| `ParametricEq.LoadedFiltersAsWritten` | audio/processing/advanced_processor.py:199-209 | as written, every filter of a loaded equalizer is the pass-through |
| `ParametricEq.FlatBandIsFir` | audio/processing/parametric_eq.py:300-311 | a flat band's filter is FIR (pass-through) |
| `ParametricEq.ParametricEqualizer.constructor` | audio/processing/parametric_eq.py:33-53 | a new equalizer has no bands, an empty bank and ids starting at 1 |
| `ParametricEq.ParametricEqualizer.BandCount` | audio/processing/parametric_eq.py:238-240 | the count is the number of registered bands |
| `ParametricEq.ParametricEqualizer.AddBand` | audio/processing/parametric_eq.py:55-84 | the band gets the counter's id, which was unused; the counter moves on; band, filter and bank entry are added at the end of the order |
| `ParametricEq.ParametricEqualizer.UpdateBand` | audio/processing/parametric_eq.py:86-114 | False exactly for an unknown id, with nothing changed; otherwise the band and filter are replaced and the band moves to the end of the processing order |
| `DigitalFilters.FilterBank.Readd` | audio/processing/parametric_eq.py:106-107 | removing and re-adding a filter replaces it and moves it to the end of the processing order |
| `ParametricEq.ParametricEqualizer.RemoveBand` | audio/processing/parametric_eq.py:116-136 | found exactly for a known id; the band, its filter and its bank entry are gone; the counter is kept |
| `ParametricEq.ParametricEqualizer.Reset` | audio/processing/parametric_eq.py:224-236 | no bands, a new empty bank, and ids start again at 1 |
| `ParametricEq.ParametricEqualizer.AddBands` | audio/processing/advanced_processor.py:206-209 | preset bands are added in order under consecutive ids from the counter on: each id gets its band and its `BandFilter`, and the ids are appended to the id list and to the processing order |
| `ParametricEq.ParametricEqualizer.AddNext` | audio/processing/advanced_processor.py:206-209 | one turn of the band loop: band `i` joins under the next id with its filter, at the end of the id list and the processing order |
| `ParametricEq.ParametricEqualizer.CountMatchesIds` | audio/processing/parametric_eq.py:238-244 | the band count equals the length of the id list |
| `ParametricEq.ParametricEqualizer.Process` | audio/processing/parametric_eq.py:138-165 | without bands the input is returned unchanged; otherwise it runs through the bank's filters in order |
| `ParametricEq.ParametricEqualizer.GetBandIds` | audio/processing/parametric_eq.py:242-244 | the ids are strictly increasing and are exactly the registered bands |
| `ParametricEq.ParametricEqualizer.GetBand` | audio/processing/parametric_eq.py:246-248 | the band is returned exactly when the id is registered |
| `ParametricEq.ExtendLookup` | audio/processing/advanced_processor.py:206-209 | the j-th preset band is stored under id start + j |
| `ParametricEq.ExtendSize` | audio/processing/advanced_processor.py:206-209 | storing n bands into an empty equalizer gives exactly n ids, all in [start, start+n) |
| `ParametricEq.PresetBands` | audio/processing/parametric_eq.py:362-417 | unknown names have no bands; every preset band is valid, has no bandwidth, and centres rise strictly |
| `ParametricEq.GetPresetCaseInsensitive` | audio/processing/parametric_eq.py:432-448 | lookup ignores case and an unknown name gives the flat (empty) preset |
| `ParametricEq.NamedPresetsNonEmpty` | audio/processing/parametric_eq.py:367-417 | every named preset except flat has at least three bands |
| `FilterDesign.ValidateSpecification` | audio/filters/design/filter_designer.py:97-152 | an accepted specification has a positive rate, an order in [1,20], every cutoff in (0, nyquist), two increasing cutoffs for band responses and one otherwise, and ripple or attenuation in range where the type uses them |
| `FilterDesign.ValidateSpecificationComplete` | audio/filters/design/filter_designer.py:97-152 | a specification meeting all of those rules is accepted (the converse direction) |
| `FilterDesign.DesignerAcceptsOnlyConstructible` | audio/filters/design/filter_designer.py:97-152 | whatever the designer accepts could have been built by the `FilterSpecification` constructor with the same fields |
| `FilterDesign.DesignFilter` | audio/filters/design/filter_designer.py:52-95 | an invalid specification is refused before any design runs; a valid one gets the design strategy's result |
| `FilterDesign.HitRate` | audio/filters/design/filter_designer.py:415-425 | the hit rate lies in [0,100], is 0 with no lookups, is hits/(hits+misses)·100 otherwise, and 100 with hits only |
| `FilterDesign.FilterDesignService.constructor` | audio/filters/design/filter_designer.py:349-361 | a new service has an empty cache and zero counters |
| `FilterDesign.FilterDesignService.GetOrCreateFilter` | audio/filters/design/filter_designer.py:363-387 | a cached specification is a hit returning the stored filter; otherwise a miss is counted, the filter designed, and cached only on success |
| `FilterDesign.FilterDesignService.ClearCache` | audio/filters/design/filter_designer.py:404-413 | the cache is emptied and both counters zeroed |
| `FilterDesign.FilterDesignService.GetCacheStats` | audio/filters/design/filter_designer.py:415-425 | the statistics report the cache size, the hits, the misses and the hit rate |
| `FilterDesign.RepeatedLookupHits` | audio/filters/design/filter_designer.py:363-387 | a second lookup of a specification whose first lookup succeeded returns the same filter |
| `DigitalFilters.AllPassIsFir` | audio/processing/parametric_eq.py:300-311 | the pass-through filter is FIR |
| `DigitalFilters.FirIffUnitDenominator` | audio/filters/digital_filter.py:36-38 | a filter is FIR exactly when its denominator is the single coefficient 1 |
| `DigitalFilters.Apply` | audio/filters/digital_filter.py:48-85 | empty input is returned as it is; anything else goes through the filter |
| `DigitalFilters.SeriesAppend` | audio/filters/digital_filter.py:303-311 | running the series over two order lists one after the other equals running it over their concatenation |
| `DigitalFilters.SeriesOfEmpty` | audio/filters/digital_filter.py:303-311 | empty input passes through any cascade as empty |
| `DigitalFilters.AllPassCascadeIsIdentity` | audio/filters/digital_filter.py:303-311 | a cascade of pass-through filters leaves the signal unchanged |
| `DigitalFilters.RemoveFirst` | audio/filters/digital_filter.py:257-258 | `list.remove` drops exactly one occurrence when present and otherwise nothing; the other elements stay |
| `DigitalFilters.RemoveFirstNoDuplicates` | audio/filters/digital_filter.py:257-258 | in a duplicate-free order list the removed id leaves no copy behind |
| `DigitalFilters.FilterBank.constructor` | audio/filters/digital_filter.py:225-230 | a new bank has no filters and an empty order |
| `DigitalFilters.FilterBank.AddFilter` | audio/filters/digital_filter.py:232-244 | the filter is stored; a known id keeps its place in the order, a new id goes to the end |
| `DigitalFilters.FilterBank.RemoveFilter` | audio/filters/digital_filter.py:246-262 | True exactly for a known id, which leaves both the map and the order |
| `DigitalFilters.FilterBank.Count` | audio/filters/digital_filter.py:295-297 | the count is the number of stored filters |
| `DigitalFilters.FilterBank.Process` | audio/filters/digital_filter.py:264-287 | an empty bank returns its input; otherwise the filters run in series in their order |
| `StreamService.AnyInMeansSome` | services/stream_service.py:521-575 | `any(k in s for k in keywords)` holds exactly when some keyword occurs in the text |
| `StreamService.RecoverableIff` | services/stream_service.py:521-575 | an error is unrecoverable exactly when its lowercased text has no recoverable keyword and has a fatal one |
| `StreamService.RecoverableKeywordWins` | services/stream_service.py:521-575 | one recoverable keyword anywhere in the message makes it recoverable |
| `StreamService.RecoverableIgnoresCase` | services/stream_service.py:521-575 | the classification ignores letter case |
| `StreamService.RetryDelay` | services/stream_service.py:586-613 | the delay is 5, 10, 20 s for retries 0..2 and 20 s beyond the list |
| `StreamService.RecoverySchedule` | services/stream_service.py:577-698 | at most three attempts minus those already made, each waiting its scheduled delay; a recovery happens on an attempt numbered at most 3 |
| `StreamService.GiveUpAfterThreeTransientFailures` | services/stream_service.py:577-698 | three transient failures in a row give up after waiting 5, 10 and 20 s |
| `StreamService.VoiceConnectFirstSuccess` | services/stream_service.py:466-519 | the connection succeeds exactly when some attempt below the limit connects, and then with the first such attempt's client |
| `StreamService.VoiceConnectEdges` | services/stream_service.py:466-519 | a first attempt that connects costs no sleep; with no attempts allowed the call fails with no error to report |
| `StreamService.ConnectToVoiceWithRetry` | services/stream_service.py:466-519 | the attempt loop computes the `VoiceConnect` result and sleeps, and succeeds exactly when some attempt connects |
| `StreamService.ClearedStopsStreaming` | services/stream_service.py:349-364 | after clearing the guild no longer streams, stays active only through its voice client or metadata listener, and keeps its stored stream response |
| `StreamService.StartThenClear` | services/stream_service.py:331-364 | a started stream streams, and clearing it removes its URL |
| `StreamService.Stamped` | services/stream_service.py:742-762 | stamping the looked-up guilds keeps the set of guilds |
| `StreamService.ActiveEntries` | services/stream_service.py:742-762 | an entry is collected for exactly the looked-up guilds with a truthy stream URL |
| `StreamService.StampedAll` | services/stream_service.py:742-762 | looking up every guild stamps each of them with the lookup time |
| `StreamService.StreamService.constructor` | services/stream_service.py:30-40 | the service uses the given state manager |
| `StreamService.StreamService.UpdateStreamState` | services/stream_service.py:331-347 | the guild's state (created if missing) records the URL, channel and start time and is streaming |
| `StreamService.StreamService.ClearStreamState` | services/stream_service.py:349-364 | the guild's state (created if missing) is cleared and no longer streams |
| `StreamService.StreamService.StreamEntry` | services/stream_service.py:742-762 | looking a guild up stamps it; a guild with a truthy stream URL yields its entry |
| `StreamService.StreamService.GetActiveStreams` | services/stream_service.py:742-762 | exactly the guilds with a truthy stream URL are returned, and every guild is stamped by its lookup |
| `Favorites.GuildRows` | services/favorites_service.py:242-275 | a guild's rows are exactly the table rows of that guild, in table order |
| `Favorites.MaxOfDense` | services/favorites_service.py:107-112 | in a guild numbered b, b+1, … the largest number is the last one |
| `Favorites.NextNumberIsCountPlusOne` | services/favorites_service.py:107-112 | with numbers 1..n in use, MAX(favorite_number)+1 gives n+1 |
| `Favorites.Without` | services/favorites_service.py:175-178 | deleting never adds rows |
| `Favorites.WithoutAbsent` | services/favorites_service.py:175-178 | deleting a row that is not there changes nothing |
| `Favorites.Renumber` | services/favorites_service.py:180-188 | renumbering keeps the row count and decrements exactly the guild's numbers above n |
| `Favorites.GuildRowsWithout` | services/favorites_service.py:175-178 | the deletion seen from one guild is the deletion applied to that guild's rows |
| `Favorites.GuildRowsRenumber` | services/favorites_service.py:180-188 | the renumbering seen from one guild is the renumbering applied to that guild's rows |
| `Favorites.RemoveFromDense` | services/favorites_service.py:144-207 | deleting number n and closing the gap keeps the rows before n and moves the ones after n down by one |
| `Favorites.RemoveKeepsDense` | services/favorites_service.py:144-207 | after a removal the guild is numbered densely from the same base again |
| `Favorites.OtherGuildUntouched` | services/favorites_service.py:175-188 | rows of other guilds are untouched by a deletion and renumbering in guild g |
| `Favorites.FindByNumber` | services/favorites_service.py:209-240 | a found favorite is in the list with that number; none found means no row has it |
| `Favorites.FindInDense` | services/favorites_service.py:209-240 | in a densely numbered guild, number n is found, at position n-b, exactly when it is within range |
| `Favorites.StationName` | services/favorites_service.py:97-103 | the given name is kept unless empty; with no stream information the name is "Unknown Station" |
| `Favorites.MatchingExact` | services/favorites_service.py:294-322 | the search result holds exactly the favorites whose lowercased name or URL contains the lowercased query |
| `Favorites.MatchingIgnoresQueryCase` | services/favorites_service.py:294-322 | searching for the lowercased query gives the same result |
| `Favorites.FavoritesService.constructor` | services/favorites_service.py:22-63 | a new service has an empty table |
| `Favorites.FavoritesService.AllFavorites` | services/favorites_service.py:242-275 | the listing holds exactly the guild's favorites, the i-th one numbered i+1 |
| `Favorites.FavoritesService.FavoriteByNumber` | services/favorites_service.py:209-240 | a favorite is found exactly for numbers 1..count, and it is the one at that place in the listing |
| `Favorites.FavoritesService.AddFavorite` | services/favorites_service.py:65-142 | a URL rejected by the `validators` verdict (or, without that package, by the http/https prefix test) or an unreachable stream fails with nothing stored; otherwise one row is appended, numbered the guild's count plus one |
| `Favorites.FavoritesService.RemoveFavorite` | services/favorites_service.py:144-207 | an existing number is deleted with its name reported and later numbers closed up; otherwise not found and nothing changes; other guilds untouched |
| `Favorites.FavoritesService.SearchFavorites` | services/favorites_service.py:294-322 | the result is the guild's matching favorites, in listing order |
| `Favorites.CheckStreams` | services/favorites_service.py:346-360 | every favorite is counted valid or listed invalid, and the invalid list holds exactly those whose stream fails |
| `Favorites.FavoritesService.ValidateAllFavorites` | services/favorites_service.py:324-385 | the total is the guild's count, valid plus invalid adds up to it, and the invalid list holds exactly the unreachable favorites |
| `Favorites.FavoritesService.ImportFavorites` | services/favorites_service.py:387-452 | imported plus failed is the number of items; the rows appended are exactly `ImportedRows`, one per accepted item in item order, numbered on from the guild's count; other guilds are untouched |
| `Favorites.ImportedRows` | services/favorites_service.py:407-427 | the rows an import appends: one per accepted item, in item order, all of the guild, numbered `start`, `start + 1`, ... without gaps |
| `Favorites.ImportedRowsStep` | services/favorites_service.py:407-427 | one more item appends its row, numbered after those before it, exactly when it is accepted |
| `Favorites.AcceptedEntriesStep` | services/favorites_service.py:407-427 | one more item adds its position to the accepted ones exactly when it is accepted |
| `Favorites.ImportedRowsCount` | services/favorites_service.py:387-452 | an import appends exactly as many rows as there are accepted items |
| `Favorites.FavoritesService.ImportEntry` | services/favorites_service.py:407-427 | an item is imported exactly when it has a URL that passes the URL check and whose stream answers; then one row numbered after the guild's count is appended, otherwise the table is unchanged |
| `Favorites.FavoritesService.ImportNext` | services/favorites_service.py:407-427 | item `i` appends exactly the row `ImportedRows` gives it after the first `i` items, and the imported count grows exactly when the item is accepted |
| `Favorites.ImportedUpToNext` | services/favorites_service.py:407-427 | once item `i` has gone through `add_favorite`, the table holds the rows of the first `i + 1` items and the counts still add up |
| `Favorites.ImportedNumber` | services/favorites_service.py:407-427 | midway through an import the guild's next number is the one after the rows imported so far |
| `Favorites.GuildRowsAppendOwn` | services/favorites_service.py:407-427 | appending rows of one guild adds them to that guild's listing and to no other |
| `Favorites.GuildRowsOwn` | services/favorites_service.py:407-427 | rows that all belong to one guild are that guild's whole listing and no other guild's |
| `StateManagement.NewState` | core/state_manager.py:26-71 | a new guild state carries the guild id and the given custom data, has no stream or voice client, both flags false, and is stamped now |
| `StateManagement.StreamingImpliesActive` | core/state_manager.py:73-82 | a streaming guild is always active |
| `StateManagement.NewStateIsIdle` | core/state_manager.py:26-82 | a freshly created state is not active |
| `StateManagement.ApplyUpdate` | core/state_manager.py:192-208 | a single update never touches the timestamp |
| `StateManagement.SetKnownField` | core/state_manager.py:192-208 | a named attribute (other than merged custom data) takes the new value and no other attribute changes |
| `StateManagement.MergeCustomData` | core/state_manager.py:197-202 | merging custom data keeps the old keys, adds the new ones, and lets the new values win |
| `StateManagement.ReplaceCustomData` | core/state_manager.py:197-208 | without merging, custom data is replaced outright |
| `StateManagement.UnknownUpdatesIgnored` | core/state_manager.py:192-210 | updates naming no attribute change nothing |
| `StateManagement.StaleGuilds` | core/state_manager.py:376-409 | a guild is stale exactly when it is inactive and was last updated before the cutoff |
| `StateManagement.StateManager.constructor` | core/state_manager.py:132-140 | a new manager holds no states and no locks |
| `StateManagement.StateManager.GetGuildState` | core/state_manager.py:142-164 | a missing state is None unless creation is asked for, then a new state is stored; an existing state is stamped now; the guild gets a lock |
| `StateManagement.StateManager.UpdateGuildState` | core/state_manager.py:166-220 | corrected (see Findings): the state (created if missing) takes every update in order and is stamped now |
| `StateManagement.StateManager.UpdateGuildStateAsWritten` | core/state_manager.py:166-220 | as written, the call never returns and no state changes |
| `StateManagement.AcquireLock` | core/state_manager.py:461-466 | a lock already held cannot be taken again (the caller waits for ever); otherwise it joins the held locks |
| `StateManagement.NestedAcquireBlocks` | core/state_manager.py:153-183 | the guild's lock is free to the outer `with` of `update_guild_state`, and the inner one in `get_guild_state` then waits |
| `StateManagement.ApplyEach` | core/state_manager.py:193-211 | the loop over the updates ends in the state `ApplyUpdates` describes |
| `StateManagement.StateManager.ClearGuildState` | core/state_manager.py:254-286 | False exactly without a state, with nothing changed; otherwise a fresh state replaces it, keeping custom data only when asked |
| `StateManagement.StateManager.RemoveGuildState` | core/state_manager.py:288-313 | True exactly when the guild had a state; the state and its lock are gone |
| `StateManagement.StateManager.GetActiveGuilds` | core/state_manager.py:315-329 | exactly the guilds whose state is active |
| `StateManagement.StateManager.GetStreamingGuilds` | core/state_manager.py:331-345 | exactly the guilds whose state is streaming, all of which are active |
| `StateManagement.StateManager.CleanupStaleState` | core/state_manager.py:376-409 | exactly the stale guilds lose state and lock, the count is their number, and active guilds are never removed |
| `EventBus.Rank` | core/event_bus.py:19-24 | CRITICAL is exactly the rank-0 priority |
| `EventBus.CanHandleIff` | core/event_bus.py:158-180 | a handler takes an event exactly when it subscribes to its type or to "*", the event targets no one or it, it is not excluded, it is async if the event is async-only, and its filter (if any) accepts |
| `EventBus.WildcardSeesEverything` | core/event_bus.py:158-180 | a filterless async wildcard subscriber sees every untargeted, unexcluded event |
| `EventBus.Ids` | core/event_bus.py:442-444 | the id list has one id per registration, in order |
| `EventBus.FirstIndex` | core/event_bus.py:204-245 | the position of a registration with the id, or -1 exactly when the id is not registered |
| `EventBus.UpsertSpec` | core/event_bus.py:204-245 | after subscribing, ids stay distinct, the handler is registered, every other registration is kept, and the count grows only for a new id |
| `EventBus.RemoveIdSpec` | core/event_bus.py:247-261 | after unsubscribing the id is gone, every other registration stays, and an unknown id changes nothing |
| `EventBus.Applicable` | core/event_bus.py:465-473 | the applicable handlers are a selection of the registered ones |
| `EventBus.ApplicableMembers` | core/event_bus.py:465-473 | a handler is applicable exactly when it is registered and can take the event |
| `EventBus.OfPriority` | core/event_bus.py:291-292 | one priority class holds only registered handlers of that priority |
| `EventBus.PriorityOrderSorted` | core/event_bus.py:291-292 | the ordering sorts handlers by ascending priority value |
| `EventBus.PriorityOrderPermutation` | core/event_bus.py:291-292 | the ordering is a permutation of the applicable handlers |
| `EventBus.PriorityOrderStable` | core/event_bus.py:291-292 | the sort is stable: each priority class keeps its registration order |
| `EventBus.Dispatch` | core/event_bus.py:294-313 | at most every handler is invoked, handled plus errors equals the invocations, and a stopped event reaches no handler |
| `EventBus.DispatchStopsAtFirstStop` | core/event_bus.py:297-299 | dispatch continues past every handler that does not stop the event and ends right after the first one that does |
| `EventBus.DispatchPassesBeforeLast` | core/event_bus.py:297-313 | every invoked handler but the last let the event through |
| `EventBus.DispatchSkipsAfterStop` | core/event_bus.py:297-313 | if a handler was skipped, the last invoked one stopped the event |
| `EventBus.DispatchPrefix` | core/event_bus.py:294-313 | the invoked handlers are a prefix of the ordered list |
| `EventBus.DispatchWithoutStopReachesAll` | core/event_bus.py:294-313 | with no stopping handler every handler is invoked |
| `EventBus.RunMiddleware` | core/event_bus.py:278-287 | the middleware loop yields the `ApplyMiddleware` result: the event passed through each middleware in order, or none once one drops it |
| `EventBus.DispatchHandlers` | core/event_bus.py:294-313 | the handler loop counts exactly the handled and failed handlers of `Dispatch` |
| `EventBus.Bus.constructor` | core/event_bus.py:190-202 | a new bus has no handlers, history or middleware, zero counters and the given history cap |
| `EventBus.Bus.Subscribe` | core/event_bus.py:204-245 | the handler is registered, replacing one with the same id in place, and every other registration is kept |
| `EventBus.Bus.Unsubscribe` | core/event_bus.py:247-261 | True exactly when the id was registered; the id is gone and every other registration stays |
| `EventBus.Bus.AddMiddleware` | core/event_bus.py:414-422 | the middleware is appended and nothing else changes |
| `EventBus.Bus.AddToHistory` | core/event_bus.py:495-501 | with a positive cap the history keeps the newest entries up to the cap; with a cap of 0 it grows without bound |
| `EventBus.Bus.ApplicableHandlers` | core/event_bus.py:465-473 | the registered handlers that can take the event, in registration order |
| `EventBus.Bus.Publish` | core/event_bus.py:263-318 | the event is counted and recorded (the history keeps the newest `maxHistory` events, and all of them for a limit of 0, since `history[-0:]` is the whole list); a middleware that drops it stops everything; otherwise the applicable handlers run in priority order and the counters grow by what `Dispatch` reports |
| `EventBus.Bus.EventHistory` | core/event_bus.py:446-458 | a suffix of the history: all of it for no limit or a limit of 0, the newest `limit` events for a positive limit, and all but the oldest `-limit` for a negative one |
| `ConfigManagement.DeepMerge` | core/config_manager.py:427-437 | the merged configuration has exactly the keys of the base and of the override |
| `ConfigManagement.DeepMergeEntries` | core/config_manager.py:429-435 | base-only keys keep their value, the override replaces every value unless both sides are dictionaries, and two dictionaries are merged recursively |
| `ConfigManagement.DeepMergeEmpty` | core/config_manager.py:427-437 | merging with an empty dictionary on either side gives the other side back |
| `ConfigManagement.DeepMergeIdempotent` | core/config_manager.py:427-437 | merging a configuration with itself gives it back, at every depth |
| `ConfigManagement.DeepMergeOverrideWinsOnLeaves` | core/config_manager.py:427-437 | any non-dictionary value the override holds at a path is what the merge holds there |
| `ConfigManagement.Split` | core/config_manager.py:266 | splitting a key on '.' gives at least one segment and no segment contains the separator |
| `ConfigManagement.SplitJoin` | core/config_manager.py:266 | joining the segments with the separator gives back the key |
| `ConfigManagement.ResolveAppend` | core/config_manager.py:266-275 | walking a path in two parts is walking the whole path |
| `ConfigManagement.GetConfigValue` | core/config_manager.py:252-279 | a dotted key whose walk fails (missing key, or a segment under a non-dictionary) gives the default |
| `ConfigManagement.UndottedKey` | core/config_manager.py:252-279 | a key without dots is a plain lookup that falls back to the default |
| `ConfigManagement.DottedLookup` | core/config_manager.py:252-279 | `a.b` reaches the value stored under `b` inside the dictionary under `a` |
| `ConfigManagement.ParseInt` | core/config_manager.py:374-378 | blank text is not an integer |
| `ConfigManagement.ParseIntRoundTrip` | core/config_manager.py:374-378 | reading back a printed integer gives the integer |
| `ConfigManagement.Coerce` | core/config_manager.py:374-382 | integer keys take the parsed integer or nothing, boolean keys are true exactly for the true words in any case, every other key takes the text as is |
| `ConfigManagement.ApplyEnvTable` | core/config_manager.py:370-386 | the loop over a mapping table computes the specified fold of the coerced variables |
| `ConfigManagement.ApplyEnvironmentVariables` | core/config_manager.py:352-386 | applying the environment is that fold over the eleven-entry mapping table |
| `ConfigManagement.UnmappedKeysUntouched` | core/config_manager.py:370-386 | keys that no table entry writes keep their presence and value |
| `ConfigManagement.MappedKeyValue` | core/config_manager.py:370-386 | a mapped key takes its set, well-formed variable's coerced value, and is left alone when the variable is unset or not an integer |
| `ConfigManagement.EnvMappingsDistinct` | core/config_manager.py:356-368 | the table has one entry per configuration key |
| `ConfigManagement.BoolVariable` | core/config_manager.py:379-380 | a set TLS_VERIFY becomes True exactly for true, 1, yes or on in any letter case |
| `ConfigManagement.BadIntegerIgnored` | core/config_manager.py:375-378 | an unparsable CLUSTER_ID leaves `cluster_id` as it was |
| `ConfigManagement.StripQuotes` | core/config_manager.py:412 | the result is no longer and neither starts nor ends with a quote |
| `ConfigManagement.ParseEnvLine` | core/config_manager.py:408-412 | only a stripped line that is not blank, not a comment and holds '=' yields a pair |
| `ConfigManagement.SplitAtEquals` | core/config_manager.py:410 | the key holds no '=' and key, '=' and value give back the line |
| `ConfigManagement.EnvLineRoundTrip` | core/config_manager.py:407-412 | a `key=value` line built from a clean key and value reads back as that pair |
| `ConfigManagement.EnvCommentSkipped` | core/config_manager.py:409 | blank lines and comments yield nothing |
| `ConfigManagement.EnvFileKey` | core/config_manager.py:415-420 | a `.env` key maps only to bot_token, log_level or log_file_path |
| `ConfigManagement.EnvLineUpdate` | core/config_manager.py:407-420 | one line changes no key other than the three mapped ones |
| `ConfigManagement.LoadFromEnvLines` | core/config_manager.py:401-425 | the line loop computes the specified fold of the line updates |
| `ConfigManagement.EnvLinesTouchOnlyMappedKeys` | core/config_manager.py:401-425 | a whole `.env` file changes no key other than the three mapped ones |
| `ConfigManagement.DetectEnvironment` | core/config_manager.py:304-324 | a recognised SOUNDBRIDGE_ENVIRONMENT name (any case) wins, staging and testing come only from it, and otherwise production is chosen exactly when there is no .git or DEBUG but PRODUCTION or HEROKU is set |
| `ConfigManagement.DevelopmentBeforeProduction` | core/config_manager.py:313-322 | with no explicit environment, a non-empty DEBUG means development |
| `ConfigManagement.ValidateFallback` | core/config_manager.py:178-188 | an accepted configuration has a truthy token, a known log level in any case and a default volume in [0, 2] |
| `ConfigManagement.CreateConfigObject` | core/config_manager.py:439-480 | the object is built exactly when the log level is text and the token is truthy |
| `ConfigManagement.LoadedObjectSkipsRangeChecks` | core/config_manager.py:439-480 | a default volume of 5 is loaded although the fallback class rejects it |
| `ConfigManagement.FallbackStricterThanLoad` | core/config_manager.py:178-188 | whatever the fallback class accepts, the load path accepts too |
| `ConfigManagement.ValidateConfiguration` | core/config_manager.py:281-302 | without pydantic, a configuration is valid exactly when it holds `bot_token` |
| `ConfigManagement.EnvironmentVariableWins` | core/config_manager.py:207-239 | a set BOT_TOKEN is the loaded token whatever the files say |
| `ConfigManagement.LoadConfiguration` | core/config_manager.py:207-239 | the load succeeds exactly when the merged data of every source has a string log level and a truthy token, and then returns that data; otherwise NotAString or MissingToken, in that order |
| `MonitoringTypes.HealthyNeedsNoAttention` | monitoring/interfaces.py:59-65 | no check is both healthy and in need of attention, and an unknown status is neither |
| `Maintenance.AverageDuration` | monitoring/maintenance_manager.py:485-505 | an empty history averages zero |
| `Maintenance.UnmeasuredHistoryAveragesZero` | monitoring/maintenance_manager.py:485-505 | entries without an actual start time contribute nothing, so a history of such entries averages zero |
| `Maintenance.MaintenanceManager.constructor` | monitoring/maintenance_manager.py:23-40 | a new manager has an empty table, no active maintenance and no history, with or without a database |
| `Maintenance.MaintenanceManager.Lookup` | monitoring/maintenance_manager.py:331-360 | with a database, a window is found exactly when its row exists, with the row's status and times and no actual start; without one, only the active window with that id is found |
| `Maintenance.MaintenanceManager.NothingFoundWithoutDatabase` | monitoring/maintenance_manager.py:331-360 | without a database no window is ever found |
| `Maintenance.MaintenanceManager.StartMaintenance` | monitoring/maintenance_manager.py:113-168 | succeeds exactly for a found, scheduled window, which becomes the active one with its actual start and an active row; otherwise nothing changes |
| `Maintenance.MaintenanceManager.EndMaintenance` | monitoring/maintenance_manager.py:170-232 | succeeds exactly for a found, active window, which is completed into the capped history, marked completed in the table and cleared if it was the active one; otherwise nothing changes |
| `Maintenance.MaintenanceManager.CancelMaintenance` | monitoring/maintenance_manager.py:277-329 | succeeds exactly for a found window that is scheduled or active, marking it cancelled and clearing it if active; otherwise nothing changes |
| `Maintenance.MaintenanceManager.ScheduleMaintenance` | monitoring/maintenance_manager.py:42-111 | with a database, inserts a row under the next row id, active and started at once when its start is not in the future; without a database returns id 1 and changes nothing |
| `Maintenance.MaintenanceManager.AddToHistory` | monitoring/maintenance_manager.py:473-479 | the window is appended as the newest entry, keeping the newest 100 |
| `Maintenance.MaintenanceManager.MaintenanceHistory` | monitoring/maintenance_manager.py:481-483 | the newest `limit` entries, the whole history for 0, and Python's negative-slice result for a negative limit |
| `Maintenance.RowWindow` | monitoring/maintenance_manager.py:260-267 | a row read back keeps its id, times, message and status and has no actual start, end or completion |
| `Maintenance.InsertByStart` | monitoring/maintenance_manager.py:255 | the listing gains exactly the one window |
| `Maintenance.InsertByStartOrdered` | monitoring/maintenance_manager.py:255 | inserting into a start-ordered listing keeps it start-ordered |
| `Maintenance.WindowsStep` | monitoring/maintenance_manager.py:259-270 | after one more insert the listing holds exactly the windows of the rows read so far |
| `Maintenance.OrderedWindows` | monitoring/maintenance_manager.py:254-270 | every selected row exactly once, read back as a window, ordered by start time |
| `Maintenance.MaintenanceManager.ScheduledIds` | monitoring/maintenance_manager.py:254-256 | exactly the ids of rows still scheduled, none without a database |
| `Maintenance.MaintenanceManager.ScheduledMaintenances` | monitoring/maintenance_manager.py:243-275 | every scheduled row once, as a window, ordered by start time; nothing without a database |
| `Maintenance.MaintenanceManager.MaintenanceStats` | monitoring/maintenance_manager.py:485-505 | counts the history entries and reports whether, and which, window is active |
| `Maintenance.MaintenanceManager.AverageDurationAlwaysZero` | monitoring/maintenance_manager.py:485-505 | history entries never carry an actual start time, so the reported average duration is always zero |
| `Maintenance.DurationParts` | monitoring/maintenance_manager.py:449-471 | the unit is chosen by magnitude and the parts shown fall short of the duration by less than the smallest unit shown |
| `Maintenance.FormatDurationUnit` | monitoring/maintenance_manager.py:449-471 | the text ends in the unit the magnitude selects |
| `Metrics.ConnectionQualityOf` | monitoring/metrics_collector.py:352-371 | offline exactly when disconnected, connected-not-playing exactly when connected and idle, unknown exactly without a response time, and otherwise excellent, good, fair or poor by the 500, 1000 and 2000 ms bounds |
| `Metrics.ResponsePoints` | monitoring/metrics_collector.py:383-392 | a measured response earns between 0.1 and 0.4 points |
| `Metrics.HealthScore` | monitoring/metrics_collector.py:373-394 | the score is always within [0, 1], and zero for a stream that is neither connected, playing nor measured |
| `Metrics.ResponsePointsMonotone` | monitoring/metrics_collector.py:383-392 | a faster response never earns fewer points |
| `Metrics.HealthScoreMonotone` | monitoring/metrics_collector.py:373-394 | a lower response time never lowers the health score |
| `Metrics.ScoreFollowsQuality` | monitoring/metrics_collector.py:352-394 | a connected, playing stream scores 0.6 plus the points of the quality tier of its response time |
| `Metrics.ThresholdEvents` | monitoring/metrics_collector.py:396-417 | at most two events, each for a reading above its threshold, critical from 90 % CPU or 95 % memory on and a warning below that |
| `Metrics.ThresholdEventsIff` | monitoring/metrics_collector.py:396-417 | an event is raised for a metric exactly when its reading exceeds the configured threshold (80 % CPU, 85 % memory by default) |
| `Metrics.StreamMetricsOf` | monitoring/metrics_collector.py:110-199 | a guild without state has the empty metrics; otherwise the voice flags are reported, and a response time and quality come only from a probe of a non-empty stream URL |
| `Metrics.MetricsCollector.constructor` | monitoring/metrics_collector.py:29-45 | a new collector has no cached snapshot and records its start time |
| `Metrics.MetricsCollector.CollectSystemMetrics` | monitoring/metrics_collector.py:47-108 | within the 5-second cache window the cached snapshot is returned with no events and no change; otherwise a new snapshot with the uptime is cached and checked against the thresholds |
| `Metrics.CachedWithinWindow` | monitoring/metrics_collector.py:55-60 | two collections less than 5 s apart, the first refreshing the cache, return the same snapshot |
| `Health.StateConsistencyIssues` | monitoring/health_monitor.py:302-347 | a guild Discord does not know is one issue; otherwise there are none exactly when a stream URL goes with a voice connection that is connected, and no URL with no connection |
| `Health.StreamIssues` | monitoring/health_monitor.py:349-377 | at most three issues: a slow response exactly above 3000 ms, a poor connection exactly for poor quality, and a set URL without a connection |
| `Health.CleanupIssues` | monitoring/health_monitor.py:379-394 | an issue exactly when a cleanup has been running for more than five minutes |
| `Health.VoiceIssues` | monitoring/health_monitor.py:396-418 | an issue exactly when the guild has a voice client that is not connected |
| `Health.AggregateGuildStatus` | monitoring/health_monitor.py:45-153 | the status reached by the sequential updates equals the case-by-case rule `GuildStatus`: no state is offline; state or cleanup issues, or two or more stream issues, are critical; one stream issue or any voice issue is a warning |
| `Health.GuildStatusMonotone` | monitoring/health_monitor.py:45-153 | more issues of any kind never make a guild's status less severe |
| `Health.VoiceIssuesOnlyWarn` | monitoring/health_monitor.py:95-100 | a voice issue alone yields a warning |
| `Health.GuildCheck` | monitoring/health_monitor.py:45-153 | a guild without state is offline; otherwise healthy, warning or critical, critical when Discord does not know the guild or a cleanup is stuck |
| `Health.ResourceIssues` | monitoring/health_monitor.py:420-436 | elevated CPU and memory are reported exactly above ten points under their critical thresholds (80 and 85 by default) |
| `Health.CriticalIssues` | monitoring/health_monitor.py:438-454 | critical CPU and memory are reported exactly above their thresholds |
| `Health.RatioAboveHalf` | monitoring/health_monitor.py:456-470 | an inactive share above one half is twice the inactive count above the total |
| `Health.AggregateIssues` | monitoring/health_monitor.py:456-470 | an issue exactly when there are known guilds and more than half are inactive |
| `Health.CriticalImpliesElevated` | monitoring/health_monitor.py:420-454 | every critical reading is also reported as elevated |
| `Health.SystemCheck` | monitoring/health_monitor.py:155-237 | critical exactly when a critical reading exists, healthy exactly when there are no resource or inactivity issues |
| `Health.HealthMonitor.constructor` | monitoring/health_monitor.py:26-43 | a new monitor has empty guild and system histories |
| `Health.HealthMonitor.AddToGuildHistory` | monitoring/health_monitor.py:481-490 | the check is appended to the guild's history, keeping the last 100 |
| `Health.HealthMonitor.CheckGuildHealth` | monitoring/health_monitor.py:45-153 | returns `GuildCheck`; a guild without state records nothing, otherwise the guild's history becomes the last 100 of the old history plus the check, and no other guild's history changes |
| `Health.HealthMonitor.RecordGuildCheck` | monitoring/health_monitor.py:481-490 | the guild's history becomes the last 100 of the old history plus the check; other guilds' histories and the system history are unchanged |
| `Health.HealthMonitor.CheckSystemHealth` | monitoring/health_monitor.py:155-237 | returns `SystemCheck` and appends it to the capped system history |
| `Health.HealthMonitor.GuildHealthHistory` | monitoring/health_monitor.py:492-495 | the newest `limit` checks, all of them for a limit of 0, none for an unknown guild |
| `Health.HealthMonitor.SystemHealthHistory` | monitoring/health_monitor.py:497-499 | the newest `limit` system checks, all of them for a limit of 0 |
| `Alerts.AlertKeyIff` | monitoring/alert_manager.py:354-356 | two alerts share a throttle key exactly when they agree on guild, severity and title |
| `Alerts.Send` | monitoring/alert_manager.py:46-95 | a throttled alert is refused and changes nothing; a system-wide alert counts as sent without being recorded; a guild alert is sent and recorded exactly when Discord accepts it |
| `Alerts.RepeatWithinWindowThrottled` | monitoring/alert_manager.py:358-364 | after a guild alert is delivered, the same guild, severity and title is refused for the next five minutes, whatever the text |
| `Alerts.HealthSeverity` | monitoring/alert_manager.py:97-134 | healthy and unknown checks send nothing; critical, warning and offline map to critical, warning and information |
| `Alerts.HealthAlert` | monitoring/alert_manager.py:97-134 | an alert is built exactly for concerning statuses, for the guild, with the check's message and the mapped severity |
| `Alerts.TitleFrom` | monitoring/alert_manager.py:125 | every character of `str.title()` text is the one its position calls for: a letter upper case at the start of a word and lower case after a letter, anything else kept |
| `Alerts.Title` | monitoring/alert_manager.py:125 | a letter that starts a word is upper case, a letter after a letter lower case, and every other character is unchanged |
| `Alerts.RecoveryAlert` | monitoring/alert_manager.py:136-178 | information on success, a warning on a failed first or second attempt, critical from the third failed attempt on, always for the guild |
| `Alerts.HealthEventAlert` | monitoring/alert_manager.py:222-247 | a health event raises an alert exactly when it names a guild, a warning or critical status and at least one issue; critical maps to critical |
| `Alerts.RecoveryEventAlert` | monitoring/alert_manager.py:249-282 | a recovery event raises the recovery notification exactly when it names a guild and an issue, with attempt 1 and "Recovery completed" as defaults |
| `Alerts.AnnounceAll` | monitoring/alert_manager.py:180-220 | no more guilds are counted than were targeted |
| `Alerts.AnnouncementRepeatReachesNoOne` | monitoring/alert_manager.py:180-220 | repeating an announcement at once reaches no guild the first one reached |
| `Alerts.AlertManager.constructor` | monitoring/alert_manager.py:25-44 | a new manager has no alert history |
| `Alerts.AlertManager.SendAlert` | monitoring/alert_manager.py:46-95 | the result and the new throttle history are those of `Send` on the old history |
| `Alerts.AlertManager.SendMaintenanceAnnouncement` | monitoring/alert_manager.py:180-220 | announces to the given guilds, or to the active ones when none are given, counting at most one per target, with the history `AnnounceAll` gives |
| `Alerts.AlertManager.AlertStats` | monitoring/alert_manager.py:366-375 | the keys ever sent and the number of them still throttled at `now`, which never exceeds the former |
| `RateLimiting.MakeRule` | integrations/sl_bridge/security/rate_limiter.py:21-29 | a rule keeps its request count and period, and a missing burst becomes the request count |
| `RateLimiting.Refill` | integrations/sl_bridge/security/rate_limiter.py:52-55 | a refill keeps capacity and rate, stamps the time and never exceeds the capacity |
| `RateLimiting.Consume` | integrations/sl_bridge/security/rate_limiter.py:40-62 | after the refill, the request succeeds exactly when that many tokens are there, and only then are they taken |
| `RateLimiting.ConsumeKeepsBounds` | integrations/sl_bridge/security/rate_limiter.py:40-62 | with the clock not running backwards and a non-negative request, the tokens stay within [0, capacity] |
| `RateLimiting.TimeUntilAvailable` | integrations/sl_bridge/security/rate_limiter.py:64-78 | zero when enough tokens are there; otherwise undefined exactly for a zero rate (the division raises), and never negative for a non-negative rate |
| `RateLimiting.WaitIsEnough` | integrations/sl_bridge/security/rate_limiter.py:64-78 | waiting the reported time is exactly enough for a request that fits the capacity |
| `RateLimiting.NewBucket` | integrations/sl_bridge/security/rate_limiter.py:191-213 | a new key's bucket is full, with capacity the burst (or the request count when the burst is zero) and rate requests per period; a zero period has no bucket |
| `RateLimiting.ResetReachesLongerKeys` | integrations/sl_bridge/security/rate_limiter.py:234-240 | for every rule, the suffix test selects the key's own bucket and the bucket of every longer key ending in ":" + key |
| `RateLimiting.ResetAmong` | integrations/sl_bridge/security/rate_limiter.py:234-240 | resetting keeps the set of bucket names |
| `RateLimiting.ResetBuckets` | integrations/sl_bridge/security/rate_limiter.py:234-240 | the loop refills exactly the selected buckets and keeps the rest |
| `RateLimiting.RateLimiter.constructor` | integrations/sl_bridge/security/rate_limiter.py:89-109 | a new limiter holds the default rules, no buckets and a full global bucket of 1000 refilled at 100 per second |
| `RateLimiting.RateLimiter.CheckRateLimit` | integrations/sl_bridge/security/rate_limiter.py:140-189 | the global bucket is consumed first and a global refusal touches no key bucket; otherwise the key's bucket is consumed and the request passes exactly when it had the tokens or its rate is zero, reporting the remaining tokens and reset time or the wait |
| `RateLimiting.RateLimiter.ResetRateLimit` | integrations/sl_bridge/security/rate_limiter.py:215-248 | one rule's bucket of the key is refilled, or with no rule name every bucket whose name ends in ":key"; nothing else changes |
| `RateLimiting.RateLimiter.RateLimitStatus` | integrations/sl_bridge/security/rate_limiter.py:250-287 | an unknown key reports its rule's limits and changes nothing; a known one is refilled first and reports its capacity, truncated tokens and reset time, or the error entry when it refills at rate 0 |
| `RateLimiting.StatusFailsIffZeroRequests` | integrations/sl_bridge/security/rate_limiter.py:273-287 | a bucket's status fails exactly when its rule allows zero requests |
| `RateLimiting.RateLimiter.CleanupExpiredBuckets` | integrations/sl_bridge/security/rate_limiter.py:308-332 | exactly the buckets idle for more than an hour are dropped |
| `RateLimiting.RateLimiter.AddRule` | integrations/sl_bridge/security/rate_limiter.py:353-370 | the rule is added or replaced, buckets untouched |
| `RateLimiting.RateLimiter.RemoveRule` | integrations/sl_bridge/security/rate_limiter.py:372-398 | refused for "default" and unknown names; otherwise the rule and every bucket named "name:..." go |
| `RateLimiting.RateLimiter.Statistics` | integrations/sl_bridge/security/rate_limiter.py:334-351 | reports the bucket count, the global tokens truncated, the global capacity and the rule count |
| `RateLimiting.ZeroRequestRuleFailsOpen` | integrations/sl_bridge/security/rate_limiter.py:140-189 | a rule of zero requests and burst gets an empty zero-rate bucket whose refusal cannot compute a wait, so the request is let through |
| `Permissions.AllValues` | integrations/sl_bridge/security/permissions.py:17-44 | the set holds exactly the string values of the enum's members |
| `Permissions.ParentsAreExactlyThoseWithChildren` | integrations/sl_bridge/security/permissions.py:71-89 | the four hierarchy parents are exactly the permissions with implied children |
| `Permissions.ImpliedBy` | integrations/sl_bridge/security/permissions.py:151-154 | the hierarchy scan succeeds exactly when some held parent lists the required permission |
| `Permissions.CheckPermissionIff` | integrations/sl_bridge/security/permissions.py:134-164 | a permission passes exactly when it is held, implied by a held parent, or `admin_settings` is held (which then grants any string) |
| `Permissions.CheckPermissions` | integrations/sl_bridge/security/permissions.py:166-184 | a list passes exactly when every entry passes; an empty list always passes |
| `Permissions.GroupPermissions` | integrations/sl_bridge/security/permissions.py:186-201 | only the four known groups have permissions, all of them known values, and the admin group has every one |
| `Permissions.AdminGroupGrantsEverything` | integrations/sl_bridge/security/permissions.py:156-158 | holding the admin group's permissions grants any permission string |
| `Permissions.ValidatePermissions` | integrations/sl_bridge/security/permissions.py:203-218 | the result holds exactly the known values of the input, and is no longer |
| `Permissions.ValidatePermissionsIsFilter` | integrations/sl_bridge/security/permissions.py:203-218 | validation keeps input order: it is the input with the unknown values removed |
| `Permissions.ValidatePermissionsIdempotent` | integrations/sl_bridge/security/permissions.py:203-218 | validating twice is validating once |
| `Permissions.ImpliedValues` | integrations/sl_bridge/security/permissions.py:233-236 | exactly the children of the held parents |
| `Permissions.ExpandPermissions` | integrations/sl_bridge/security/permissions.py:220-242 | the expansion holds exactly the input and the children of every held parent, one level deep |
| `Permissions.CheckMatchesExpansion` | integrations/sl_bridge/security/permissions.py:134-164 | the check and the expansion agree: a permission passes exactly when it is in the expanded set or `admin_settings` is held |
| `Permissions.PermissionDescription` | integrations/sl_bridge/security/permissions.py:244-273 | a description exists exactly for the enum's values, and it is that permission's own description |
| `Permissions.AdminIsNoChild` | integrations/sl_bridge/security/permissions.py:220-242 | `admin_settings` is in the expansion only when held |
| `Permissions.GuildPermissionsFor` | integrations/sl_bridge/security/permissions.py:275-315 | the expanded permissions, an admin flag set exactly when `admin_settings` is held, and the stream, favorites and audio flags equal to `CheckPermission` of stream_control, favorites_write and audio_control (all set for an admin) |
| `Webhooks.UntilDelimiter` | integrations/external/webhook_manager.py:199-200 | the network location is the longest prefix free of '/', '?' and '#' |
| `Webhooks.ValidUrlHasShape` | integrations/external/webhook_manager.py:199-200 | an accepted URL has a scheme, "://" and a non-empty host |
| `Webhooks.ShapeIsValidUrl` | integrations/external/webhook_manager.py:199-200 | every URL of that shape is accepted |
| `Webhooks.ValidUrlIff` | integrations/external/webhook_manager.py:199-200 | a URL is accepted exactly when it has that shape |
| `Webhooks.GuildScoping` | integrations/external/webhook_manager.py:257-269 | an endpoint bound to a guild only sees that guild's events, and an unbound one sees every guild's events alike |
| `Webhooks.Matching` | integrations/external/webhook_manager.py:256-269 | exactly the registered endpoints that match the event, in registration order |
| `Webhooks.DeliveryIdInjective` | integrations/external/webhook_manager.py:274 | the deliveries of one event have distinct identifiers |
| `Webhooks.AddDeliveries` | integrations/external/webhook_manager.py:272-283 | recording adds one delivery key per matching endpoint and keeps the old keys |
| `Webhooks.AddDeliveriesRecords` | integrations/external/webhook_manager.py:272-283 | each matching endpoint has a fresh pending delivery recorded |
| `Webhooks.AddDeliveriesKeeps` | integrations/external/webhook_manager.py:272-283 | entries not keyed by a new delivery are kept as they were |
| `Webhooks.QueuedFor` | integrations/external/webhook_manager.py:283 | one queue entry per matching endpoint, in order, naming its delivery |
| `Webhooks.RetryDelay` | integrations/external/webhook_manager.py:456-468 | the delay is one of the configured delays, the last one repeating once the attempts run past the list |
| `Webhooks.RetryDelayMonotone` | integrations/external/webhook_manager.py:456-468 | a later attempt never waits less than an earlier one |
| `Webhooks.AfterAttempt` | integrations/external/webhook_manager.py:395-454 | one more attempt, stamped now: delivered exactly on a 2xx response, failed otherwise, with the response code recorded |
| `Webhooks.Settle` | integrations/external/webhook_manager.py:364-393 | a failure is retried after its delay while the attempts are below the endpoint's limit and expires otherwise; a delivery stays as it is |
| `Webhooks.WorkerStepOutcome` | integrations/external/webhook_manager.py:364-454 | after a worker step a delivery is delivered exactly on a 2xx, failed exactly when awaiting a retry, and expired otherwise |
| `Webhooks.RunFailingBound` | integrations/external/webhook_manager.py:364-468 | a delivery that keeps failing is attempted until it has made `max_retries` attempts (at least one), and then expires |
| `Webhooks.MapEventName` | integrations/external/webhook_manager.py:479-598 | an internal event name maps to the webhook type of the handler's family whose value it is, and to nothing else |
| `Webhooks.EveryTypeHasAHandler` | integrations/external/webhook_manager.py:479-598 | every webhook type is reachable from its family's handler |
| `Webhooks.EventTypeValues` | integrations/external/webhook_manager.py:290-323 | the event types are listed by value, in order |
| `Webhooks.WebhookManager.constructor` | integrations/external/webhook_manager.py:108-133 | corrected (see Findings): a new manager has no endpoints, deliveries, queue or workers and is not running |
| `Webhooks.ConstructionDiscrepancy` | integrations/external/webhook_manager.py:108-114 | as written the first of the five `get_service` lookups raises AttributeError, so no manager is built; with the registry's `get` every lookup is found |
| `Webhooks.WebhookManager.Initialize` | integrations/external/webhook_manager.py:135-162 | corrected (see Findings): the delivery workers are started and the manager runs; nothing else changes |
| `Webhooks.WebhookManager.Shutdown` | integrations/external/webhook_manager.py:164-185 | the manager stops; nothing else changes |
| `Webhooks.WebhookManager.RegisterWebhook` | integrations/external/webhook_manager.py:187-218 | corrected (see Findings): an endpoint is stored exactly when its URL has a scheme and a host, a re-registration keeping its place in the order |
| `Webhooks.WebhookManager.UnregisterWebhook` | integrations/external/webhook_manager.py:220-245 | corrected (see Findings): succeeds exactly for a registered endpoint, which leaves the table and the order |
| `Webhooks.WebhookManager.InitializeAsWritten` | integrations/external/webhook_manager.py:135-162 | as written: the workers are created but the call fails before the manager is marked running |
| `Webhooks.WebhookManager.RegisterWebhookAsWritten` | integrations/external/webhook_manager.py:187-218 | as written: an endpoint with a valid URL is stored and ordered, yet the result is always False |
| `Webhooks.WebhookManager.UnregisterWebhookAsWritten` | integrations/external/webhook_manager.py:220-245 | as written: the endpoint leaves the table and the order, yet the result is always False |
| `Webhooks.RegistrationDiscrepancy` | integrations/external/webhook_manager.py:135-245 | for any endpoint with a valid URL, the intended manager runs, registers and unregisters it, while the manager as written does not run and reports both calls failed though the endpoint was stored |
| `Webhooks.DropId` | integrations/external/webhook_manager.py:231-232 | after the deletion the order holds exactly the other identifiers |
| `Webhooks.WebhookManager.SendWebhook` | integrations/external/webhook_manager.py:247-288 | one pending delivery and one queue entry for every matching endpoint, in registration order |
| `Webhooks.WebhookManager.WebhookStatus` | integrations/external/webhook_manager.py:290-323 | nothing for an unknown endpoint; otherwise its URL, flag and types, the counts of its deliveries by status and the delivered percentage |
| `Webhooks.WebhookManager.ProcessDelivery` | integrations/external/webhook_manager.py:364-393 | a running worker takes the oldest queue entry, records the attempt's outcome, and puts a retried delivery in the waiting list |
| `Webhooks.WebhookManager.RetryDue` | integrations/external/webhook_manager.py:470-477 | a waiting delivery leaves the waiting list and re-enters the queue at the end |
| `Webhooks.WebhookManager.OnEvent` | integrations/external/webhook_manager.py:479-598 | a recognised event name becomes a webhook event of its guild, sent as `SendWebhook` would; an unknown name sends nothing |
| `Webhooks.WebhookManager.Health` | integrations/external/webhook_manager.py:600-614 | healthy exactly when running, with the active endpoints (no more than registered), pending deliveries, queue size and workers |
| `Webhooks.CollectMatching` | integrations/external/webhook_manager.py:256-269 | the first loop of the send collects exactly the matching endpoints |
| `Webhooks.RecordDeliveries` | integrations/external/webhook_manager.py:271-283 | the second loop records exactly the specified deliveries and queue entries |
| `Webhooks.CountDeliveries` | integrations/external/webhook_manager.py:290-323 | the counting loop counts exactly the endpoint's deliveries, and the delivered and failed ones among them |
| `Webhooks.QueuedAreRecorded` | integrations/external/webhook_manager.py:272-283 | every queue entry a send adds has its delivery recorded |
| `ConflictResolution.ConflictTypeOf` | integrations/sync/conflict_resolver.py:173-193 | a duplicate is the same streaming command twice; otherwise two commands conflict exactly when both are streaming, both audio or both favorites commands, and the family names the conflict |
| `ConflictResolution.ConflictTypeSymmetric` | integrations/sync/conflict_resolver.py:173-193 | the conflict type does not depend on which command is the new one |
| `ConflictResolution.Priority` | integrations/sync/conflict_resolver.py:203-204 | a source has a priority exactly when it is in the priority order, and the priority is its position there |
| `ConflictResolution.Resolve` | integrations/sync/conflict_resolver.py:195-235 | the new request overrides exactly when both sources are known and the new one ranks higher, or it is the same source and the active command is more than five seconds old; an unknown source is rejected |
| `ConflictResolution.ResolveAntisymmetric` | integrations/sync/conflict_resolver.py:206-215 | between two different known sources exactly one would override the other |
| `ConflictResolution.ConflictResolver.constructor` | integrations/sync/conflict_resolver.py:26-39 | a new resolver has no active commands and no history |
| `ConflictResolution.ConflictResolver.CheckForConflicts` | integrations/sync/conflict_resolver.py:133-171 | a timed-out active command is dropped; a conflict is reported exactly when an unexpired active command is of a conflicting family, with its type, the active command and the resolution |
| `ConflictResolution.ConflictResolver.RequestCommandExecution` | integrations/sync/conflict_resolver.py:41-98 | a conflicting request changes nothing and reports the active command and resolution (an override is advisory); an approved one becomes the guild's active command under its request id |
| `ConflictResolution.ConflictResolver.AddToHistory` | integrations/sync/conflict_resolver.py:242-252 | the record is appended to the guild's history, keeping only the last 100 |
| `ConflictResolution.ConflictResolver.CommandCompleted` | integrations/sync/conflict_resolver.py:100-131 | only the matching active request is retired and added to the history; any other id changes nothing |
| `ConflictResolution.ConflictResolver.CommandHistory` | integrations/sync/conflict_resolver.py:258-263 | the last `limit` records of the guild, the whole list for a limit of 0, none for an unknown guild |
| `ConflictResolution.ConflictResolver.ConflictStats` | integrations/sync/conflict_resolver.py:265-277 | counts the active commands, the guilds with history and all history records, which are at most 100 per guild |
| `ConflictResolution.ConflictResolver.CleanupExpiredCommands` | integrations/sync/conflict_resolver.py:279-302 | exactly the active commands older than the timeout are dropped, and the count is how many |
| `Synchronizer.DefaultState` | integrations/sync/state_synchronizer.py:42-51 | a fresh state has every attribute, volume 0.8, not playing and no stream |
| `Synchronizer.Restore` | integrations/sync/state_synchronizer.py:42-51 | a saved record is restored exactly when it names only attributes and holds a guild id; saved fields are kept and the rest take their defaults |
| `Synchronizer.PendingKeyInjective` | integrations/sync/state_synchronizer.py:304 | distinct guild and type pairs never share a pending slot |
| `Synchronizer.ResolveUpdates` | integrations/sync/state_synchronizer.py:319-336 | the winner is one of the two, and the existing update stays unless the new one has a higher priority or, at equal priority, a later time |
| `Synchronizer.ResolvedIsUnbeaten` | integrations/sync/state_synchronizer.py:319-336 | neither candidate beats the winner, and the new update wins whenever it beats the existing one |
| `Synchronizer.CopyIfPresent` | integrations/sync/state_synchronizer.py:372-386 | a field is copied only when present in the data, and nothing else changes |
| `Synchronizer.ApplyAudioFields` | integrations/sync/state_synchronizer.py:372-386 | an audio update sets volume and playing only when given and leaves the stream and guild alone |
| `Synchronizer.ApplyStreamPlaying` | integrations/sync/state_synchronizer.py:388-400 | a started stream plays with the given stream, a stopped one (checked last) does not, and other stream updates change neither |
| `Synchronizer.ApplyFullSync` | integrations/sync/state_synchronizer.py:408-415 | every attribute the data names is set and every other is kept |
| `Synchronizer.ApplyUpdate` | integrations/sync/state_synchronizer.py:338-370 | every update keeps the attributes and stamps the time and platform, and a type of no known prefix changes nothing else |
| `Synchronizer.FullSyncOfOwnState` | integrations/sync/state_synchronizer.py:408-415 | a full sync of a state's own record changes only the stamp |
| `Synchronizer.Initialized` | integrations/sync/state_synchronizer.py:447-466 | no state exactly for a non-empty saved record that cannot be restored; a state has every attribute and keeps the saved fields |
| `Synchronizer.Winner` | integrations/sync/state_synchronizer.py:160-166 | the update itself without a pending one; otherwise one of the two, beaten by neither |
| `Synchronizer.SyncedOutcome` | integrations/sync/state_synchronizer.py:143-180 | a sync broadcasts exactly when the guild has or is given a state, which then carries the winner's time and platform with at most 100 pending updates left; other guilds keep their states; a new guild without a saved record always gets one |
| `Synchronizer.StateSynchronizer.constructor` | integrations/sync/state_synchronizer.py:61-85 | corrected (see Findings): a new synchroniser has no guild states, pending updates or broadcasts, and an empty connection set per platform |
| `Synchronizer.ConstructionDiscrepancy` | integrations/sync/state_synchronizer.py:61-65 | as written the first of the three `get_service` lookups raises AttributeError, so no synchroniser is built; with the registry's `get` every lookup is found |
| `Synchronizer.StateSynchronizer.RegisterConnection` | integrations/sync/state_synchronizer.py:122-132 | the id joins its platform's set; nothing else changes |
| `Synchronizer.StateSynchronizer.UnregisterConnection` | integrations/sync/state_synchronizer.py:134-141 | the id leaves its platform's set; nothing else changes |
| `Synchronizer.StateSynchronizer.InitializeGuildState` | integrations/sync/state_synchronizer.py:447-466 | corrected (see Findings): the `Initialized` state is stored when there is one, else the table is kept |
| `Synchronizer.StateSynchronizer.GuildState` | integrations/sync/state_synchronizer.py:182-193 | corrected (see Findings): the result is `StateFor` (the guild's own state, else the one it is initialised with), which is then held; no other guild changes |
| `Synchronizer.StateSynchronizer.CheckForConflicts` | integrations/sync/state_synchronizer.py:301-317 | the first update of a guild and type is recorded as pending; a later one is answered with the pending one, which is kept |
| `Synchronizer.StateSynchronizer.ApplyStateUpdate` | integrations/sync/state_synchronizer.py:338-370 | corrected (see Findings): True exactly when `StateFor` gives a state, which is then stored with the update applied; otherwise nothing changes |
| `Synchronizer.StateSynchronizer.SyncStateUpdate` | integrations/sync/state_synchronizer.py:143-180 | corrected (see Findings): True exactly when the guild has or is given a state; the new tables are `Synced`: the winner is applied and broadcast and the pending table, with the update recorded, is cleaned up; otherwise only the update is recorded |
| `Synchronizer.StateSynchronizer.ForceFullSync` | integrations/sync/state_synchronizer.py:195-218 | corrected (see Findings): the guild's `StateFor` state is held and broadcast as a Discord full sync at priority 10; nothing is broadcast when there is none |
| `Synchronizer.StateSynchronizer.OnDataEvent` | integrations/sync/state_synchronizer.py:220-284 | corrected (see Findings): an event without a truthy guild id changes nothing; otherwise the tables are `Synced` for a Discord update of the event at priority 0 |
| `Synchronizer.StateSynchronizer.OnGuildEvent` | integrations/sync/state_synchronizer.py:286-299 | corrected (see Findings): "guild_added" stores the `Initialized` state, "guild_removed" deletes the guild's state, and an event without a truthy guild or of another kind changes nothing |
| `Synchronizer.StateSynchronizer.GuildStateAsWritten` | integrations/sync/state_synchronizer.py:182-193 | as written: a guild's state is returned only when already held, and none is ever created |
| `Synchronizer.StateSynchronizer.ApplyStateUpdateAsWritten` | integrations/sync/state_synchronizer.py:338-370 | as written: always False; a held state is updated in place before the failing persistence call |
| `Synchronizer.StateSynchronizer.SyncStateUpdateAsWritten` | integrations/sync/state_synchronizer.py:143-180 | as written: always False, nothing is broadcast and the pending table only gains the update |
| `Synchronizer.StateSynchronizer.OnGuildEventAsWritten` | integrations/sync/state_synchronizer.py:286-299 | as written: only "guild_removed" changes the table |
| `Synchronizer.SyncDiscrepancy` | integrations/sync/state_synchronizer.py:143-180 | for every update, a new synchroniser as intended applies and broadcasts it, and one as written rejects it and broadcasts nothing |
| `Synchronizer.StateSynchronizer.CleanupPendingUpdates` | integrations/sync/state_synchronizer.py:493-518 | updates older than the conflict timeout are dropped (the unexpired ones are kept), then the oldest until at most 100 remain |
| `Synchronizer.OldestKey` | integrations/sync/state_synchronizer.py:509-512 | the key found has the smallest timestamp |
| `Synchronizer.TrimOldest` | integrations/sync/state_synchronizer.py:506-515 | keeps a sub-map of at most `limit` entries, every dropped one no newer than every kept one |
| `EventBridging.EventMatchesPattern` | integrations/sync/event_bridge.py:193-206 | "*" matches everything, a trailing "*" asks for a prefix, otherwise a leading "*" for a suffix, and anything else for equality |
| `EventBridging.PatternMatchesItself` | integrations/sync/event_bridge.py:193-206 | every pattern matches its own text |
| `EventBridging.LiteralPatternIsExact` | integrations/sync/event_bridge.py:204-206 | a pattern with no wildcard at either end matches exactly itself |
| `EventBridging.MatchingHandlers` | integrations/sync/event_bridge.py:169-180 | every collected handler is registered under a pattern that matches the event name, and every handler of every matching pattern is collected |
| `EventBridging.MatchingHandlersSplit` | integrations/sync/event_bridge.py:169-180 | the handlers of each matching pattern come after those of the patterns before it and before those of the patterns after it |
| `EventBridging.ActiveHandlers` | integrations/sync/event_bridge.py:182-191 | the called handlers are exactly those whose platform is registered and active, at most one call per matching handler |
| `EventBridging.NoPlatformNoDelivery` | integrations/sync/event_bridge.py:182-191 | with no registered platform no handler is called |
| `EventBridging.EventBridge.constructor` | integrations/sync/event_bridge.py:26-44 | a new bridge is stopped, with no patterns, handlers, platforms or queued events |
| `EventBridging.EventBridge.Start` | integrations/sync/event_bridge.py:46-51 | the bridge is running and nothing else changes |
| `EventBridging.EventBridge.Stop` | integrations/sync/event_bridge.py:53-63 | the bridge is stopped and nothing else changes |
| `EventBridging.EventBridge.RegisterPlatform` | integrations/sync/event_bridge.py:65-72 | the platform is (re)registered as active with its info and time; nothing else changes |
| `EventBridging.EventBridge.UnregisterPlatform` | integrations/sync/event_bridge.py:74-78 | the platform is removed, and an unknown one changes nothing |
| `EventBridging.EventBridge.SubscribeToEvent` | integrations/sync/event_bridge.py:80-99 | the handler joins the end of its pattern's list, a new pattern is recorded once, in order |
| `EventBridging.EventBridge.BridgeEvent` | integrations/sync/event_bridge.py:101-128 | a running bridge with room queues the event at the end; a stopped bridge or a full queue (1000) leaves the queue as it was |
| `EventBridging.EventBridge.OnInternalEvent` | integrations/sync/event_bridge.py:239-252 | an internal event is queued like a bridged one, with the internal-event markers added to its data |
| `EventBridging.EventBridge.TakeBatch` | integrations/sync/event_bridge.py:130-159 | one collection step takes up to ten events, oldest first, and leaves the rest queued in order |
| `EventBridging.EventBridge.DeliverEvent` | integrations/sync/event_bridge.py:161-191 | the handlers called are the active-platform handlers among those matching the event, in pattern order |
| `EventBridging.EventBridge.BridgeStats` | integrations/sync/event_bridge.py:208-217 | reports the running flag, the platform and pattern counts, the total handlers over all patterns and a queue size within the cap |
| `SlStateSync.SyncKeyInjective` | integrations/sl_bridge/state_sync.py:137-138 | two pending slots coincide exactly for the same guild and state type |
| `SlStateSync.GuildOf` | integrations/sl_bridge/state_sync.py:219-222 | an event's guild is taken exactly when its data holds a non-zero integer guild id |
| `SlStateSync.StreamStateData` | integrations/sl_bridge/state_sync.py:216-235 | a stream event is reduced to the five stream fields, playing false by default, tagged with the event name |
| `SlStateSync.AudioStateData` | integrations/sl_bridge/state_sync.py:237-256 | an audio event is reduced to volume, bass, mid and treble as given, tagged with the event name |
| `SlStateSync.FavoritesStateData` | integrations/sl_bridge/state_sync.py:258-276 | a favorites event is reduced to number, station name and stream URL as given, tagged with the event name |
| `SlStateSync.SyncFromSl` | integrations/sl_bridge/state_sync.py:145-168 | corrected (see Findings): nothing happens while sync is disabled; otherwise the state key and the emitted event both name the state type |
| `SlStateSync.SyncFromSlAsWritten` | integrations/sl_bridge/state_sync.py:145-168 | as written: no state is written and no event emitted |
| `SlStateSync.SyncFromSlDiscrepancy` | integrations/sl_bridge/state_sync.py:145-168 | with sync enabled, the intended call writes "sl_sync:<guild>:<type>" and emits "sl_state_sync:<type>", while the call as written does neither |
| `SlStateSync.Deliverable` | integrations/sl_bridge/state_sync.py:170-214 | only messages whose guild still has connections are sent, at most one per pending slot |
| `SlStateSync.CollectDeliverable` | integrations/sl_bridge/state_sync.py:176-180 | the send loop collects exactly the deliverable messages, in queue order |
| `SlStateSync.SlStateSynchronizer.constructor` | integrations/sl_bridge/state_sync.py:25-42 | a new synchroniser is enabled with a 0.1 s delay and has no connections, metadata or pending messages |
| `SlStateSync.SlStateSynchronizer.RegisterConnection` | integrations/sl_bridge/state_sync.py:84-97 | the id joins the guild's set with its metadata, empty when none is given; nothing else changes |
| `SlStateSync.SlStateSynchronizer.UnregisterConnection` | integrations/sl_bridge/state_sync.py:99-114 | the id leaves the guild's set, a guild left without connections is removed, and the metadata goes |
| `SlStateSync.SlStateSynchronizer.SyncStateToSl` | integrations/sl_bridge/state_sync.py:116-143 | with sync enabled and the guild connected, the message takes its guild and type's pending slot, replacing an older one; otherwise nothing changes |
| `SlStateSync.SlStateSynchronizer.ProcessSyncQueue` | integrations/sl_bridge/state_sync.py:170-189 | the queue is emptied and its deliverable messages are sent in order |
| `SlStateSync.SlStateSynchronizer.OnStateEvent` | integrations/sl_bridge/state_sync.py:216-276 | with no truthy guild, sync disabled or no connections nothing is queued; otherwise the guild's slot for the handler's state type holds the reduced record (`StateData`) stamped now; connections, metadata and settings are kept |
| `SlStateSync.SlStateSynchronizer.OnConnectionEvent` | integrations/sl_bridge/state_sync.py:278-297 | an established event with a guild and id adds the id to the guild's set and stores its metadata; a closed one removes the id (and the guild once its set is empty) and its metadata; other guilds, the pending and sent messages and the settings are unchanged; anything else changes nothing |
| `SlStateSync.SlStateSynchronizer.SyncStats` | integrations/sl_bridge/state_sync.py:299-321 | reports the flag, the delay, the guild and pending counts, and per guild its number of connections (at least one), the total being their sum |
| `SlStateSync.SlStateSynchronizer.SetSyncEnabled` | integrations/sl_bridge/state_sync.py:323-326 | the flag is set and nothing else changes |
| `SlStateSync.SlStateSynchronizer.SetSyncDelay` | integrations/sl_bridge/state_sync.py:328-332 | a non-negative delay is taken, a negative one ignored |
| `ResponseFormatting.TruncateString` | integrations/sl_bridge/ui/response_formatter.py:224-242 | empty and short texts are kept; a longer one, for a limit of at least 3, becomes its first limit-3 characters and "...", exactly the limit long |
| `ResponseFormatting.TruncateIdempotent` | integrations/sl_bridge/ui/response_formatter.py:224-242 | truncating twice with the same sensible limit truncates once |
| `ResponseFormatting.TruncateKeepsPrefix` | integrations/sl_bridge/ui/response_formatter.py:224-242 | a truncated text keeps the beginning of the original |
| `ResponseFormatting.ShortenKeyShortens` | integrations/sl_bridge/ui/response_formatter.py:281-303 | exactly the nine listed keys change, and none gets longer |
| `ResponseFormatting.ShortenKeyCollides` | integrations/sl_bridge/ui/response_formatter.py:291-301 | "guild_id" and "guild" shorten to the same key, so a dictionary holding both loses one |
| `ResponseFormatting.TimestampIsNeverAShortKey` | integrations/sl_bridge/ui/response_formatter.py:291-303 | no shortened key is "timestamp", so the size trimmer's first removal never finds an optimized timestamp |
| `ResponseFormatting.OptimizedPairs` | integrations/sl_bridge/ui/response_formatter.py:259-277 | the loop assigns one pair per input field |
| `ResponseFormatting.OptimizeData` | integrations/sl_bridge/ui/response_formatter.py:244-279 | the keys are the shortened input keys, each once, and every field holds an optimized input value |
| `ResponseFormatting.OptimizeValueWithinLimits` | integrations/sl_bridge/ui/response_formatter.py:244-279 | at every depth, texts are within the default limit and lists hold at most ten items |
| `ResponseFormatting.OptimizedPairsWithinLimits` | integrations/sl_bridge/ui/response_formatter.py:244-279 | a dictionary built from optimized pairs is within those limits |
| `ResponseFormatting.NoneBecomesText` | integrations/sl_bridge/ui/response_formatter.py:275-277 | a None value is sent as the text "None" |
| `ResponseFormatting.OptimizeValueNoDatetime` | integrations/sl_bridge/ui/response_formatter.py:244-279 | optimizing never introduces a datetime |
| `ResponseFormatting.OptimizedPairsNoDatetime` | integrations/sl_bridge/ui/response_formatter.py:244-279 | a dictionary built from optimized pairs has no datetime when its input had none |
| `ResponseFormatting.ShortenValue` | integrations/sl_bridge/ui/response_formatter.py:344-346 | a text longer than 20 is cut to 15 characters and "...", anything else is kept |
| `ResponseFormatting.ShortenLongStrings` | integrations/sl_bridge/ui/response_formatter.py:344-348 | the aggressive loop keeps every key and shortens each value |
| `ResponseFormatting.DropUntilFits` | integrations/sl_bridge/ui/response_formatter.py:328-341 | removes the optional data fields in order, stopping as soon as the response fits, and touches nothing outside the data |
| `ResponseFormatting.ReplaceData` | integrations/sl_bridge/ui/response_formatter.py:328-341 | writing the trimmed data back keeps every key and every other field of the response |
| `ResponseFormatting.EnsureSizeLimit` | integrations/sl_bridge/ui/response_formatter.py:305-366 | an unserialisable response becomes the size failure; a response that fits is returned as is; otherwise the result fits or is the minimal reply, and only the data is trimmed |
| `ResponseFormatting.FormatSuccessAsWritten` | integrations/sl_bridge/ui/response_formatter.py:29-52 | with the response's datetime kept as a datetime, every success becomes the size-failure reply |
| `ResponseFormatting.FormatSuccess` | integrations/sl_bridge/ui/response_formatter.py:29-52 | with the time sent as text, a response that fits is returned whole and reports success, and otherwise the result fits or is the minimal reply |
| `ResponseFormatting.SlFavorite` | integrations/sl_bridge/ui/response_formatter.py:146-156 | a listed favorite has number, name cut to 30 and URL cut to 80, plus a category exactly when one is present |
| `ResponseFormatting.SlFavoriteNoDatetime` | integrations/sl_bridge/ui/response_formatter.py:146-156 | a listed favorite holds numbers and text only |
| `ResponseFormatting.FavoritesDataNoDatetime` | integrations/sl_bridge/ui/response_formatter.py:158-162 | the favorites data holds no datetime |
| `ResponseFormatting.ListFavorites` | integrations/sl_bridge/ui/response_formatter.py:144-156 | the loop lists the first twenty favorites, in order |
| `ResponseFormatting.FormatFavoritesList` | integrations/sl_bridge/ui/response_formatter.py:129-168 | corrected (see Findings): at most twenty favorites in input order, the total capped at 99, and a reply that fits is the success response |
| `ResponseFormatting.FormatFavoritesListAsWritten` | integrations/sl_bridge/ui/response_formatter.py:129-168 | as written: every favorites list ends in the size-failure reply |
| `Components.TruncateText` | ui/components/base_component.py:324-345 | a text within the limit is kept; a longer one ends in "..." within the limit, cut at the last space of the first limit-3 characters when that space lies past half the limit, else at limit-3 |
| `Components.CutAtSpaceUnique` | ui/components/base_component.py:339-343 | there is at most one word-boundary cut |
| `Components.ShortLimitOverflows` | ui/components/base_component.py:345 | a limit below 3 is not honoured: "abcd" with limit 2 becomes "abc..." |
| `Components.ButtonStyleFor` | ui/components/base_component.py:256-272 | active is primary, error is danger, success is success, and normal, disabled and loading are secondary |
| `Components.StateEmoji` | ui/components/base_component.py:303-322 | every state but normal has an emoji |
| `Components.StateEmojiInjective` | ui/components/base_component.py:303-322 | different states show different emoji |
| `Components.EnabledState` | ui/components/base_component.py:89-106 | disabling moves any state to disabled; enabling moves disabled back to normal and keeps every other state |
| `Components.DisableThenEnable` | ui/components/base_component.py:89-106 | disabling and enabling again ends in normal, whatever the state was |
| `Components.RemoveFirst` | ui/components/base_component.py:192 | removing a present handler drops one occurrence of it and nothing else; an absent one changes nothing |
| `Components.AddHandler` | ui/components/base_component.py:166-178 | the handler is appended to its event's list, and every other list is kept |
| `Components.RemoveHandler` | ui/components/base_component.py:180-195 | succeeds exactly for a registered handler, dropping one occurrence from its event's list and keeping every other list |
| `Components.AddThenRemove` | ui/components/base_component.py:166-195 | removing a handler just added succeeds and restores the event's handlers, up to order |
| `Components.CountOverUpdate` | ui/components/base_component.py:366 | changing one event's list changes the handler count by the change in its length |
| `Components.AddHandlerCount` | ui/components/base_component.py:366 | adding a handler counts one more |
| `Components.RemoveHandlerCount` | ui/components/base_component.py:366 | removing a registered handler counts one fewer, an unknown one changes nothing |
| `Components.BaseComponent.constructor` | ui/components/base_component.py:34-58 | a new component is enabled, visible, in the normal state, with no value, handlers, callback or accessibility texts, created and updated now |
| `Components.BaseComponent.UpdateState` | ui/components/base_component.py:68-87 | the state is set and stamped, and the change from the old state is announced to the change handlers, in order; nothing else changes |
| `Components.BaseComponent.SetEnabled` | ui/components/base_component.py:89-106 | the flag is set, the state follows `EnabledState`, and the change handlers hear of it only when the state changed |
| `Components.BaseComponent.SetValue` | ui/components/base_component.py:112-131 | the value is set and always announced to the change handlers |
| `Components.BaseComponent.SetVisible` | ui/components/base_component.py:133-144 | the flag is set and stamped; nothing else changes |
| `Components.BaseComponent.SetAccessibilityLabel` | ui/components/base_component.py:146-154 | the label is set; nothing else changes |
| `Components.BaseComponent.SetAccessibilityDescription` | ui/components/base_component.py:156-164 | the description is set; nothing else changes |
| `Components.BaseComponent.AddEventHandler` | ui/components/base_component.py:166-178 | the handlers become `AddHandler` of the old ones; nothing else changes |
| `Components.BaseComponent.RemoveEventHandler` | ui/components/base_component.py:180-195 | the handlers become `RemoveHandler` of the old ones, reporting whether it was registered |
| `Components.BaseComponent.SetInteractionCallback` | ui/components/base_component.py:197-205 | the callback is set; nothing else changes |
| `Components.BaseComponent.HandleInteraction` | ui/components/base_component.py:207-233 | the click handlers are notified, the callback is called when set, and a raising callback puts the component in the error state, stamps it now and notifies the change handlers; otherwise nothing changes |
| `UiInterfaces.DetectDeviceType` | ui/interfaces.py:384-396 | no or an empty user agent is unknown; a mobile keyword in the lowercased text means mobile, else a tablet keyword means tablet, else desktop |
| `UiInterfaces.DetectIgnoresCase` | ui/interfaces.py:384-396 | detection ignores the case of the user agent |
| `UiInterfaces.AndroidIsMobile` | ui/interfaces.py:384-396 | any user agent starting with "Android", tablets included, is taken for a phone |
| `UiInterfaces.OptimalLayout` | ui/interfaces.py:398-410 | a preference always wins; otherwise phones get compact, desktops expanded and the rest normal, and minimal is never chosen |
| `StatusLine.ReadLine` | urllib_hack.py:8 | the line read is a prefix of the data, at most the limit long, holding no newline before its end and ending in one when it stops early |
| `StatusLine.SplitWhitespace` | urllib_hack.py:19-22 | at most `maxsplit` words and the rest |
| `StatusLine.ReplaceAll` | urllib_hack.py:28-29 | a text starting with the pattern starts with the replacement after replacing |
| `StatusLine.Fields` | urllib_hack.py:18-26 | a line of fewer than two words has no status text and an empty version and reason |
| `StatusLine.Version` | urllib_hack.py:28-29 | a version starting with "ICY" is rewritten to start with "HTTP/", any other is kept |
| `StatusLine.ParseStatusLine` | urllib_hack.py:18-41 | an accepted line has an HTTP version and a code from 100 to 999; a refused one is a bad status line naming the line |
| `StatusLine.ReadStatus` | urllib_hack.py:7-41 | a line over 65536 characters is too long, no data at all is a closed connection, and an accepted status has an HTTP version and a three-digit code |
| `StatusLine.TwoWordsEmptyReason` | urllib_hack.py:21-23 | a line of exactly two words has an empty reason |
| `StatusLine.PyIntOfDigits` | urllib_hack.py:36 | a plain run of digits reads as its decimal value |
| `StatusLine.SplitThree` | urllib_hack.py:19 | "v c r" splits into its three parts, the reason keeping whatever follows |
| `StatusLine.IcyLineAccepted` | urllib_hack.py:28-41 | a SHOUTcast v1 "ICY code reason" line is accepted as HTTP/1.0 with its code and reason |
| `StatusLine.ParseFormattedLine` | urllib_hack.py:18-41 | parsing recovers the version, three-digit code and reason an HTTP status line was made from |
| `RequestModels.CheckUrl` | integrations/sl_bridge/models/request_models.py:18-24 | a URL passes exactly when it is not blank and starts with http:// or https:// before stripping; the two errors are told apart and the value is returned stripped |
| `RequestModels.StrippedUrlKeepsScheme` | integrations/sl_bridge/models/request_models.py:18-24 | an accepted URL keeps its scheme after stripping |
| `RequestModels.TrimRightKeepsWord` | integrations/sl_bridge/models/request_models.py:24 | trimming the right never cuts into a prefix ending in a non-space |
| `RequestModels.LeadingSpaceRefused` | integrations/sl_bridge/models/request_models.py:21-22 | a URL with a leading space is refused although its stripped form would pass |
| `RequestModels.ValidateAction` | integrations/sl_bridge/models/request_models.py:33-37 | an action passes exactly when its lowercase form is stop, pause, resume or refresh, and is returned lowercased |
| `RequestModels.ValidateActionIdempotent` | integrations/sl_bridge/models/request_models.py:33-37 | a validated action validates to itself |
| `RequestModels.ValidateVolume` | integrations/sl_bridge/models/request_models.py:46-49 | a volume passes exactly within [0, 1], unchanged |
| `RequestModels.ValidateEqValue` | integrations/sl_bridge/models/request_models.py:61-64 | an EQ value passes exactly when absent or within 12 dB either way, unchanged |
| `RequestModels.ValidatePreset` | integrations/sl_bridge/models/request_models.py:67-76 | an absent preset passes; a given one passes exactly when its lowercase form is one of the nine presets, and is returned lowercased |
| `RequestModels.ValidateFavoriteNumber` | integrations/sl_bridge/models/request_models.py:88-91 | a slot number passes exactly from 1 to 99, unchanged |
| `RequestModels.ValidateStationName` | integrations/sl_bridge/models/request_models.py:94-97 | a name passes exactly when not blank, and is returned stripped, starting and ending in a non-space |
| `RequestModels.ValidateEvents` | integrations/sl_bridge/models/request_models.py:150-159 | the list passes exactly when every event is allowed; otherwise the error names the first event that is not |
| `RequestModels.NewStreamPlayRequest` | integrations/sl_bridge/models/request_models.py:11-24 | a stream request is built exactly when its URL passes, holding the stripped URL |
| `RequestModels.NewEqRequest` | integrations/sl_bridge/models/request_models.py:52-76 | an EQ request is built exactly when all four fields pass, keeping bass, mid, treble and the guild id and lowercasing the preset; otherwise one to four errors are reported |
| `RequestModels.NewFavoriteRequest` | integrations/sl_bridge/models/request_models.py:79-105 | a favorite request is built exactly when number, name and URL pass, holding the stripped name and URL; otherwise one to three errors are reported |
| `RequestModels.FavoriteNumberOnlyError` | integrations/sl_bridge/models/request_models.py:79-105 | with a good name and URL, a slot number outside 1 to 99 is the only error reported |
| `Registry.FirstMissing` | core/service_registry.py:50-364 | the first looked-up name the registry lacks, after only names it has, or the end |
| `Registry.Wire` | core/service_registry.py:50-364 | a constructor's lookups all succeed exactly when the registry has every name, and otherwise fail with a missing name |

## Left out

- Discord I/O (voice clients, embeds, views, slash commands), HTTP servers, aiohttp requests, SQLite calls, ffmpeg and the operating system: each appears only as a parameter of the operations that consult it (a delivery outcome, a table, a snapshot, a response status).
- asyncio tasks, locks, sleeps and queues: each operation is one atomic sequential step, sleeps are returned as the list of waits, and the per-guild locks are the set of guilds that have one; the one place where lock nesting decides the outcome, `update_guild_state`, is modelled (see Findings).
- Floating-point arithmetic: reals are exact, so rounding, NaN and infinities are not modelled; numpy sample arithmetic beyond scaling, clamping and int16 clipping, the log10/sqrt loudness estimates, scipy filter design, `lfilter` and the FFT are parameters.
- Logging, the statistics of start/stop timing and every message text that is only logged.
- Recovery.RecoveryManager.AttemptRecovery: the recovery function that is awaited is a parameter (its success), and an exception from it is treated as a failure.
- AudioProcessing.AudioProcessor.ReduceQuality: `_reduce_quality` changes the stored configuration object itself, so the previous configuration `set_config` compares against is the same object and no processing restart is ever triggered; the model keeps that behaviour.
- StreamService.StreamService.ClearStreamState: `_clear_stream_state` writes a `stream_response` attribute the guild state does not have, so the current stream response is not cleared; the model keeps that.
- Guild state: `get_runtime`, `to_dict`, `get_all_guild_ids`, `get_state_summary`, the background cleanup task and the state-change listeners are not part of this model; the single-field setter and getter are covered by the update and get operations they wrap.
- Configuration loading: the fallback load path skips the volume and log-level range checks (proved as a lemma); `hasattr` lookups on built-in values such as `dict.keys` are not modelled; YAML parsing and the process environment are parameters; the pydantic `BotConfiguration` model is not part of this model.
- Maintenance windows: history entries never carry an actual start time, so the average duration is always zero (proved as a lemma); `get_active_maintenance` is a plain getter of the active record and has no member of its own.
- Metrics and health: the database persistence of metric history and `store_metrics` is left out; `_check_system_connectivity` is a placeholder with no issues and is modelled as such.
- Health.SystemCheck: the healthy message leaves out the CPU and memory percentages, which the code prints as floats with one decimal; floating-point formatting is not modelled.
- Alert throttling: guild id 0 is falsy in Python and is treated as a system-wide alert, as the code does.
- Rate limiting: a rule with a zero period divides by zero, and `check_rate_limit` lets such a request through (fail-open), as does a zero rate; `get_rate_limit_status` reports the error for a zero rate (`RateLimitStatus`); resetting all limits for a caller matches bucket keys by suffix and may reset other callers whose key ends the same way; both follow the code.
- Permission checks: holding `admin_settings` grants every permission string, unknown ones included, as the code does.
- Command conflicts: the computed resolution is advisory (the new command is refused either way); a history limit of 0 returns the whole history, as `history[-0:]` does; `get_active_commands` is a getter of the active map and has no member of its own.
- State synchronisation: when pending updates are trimmed, entries with the same timestamp leave in any order; `initialize` and `shutdown` (tasks and subscriptions) of both synchronisers are left out; the state manager's saved records are a parameter (`Initialized`), and saving a state is the write to the synchroniser's own table.
- Event bridge: `setup_internal_event_forwarding` is left out; it subscribes the event bus to patterns such as "stream_*", which the event bus compares only exactly or against "*", so those subscriptions never fire.
- Second Life state sync: a broadcast to the guild's connections is recorded as sent; the HTTP push itself is left out.
- Webhook delivery: `initialize` subscribes the event bus to "stream_*" and "favorites_*", which the event bus compares only exactly or against "*", so those handlers never fire from the bus; the subscription is left out and the handlers are modelled as direct calls. RETRYING is a transient status; delivered and failed deliveries are never removed from the pending map; a delivery id built from the event and endpoint ids may alias an earlier one, as in the code.
- Response formatting: `None` values are sent as the text "None"; the size trimmer's removal of "timestamp" never matches a shortened key; `ShortenKey` collisions lose a field; truncation limits below 3 are not meaningful; numeric rounding is left out; the length of the compact JSON text is a parameter.
- UI components: `_truncate_text` with a limit below 3 is not meaningful; `_get_state_color` and the hex colour parsing are not part of this model; an exception raised by an event handler is not modelled; emoji are always used; rendering to Discord is left out.
- Status line: the connection classes built around the parser are left out; the model's `int()` reads surrounding white space, a sign and underscore-separated groups of digits as Python does, but only ASCII digits and ASCII white space; Python also accepts the other Unicode decimal digits and spaces.
- Request validation: the URL scheme is checked before stripping, as in the code; pydantic's type coercion of the raw payload is not modelled.
- Util.Lower: `str.lower` and `str.strip` are modelled on ASCII letters and ASCII white space only, wherever the model uses them (request validation, UI commands, formatting); other Unicode case mappings are not modelled.
- DigitalFilters.Apply: the filter state `zi` is not carried from one call to the next, and only one channel is filtered; 2-D input filtered per channel is not modelled.
- DigitalFilters.FilterBank.Process: as for `DigitalFilters.Apply`, each filter starts from rest on every call and the input is one channel.
- ParametricEq.ParametricEqualizer.Process: as for `DigitalFilters.Apply`, each band starts from rest on every call and the input is one channel.
- AdvancedProcessing.AdvancedAudioProcessor.ProcessAudioBuffer: models one channel; the per-channel denoising of multi-channel input and the path that returns the original buffer when a processing step raises are not modelled.
- Volume.VolumeManager.SetMasterVolume: the extra write of the level into the state manager's guild state is not modelled; that object belongs to another service and its own setter is modelled in `GuildState`.
- Event-bus notifications sent by the services are not modelled: stream_service (services/stream_service.py:129, 139, 182, 398), audio_processor (audio/audio_processor.py:98, 148, 211, 257, 527, 561), effects_chain (audio/effects_chain.py:89, 128), mixer (audio/mixer.py:87, 137), volume_manager (audio/volume_manager.py:92, 132), health_monitor (monitoring/health_monitor.py:137, 222, 321-389), maintenance_manager (monitoring/maintenance_manager.py:90, 160, 223, 321), metrics_collector (monitoring/metrics_collector.py:181, 404, 413), recovery_manager (monitoring/recovery_manager.py:132, 141, 288) and favorites_service (services/favorites_service.py:122, 190, 370, 437). Each is a fire-and-forget `emit`/`emit_async` after the state change, and the bus itself (`EventBus.Bus.Publish`) is modelled on its own.
- Shared audio configuration: in the source the audio processor, the effects chain and the volume manager hold the same `AudioConfig` object per guild, and `_update_audio_config` (audio/effects_chain.py:466-476) and the volume manager (audio/volume_manager.py:473-482) change it in place; the model gives each service its own `configs` map, so a change made through one service is not seen through the others.
- Health.SystemCheck: the guild totals come from the metrics snapshot, which the collector caches for up to 5 s (monitoring/metrics_collector.py:57-59), while `_check_guild_health_aggregate` (monitoring/health_monitor.py:456-470) reads the live state manager; the model takes the counts as parameters and does not tie them to `StateManager.GetActiveGuilds`.
- Metrics.StreamMetricsOf: the guild state is a parameter; the source reads it through `get_guild_state`, which stamps it with the current time first, so `last_metadata_update` is always the collection time; the fallback record with quality "failed" returned when collection raises (monitoring/metrics_collector.py:188-199) is not modelled, so the health check's "failed" branch (monitoring/health_monitor.py:361) has no input here.
- Guild state updates: `hasattr` also accepts the names of the dataclass's methods (such as `is_active`), and an update under such a name replaces the method on that object; the model treats those names like unknown fields.
- Webhooks.ValidUrl: Python's `urlsplit` also strips leading control characters and spaces, deletes tab and newline characters, and raises on an unbalanced '[' or ']' in the host (which `register_webhook` catches and reports as a failed registration); the model splits the URL text as given.
- Filter cache: the key is the md5 of the text of the specification's fields, which tells 48000 from 48000.0; the model keys on the specification value, where the two are the same real.
- ParametricEq.BandFilter: the designer is a parameter; as written it fails for every band (see Findings), and the intended peaking design is left as any designer.
- AudioProcessing.AudioProcessor.GetConfig: creating the default config for a guild the processor has not seen also creates that guild's state in the state manager and writes the config's fields into its `audio_config` (audio/audio_processor.py:169-171); the model keeps the config in the processor only, since the state manager's guild states are modelled on their own in `StateManagement`.
- AudioProcessing.AudioProcessor.SetConfig: the same write of the new config into the guild state's `audio_config`, creating the guild state if needed (audio/audio_processor.py:137-139), is not modelled, for the same reason.
- Tests, the `__init__` files, the dependency-injection wiring, JWT and HMAC crypto and the placeholder UI modules are not part of this model.

## Findings

| source | as written | input that shows it | evidently intended | confidence | as-written member | corrected member |
|---|---|---|---|---|---|---|
| integrations/sl_bridge/ui/response_formatter.py:41-48 | `format_success` builds the response with a `datetime` timestamp and passes `response.dict()`, which keeps it a `datetime`, to `_ensure_size_limit`, whose `json.dumps` raises on it, so the size failure is returned; `format_favorites_list` (129-168) goes through it and fails the same way (`ResponseFormatting.FormatFavoritesListAsWritten`) | any success message, e.g. `format_success("ok")` | the timestamp is serialised as text, so a response that fits is sent whole | high, not executed | `ResponseFormatting.FormatSuccessAsWritten` | `ResponseFormatting.FormatSuccess` |
| integrations/sync/state_synchronizer.py:451, 360, 421 | construction already fails (see the row below on lines 63-65); past that, `_initialize_guild_state` awaits the synchronous `get_guild_state`, whose result cannot be awaited; `_apply_state_update` calls `set_guild_state`, which the state manager does not have; `_broadcast_state_update` passes its payload positionally to the keyword-only `emit`. Each raises inside a `try`, so no guild state is ever created or saved, nothing is broadcast, and `sync_state_update` always answers False | any update, e.g. a Discord volume change for a guild the synchroniser has not seen | a guild's state is created from the saved record, the winning update is applied and stored, and the change is broadcast | high, not executed | `Synchronizer.StateSynchronizer.SyncStateUpdateAsWritten` (with `Synchronizer.SyncDiscrepancy`) | `Synchronizer.StateSynchronizer.SyncStateUpdate` |
| integrations/sl_bridge/state_sync.py:153, 159 | `sync_state_from_sl` calls `set_state`, which the state manager does not have, so the call raises and is caught on every call with sync enabled; the `emit` after it would fail as well, since it passes its payload positionally to the keyword-only `emit` | any call with sync enabled, e.g. guild 1, data `{"type": "stream"}` | the state is stored under "sl_sync:<guild>:<type>" and the event "sl_state_sync:<type>" is emitted | high, not executed | `SlStateSync.SyncFromSlAsWritten` (with `SlStateSync.SyncFromSlDiscrepancy`) | `SlStateSync.SyncFromSl` |
| integrations/external/webhook_manager.py:152, 208, 235 | construction already fails (see the row below on lines 110-114); past that, `initialize` awaits the health monitor's `register_component`, `register_webhook` its state manager's `set_global_state` and `unregister_webhook` its `delete_global_state`; none of them exists, so each call raises after the work before it: the manager is never marked running and both registration calls answer False after the change was already made | registering any endpoint with URL "https://example.com/hook" | the calls succeed: the manager runs, and registration and removal report True | high, not executed | `Webhooks.WebhookManager.RegisterWebhookAsWritten` (with `Webhooks.RegistrationDiscrepancy`) | `Webhooks.WebhookManager.RegisterWebhook` |
| core/state_manager.py:183, 153, 461-466 | `update_guild_state` takes the guild's `threading.Lock` and, holding it, calls `get_guild_state`, which asks for the same lock; a `Lock` is not re-entrant, so the call waits for ever; `set_guild_state_field` (234) and the module-level `update_guild_state` (506) go through it | any update, e.g. `update_guild_state(1, {"volume": 0.5})` | the updates are applied to the guild's state, which is stamped and returned | high, not executed | `StateManagement.StateManager.UpdateGuildStateAsWritten` (with `StateManagement.NestedAcquireBlocks`) | `StateManagement.StateManager.UpdateGuildState` |
| audio/processing/parametric_eq.py:274-298; audio/filters/design/filter_designer.py:93-95, 207-213 | `_create_band_filter` asks for a Butterworth PEAK design; `_design_butterworth` passes btype "peak" to `scipy.signal.butter`, which accepts only low-, high-, band-pass and band-stop and raises; the error becomes a FilterDesignError, which is caught, and the band gets the pass-through filter, so the equalizer never changes the signal | applying the "rock" preset and then processing any buffer | each band with a gain gets a peaking filter at its centre frequency, so the preset shapes the signal | medium, not executed (rests on scipy's accepted band types) | `AdvancedProcessing.AdvancedAudioProcessor.PresetThenProcessAsWritten` (with `ParametricEq.LoadedFiltersAsWritten`) | `ParametricEq.BandFilter` |
| integrations/external/webhook_manager.py:110-114 | `__init__` looks up its five services with `service_registry.get_service`, but the registry (core/service_registry.py:50-364) has only `get` and `get_optional`, so the first lookup raises AttributeError and no manager can be built | any registry, e.g. `WebhookManager(ServiceRegistry())` | the services are resolved with `get` | high, not executed | `Webhooks.ConstructionDiscrepancy` | `Webhooks.WebhookManager.constructor` |
| integrations/sync/state_synchronizer.py:63-65 | `__init__` looks up its three services with `service_registry.get_service`, which the registry does not have, so the first lookup raises AttributeError and no synchroniser can be built | any registry, e.g. `StateSynchronizer(ServiceRegistry())` | the services are resolved with `get` | high, not executed | `Synchronizer.ConstructionDiscrepancy` | `Synchronizer.StateSynchronizer.constructor` |

=== FILE: advanced_interfaces.dfy ===
/** The immutable value objects of the advanced audio pipeline
    (audio/interfaces/advanced_interfaces.py). Each `__post_init__` check
    becomes a constructor function that answers `Err` with the first rule
    the arguments break, in the order the source checks them. */
module AdvancedTypes {
  import opened Util

  datatype FilterType = Butterworth | ChebyshevI | ChebyshevII | Elliptic | Bessel | Fir

  datatype FilterResponse = Lowpass | Highpass | Bandpass | Bandstop | Peak | Notch

  datatype ProcessingQuality = Low | Medium | High | Ultra

  /** The `ValueError`s raised by the constructors. */
  datatype ValueError =
    | NonPositiveSampleRate
    | NonPositiveOrder
    | NoCutoffFrequencies
    | CutoffOutOfRange(freq: real)
    | EmptyCoefficients
    | BadDimensions
    | ShapeChannelMismatch
    | NonPositiveChannels
    | BadBitDepth
    | NonPositiveCenter
    | NonPositiveQ
    | GainOutOfRange
    | LengthMismatch

  // ---------------------------------------------------------------------
  // FilterSpecification

  datatype FilterSpecification = FilterSpecification(
    filterType: FilterType,
    responseType: FilterResponse,
    cutoffs: seq<real>,
    sampleRate: real,
    order: int,
    rippleDb: real,
    attenuationDb: real)

  const DefaultRippleDb: real := 0.5
  const DefaultAttenuationDb: real := 60.0

  function Nyquist(sampleRate: real): real { sampleRate / 2.0 }

  predicate CutoffInRange(freq: real, sampleRate: real)
  {
    0.0 < freq < Nyquist(sampleRate)
  }

  /** Index of the first cutoff outside (0, nyquist), if any. */
  function FirstBadCutoff(cutoffs: seq<real>, sampleRate: real): (r: Option<nat>)
    ensures r.None? <==> forall i :: 0 <= i < |cutoffs| ==> CutoffInRange(cutoffs[i], sampleRate)
    ensures r.Some? ==> r.value < |cutoffs| && !CutoffInRange(cutoffs[r.value], sampleRate)
    ensures r.Some? ==> forall i :: 0 <= i < r.value ==> CutoffInRange(cutoffs[i], sampleRate)
  {
    if cutoffs == [] then None
    else if !CutoffInRange(cutoffs[0], sampleRate) then Some(0)
    else match FirstBadCutoff(cutoffs[1..], sampleRate)
      case None => None
      case Some(j) => Some(j + 1)
  }

  predicate ValidSpecification(sampleRate: real, order: int, cutoffs: seq<real>)
  {
    sampleRate > 0.0 && order > 0 && |cutoffs| > 0
    && forall i :: 0 <= i < |cutoffs| ==> CutoffInRange(cutoffs[i], sampleRate)
  }

  /** `FilterSpecification(...)`: succeeds iff the rate and order are positive
      and every (of at least one) cutoff lies strictly between 0 and nyquist. */
  function NewFilterSpecification(filterType: FilterType, responseType: FilterResponse,
                                  cutoffs: seq<real>, sampleRate: real, order: int,
                                  rippleDb: real, attenuationDb: real)
    : (r: Result<FilterSpecification, ValueError>)
    ensures r.Ok? <==> ValidSpecification(sampleRate, order, cutoffs)
    ensures r.Ok? ==> r.value == FilterSpecification(filterType, responseType, cutoffs,
                                                     sampleRate, order, rippleDb, attenuationDb)
    ensures sampleRate <= 0.0 ==> r == Err(NonPositiveSampleRate)
    ensures sampleRate > 0.0 && order <= 0 ==> r == Err(NonPositiveOrder)
    ensures sampleRate > 0.0 && order > 0 && cutoffs == [] ==> r == Err(NoCutoffFrequencies)
    ensures r.Err? && r.error.CutoffOutOfRange? ==>
      exists i :: 0 <= i < |cutoffs| && cutoffs[i] == r.error.freq
                  && !CutoffInRange(cutoffs[i], sampleRate)
    ensures sampleRate > 0.0 && order > 0 && cutoffs != [] && FirstBadCutoff(cutoffs, sampleRate).Some? ==>
      r == Err(CutoffOutOfRange(cutoffs[FirstBadCutoff(cutoffs, sampleRate).value]))
  {
    if sampleRate <= 0.0 then Err(NonPositiveSampleRate)
    else if order <= 0 then Err(NonPositiveOrder)
    else if cutoffs == [] then Err(NoCutoffFrequencies)
    else match FirstBadCutoff(cutoffs, sampleRate)
      case Some(i) => Err(CutoffOutOfRange(cutoffs[i]))
      case None => Ok(FilterSpecification(filterType, responseType, cutoffs,
                                          sampleRate, order, rippleDb, attenuationDb))
  }

  // ---------------------------------------------------------------------
  // FilterCoefficients

  datatype FilterCoefficients = FilterCoefficients(numerator: seq<real>, denominator: seq<real>, gain: real)

  function DivideAll(xs: seq<real>, d: real): (r: seq<real>)
    requires d != 0.0
    ensures |r| == |xs|
    ensures forall i :: 0 <= i < |xs| ==> r[i] == xs[i] / d
  {
    if xs == [] then [] else [xs[0] / d] + DivideAll(xs[1..], d)
  }

  /** `FilterCoefficients(...)`: empty arrays are refused; otherwise both
      arrays are divided by the leading denominator coefficient unless it is
      already 1. A zero leading coefficient is outside the model. */
  function NewFilterCoefficients(numerator: seq<real>, denominator: seq<real>, gain: real)
    : (r: Result<FilterCoefficients, ValueError>)
    requires denominator != [] ==> denominator[0] != 0.0
    ensures r.Err? <==> numerator == [] || denominator == []
    ensures r.Err? ==> r.error == EmptyCoefficients
    ensures r.Ok? ==> |r.value.numerator| == |numerator| && |r.value.denominator| == |denominator|
    ensures r.Ok? ==> r.value.denominator[0] == 1.0 && r.value.gain == gain
    ensures r.Ok? ==> forall i :: 0 <= i < |numerator| ==>
      r.value.numerator[i] * denominator[0] == numerator[i]
    ensures r.Ok? ==> forall i :: 0 <= i < |denominator| ==>
      r.value.denominator[i] * denominator[0] == denominator[i]
  {
    if numerator == [] || denominator == [] then Err(EmptyCoefficients)
    else if denominator[0] == 1.0 then Ok(FilterCoefficients(numerator, denominator, gain))
    else
      var d := denominator[0];
      Ok(FilterCoefficients(DivideAll(numerator, d), DivideAll(denominator, d), gain))
  }

  /** Normalised coefficients are a fixed point of normalisation. */
  lemma NormalizedIsFixedPoint(c: FilterCoefficients)
    requires c.numerator != [] && c.denominator != [] && c.denominator[0] == 1.0
    ensures NewFilterCoefficients(c.numerator, c.denominator, c.gain) == Ok(c)
  {
  }

  // ---------------------------------------------------------------------
  // AudioBuffer

  /** The shape of the numpy array behind a buffer: its frame count, and for a
      2-D array the column count; `OtherRank` stands for any other dimension. */
  datatype Shape = OneD(frames: nat) | TwoD(frames: nat, columns: nat) | OtherRank(frames: nat)

  datatype AudioBuffer = AudioBuffer(shape: Shape, sampleRate: real, channels: int,
                                     bitDepth: int, timestamp: real, bufferId: Option<string>)

  predicate ValidBitDepth(b: int) { b == 8 || b == 16 || b == 24 || b == 32 }

  predicate ValidBuffer(shape: Shape, sampleRate: real, channels: int, bitDepth: int)
  {
    !shape.OtherRank?
    && (shape.TwoD? ==> shape.columns == channels)
    && sampleRate > 0.0 && channels > 0 && ValidBitDepth(bitDepth)
  }

  /** `AudioBuffer(...)`: valid iff the array is 1-D or 2-D with one column
      per channel, the rate and channel count are positive and the bit depth
      is 8, 16, 24 or 32; the first broken rule is reported. */
  function NewAudioBuffer(shape: Shape, sampleRate: real, channels: int, bitDepth: int,
                          timestamp: real, bufferId: Option<string>)
    : (r: Result<AudioBuffer, ValueError>)
    ensures r.Ok? <==> ValidBuffer(shape, sampleRate, channels, bitDepth)
    ensures r.Ok? ==> r.value == AudioBuffer(shape, sampleRate, channels, bitDepth, timestamp, bufferId)
    ensures shape.OtherRank? ==> r == Err(BadDimensions)
    ensures shape.TwoD? && shape.columns != channels ==> r == Err(ShapeChannelMismatch)
    ensures var shapeOk := !shape.OtherRank? && !(shape.TwoD? && shape.columns != channels);
      && (shapeOk && sampleRate <= 0.0 ==> r == Err(NonPositiveSampleRate))
      && (shapeOk && sampleRate > 0.0 && channels <= 0 ==> r == Err(NonPositiveChannels))
      && (shapeOk && sampleRate > 0.0 && channels > 0 && !ValidBitDepth(bitDepth) ==> r == Err(BadBitDepth))
  {
    if shape.OtherRank? then Err(BadDimensions)
    else if shape.TwoD? && shape.columns != channels then Err(ShapeChannelMismatch)
    else if sampleRate <= 0.0 then Err(NonPositiveSampleRate)
    else if channels <= 0 then Err(NonPositiveChannels)
    else if !ValidBitDepth(bitDepth) then Err(BadBitDepth)
    else Ok(AudioBuffer(shape, sampleRate, channels, bitDepth, timestamp, bufferId))
  }

  /** `duration_seconds`: frames over the sample rate. */
  function Duration(b: AudioBuffer): (d: real)
    requires b.sampleRate > 0.0
    ensures d >= 0.0
    ensures d * b.sampleRate == b.shape.frames as real
  {
    b.shape.frames as real / b.sampleRate
  }

  predicate IsMono(b: AudioBuffer) { b.channels == 1 || b.shape.OneD? }

  predicate IsStereo(b: AudioBuffer) { b.channels == 2 }

  /** A valid 2-D stereo buffer is never reported as mono. */
  lemma StereoTwoDNotMono(b: AudioBuffer)
    requires ValidBuffer(b.shape, b.sampleRate, b.channels, b.bitDepth)
    requires b.shape.TwoD? && IsStereo(b)
    ensures !IsMono(b) && b.shape.columns == 2
  {
  }

  // ---------------------------------------------------------------------
  // FrequencyBand

  datatype FrequencyBand = FrequencyBand(center: real, gainDb: real, q: real, bandwidth: Option<real>)

  predicate ValidBand(center: real, gainDb: real, q: real)
  {
    center > 0.0 && q > 0.0 && -24.0 <= gainDb <= 24.0
  }

  /** `FrequencyBand(...)`: centre and Q must be positive and |gain| ≤ 24 dB. */
  function NewFrequencyBand(center: real, gainDb: real, q: real, bandwidth: Option<real>)
    : (r: Result<FrequencyBand, ValueError>)
    ensures r.Ok? <==> ValidBand(center, gainDb, q)
    ensures r.Ok? ==> r.value == FrequencyBand(center, gainDb, q, bandwidth)
    ensures center <= 0.0 ==> r == Err(NonPositiveCenter)
    ensures center > 0.0 && q <= 0.0 ==> r == Err(NonPositiveQ)
  {
    if center <= 0.0 then Err(NonPositiveCenter)
    else if q <= 0.0 then Err(NonPositiveQ)
    else if gainDb < -24.0 || gainDb > 24.0 then Err(GainOutOfRange)
    else Ok(FrequencyBand(center, gainDb, q, bandwidth))
  }

  /** Python's truthiness of the optional bandwidth: set and non-zero. */
  predicate HasBandwidth(b: FrequencyBand)
  {
    b.bandwidth.Some? && b.bandwidth.value != 0.0
  }

  /** The factor 1 + 1/(2Q) by which the edges sit around the centre. */
  function QSpread(q: real): (k: real)
    requires q > 0.0
    ensures k > 1.0
  {
    1.0 + 1.0 / (2.0 * q)
  }

  function LowFrequency(b: FrequencyBand): real
    requires b.q > 0.0
  {
    if HasBandwidth(b) then b.center - b.bandwidth.value / 2.0
    else b.center / QSpread(b.q)
  }

  function HighFrequency(b: FrequencyBand): real
    requires b.q > 0.0
  {
    if HasBandwidth(b) then b.center + b.bandwidth.value / 2.0
    else b.center * QSpread(b.q)
  }

  /** Without a bandwidth the band edges bracket the centre strictly, and
      the centre is their geometric mean. */
  lemma EdgesBracketCenter(b: FrequencyBand)
    requires ValidBand(b.center, b.gainDb, b.q) && !HasBandwidth(b)
    ensures 0.0 < LowFrequency(b) < b.center < HighFrequency(b)
    ensures LowFrequency(b) * HighFrequency(b) == b.center * b.center
  {
    var k := QSpread(b.q);
    DivByGreaterThanOne(b.center, k);
    assert b.center * k - b.center == b.center * (k - 1.0);
  }

  lemma DivByGreaterThanOne(c: real, k: real)
    requires c > 0.0 && k > 1.0
    ensures 0.0 < c / k < c
  {
    var lo := c / k;
    assert lo * k == c;
    assert c - lo == lo * (k - 1.0);
  }

  /** With a positive bandwidth the edges are centre ± bandwidth/2, so they
      are exactly one bandwidth apart. */
  lemma BandwidthEdges(b: FrequencyBand)
    requires b.q > 0.0 && HasBandwidth(b) && b.bandwidth.value > 0.0
    ensures LowFrequency(b) < b.center < HighFrequency(b)
    ensures HighFrequency(b) - LowFrequency(b) == b.bandwidth.value
  {
  }

  // ---------------------------------------------------------------------
  // SpectrumAnalysis

  datatype SpectrumAnalysis = SpectrumAnalysis(frequencies: seq<real>, magnitudes: seq<real>,
                                               phases: seq<real>, sampleRate: real,
                                               windowSize: int, windowType: string)

  /** `SpectrumAnalysis(...)`: the three arrays must have the same length. */
  function NewSpectrumAnalysis(frequencies: seq<real>, magnitudes: seq<real>, phases: seq<real>,
                               sampleRate: real, windowSize: int, windowType: string)
    : (r: Result<SpectrumAnalysis, ValueError>)
    ensures r.Ok? <==> |frequencies| == |magnitudes| && |frequencies| == |phases|
    ensures r.Err? ==> r.error == LengthMismatch
    ensures r.Ok? ==> r.value.frequencies == frequencies && r.value.magnitudes == magnitudes
                      && r.value.phases == phases
  {
    if |frequencies| != |magnitudes| || |frequencies| != |phases| then Err(LengthMismatch)
    else Ok(SpectrumAnalysis(frequencies, magnitudes, phases, sampleRate, windowSize, windowType))
  }

  /** `frequency_resolution`: sample rate over window size. */
  function FrequencyResolution(s: SpectrumAnalysis): (r: real)
    requires s.windowSize != 0
    ensures r * s.windowSize as real == s.sampleRate
  {
    s.sampleRate / s.windowSize as real
  }
}

=== FILE: advanced_processor.dfy ===
/** The advanced audio processor (audio/processing/advanced_processor.py):
    per-guild equalizers, noise profiles, quality settings and counters,
    and the adaptive quality tables of `AudioQualityManager`. Spectral
    subtraction is a parameter `denoise`; `lfilter` is as in the filter bank. */
module AdvancedProcessing {
  import opened Util
  import opened AdvancedTypes
  import opened DigitalFilters
  import opened ParametricEq

  // ---------------------------------------------------------------------
  // AudioQualityManager

  function QualityRank(q: ProcessingQuality): nat
  {
    match q
    case Low => 0
    case Medium => 1
    case High => 2
    case Ultra => 3
  }

  const CpuHigh: real := 80.0
  const CpuMedium: real := 60.0
  const MemoryHigh: real := 85.0
  const MemoryMedium: real := 70.0

  /** `get_optimal_quality`: heavy load gives LOW, moderate load MEDIUM,
      anything lighter HIGH; ULTRA is never chosen. */
  function OptimalQuality(cpu: real, memory: real): (q: ProcessingQuality)
    ensures q != Ultra
    ensures q == Low <==> cpu >= CpuHigh || memory >= MemoryHigh
    ensures q == Medium <==> !(cpu >= CpuHigh || memory >= MemoryHigh) && (cpu >= CpuMedium || memory >= MemoryMedium)
    ensures q == High <==> cpu < CpuMedium && memory < MemoryMedium
  {
    if cpu >= CpuHigh || memory >= MemoryHigh then Low
    else if cpu >= CpuMedium || memory >= MemoryMedium then Medium
    else High
  }

  /** More load never buys a better quality. */
  lemma OptimalQualityMonotone(cpu1: real, memory1: real, cpu2: real, memory2: real)
    requires cpu1 <= cpu2 && memory1 <= memory2
    ensures QualityRank(OptimalQuality(cpu2, memory2)) <= QualityRank(OptimalQuality(cpu1, memory1))
  {
  }

  datatype ProcessingParameters = ProcessingParameters(
    windowSize: nat, overlap: real, filterOrderMax: nat, eqBandsMax: nat, noiseReductionAlpha: real)

  /** `adapt_processing_parameters`. */
  function ParametersFor(q: ProcessingQuality): ProcessingParameters
  {
    match q
    case Low => ProcessingParameters(1024, 0.25, 8, 3, 1.5)
    case Medium => ProcessingParameters(2048, 0.5, 12, 6, 2.0)
    case High => ProcessingParameters(4096, 0.75, 16, 10, 2.5)
    case Ultra => ProcessingParameters(8192, 0.875, 20, 15, 3.0)
  }

  /** Every parameter strictly grows with the quality level, and the filter
      order cap never exceeds what the filter designer accepts. */
  lemma ParametersRiseWithQuality(a: ProcessingQuality, b: ProcessingQuality)
    requires QualityRank(a) < QualityRank(b)
    ensures ParametersFor(a).windowSize < ParametersFor(b).windowSize
    ensures ParametersFor(a).overlap < ParametersFor(b).overlap
    ensures ParametersFor(a).filterOrderMax < ParametersFor(b).filterOrderMax <= 20
    ensures ParametersFor(a).eqBandsMax < ParametersFor(b).eqBandsMax
    ensures ParametersFor(a).noiseReductionAlpha < ParametersFor(b).noiseReductionAlpha
  {
  }

  /** The `alpha_map` of `_apply_noise_reduction`. */
  function NoiseAlpha(q: ProcessingQuality): real
  {
    match q
    case Low => 1.5
    case Medium => 2.0
    case High => 2.5
    case Ultra => 3.0
  }

  /** The noise-reduction strength and the quality table's alpha agree. */
  lemma NoiseAlphaMatchesParameters(q: ProcessingQuality)
    ensures NoiseAlpha(q) == ParametersFor(q).noiseReductionAlpha
    ensures 1.5 <= NoiseAlpha(q) <= 3.0
  {
  }

  // ---------------------------------------------------------------------
  // AdvancedAudioProcessor

  /** Spectral subtraction of a noise profile with strength alpha. */
  type Denoiser = (seq<real>, seq<real>, real) -> seq<real>

  /** The per-guild counters of `_update_guild_stats` (times left out). */
  datatype GuildStats = GuildStats(processingCount: nat, totalSamplesProcessed: nat, lastBufferSize: nat)

  function BumpStats(s: Option<GuildStats>, size: nat): (r: GuildStats)
    ensures r.processingCount == (if s.Some? then s.value.processingCount else 0) + 1
    ensures r.totalSamplesProcessed == (if s.Some? then s.value.totalSamplesProcessed else 0) + size
    ensures r.lastBufferSize == size
  {
    match s
    case None => GuildStats(1, size, size)
    case Some(st) => GuildStats(st.processingCount + 1, st.totalSamplesProcessed + size, size)
  }

  class AdvancedAudioProcessor {
    const sampleRate: real
    var equalizers: map<int, ParametricEqualizer>
    var noiseProfiles: map<int, seq<real>>
    var qualitySettings: map<int, ProcessingQuality>
    var processingStats: map<int, GuildStats>
    var processingCount: nat

    ghost function Equalizers(): set<object>
      reads this
    {
      set g | g in equalizers :: equalizers[g]
    }

    ghost function Banks(): set<object>
      reads this, Equalizers()
    {
      set g | g in equalizers :: equalizers[g].bank
    }

    /** Each guild has its own equalizer object, and each is consistent. */
    ghost predicate Valid()
      reads this, Equalizers(), Banks()
    {
      (forall g, h :: g in equalizers && h in equalizers && g != h ==> equalizers[g] != equalizers[h])
      && (forall g :: g in equalizers ==> equalizers[g].Valid())
    }

    constructor(sampleRate: real)
      ensures Valid()
      ensures equalizers == map[] && noiseProfiles == map[] && qualitySettings == map[]
      ensures processingStats == map[] && processingCount == 0
    {
      this.sampleRate := sampleRate;
      equalizers := map[];
      noiseProfiles := map[];
      qualitySettings := map[];
      processingStats := map[];
      processingCount := 0;
    }

    /** The stored quality, HIGH when none was set. */
    function QualityOf(g: int): (q: ProcessingQuality)
      reads this
      ensures g !in qualitySettings ==> q == High
      ensures g in qualitySettings ==> q == qualitySettings[g]
    {
      if g in qualitySettings then qualitySettings[g] else High
    }

    method SetQuality(g: int, q: ProcessingQuality)
      modifies this
      ensures qualitySettings == old(qualitySettings)[g := q]
      ensures equalizers == old(equalizers) && noiseProfiles == old(noiseProfiles)
      ensures processingStats == old(processingStats)
    {
      qualitySettings := qualitySettings[g := q];
    }

    method SetNoiseProfile(g: int, profile: seq<real>)
      modifies this
      ensures noiseProfiles == old(noiseProfiles)[g := profile]
      ensures equalizers == old(equalizers) && qualitySettings == old(qualitySettings)
      ensures processingStats == old(processingStats)
    {
      noiseProfiles := noiseProfiles[g := profile];
    }

    /** `_get_or_create_equalizer`: a guild's equalizer is created once, at
        the processor's sample rate, and then always returned. */
    method GetOrCreateEqualizer(g: int) returns (eq: ParametricEqualizer)
      requires Valid()
      modifies this
      ensures Valid()
      ensures g in old(equalizers) ==> eq == old(equalizers)[g] && equalizers == old(equalizers)
      ensures g !in old(equalizers) ==> fresh(eq) && fresh(eq.bank) && equalizers == old(equalizers)[g := eq]
                                        && eq.bands == map[] && eq.sampleRate == sampleRate
      ensures eq.Valid() && g in equalizers && equalizers[g] == eq
      ensures noiseProfiles == old(noiseProfiles) && qualitySettings == old(qualitySettings)
      ensures processingStats == old(processingStats) && processingCount == old(processingCount)
    {
      if g in equalizers {
        eq := equalizers[g];
      } else {
        eq := new ParametricEqualizer(sampleRate);
        equalizers := equalizers[g := eq];
      }
    }

    /** `apply_eq_preset`: the guild's equalizer is reset and then holds
        exactly the preset's bands, under ids 1, 2, ... in preset order; no
        other guild's equalizer changes. */
    method ApplyEqPreset(g: int, name: string, designBand: BandDesigner) returns (ok: bool)
      requires Valid()
      modifies this, Equalizers()
      ensures Valid() && ok
      ensures g in equalizers && equalizers.Keys == old(equalizers).Keys + {g}
      ensures g in old(equalizers) ==> equalizers[g] == old(equalizers)[g]
      ensures g !in old(equalizers) ==> fresh(equalizers[g]) && equalizers[g].sampleRate == sampleRate
      ensures equalizers == old(equalizers)[g := equalizers[g]]
      ensures var eq, preset := equalizers[g], GetPreset(name);
        && eq.bands == Extend(map[], 1, preset)
        && eq.filters == Extend(map[], 1, BandFilters(preset, designBand))
        && eq.bandIds == IdRange(1, |preset|) && eq.bank.order == IdRange(1, |preset|)
        && eq.nextBandId == |preset| + 1
      ensures forall h :: h in old(equalizers) && h != g ==>
        var e := old(equalizers)[h];
        && e.bands == old(e.bands) && e.filters == old(e.filters) && e.bandIds == old(e.bandIds)
        && e.nextBandId == old(e.nextBandId) && e.bank == old(e.bank) && e.bank.order == old(e.bank.order)
      ensures noiseProfiles == old(noiseProfiles) && qualitySettings == old(qualitySettings)
      ensures processingStats == old(processingStats) && processingCount == old(processingCount)
    {
      var eq := GetOrCreateEqualizer(g);
      eq.LoadBands(GetPreset(name), designBand);
      ok := true;
    }

    /** `clear_guild_data`: all four per-guild entries are gone. */
    method ClearGuildData(g: int)
      requires Valid()
      modifies this
      ensures Valid()
      ensures equalizers == old(equalizers) - {g} && noiseProfiles == old(noiseProfiles) - {g}
      ensures qualitySettings == old(qualitySettings) - {g} && processingStats == old(processingStats) - {g}
      ensures processingCount == old(processingCount)
    {
      equalizers := equalizers - {g};
      noiseProfiles := noiseProfiles - {g};
      qualitySettings := qualitySettings - {g};
      processingStats := processingStats - {g};
    }

    /** `process_audio_buffer` on mono samples: noise reduction when the guild
        has a profile (at its quality's strength), then the guild's EQ when it
        has bands; the guild and global counters move on by one call. */
    method ProcessAudioBuffer(g: int, x: seq<real>, denoise: Denoiser, lfilter: LFilter)
      returns (y: seq<real>)
      requires Valid()
      modifies this
      ensures Valid() && g in equalizers
      ensures g in old(equalizers) ==> equalizers == old(equalizers)
      ensures g !in old(equalizers) ==> equalizers == old(equalizers)[g := equalizers[g]]
                                        && fresh(equalizers[g]) && equalizers[g].bands == map[]
      ensures var z := if g in noiseProfiles then denoise(x, noiseProfiles[g], NoiseAlpha(QualityOf(g))) else x;
              var eq := equalizers[g];
              y == (if eq.bands == map[] then z else Series(eq.bank.order, eq.filters, z, lfilter))
      ensures processingStats == old(processingStats)[g := BumpStats(
        if g in old(processingStats) then Some(old(processingStats)[g]) else None, |x|)]
      ensures processingCount == old(processingCount) + 1
      ensures noiseProfiles == old(noiseProfiles) && qualitySettings == old(qualitySettings)
    {
      var eq := GetOrCreateEqualizer(g);
      y := x;
      if g in noiseProfiles {
        y := denoise(y, noiseProfiles[g], NoiseAlpha(QualityOf(g)));
      }
      y := eq.Process(y, lfilter);
      RecordCall(g, |x|);
    }

    /** `apply_eq_preset` followed by `process_audio_buffer` with the
        designer as written: every band is a pass-through, so the EQ stage
        leaves the (denoised) signal exactly as it was. */
    method PresetThenProcessAsWritten(g: int, name: string, x: seq<real>, denoise: Denoiser, lfilter: LFilter)
      returns (y: seq<real>)
      requires Valid()
      requires forall s :: lfilter(AllPass.coefficients, s) == s
      modifies this, Equalizers()
      ensures Valid()
      ensures y == if g in noiseProfiles then denoise(x, noiseProfiles[g], NoiseAlpha(QualityOf(g))) else x
    {
      var _ := ApplyEqPreset(g, name, DesignAsWritten);
      LoadedFiltersAsWritten(1, GetPreset(name));
      ghost var eq := equalizers[g];
      AllPassCascadeIsIdentity(eq.bank.order, eq.filters,
        if g in noiseProfiles then denoise(x, noiseProfiles[g], NoiseAlpha(QualityOf(g))) else x, lfilter);
      y := ProcessAudioBuffer(g, x, denoise, lfilter);
    }

    /** `_update_guild_stats` and `_update_performance_metrics`. */
    method RecordCall(g: int, size: nat)
      requires Valid()
      modifies this
      ensures Valid()
      ensures processingStats == old(processingStats)[g := BumpStats(
        if g in old(processingStats) then Some(old(processingStats)[g]) else None, size)]
      ensures processingCount == old(processingCount) + 1
      ensures equalizers == old(equalizers) && noiseProfiles == old(noiseProfiles)
      ensures qualitySettings == old(qualitySettings)
    {
      var prev := if g in processingStats then Some(processingStats[g]) else None;
      processingStats := processingStats[g := BumpStats(prev, size)];
      processingCount := processingCount + 1;
    }

    /** The guild-specific part of `get_processing_stats`. */
    method GuildSummary(g: int) returns (quality: ProcessingQuality, hasNoiseProfile: bool, eqBandCount: nat)
      ensures quality == QualityOf(g)
      ensures hasNoiseProfile <==> g in noiseProfiles
      ensures eqBandCount == (if g in equalizers then |equalizers[g].bands| else 0)
    {
      quality := QualityOf(g);
      hasNoiseProfile := g in noiseProfiles;
      eqBandCount := if g in equalizers then equalizers[g].BandCount() else 0;
    }
  }
}

=== FILE: alert_manager.dfy ===
/** Alert management: the throttle keyed by guild, severity and title, the
    send decision, the mapping of health checks and recovery results to
    alert severities, and maintenance announcements to many guilds.

    Whether a guild has an announcement channel and whether Discord accepts
    the message are parameters (`Delivery`). */
module Alerts {
  import opened Util
  import opened MonitoringTypes
  import Recovery

  const ThrottleSeconds: real := 300.0

  datatype AlertMessage = AlertMessage(guild: Option<int>, severity: AlertSeverity, title: string, message: string)

  /** What happens when a guild alert is handed to Discord. */
  datatype Delivery = NoChannel | SendFailed | Delivered

  // -----------------------------------------------------------------------
  // Throttle keys

  /** `str(guild_id)`, "None" for system-wide alerts. */
  function GuildText(g: Option<int>): (r: string)
    ensures ':' !in r
  {
    match g
    case None => "None"
    case Some(id) =>
      IntToStringChars(id);
      IntToString(id)
  }

  /** `_generate_alert_key`: "guild:severity:title". */
  function AlertKey(a: AlertMessage): string
  {
    GuildText(a.guild) + [':'] + (SeverityValue(a.severity) + [':'] + a.title)
  }

  lemma IntToStringStart(n: int)
    ensures IntToString(n) != [] && (IntToString(n)[0] == '-' || IsDigit(IntToString(n)[0]))
  {
  }

  lemma GuildTextInjective(a: Option<int>, b: Option<int>)
    requires GuildText(a) == GuildText(b)
    ensures a == b
  {
    if a.Some? {
      IntToStringStart(a.value);
    }
    if b.Some? {
      IntToStringStart(b.value);
    }
    assert a.None? <==> GuildText(a)[0] == 'N';
    assert b.None? <==> GuildText(b)[0] == 'N';
    if a.Some? && b.Some? {
      IntToStringInjective(a.value, b.value);
    }
  }

  /** Two alerts share a throttle key exactly when they agree on guild,
      severity and title. */
  lemma AlertKeyIff(a: AlertMessage, b: AlertMessage)
    ensures AlertKey(a) == AlertKey(b) <==> a.guild == b.guild && a.severity == b.severity && a.title == b.title
  {
    if AlertKey(a) == AlertKey(b) {
      var ga, gb := GuildText(a.guild), GuildText(b.guild);
      var sa, sb := SeverityValue(a.severity), SeverityValue(b.severity);
      SplitAtFirst(ga, sa + [':'] + a.title, gb, sb + [':'] + b.title, ':');
      SplitAtFirst(sa, a.title, sb, b.title, ':');
      GuildTextInjective(a.guild, b.guild);
      SeverityValueInjective(a.severity, b.severity);
    }
  }

  // -----------------------------------------------------------------------
  // Sending

  /** Only a truthy guild id (present and not 0) addresses a guild channel. */
  predicate IsGuildAlert(a: AlertMessage)
  {
    a.guild.Some? && a.guild.value != 0
  }

  predicate Throttled(h: map<string, real>, key: string, now: real)
  {
    key in h && now - h[key] < ThrottleSeconds
  }

  datatype SendResult = SendResult(sent: bool, history: map<string, real>)

  /** `send_alert`: a throttled key is refused; a system-wide alert is
      reported sent without being recorded; a guild alert is recorded only
      once Discord accepts it. */
  function Send(h: map<string, real>, a: AlertMessage, now: real, d: Delivery): (r: SendResult)
    ensures Throttled(h, AlertKey(a), now) ==> r == SendResult(false, h)
    ensures !Throttled(h, AlertKey(a), now) && !IsGuildAlert(a) ==> r == SendResult(true, h)
    ensures !Throttled(h, AlertKey(a), now) && IsGuildAlert(a) ==>
      (r.sent <==> d == Delivered)
      && r.history == (if d == Delivered then h[AlertKey(a) := now] else h)
  {
    var key := AlertKey(a);
    if Throttled(h, key, now) then SendResult(false, h)
    else if !IsGuildAlert(a) then SendResult(true, h)
    else if d != Delivered then SendResult(false, h)
    else SendResult(true, h[key := now])
  }

  /** After a guild alert is delivered, the same alert (same guild, severity
      and title) is refused for the next five minutes, whatever its text. */
  lemma RepeatWithinWindowThrottled(h: map<string, real>, a: AlertMessage, b: AlertMessage,
                                    now: real, later: real, d1: Delivery, d2: Delivery)
    requires IsGuildAlert(a) && Send(h, a, now, d1).sent
    requires b.guild == a.guild && b.severity == a.severity && b.title == a.title
    requires now <= later < now + ThrottleSeconds
    ensures !Send(Send(h, a, now, d1).history, b, later, d2).sent
  {
    AlertKeyIff(a, b);
  }

  // -----------------------------------------------------------------------
  // Health and recovery alerts

  /** The severity `send_health_alert` uses; None when nothing is sent. */
  function HealthSeverity(s: HealthStatus): (r: Option<AlertSeverity>)
    ensures r.None? <==> s in {Healthy, Unknown}
    ensures s == Critical ==> r == Some(SevCritical)
    ensures s == Warning ==> r == Some(SevWarning)
    ensures s == Offline ==> r == Some(Info)
  {
    match s
    case Healthy => None
    case Unknown => None
    case Critical => Some(SevCritical)
    case Warning => Some(SevWarning)
    case Offline => Some(Info)
  }

  function IsLetter(c: char): bool
  {
    ('a' <= c <= 'z') || ('A' <= c <= 'Z')
  }

  /** The character `str.title()` puts at position `i`: a letter is upper
      case at the start of a word (the first letter after a non-letter, or
      of the text when `afterLetter` is false) and lower case after a
      letter; any other character is kept. */
  function TitleChar(s: string, i: nat, afterLetter: bool): char
    requires i < |s|
  {
    if !IsLetter(s[i]) then s[i]
    else if (if i == 0 then afterLetter else IsLetter(s[i - 1])) then LowerChar(s[i])
    else UpperChar(s[i])
  }

  function TitleFrom(s: string, afterLetter: bool): (r: string)
    ensures |r| == |s|
    ensures forall i :: 0 <= i < |s| ==> r[i] == TitleChar(s, i, afterLetter)
  {
    if s == [] then []
    else
      var rest := TitleFrom(s[1..], IsLetter(s[0]));
      var r := [TitleChar(s, 0, afterLetter)] + rest;
      assert forall i :: 1 <= i < |s| ==> r[i] == rest[i - 1] && TitleChar(s[1..], i - 1, IsLetter(s[0])) == TitleChar(s, i, afterLetter);
      r
  }

  /** Python's `str.title()` on ASCII text: each word's first letter upper
      case, the rest lower case. */
  function Title(s: string): (r: string)
    ensures |r| == |s|
    ensures forall i :: 0 <= i < |s| && IsLetter(s[i]) && (i == 0 || !IsLetter(s[i - 1])) ==> r[i] == UpperChar(s[i])
    ensures forall i :: 0 <= i < |s| && IsLetter(s[i]) && i > 0 && IsLetter(s[i - 1]) ==> r[i] == LowerChar(s[i])
    ensures forall i :: 0 <= i < |s| && !IsLetter(s[i]) ==> r[i] == s[i]
  {
    var r := TitleFrom(s, false);
    assert forall i :: 0 <= i < |s| ==> r[i] == TitleChar(s, i, false);
    r
  }

  /** The alert `send_health_alert` builds for a check, if any. */
  function HealthAlert(guild: int, c: HealthCheck): (r: Option<AlertMessage>)
    ensures r.Some? <==> c.status !in {Healthy, Unknown}
    ensures r.Some? ==>
      r.value.guild == Some(guild) && r.value.message == c.message
      && Some(r.value.severity) == HealthSeverity(c.status)
  {
    match HealthSeverity(c.status)
    case None => None
    case Some(sev) => Some(AlertMessage(Some(guild), sev, "Health Issue Detected - " + Title(c.component), c.message))
  }

  function IssueValue(t: Recovery.IssueType): string
  {
    match t
    case StreamDisconnect => "stream_disconnect"
    case StateDesync => "state_desync"
    case VoiceClientLost => "voice_client_lost"
    case StreamUnavailable => "stream_unavailable"
    case PermissionError => "permission_error"
    case UnknownError => "unknown_error"
  }

  /** `IssueType(s)`, with unknown text falling back to UNKNOWN_ERROR. */
  function IssueFromValue(s: string): Recovery.IssueType
  {
    if s == "stream_disconnect" then Recovery.StreamDisconnect
    else if s == "state_desync" then Recovery.StateDesync
    else if s == "voice_client_lost" then Recovery.VoiceClientLost
    else if s == "stream_unavailable" then Recovery.StreamUnavailable
    else if s == "permission_error" then Recovery.PermissionError
    else Recovery.UnknownError
  }

  lemma IssueValueRoundTrip(t: Recovery.IssueType)
    ensures IssueFromValue(IssueValue(t)) == t
  {
  }

  /** The emoji at the head of the recovery and maintenance titles, as the
      source file spells them: the UTF-8 bytes of U+1F527, U+1F6A8 and
      U+1F198 were read back as Windows-1252 and saved again, so each title
      starts with the four characters that reading gives, and those are what
      the alert carries and what its throttle key is built from. */
  const TitleWrench: string := [0xF0 as char, 0x178 as char, 0x201D as char, 0xA7 as char]
  const TitleSiren: string := [0xF0 as char, 0x178 as char, 0x161 as char, 0xA8 as char]
  const TitleSos: string := [0xF0 as char, 0x178 as char, 0x2020 as char, 0x2DC as char]

  /** `send_recovery_notification`: information on success, a warning on
      failure, critical once a failed attempt is the third or later. */
  function RecoveryAlert(guild: int, issue: Recovery.IssueType, success: bool, attempt: int, text: string)
    : (r: AlertMessage)
    ensures r.guild == Some(guild)
    ensures success ==> r.severity == Info
    ensures !success && attempt < 3 ==> r.severity == SevWarning
    ensures !success && attempt >= 3 ==> r.severity == SevCritical
  {
    if success then
      AlertMessage(Some(guild), Info, TitleWrench + " Auto-Recovery Successful",
                   "Successfully recovered from " + IssueValue(issue) + ": " + text)
    else
      var failed := "Failed to recover from " + IssueValue(issue) + ": " + text;
      if attempt >= 3 then
        AlertMessage(Some(guild), SevCritical, TitleSos + " Auto-Recovery Exhausted",
                     failed + " (Final attempt " + IntToString(attempt) + ")")
      else
        AlertMessage(Some(guild), SevWarning, TitleSiren + " Auto-Recovery Failed", failed)
  }

  // -----------------------------------------------------------------------
  // Event handlers

  /** `", ".join(parts)`. */
  function JoinComma(parts: seq<string>): string
  {
    if parts == [] then "" else if |parts| == 1 then parts[0] else parts[0] + ", " + JoinComma(parts[1..])
  }

  /** `handle_health_check_event`: only a warning or critical status with a
      non-empty issue list, for a truthy guild id, leads to a health alert;
      its message names the first three issues. */
  function HealthEventAlert(guild: Option<int>, status: Option<HealthStatus>, issues: seq<string>)
    : (r: Option<AlertMessage>)
    ensures r.Some? <==>
      (guild.Some? && guild.value != 0 && status.Some? && status.value in {Warning, Critical} && issues != [])
    ensures r.Some? ==> r.value.severity == (if status.value == Critical then SevCritical else SevWarning)
  {
    if guild.None? || guild.value == 0 || status.None? then None
    else if status.value in {Warning, Critical} && issues != [] then
      var shown := if |issues| <= 3 then issues else issues[..3];
      HealthAlert(guild.value, HealthCheck("guild", status.value,
        "Detected " + IntToString(|issues|) + " issue(s): " + JoinComma(shown)))
    else None
  }

  /** `handle_recovery_event`: a missing guild or issue type sends nothing;
      the attempt number defaults to 1 and the failure text to "Recovery
      completed". */
  function RecoveryEventAlert(guild: Option<int>, issueText: string, succeeded: bool,
                              attempt: Option<int>, error: Option<string>): (r: Option<AlertMessage>)
    ensures r.Some? <==> guild.Some? && guild.value != 0 && issueText != []
    ensures r.Some? ==> r.value == RecoveryAlert(guild.value, IssueFromValue(issueText), succeeded,
      if attempt.Some? then attempt.value else 1,
      if succeeded then "Recovery successful" else if error.Some? then error.value else "Recovery completed")
  {
    if guild.None? || guild.value == 0 || issueText == [] then None
    else
      Some(RecoveryAlert(guild.value, IssueFromValue(issueText), succeeded,
        if attempt.Some? then attempt.value else 1,
        if succeeded then "Recovery successful" else if error.Some? then error.value else "Recovery completed"))
  }

  // -----------------------------------------------------------------------
  // Maintenance announcements

  function AnnouncementFor(guild: int, message: string): AlertMessage
  {
    AlertMessage(Some(guild), Info, TitleWrench + " Maintenance Announcement", message)
  }

  datatype Announced = Announced(count: nat, history: map<string, real>)

  /** Sending the announcement to each target guild in turn. */
  function AnnounceAll(h: map<string, real>, targets: seq<int>, message: string, now: real,
                       deliveries: int -> Delivery): (r: Announced)
    ensures r.count <= |targets|
    decreases |targets|
  {
    if targets == [] then Announced(0, h)
    else
      var first := Send(h, AnnouncementFor(targets[0], message), now, deliveries(targets[0]));
      var rest := AnnounceAll(first.history, targets[1..], message, now, deliveries);
      Announced(rest.count + (if first.sent then 1 else 0), rest.history)
  }

  lemma AnnounceAllAppend(h: map<string, real>, targets: seq<int>, g: int, message: string, now: real,
                          deliveries: int -> Delivery)
    ensures var a := AnnounceAll(h, targets, message, now, deliveries);
      var s := Send(a.history, AnnouncementFor(g, message), now, deliveries(g));
      AnnounceAll(h, targets + [g], message, now, deliveries)
        == Announced(a.count + (if s.sent then 1 else 0), s.history)
    decreases |targets|
  {
    if targets != [] {
      var first := Send(h, AnnouncementFor(targets[0], message), now, deliveries(targets[0]));
      assert (targets + [g])[1..] == targets[1..] + [g];
      AnnounceAllAppend(first.history, targets[1..], g, message, now, deliveries);
    }
  }

  /** A repeat of the same announcement within five minutes reaches no
      guild that the first one reached. */
  lemma AnnouncementRepeatReachesNoOne(h: map<string, real>, g: int, message: string, now: real,
                                       d1: Delivery, d2: Delivery)
    ensures var first := Send(h, AnnouncementFor(g, message), now, d1);
      g != 0 && first.sent ==> !Send(first.history, AnnouncementFor(g, message), now, d2).sent
  {
    var a := AnnouncementFor(g, message);
    if g != 0 && Send(h, a, now, d1).sent {
      RepeatWithinWindowThrottled(h, a, a, now, now, d1, d2);
    }
  }

  // -----------------------------------------------------------------------
  // The manager

  class AlertManager {
    /** Alert key to the time it was last sent. */
    var history: map<string, real>

    constructor ()
      ensures history == map[]
    {
      history := map[];
    }

    method SendAlert(a: AlertMessage, now: real, d: Delivery) returns (sent: bool)
      modifies this
      ensures SendResult(sent, history) == Send(old(history), a, now, d)
    {
      var r := Send(history, a, now, d);
      sent := r.sent;
      history := r.history;
    }

    /** `send_maintenance_announcement`: to the given guilds, or to the active
        guilds when none are given; returns how many received it. */
    method SendMaintenanceAnnouncement(message: string, guilds: Option<seq<int>>, activeGuilds: seq<int>,
                                       now: real, deliveries: int -> Delivery) returns (count: nat)
      modifies this
      ensures var targets := if guilds.Some? then guilds.value else activeGuilds;
        Announced(count, history) == AnnounceAll(old(history), targets, message, now, deliveries)
        && count <= |targets|
    {
      var targets := if guilds.Some? then guilds.value else activeGuilds;
      ghost var h0 := history;
      count := 0;
      var i := 0;
      while i < |targets|
        invariant 0 <= i <= |targets|
        invariant Announced(count, history) == AnnounceAll(h0, targets[..i], message, now, deliveries)
      {
        AnnounceAllAppend(h0, targets[..i], targets[i], message, now, deliveries);
        assert targets[..i + 1] == targets[..i] + [targets[i]];
        var ok := SendAlert(AnnouncementFor(targets[i], message), now, deliveries(targets[i]));
        if ok {
          count := count + 1;
        }
        i := i + 1;
      }
      assert targets[..i] == targets;
    }

    /** `get_alert_stats`: keys ever sent and keys still throttled at `now`. */
    function AlertStats(now: real): (r: (nat, nat))
      reads this
      ensures r.1 <= r.0 == |history.Keys|
      ensures r.1 == |set k | k in history && Throttled(history, k, now)|
    {
      var active := set k | k in history && Throttled(history, k, now);
      assert active <= history.Keys;
      SubsetCardinality(active, history.Keys);
      (|history.Keys|, |active|)
    }
  }

  lemma SubsetCardinality<T>(a: set<T>, b: set<T>)
    requires a <= b
    ensures |a| <= |b|
  {
    if a != {} {
      var x :| x in a;
      SubsetCardinality(a - {x}, b - {x});
    }
  }
}

=== FILE: audio_processor.dfy ===
/** The core audio processor (audio/audio_processor.py): per-guild
    configuration with validation, start/stop bookkeeping, the CPU
    history that drives adaptive quality, the one-step quality changes
    guarded by cooldowns, the latency-based quality score and the
    per-sample enhancement pipeline. */
module AudioProcessing {
  import opened Util
  import opened AudioTypes

  /** Position of a level on the LOW < MEDIUM < HIGH < ULTRA scale. */
  function Rank(q: AudioQuality): (r: nat)
    ensures r <= 3
  {
    match q
    case Low => 0
    case Medium => 1
    case High => 2
    case Ultra => 3
  }

  /** The level `_reduce_quality` moves to: exactly one step down, LOW stays LOW. */
  function StepDown(q: AudioQuality): (r: AudioQuality)
    ensures q == Low ==> r == Low
    ensures q != Low ==> Rank(r) + 1 == Rank(q)
  {
    match q
    case Ultra => High
    case High => Medium
    case Medium => Low
    case Low => Low
  }

  /** The level `_increase_quality` moves to: exactly one step up, ULTRA stays ULTRA. */
  function StepUp(q: AudioQuality): (r: AudioQuality)
    ensures q == Ultra ==> r == Ultra
    ensures q != Ultra ==> Rank(r) == Rank(q) + 1
  {
    match q
    case Low => Medium
    case Medium => High
    case High => Ultra
    case Ultra => Ultra
  }

  /** Stepping up then down returns to the starting level below ULTRA. */
  lemma StepUpThenDown(q: AudioQuality)
    requires q != Ultra
    ensures StepDown(StepUp(q)) == q
  {
  }

  /** `_validate_config`. */
  predicate ValidConfig(c: AudioConfig)
  {
    && 0.0 <= c.masterVolume <= 1.0
    && -12.0 <= c.eqBass <= 12.0
    && -12.0 <= c.eqMid <= 12.0
    && -12.0 <= c.eqTreble <= 12.0
    && c.sampleRate in [22050, 44100, 48000]
    && c.channels in [1, 2]
    && c.bitDepth in [8, 16, 24]
  }

  /** The declared defaults pass validation, and changing only the quality
      level never makes a valid configuration invalid. */
  lemma ValidConfigFacts(c: AudioConfig, q: AudioQuality)
    ensures ValidConfig(DefaultAudioConfig())
    ensures ValidConfig(c) <==> ValidConfig(c.(quality := q))
    ensures ValidConfig(c) ==> c.sampleRate > 0 && 1 <= c.channels <= 2
  {
  }

  /** `_needs_processing_restart`: a change of any core audio parameter. */
  predicate NeedsRestart(prev: AudioConfig, next: AudioConfig)
  {
    prev.sampleRate != next.sampleRate || prev.channels != next.channels
    || prev.bitDepth != next.bitDepth || prev.quality != next.quality
  }

  /** A configuration never needs a restart against itself, and a changed
      quality level always does. */
  lemma NeedsRestartFacts(c: AudioConfig, q: AudioQuality)
    ensures !NeedsRestart(c, c)
    ensures q != c.quality ==> NeedsRestart(c, c.(quality := q))
  {
  }

  /** `_calculate_quality_score`: 1 up to 50 ms of latency, then linearly
      lower, never below 0.1. */
  function QualityScore(latencyMs: real): (r: real)
    ensures 0.1 <= r <= 1.0
    ensures latencyMs <= 50.0 ==> r == 1.0
    ensures latencyMs >= 140.0 ==> r == 0.1
  {
    var score := if latencyMs > 50.0 then MaxReal(0.1, 1.0 - (latencyMs - 50.0) / 100.0) else 1.0;
    MaxReal(0.0, MinReal(1.0, score))
  }

  /** More latency never gives a better score. */
  lemma QualityScoreAntitone(a: real, b: real)
    requires a <= b
    ensures QualityScore(b) <= QualityScore(a)
  {
  }

  /** What `_check_guild_performance` decides. */
  datatype PerformanceAction = NoChange | Reduce | Increase

  function Average(h: seq<real>): real
    requires |h| > 0
  {
    SumReal(h) / |h| as real
  }

  /** `_check_guild_performance`: act only with at least three CPU samples;
      reduce above the limit, increase below half of it (not at ULTRA). */
  function PerformanceDecision(h: seq<real>, c: AudioConfig): (a: PerformanceAction)
    ensures |h| < 3 ==> a == NoChange
    ensures a == Reduce ==> |h| >= 3 && Average(h) > c.cpuLimitPercent
    ensures a == Increase ==> |h| >= 3 && Average(h) < c.cpuLimitPercent * 0.5 && c.quality != Ultra
                              && Average(h) <= c.cpuLimitPercent
    ensures |h| >= 3 && Average(h) > c.cpuLimitPercent ==> a == Reduce
  {
    if |h| < 3 then NoChange
    else if Average(h) > c.cpuLimitPercent then Reduce
    else if Average(h) < c.cpuLimitPercent * 0.5 && c.quality != Ultra then Increase
    else NoChange
  }

  /** The quality `_reduce_quality` / `_increase_quality` switch to, given
      the decision, the current level and the seconds since the guild's last
      adjustment: None when the cooldown (10 s down, 30 s up) has not run
      out or the level is already at its end. */
  function Adjustment(a: PerformanceAction, q: AudioQuality, elapsed: real): (r: Option<AudioQuality>)
    ensures a == NoChange || elapsed < 10.0 ==> r.None?
    ensures r.Some? ==> r.value != q
    ensures r.Some? && a == Reduce ==> r.value == StepDown(q) && Rank(r.value) + 1 == Rank(q)
    ensures r.Some? && a == Increase ==> elapsed >= 30.0 && r.value == StepUp(q) && Rank(r.value) == Rank(q) + 1
    ensures a == Reduce && elapsed >= 10.0 && q != Low ==> r.Some?
    ensures a == Increase && elapsed >= 30.0 && q != Ultra ==> r.Some?
  {
    match a
    case NoChange => None
    case Reduce => if elapsed < 10.0 || q == Low then None else Some(StepDown(q))
    case Increase => if elapsed < 30.0 || q == Ultra then None else Some(StepUp(q))
  }

  // ---------------------------------------------------------------------
  // Per-sample enhancement pipeline (`_process_audio_data`).

  /** `np.clip(x * 32767, -32768, 32767).astype(int16)`. */
  function ScaleToInt16(x: real): (r: int)
    ensures -32768 <= r <= 32767
    ensures -1.0 <= x <= 1.0 ==> r == TruncToInt(x * 32767.0)
  {
    ClipInt16(x * 32767.0)
  }

  /** The gains that depend on RMS and LUFS estimates (square roots and
      logarithms) arrive as parameters: `rawNormGain`/`rawAgcGain` are the
      unclamped corrections, the three EQ gains are `10 ** (dB / 20)`. */
  datatype Gains = Gains(rawNormGain: real, rawAgcGain: real, bass: real, mid: real, treble: real)

  /** One sample (int16 units) through normalization, AGC, compression and
      master volume, in [-1, 1] units. */
  function EnhanceSample(s: int, c: AudioConfig, g: Gains): real
  {
    var x0 := s as real / 32768.0;
    var x1 := if c.normalizationEnabled then x0 * Clamp(g.rawNormGain, 0.1, 3.0) else x0;
    var x2 := if c.autoGainControl then x1 * Clamp(g.rawAgcGain, 0.5, 2.0) else x1;
    var x3 := if c.dynamicRangeCompression > 0.0 then Compress(x2, 0.7, c.dynamicRangeCompression) else x2;
    x3 * c.masterVolume
  }

  /** `_apply_simple_eq`'s gain for sample `i` of `n`: the mid gain overall,
      the bass gain on the first third, the treble gain on the last third. */
  function EqGainAt(i: nat, n: nat, g: Gains): real
  {
    var third := n / 3;
    var lo := if g.bass != 1.0 && third > 0 && i < third then g.bass else 1.0;
    var hi := if g.treble != 1.0 && third > 0 && i >= n - third then g.treble else 1.0;
    g.mid * lo * hi
  }

  /** `_process_audio_data` over int16 samples. */
  function ProcessAudioData(samples: seq<int>, c: AudioConfig, g: Gains): (out: seq<int>)
    ensures |out| == |samples|
    ensures samples == [] ==> out == []
    ensures forall i :: 0 <= i < |out| ==> -32768 <= out[i] <= 32767
  {
    seq(|samples|, i requires 0 <= i < |samples| => ProcessedSampleAt(samples, i, c, g))
  }

  /** With normalization, AGC, compression and EQ off and the master volume
      at 1, the pipeline divides by 32768 and multiplies by 32767 before the
      cast, so every non-zero int16 sample moves one step toward zero. */
  lemma NeutralProcessingStepsTowardZero(samples: seq<int>, c: AudioConfig, g: Gains)
    requires !c.normalizationEnabled && !c.autoGainControl && c.dynamicRangeCompression <= 0.0
    requires !c.eqEnabled && c.masterVolume == 1.0
    requires forall i :: 0 <= i < |samples| ==> -32768 <= samples[i] <= 32767
    ensures var out := ProcessAudioData(samples, c, g);
      forall i :: 0 <= i < |samples| ==>
        out[i] == if samples[i] > 0 then samples[i] - 1 else if samples[i] < 0 then samples[i] + 1 else 0
  {
    var out := ProcessAudioData(samples, c, g);
    forall i | 0 <= i < |samples|
      ensures out[i] == if samples[i] > 0 then samples[i] - 1 else if samples[i] < 0 then samples[i] + 1 else 0
    {
      NeutralSample(samples[i]);
    }
  }

  lemma NeutralSample(s: int)
    requires -32768 <= s <= 32767
    ensures ScaleToInt16(s as real / 32768.0) == if s > 0 then s - 1 else if s < 0 then s + 1 else 0
  {
    var x := s as real / 32768.0;
    assert -1.0 <= x <= 1.0;
    assert x * 32767.0 == s as real - x;
    if s > 0 {
      assert (s - 1) as real < x * 32767.0 < s as real;
    } else if s < 0 {
      assert s as real < x * 32767.0 <= (s + 1) as real;
    }
  }

  /** `_process_audio_data` on the bytes it is handed: an odd byte count makes
      `np.frombuffer` raise and the `except` hands the input back untouched;
      otherwise the int16 samples are processed and written back, so the
      output bytes decode to `ProcessAudioData` of the input's samples
      (empty input gives empty output). */
  function ProcessAudioBytes(data: seq<uint8>, c: AudioConfig, g: Gains): (out: seq<uint8>)
    ensures |out| == |data|
    ensures |data| % 2 == 1 ==> out == data
    ensures |data| % 2 == 0 ==> FromBuffer(out) == Some(ProcessAudioData(FromBuffer(data).value, c, g))
  {
    match FromBuffer(data)
    case None => data
    case Some(samples) =>
      var processed := ProcessAudioData(samples, c, g);
      FromBufferToBytes(processed);
      ToBytes(processed)
  }

  /** Output sample `i`: the enhanced sample times its EQ gain, back in int16. */
  function ProcessedSampleAt(samples: seq<int>, i: nat, c: AudioConfig, g: Gains): (r: int)
    requires i < |samples|
    ensures -32768 <= r <= 32767
  {
    ScaleToInt16(EnhanceSample(samples[i], c, g) * (if c.eqEnabled then EqGainAt(i, |samples|, g) else 1.0))
  }

  // ---------------------------------------------------------------------

  class AudioProcessor {
    var processingActive: map<int, bool>
    var configs: map<int, AudioConfig>
    var metrics: map<int, AudioMetrics>
    var cpuHistory: map<int, seq<real>>
    var qualityCooldown: map<int, real>
    var buffers: map<int, seq<uint8>>
    var bufferLocks: set<int>

    /** CPU histories never hold more than ten samples. */
    ghost predicate Valid()
      reads this
    {
      forall g :: g in cpuHistory ==> |cpuHistory[g]| <= 10
    }

    constructor ()
      ensures Valid()
      ensures processingActive == map[] && configs == map[] && metrics == map[]
      ensures cpuHistory == map[] && qualityCooldown == map[] && buffers == map[] && bufferLocks == {}
    {
      processingActive, configs, metrics := map[], map[], map[];
      cpuHistory, qualityCooldown, buffers, bufferLocks := map[], map[], map[], {};
    }

    predicate IsActive(g: int)
      reads this
    {
      g in processingActive && processingActive[g]
    }

    /** `start_processing`: idempotent; fresh buffer, lock and CPU history. */
    method StartProcessing(g: int) returns (ok: bool)
      requires Valid()
      modifies this
      ensures Valid() && ok
      ensures old(IsActive(g)) ==> unchanged(this)
      ensures !old(IsActive(g)) ==>
        && processingActive == old(processingActive)[g := true]
        && buffers == old(buffers)[g := []]
        && bufferLocks == old(bufferLocks) + {g}
        && cpuHistory == old(cpuHistory)[g := []]
        && configs == (if g in old(configs) then old(configs) else old(configs)[g := DefaultAudioConfig()])
        && metrics == old(metrics) && qualityCooldown == old(qualityCooldown)
    {
      if IsActive(g) {
        return true;
      }
      processingActive := processingActive[g := true];
      buffers := buffers[g := []];
      bufferLocks := bufferLocks + {g};
      cpuHistory := cpuHistory[g := []];
      if g !in configs {
        configs := configs[g := DefaultAudioConfig()];
      }
      return true;
    }

    /** `stop_processing`: idempotent; drops the buffer, lock and CPU history. */
    method StopProcessing(g: int) returns (ok: bool)
      requires Valid()
      modifies this
      ensures Valid() && ok
      ensures !old(IsActive(g)) ==> unchanged(this)
      ensures old(IsActive(g)) ==>
        && processingActive == old(processingActive)[g := false]
        && buffers == old(buffers) - {g}
        && bufferLocks == old(bufferLocks) - {g}
        && cpuHistory == old(cpuHistory) - {g}
        && configs == old(configs) && metrics == old(metrics) && qualityCooldown == old(qualityCooldown)
    {
      if !IsActive(g) {
        return true;
      }
      processingActive := processingActive[g := false];
      buffers := buffers - {g};
      bufferLocks := bufferLocks - {g};
      cpuHistory := cpuHistory - {g};
      return true;
    }

    /** `set_config`: an invalid configuration is refused and nothing changes;
        a valid one is stored, and an active guild whose core parameters
        changed is restarted (stop then start: fresh buffer and history). */
    method SetConfig(g: int, c: AudioConfig) returns (ok: bool)
      requires Valid()
      modifies this
      ensures Valid()
      ensures ok == ValidConfig(c)
      ensures !ok ==> unchanged(this)
      ensures ok ==> configs == old(configs)[g := c]
      ensures ok ==> processingActive == old(processingActive) && metrics == old(metrics)
                     && qualityCooldown == old(qualityCooldown)
      ensures ok && g in old(configs) && NeedsRestart(old(configs)[g], c) && old(IsActive(g)) ==>
        && buffers == old(buffers)[g := []] && cpuHistory == old(cpuHistory)[g := []]
        && bufferLocks == old(bufferLocks) + {g}
      ensures ok && !(g in old(configs) && NeedsRestart(old(configs)[g], c) && old(IsActive(g))) ==>
        buffers == old(buffers) && cpuHistory == old(cpuHistory) && bufferLocks == old(bufferLocks)
    {
      if !ValidConfig(c) {
        return false;
      }
      var previous := if g in configs then Some(configs[g]) else None;
      configs := configs[g := c];
      if previous.Some? && NeedsRestart(previous.value, c) {
        if IsActive(g) {
          Restart(g);
        }
      }
      return true;
    }

    /** The restart of `set_config`: stop then start an active guild, which
        leaves it active with a fresh buffer, lock and CPU history. */
    method Restart(g: int)
      requires Valid() && IsActive(g) && g in configs
      modifies this
      ensures Valid()
      ensures processingActive == old(processingActive) && configs == old(configs)
      ensures buffers == old(buffers)[g := []] && cpuHistory == old(cpuHistory)[g := []]
      ensures bufferLocks == old(bufferLocks) + {g}
      ensures metrics == old(metrics) && qualityCooldown == old(qualityCooldown)
    {
      var _ := StopProcessing(g);
      var _ := StartProcessing(g);
      assert (old(buffers) - {g})[g := []] == old(buffers)[g := []];
      assert (old(cpuHistory) - {g})[g := []] == old(cpuHistory)[g := []];
      assert old(processingActive)[g := false][g := true] == old(processingActive);
    }

    /** `get_config`: creates and stores the default configuration on first use. */
    method GetConfig(g: int) returns (c: AudioConfig)
      modifies this
      ensures g in old(configs) ==> c == old(configs)[g] && configs == old(configs)
      ensures g !in old(configs) ==> c == DefaultAudioConfig() && configs == old(configs)[g := c]
      ensures processingActive == old(processingActive) && cpuHistory == old(cpuHistory)
      ensures buffers == old(buffers) && bufferLocks == old(bufferLocks)
      ensures metrics == old(metrics) && qualityCooldown == old(qualityCooldown)
    {
      if g !in configs {
        configs := configs[g := DefaultAudioConfig()];
      }
      c := configs[g];
    }

    /** `_update_processing_metrics`: records the metrics (CPU usage is the
        constant 0.0 the source fills in) and appends it to the CPU history,
        dropping the oldest sample beyond ten. */
    method UpdateProcessingMetrics(g: int, latencyMs: real)
      requires Valid()
      modifies this
      ensures Valid()
      ensures var c := if g in old(configs) then old(configs)[g] else DefaultAudioConfig();
        metrics == old(metrics)[g := AudioMetrics(g, latencyMs, 0.0, c.sampleRate, c.bitDepth,
                                                  c.channels, QualityScore(latencyMs))]
      ensures var h := (if g in old(cpuHistory) then old(cpuHistory)[g] else []) + [0.0];
        cpuHistory == old(cpuHistory)[g := KeepLast(h, 10)]
      ensures configs == old(configs) && processingActive == old(processingActive)
      ensures buffers == old(buffers) && bufferLocks == old(bufferLocks) && qualityCooldown == old(qualityCooldown)
    {
      var c := if g in configs then configs[g] else DefaultAudioConfig();
      var m := AudioMetrics(g, latencyMs, 0.0, c.sampleRate, c.bitDepth, c.channels, QualityScore(latencyMs));
      metrics := metrics[g := m];
      PushCpuSample(g, m.cpuUsagePercent);
    }

    /** Appends a CPU sample to the guild's history, dropping the oldest
        beyond ten. */
    method PushCpuSample(g: int, x: real)
      requires Valid()
      modifies this
      ensures Valid()
      ensures var h := (if g in old(cpuHistory) then old(cpuHistory)[g] else []) + [x];
        cpuHistory == old(cpuHistory)[g := KeepLast(h, 10)]
      ensures |cpuHistory[g]| > 0 && cpuHistory[g][|cpuHistory[g]| - 1] == x
      ensures configs == old(configs) && processingActive == old(processingActive) && metrics == old(metrics)
      ensures buffers == old(buffers) && bufferLocks == old(bufferLocks) && qualityCooldown == old(qualityCooldown)
    {
      var h := if g in cpuHistory then cpuHistory[g] else [];
      h := h + [x];
      if |h| > 10 {
        h := h[1..];
      }
      cpuHistory := cpuHistory[g := h];
    }

    function LastAdjustment(g: int): real
      reads this
    {
      if g in qualityCooldown then qualityCooldown[g] else 0.0
    }

    /** `_reduce_quality` at time `now`. The source mutates the stored
        configuration object in place, so the step takes effect even though
        the following `set_config` sees no change of parameters. */
    method ReduceQuality(g: int, now: real)
      requires Valid() && g in configs
      modifies this
      ensures Valid()
      ensures var q := old(configs)[g].quality;
        if now - old(LastAdjustment(g)) < 10.0 || q == Low then unchanged(this)
        else configs == old(configs)[g := old(configs)[g].(quality := StepDown(q))]
             && qualityCooldown == old(qualityCooldown)[g := now]
      ensures processingActive == old(processingActive) && cpuHistory == old(cpuHistory)
      ensures buffers == old(buffers) && bufferLocks == old(bufferLocks) && metrics == old(metrics)
    {
      var c := configs[g];
      if now - LastAdjustment(g) < 10.0 {
        return;
      }
      if c.quality == Low {
        return;
      }
      c := c.(quality := StepDown(c.quality));
      configs := configs[g := c];
      qualityCooldown := qualityCooldown[g := now];
    }

    /** `_increase_quality` at time `now`, with its 30-second cooldown. */
    method IncreaseQuality(g: int, now: real)
      requires Valid() && g in configs
      modifies this
      ensures Valid()
      ensures var q := old(configs)[g].quality;
        if now - old(LastAdjustment(g)) < 30.0 || q == Ultra then unchanged(this)
        else configs == old(configs)[g := old(configs)[g].(quality := StepUp(q))]
             && qualityCooldown == old(qualityCooldown)[g := now]
      ensures processingActive == old(processingActive) && cpuHistory == old(cpuHistory)
      ensures buffers == old(buffers) && bufferLocks == old(bufferLocks) && metrics == old(metrics)
    {
      var c := configs[g];
      if now - LastAdjustment(g) < 30.0 {
        return;
      }
      if c.quality == Ultra {
        return;
      }
      c := c.(quality := StepUp(c.quality));
      configs := configs[g := c];
      qualityCooldown := qualityCooldown[g := now];
    }

    /** `_check_guild_performance` at time `now`: the level moves at most one
        step, in the direction the CPU average calls for. */
    method CheckGuildPerformance(g: int, now: real)
      requires Valid()
      modifies this
      ensures Valid()
      ensures g !in old(configs) ==> unchanged(this)
      ensures g in old(configs) ==>
        var h := if g in old(cpuHistory) then old(cpuHistory)[g] else [];
        var r := Adjustment(PerformanceDecision(h, old(configs)[g]), old(configs)[g].quality, now - old(LastAdjustment(g)));
        && (r.None? ==> unchanged(this))
        && (r.Some? ==> configs == old(configs)[g := old(configs)[g].(quality := r.value)]
                        && qualityCooldown == old(qualityCooldown)[g := now])
      ensures processingActive == old(processingActive) && cpuHistory == old(cpuHistory)
      ensures buffers == old(buffers) && bufferLocks == old(bufferLocks) && metrics == old(metrics)
    {
      if g !in configs {
        return;
      }
      var c := configs[g];
      var h := if g in cpuHistory then cpuHistory[g] else [];
      if |h| < 3 {
        return;
      }
      var avg := SumReal(h) / |h| as real;
      if avg > c.cpuLimitPercent {
        ReduceQuality(g, now);
      } else if avg < c.cpuLimitPercent * 0.5 && c.quality != Ultra {
        IncreaseQuality(g, now);
      }
    }
  }
}

=== FILE: audio_types.dfy ===
/** Value types shared by the audio engine (audio/interfaces.py):
    quality levels, effect and mixing kinds, the per-guild audio
    configuration with its defaults, stream descriptors, and the byte
    cursor that hands processed PCM to the voice client. */
module AudioTypes {
  import opened Util

  datatype AudioQuality = Low | Medium | High | Ultra

  datatype EffectType =
    | Equalizer | Compressor | Limiter | Reverb | Chorus
    | Distortion | NoiseGate | Ducking | Crossfade

  datatype MixingMode = Replace | Overlay | Priority | CrossfadeMix

  /** The dataclass AudioConfig; floats are exact reals. */
  datatype AudioConfig = AudioConfig(
    masterVolume: real,
    normalizationEnabled: bool,
    normalizationTargetLufs: real,
    autoGainControl: bool,
    dynamicRangeCompression: real,
    eqEnabled: bool,
    eqBass: real,
    eqMid: real,
    eqTreble: real,
    eqPreset: Option<string>,
    effectsEnabled: bool,
    crossfadeDuration: real,
    duckingEnabled: bool,
    duckingLevel: real,
    duckingSensitivity: real,
    quality: AudioQuality,
    sampleRate: int,
    channels: int,
    bitDepth: int,
    bufferSize: int,
    realTimeProcessing: bool,
    lowLatencyMode: bool,
    cpuLimitPercent: real)

  /** `AudioConfig()` with every field at its declared default. */
  function DefaultAudioConfig(): (c: AudioConfig)
    ensures c.masterVolume == 0.8 && c.normalizationTargetLufs == -23.0
    ensures c.quality == High && c.sampleRate == 48000 && c.channels == 2 && c.bitDepth == 16
    ensures c.eqBass == 0.0 && c.eqMid == 0.0 && c.eqTreble == 0.0 && !c.eqEnabled
    ensures c.cpuLimitPercent == 50.0 && c.crossfadeDuration == 3.0
  {
    AudioConfig(
      masterVolume := 0.8,
      normalizationEnabled := true,
      normalizationTargetLufs := -23.0,
      autoGainControl := true,
      dynamicRangeCompression := 0.0,
      eqEnabled := false,
      eqBass := 0.0,
      eqMid := 0.0,
      eqTreble := 0.0,
      eqPreset := None,
      effectsEnabled := true,
      crossfadeDuration := 3.0,
      duckingEnabled := false,
      duckingLevel := 0.3,
      duckingSensitivity := 0.5,
      quality := High,
      sampleRate := 48000,
      channels := 2,
      bitDepth := 16,
      bufferSize := 2048,
      realTimeProcessing := true,
      lowLatencyMode := false,
      cpuLimitPercent := 50.0)
  }

  /** An audio stream; times are seconds on one clock, `endTime` optional. */
  datatype AudioStream = AudioStream(
    streamId: string,
    guildId: int,
    url: string,
    priority: int,
    volume: real,
    startTime: real,
    endTime: Option<real>)
  {
    /** `is_active`: a stream is over only once its end time has passed. */
    predicate IsActive(now: real)
    {
      !(endTime.Some? && now > endTime.value)
    }
  }

  /** A stream without an end time is active at every instant; one with an
      end time is active exactly up to and including that instant. */
  lemma IsActiveIff(s: AudioStream, now: real)
    ensures !s.IsActive(now) <==> (s.endTime.Some? && now > s.endTime.value)
    ensures s.endTime.None? ==> s.IsActive(now)
    ensures s.endTime.Some? && now <= s.endTime.value ==> s.IsActive(now)
  {
  }

  /** Per-guild processing metrics (timestamps left out). */
  datatype AudioMetrics = AudioMetrics(
    guildId: int,
    processingLatencyMs: real,
    cpuUsagePercent: real,
    sampleRate: int,
    bitDepth: int,
    channels: int,
    qualityScore: real)

  // ---------------------------------------------------------------------
  // Soft-knee compression

  /** The compressed magnitude of a sample of magnitude `a` above the
      threshold: the excess over the threshold is scaled by 1 - ratio. */
  function Squash(threshold: real, a: real, ratio: real): real
  {
    threshold + (a - threshold) * (1.0 - ratio)
  }

  /** The soft-knee compressor that the processor, the effects chain and the
      volume manager each apply per sample: a sample whose magnitude is at
      most the threshold passes; above it the magnitude is squashed and the
      sign kept. A zero sample above a negative threshold is 0/0 in the
      source; the model answers 0 there. */
  function Compress(x: real, threshold: real, ratio: real): real
  {
    if -threshold <= x <= threshold then x
    else if x > 0.0 then Squash(threshold, x, ratio)
    else if x < 0.0 then -Squash(threshold, -x, ratio)
    else 0.0
  }

  /** The source computes the compressed sample as x times the gain
      Squash(|x|) / |x|; that is the sign-and-magnitude form above. */
  lemma CompressIsGainForm(x: real, threshold: real, ratio: real)
    requires x != 0.0 && !(-threshold <= x <= threshold)
    ensures var a := if x >= 0.0 then x else -x;
      Compress(x, threshold, ratio) == x * (Squash(threshold, a, ratio) / a)
  {
    var a := if x >= 0.0 then x else -x;
    var m := Squash(threshold, a, ratio);
    if x > 0.0 {
      assert a == x;
      assert x * (m / x) == m;
    } else {
      assert a == -x;
      assert x * (m / -x) == -m;
    }
  }

  /** A magnitude above the threshold is squashed to a value between the
      threshold and itself. */
  lemma SquashBetween(threshold: real, a: real, ratio: real)
    requires threshold < a && 0.0 <= ratio <= 1.0
    ensures threshold <= Squash(threshold, a, ratio) <= a
  {
    var e := a - threshold;
    MulNonNeg(e, 1.0 - ratio);
    MulNonNeg(e, ratio);
    assert e * (1.0 - ratio) == e - e * ratio;
  }

  /** With 0 <= ratio <= 1 and a non-negative threshold a compressed sample
      keeps its sign and never grows in magnitude. */
  lemma CompressShrinks(x: real, threshold: real, ratio: real)
    requires threshold >= 0.0 && 0.0 <= ratio <= 1.0
    ensures x >= 0.0 ==> 0.0 <= Compress(x, threshold, ratio) <= x
    ensures x <= 0.0 ==> x <= Compress(x, threshold, ratio) <= 0.0
  {
    if x > threshold {
      SquashBetween(threshold, x, ratio);
    } else if x < -threshold {
      SquashBetween(threshold, -x, ratio);
    }
  }

  // ---------------------------------------------------------------------
  // int16 conversion of float samples

  /** `np.clip(x, -32768, 32767).astype(np.int16)`. */
  function ClipInt16(x: real): (r: int)
    ensures -32768 <= r <= 32767
    ensures -32768.0 <= x <= 32767.0 ==> r == TruncToInt(x)
    ensures x <= -32768.0 ==> r == -32768
    ensures x >= 32767.0 ==> r == 32767
  {
    TruncToInt(Clamp(x, -32768.0, 32767.0))
  }

  // ---------------------------------------------------------------------
  // int16 PCM bytes: `np.frombuffer(data, dtype=np.int16)` and `.tobytes()`
  // on a little-endian machine.

  /** A byte of PCM data. */
  newtype uint8 = x: int | 0 <= x < 256

  /** The signed sample two little-endian bytes hold. */
  function Int16At(lo: uint8, hi: uint8): (x: int)
    ensures -32768 <= x <= 32767
  {
    var u := lo as int + 256 * hi as int;
    if u >= 32768 then u - 65536 else u
  }

  /** The two little-endian bytes of an int16 sample (two's complement). */
  function Int16Bytes(x: int): (b: seq<uint8>)
    requires -32768 <= x <= 32767
    ensures |b| == 2
  {
    var u := if x < 0 then x + 65536 else x;
    [(u % 256) as uint8, (u / 256) as uint8]
  }

  /** Writing a sample and reading it back gives the sample. */
  lemma Int16BytesRead(x: int)
    requires -32768 <= x <= 32767
    ensures Int16At(Int16Bytes(x)[0], Int16Bytes(x)[1]) == x
  {
    var u := if x < 0 then x + 65536 else x;
    assert u % 256 + 256 * (u / 256) == u;
  }

  /** Reading two bytes and writing the sample back gives the two bytes. */
  lemma Int16AtWritten(lo: uint8, hi: uint8)
    ensures Int16Bytes(Int16At(lo, hi)) == [lo, hi]
  {
    var u := lo as int + 256 * hi as int;
    assert u % 256 == lo as int && u / 256 == hi as int;
  }

  /** `np.frombuffer(data, dtype=np.int16)`: None when the byte count is odd,
      where numpy raises, else sample i read from bytes 2i and 2i+1. */
  function FromBuffer(data: seq<uint8>): (r: Option<seq<int>>)
    ensures r.None? <==> |data| % 2 == 1
    ensures r.Some? ==> 2 * |r.value| == |data|
    ensures r.Some? ==> forall i :: 0 <= i < |r.value| ==> -32768 <= r.value[i] <= 32767
  {
    if |data| % 2 == 1 then None
    else Some(seq(|data| / 2, i requires 0 <= i < |data| / 2 => Int16At(data[2 * i], data[2 * i + 1])))
  }

  /** `.astype(np.int16).tobytes()` of samples already in the int16 range. */
  function ToBytes(s: seq<int>): (b: seq<uint8>)
    requires forall i :: 0 <= i < |s| ==> -32768 <= s[i] <= 32767
    ensures |b| == 2 * |s|
  {
    seq(2 * |s|, j requires 0 <= j < 2 * |s| => Int16Bytes(s[j / 2])[j % 2])
  }

  /** Decoding the bytes of int16 samples gives the samples back. */
  lemma FromBufferToBytes(s: seq<int>)
    requires forall i :: 0 <= i < |s| ==> -32768 <= s[i] <= 32767
    ensures FromBuffer(ToBytes(s)) == Some(s)
  {
    var b := ToBytes(s);
    assert |b| % 2 == 0 && |b| / 2 == |s|;
    var d := FromBuffer(b).value;
    forall i | 0 <= i < |s|
      ensures d[i] == s[i]
    {
      assert (2 * i) / 2 == i && (2 * i) % 2 == 0;
      assert (2 * i + 1) / 2 == i && (2 * i + 1) % 2 == 1;
      Int16BytesRead(s[i]);
    }
    assert d == s;
  }

  /** Encoding decoded bytes gives the bytes back. */
  lemma ToBytesFromBuffer(data: seq<uint8>)
    requires |data| % 2 == 0
    ensures ToBytes(FromBuffer(data).value) == data
  {
    var d := FromBuffer(data).value;
    var b := ToBytes(d);
    forall j | 0 <= j < |data|
      ensures b[j] == data[j]
    {
      var i := j / 2;
      assert 2 * i + j % 2 == j;
      Int16AtWritten(data[2 * i], data[2 * i + 1]);
    }
  }

  // ---------------------------------------------------------------------
  // ProcessedAudioSource: a read cursor over an immutable byte string.

  /** The chunk `audio_data[pos:pos + k]` that `read(k)` hands out. */
  function ChunkAt(data: seq<uint8>, pos: nat, k: nat): (c: seq<uint8>)
    ensures pos >= |data| ==> c == []
    ensures pos < |data| ==> c == data[pos..MinInt(pos + k, |data|)]
    ensures |c| <= k
  {
    if pos >= |data| then [] else data[pos..MinInt(pos + k, |data|)]
  }

  /** What successive reads of `k` bytes return, glued together, from `pos` on. */
  function Drain(data: seq<uint8>, pos: nat, k: nat): seq<uint8>
    requires k > 0
    decreases |data| - pos
  {
    if pos >= |data| then [] else ChunkAt(data, pos, k) + Drain(data, pos + |ChunkAt(data, pos, k)|, k)
  }

  /** Reading a source to its end from position `pos` yields exactly the rest
      of the audio data: nothing is skipped and nothing repeated. */
  lemma {:induction false} DrainIsRest(data: seq<uint8>, pos: nat, k: nat)
    requires k > 0 && pos <= |data|
    ensures Drain(data, pos, k) == data[pos..]
    decreases |data| - pos
  {
    if pos < |data| {
      var c := ChunkAt(data, pos, k);
      DrainIsRest(data, pos + |c|, k);
      assert data[pos..] == c + data[pos + |c|..];
    }
  }

  class ProcessedAudioSource {
    const audioData: seq<uint8>
    const sampleRate: int
    const channels: int
    const bitDepth: int
    var position: nat

    ghost predicate Valid()
      reads this
    {
      position <= |audioData|
    }

    constructor (data: seq<uint8>, sampleRate: int, channels: int, bitDepth: int)
      ensures Valid() && audioData == data && position == 0
      ensures this.sampleRate == sampleRate && this.channels == channels && this.bitDepth == bitDepth
    {
      audioData := data;
      this.sampleRate := sampleRate;
      this.channels := channels;
      this.bitDepth := bitDepth;
      position := 0;
    }

    /** `read(frame_size)`: at most `frameSize` bytes, the cursor moves past them. */
    method Read(frameSize: nat) returns (chunk: seq<uint8>)
      requires Valid()
      modifies this
      ensures Valid()
      ensures chunk == ChunkAt(audioData, old(position), frameSize)
      ensures position == old(position) + |chunk|
      ensures old(position) == |audioData| ==> chunk == []
    {
      if position >= |audioData| {
        return [];
      }
      var stop := if position + frameSize <= |audioData| then position + frameSize else |audioData|;
      chunk := audioData[position..stop];
      position := position + |chunk|;
    }

    /** `seek(position)`: the cursor is clamped into [0, len]. */
    method Seek(target: int)
      modifies this
      ensures Valid()
      ensures position == MaxInt(0, MinInt(target, |audioData|))
    {
      position := MaxInt(0, MinInt(target, |audioData|));
    }

    /** `remaining_bytes()`. */
    method RemainingBytes() returns (n: nat)
      ensures n == MaxInt(0, |audioData| - position)
      ensures position <= |audioData| ==> position + n == |audioData|
    {
      n := if |audioData| > position then |audioData| - position else 0;
    }
  }
}

=== FILE: config_manager.dfy ===
/** Configuration loading (`core/config_manager.py`): the deep merge of
    override files, environment-variable overrides with their type
    coercion, `.env` line parsing, the dotted-key lookup, environment
    detection and the validation the fallback configuration objects do.
    Files, YAML parsing and the process environment are parameters. */
module ConfigManagement {
  import opened Util
  import opened Values

  type Config = map<string, Value>

  // ---------------------------------------------------------------------
  // Deep merge

  /** `_deep_merge(base, override)`: override values win, except that two
      dictionaries under the same key are merged recursively. */
  function DeepMerge(base: Config, over: Config): (r: Config)
    ensures r.Keys == base.Keys + over.Keys
    decreases VDict(over)
  {
    map k | k in base.Keys + over.Keys ::
      if k in over then
        if k in base && base[k].VDict? && over[k].VDict? then
          VDict(DeepMerge(base[k].entries, over[k].entries))
        else over[k]
      else base[k]
  }

  /** Keys only in the base keep their value; override values that are not
      both dictionaries replace the base value. */
  lemma DeepMergeEntries(base: Config, over: Config, k: string)
    ensures k in base && k !in over ==> DeepMerge(base, over)[k] == base[k]
    ensures k in over && !(k in base && base[k].VDict? && over[k].VDict?) ==> DeepMerge(base, over)[k] == over[k]
    ensures k in base && k in over && base[k].VDict? && over[k].VDict? ==>
      DeepMerge(base, over)[k] == VDict(DeepMerge(base[k].entries, over[k].entries))
  {
  }

  /** Merging an empty override, or into an empty base, changes nothing. */
  lemma DeepMergeEmpty(m: Config)
    ensures DeepMerge(m, map[]) == m
    ensures DeepMerge(map[], m) == m
  {
    assert DeepMerge(m, map[]).Keys == m.Keys;
    assert DeepMerge(map[], m).Keys == m.Keys;
  }

  /** Merging a configuration with itself gives it back, at every depth. */
  lemma {:induction false} DeepMergeIdempotent(m: Config)
    ensures DeepMerge(m, m) == m
    decreases VDict(m)
  {
    forall k | k in m ensures DeepMerge(m, m)[k] == m[k] {
      if m[k].VDict? {
        DeepMergeIdempotent(m[k].entries);
      }
    }
  }

  /** A value that is a dictionary in neither argument comes from the
      override whole, so the override always has the last word on leaves. */
  lemma {:induction false} DeepMergeOverrideWinsOnLeaves(base: Config, over: Config, path: seq<string>)
    requires Resolve(VDict(over), path).Some? && !Resolve(VDict(over), path).value.VDict?
    ensures Resolve(VDict(DeepMerge(base, over)), path) == Resolve(VDict(over), path)
    decreases path
  {
    if path != [] {
      var k := path[0];
      var ov := over[k];
      if k in base && base[k].VDict? && ov.VDict? {
        DeepMergeOverrideWinsOnLeaves(base[k].entries, ov.entries, path[1..]);
      } else {
        assert DeepMerge(base, over)[k] == ov;
      }
    }
  }

  // ---------------------------------------------------------------------
  // Dotted keys

  /** Index of the first `c` in `s`, or |s|. */
  /** `s.split(sep)`. */
  function Split(s: string, sep: char): (r: seq<string>)
    ensures |r| >= 1
    ensures forall i :: 0 <= i < |r| ==> sep !in r[i]
    decreases |s|
  {
    var i := IndexOfChar(s, sep);
    if i == |s| then [s] else [s[..i]] + Split(s[i + 1..], sep)
  }

  /** `sep.join(parts)`. */
  function Join(parts: seq<string>, sep: char): string
  {
    if parts == [] then [] else if |parts| == 1 then parts[0] else parts[0] + [sep] + Join(parts[1..], sep)
  }

  /** Splitting and joining again gives back the key. */
  lemma {:induction false} SplitJoin(s: string, sep: char)
    ensures Join(Split(s, sep), sep) == s
    decreases |s|
  {
    var i := IndexOfChar(s, sep);
    if i < |s| {
      var rest := Split(s[i + 1..], sep);
      SplitJoin(s[i + 1..], sep);
      SplitAtFirst(s, sep, i);
      JoinCons(s[..i], rest, sep);
      assert Join(Split(s, sep), sep) == s[..i] + [sep] + s[i + 1..];
      AroundIndex(s, i);
    } else {
      assert Split(s, sep) == [s];
    }
  }

  /** One step of the split: the text up to the first separator, then the
      split of what follows it. */
  lemma SplitAtFirst(s: string, sep: char, i: nat)
    requires i == IndexOfChar(s, sep) < |s|
    ensures Split(s, sep) == [s[..i]] + Split(s[i + 1..], sep)
  {
  }

  lemma AroundIndex(s: string, i: nat)
    requires i < |s|
    ensures s[..i] + [s[i]] + s[i + 1..] == s
  {
  }

  /** One step of the join, for at least two parts. */
  lemma JoinCons(a: string, rest: seq<string>, sep: char)
    requires rest != []
    ensures Join([a] + rest, sep) == a + [sep] + Join(rest, sep)
  {
    assert ([a] + rest)[1..] == rest;
  }

  /** Following a path of keys through nested dictionaries. */
  function Resolve(v: Value, path: seq<string>): Option<Value>
  {
    if path == [] then Some(v)
    else if v.VDict? && path[0] in v.entries then Resolve(v.entries[path[0]], path[1..])
    else None
  }

  /** Walking a longer path is walking its two parts one after the other. */
  lemma {:induction false} ResolveAppend(v: Value, a: seq<string>, b: seq<string>)
    ensures Resolve(v, a + b) == match Resolve(v, a) case None => None case Some(w) => Resolve(w, b)
  {
    if a != [] {
      assert (a + b)[0] == a[0] && (a + b)[1..] == a[1..] + b;
      if v.VDict? && a[0] in v.entries {
        ResolveAppend(v.entries[a[0]], a[1..], b);
      }
    } else {
      assert a + b == b;
    }
  }

  /** `get_config_value(key, default)`: the configuration's attributes are
      `root`; nested dictionaries are entered by key; any missing segment,
      or a segment under a non-dictionary, gives the default. */
  function GetConfigValue(root: Config, key: string, default: Value): (r: Value)
    ensures Resolve(VDict(root), Split(key, '.')).None? ==> r == default
  {
    match Resolve(VDict(root), Split(key, '.'))
    case None => default
    case Some(v) => v
  }

  lemma SplitWithoutSeparator(s: string, sep: char)
    requires sep !in s
    ensures Split(s, sep) == [s]
  {
    assert forall j :: 0 <= j < |s| ==> s[j] != sep;
  }

  /** A key without dots is a plain attribute lookup. */
  lemma UndottedKey(root: Config, key: string, default: Value)
    requires '.' !in key
    ensures GetConfigValue(root, key, default) == if key in root then root[key] else default
  {
    SplitWithoutSeparator(key, '.');
    assert [key][0] == key && [key][1..] == [];
    assert key in root ==> Resolve(VDict(root), [key]) == Resolve(root[key], []);
  }

  /** A dotted key reaches the value stored under its last segment. */
  lemma DottedLookup(root: Config, a: string, b: string, inner: Config, default: Value)
    requires '.' !in a && '.' !in b
    requires a in root && root[a] == VDict(inner) && b in inner
    ensures GetConfigValue(root, a + "." + b, default) == inner[b]
  {
    var s := a + "." + b;
    assert s[..|a|] == a && s[|a| + 1..] == b;
    assert s[|a|] == '.';
    assert forall j :: 0 <= j < |a| ==> s[j] == a[j] && s[j] != '.';
    assert IndexOfChar(s, '.') == |a|;
    SplitWithoutSeparator(b, '.');
    assert Split(s, '.') == [a] + Split(b, '.');
    var path := [a, b];
    assert path[0] == a && path[1..] == [b] && [b][0] == b && [b][1..] == [];
    assert Resolve(VDict(root), path) == Resolve(VDict(inner), [b]);
    assert Resolve(VDict(inner), [b]) == Resolve(inner[b], []);
  }

  // ---------------------------------------------------------------------
  // Environment variables

  /** Python accepts single underscores between digits. */
  predicate ValidDigitGroups(s: string)
  {
    s != [] && IsDigit(s[0]) && IsDigit(s[|s| - 1])
    && (forall i :: 0 <= i < |s| ==> IsDigit(s[i]) || s[i] == '_')
    && (forall i, j :: 0 <= i < |s| && 0 <= j < |s| && j == i + 1 ==> !(s[i] == '_' && s[j] == '_'))
  }

  function WithoutUnderscores(s: string): (r: string)
    ensures (forall i :: 0 <= i < |s| ==> IsDigit(s[i]) || s[i] == '_') ==> forall i :: 0 <= i < |r| ==> IsDigit(r[i])
  {
    if s == [] then [] else (if s[0] == '_' then [] else [s[0]]) + WithoutUnderscores(s[1..])
  }

  /** `int(s)` for decimal text: surrounding whitespace, an optional sign,
      digits with single underscores between them; None where Python
      raises ValueError. */
  function ParseInt(s: string): (r: Option<int>)
    ensures Strip(s) == [] ==> r.None?
  {
    ParseStripped(Strip(s))
  }

  /** `int` on text already stripped of surrounding whitespace. */
  function ParseStripped(t: string): (r: Option<int>)
    ensures t == [] ==> r.None?
  {
    if t == [] then None
    else
      var neg := t[0] == '-';
      var body := if t[0] == '-' || t[0] == '+' then t[1..] else t;
      if !ValidDigitGroups(body) then None
      else
        var d := WithoutUnderscores(body);
        assert forall i :: 0 <= i < |d| ==> IsDigit(d[i]);
        Some(if neg then -(DigitsValue(d) as int) else DigitsValue(d))
  }

  lemma {:induction false} NoUnderscoresUnchanged(s: string)
    requires forall i :: 0 <= i < |s| ==> IsDigit(s[i])
    ensures WithoutUnderscores(s) == s
  {
    if s != [] {
      NoUnderscoresUnchanged(s[1..]);
    }
  }

  lemma NoSpaceStrip(s: string)
    requires s != [] && !IsSpace(s[0]) && !IsSpace(s[|s| - 1])
    ensures Strip(s) == s
  {
    assert TrimLeft(s) == s;
  }

  /** Reading back a printed integer gives the integer. */
  lemma ParseIntRoundTrip(n: int)
    ensures ParseInt(IntToString(n)) == Some(n)
  {
    var m: nat := if n < 0 then -n else n;
    var digits := NatToString(m);
    DigitsOfNatToString(m);
    AllDigitsAreGroups(digits);
    if n < 0 {
      ParseNegative(digits);
    } else {
      ParseUnsigned(digits);
    }
  }

  lemma AllDigitsAreGroups(digits: string)
    requires digits != [] && forall i :: 0 <= i < |digits| ==> IsDigit(digits[i])
    ensures ValidDigitGroups(digits) && WithoutUnderscores(digits) == digits
  {
    NoUnderscoresUnchanged(digits);
  }

  /** Plain digits read as their value. */
  lemma ParseUnsigned(digits: string)
    requires digits != [] && IsDigit(digits[0]) && IsDigit(digits[|digits| - 1])
    requires ValidDigitGroups(digits) && WithoutUnderscores(digits) == digits
    ensures ParseInt(digits) == Some(DigitsValue(WithoutUnderscores(digits)) as int)
  {
    NoSpaceStrip(digits);
    ParseStrippedBody(digits, digits);
  }

  /** Digits after a minus sign read as the negated value. */
  lemma ParseNegative(digits: string)
    requires digits != [] && IsDigit(digits[|digits| - 1])
    requires ValidDigitGroups(digits) && WithoutUnderscores(digits) == digits
    ensures ParseInt("-" + digits) == Some(-(DigitsValue(WithoutUnderscores(digits)) as int))
  {
    var s := "-" + digits;
    assert s[0] == '-' && s[1..] == digits && s[|s| - 1] == digits[|digits| - 1];
    NoSpaceStrip(s);
    ParseStrippedBody(s, digits);
  }

  /** `ParseStripped` once unfolded, for a body of valid digit groups. */
  lemma ParseStrippedBody(t: string, body: string)
    requires t != [] && body == (if t[0] == '-' || t[0] == '+' then t[1..] else t)
    requires ValidDigitGroups(body)
    ensures ParseStripped(t) == Some(if t[0] == '-' then -(DigitsValue(WithoutUnderscores(body)) as int)
                                     else DigitsValue(WithoutUnderscores(body)))
  {
  }

  /** One entry of the environment-variable table. */
  datatype EnvMapping = EnvMapping(envVar: string, configKey: string)

  /** The table in `_apply_environment_variables`, in its order. */
  const EnvMappings: seq<EnvMapping> := [
    EnvMapping("BOT_TOKEN", "bot_token"),
    EnvMapping("LOG_LEVEL", "log_level"),
    EnvMapping("LOG_FILE_PATH", "log_file_path"),
    EnvMapping("DATABASE_PATH", "database_path"),
    EnvMapping("DATABASE_URL", "database_url"),
    EnvMapping("TLS_VERIFY", "tls_verify"),
    EnvMapping("CLUSTER_ID", "cluster_id"),
    EnvMapping("TOTAL_CLUSTERS", "total_clusters"),
    EnvMapping("TOTAL_SHARDS", "total_shards"),
    EnvMapping("SL_BRIDGE_ENABLED", "sl_bridge_enabled"),
    EnvMapping("SL_BRIDGE_PORT", "sl_bridge_port")
  ]

  const IntKeys: set<string> := {"cluster_id", "total_clusters", "total_shards", "sl_bridge_port"}
  const BoolKeys: set<string> := {"tls_verify", "sl_bridge_enabled"}
  const TrueWords: set<string> := {"true", "1", "yes", "on"}

  /** The value one environment variable writes under its key, or None when
      an integer key gets text that is not an integer. */
  function Coerce(key: string, text: string): (r: Option<Value>)
    ensures key in IntKeys ==> (r.Some? <==> ParseInt(text).Some?) && (r.Some? ==> r.value == VInt(ParseInt(text).value))
    ensures key !in IntKeys && key in BoolKeys ==> r == Some(VBool(Lower(text) in TrueWords))
    ensures key !in IntKeys && key !in BoolKeys ==> r == Some(VStr(text))
  {
    if key in IntKeys then
      match ParseInt(text)
      case None => None
      case Some(n) => Some(VInt(n))
    else if key in BoolKeys then Some(VBool(Lower(text) in TrueWords))
    else Some(VStr(text))
  }

  /** The effect of one table entry. */
  function ApplyMapping(config: Config, env: map<string, string>, m: EnvMapping): Config
  {
    if m.envVar in env && Coerce(m.configKey, env[m.envVar]).Some? then
      config[m.configKey := Coerce(m.configKey, env[m.envVar]).value]
    else config
  }

  /** The effect of the first `|ms|` table entries, applied in order. */
  function ApplyMappings(config: Config, env: map<string, string>, ms: seq<EnvMapping>): Config
  {
    if ms == [] then config
    else ApplyMapping(ApplyMappings(config, env, ms[..|ms| - 1]), env, ms[|ms| - 1])
  }

  lemma MappingsStep(config: Config, env: map<string, string>, ms: seq<EnvMapping>, i: nat)
    requires i < |ms|
    ensures ApplyMappings(config, env, ms[..i + 1]) == ApplyMapping(ApplyMappings(config, env, ms[..i]), env, ms[i])
  {
    assert ms[..i + 1][..i] == ms[..i];
  }

  /** The loop of `_apply_environment_variables` over a mapping table. */
  method ApplyEnvTable(config: Config, env: map<string, string>, ms: seq<EnvMapping>) returns (r: Config)
    ensures r == ApplyMappings(config, env, ms)
  {
    r := config;
    var i := 0;
    while i < |ms|
      invariant 0 <= i <= |ms|
      invariant r == ApplyMappings(config, env, ms[..i])
    {
      var m := ms[i];
      ghost var before := r;
      if m.envVar in env {
        var c := Coerce(m.configKey, env[m.envVar]);
        if c.Some? {
          r := r[m.configKey := c.value];
        }
      }
      assert r == ApplyMapping(before, env, m);
      MappingsStep(config, env, ms, i);
      i := i + 1;
    }
    assert ms[..i] == ms;
  }

  /** `_apply_environment_variables`. */
  method ApplyEnvironmentVariables(config: Config, env: map<string, string>) returns (r: Config)
    ensures r == ApplyMappings(config, env, EnvMappings)
  {
    r := ApplyEnvTable(config, env, EnvMappings);
  }

  /** Keys that no entry writes are untouched. */
  lemma {:induction false} UnmappedKeysUntouched(config: Config, env: map<string, string>, ms: seq<EnvMapping>, k: string)
    requires forall i :: 0 <= i < |ms| ==> ms[i].configKey != k
    ensures k in ApplyMappings(config, env, ms) <==> k in config
    ensures k in config ==> ApplyMappings(config, env, ms)[k] == config[k]
  {
    if ms != [] {
      UnmappedKeysUntouched(config, env, ms[..|ms| - 1], k);
    }
  }

  /** The entry for a key decides its value when it is the only entry for
      that key: the coerced environment value, or the old value when the
      variable is unset or not an integer. */
  lemma {:induction false} MappedKeyValue(config: Config, env: map<string, string>, ms: seq<EnvMapping>, j: int)
    requires 0 <= j < |ms|
    requires forall i :: 0 <= i < |ms| && i != j ==> ms[i].configKey != ms[j].configKey
    ensures var k := ms[j].configKey; var r := ApplyMappings(config, env, ms);
      var c := if ms[j].envVar in env then Coerce(k, env[ms[j].envVar]) else None;
      (c.Some? ==> k in r && r[k] == c.value)
      && (c.None? ==> (k in r <==> k in config) && (k in config ==> r[k] == config[k]))
  {
    var last := |ms| - 1;
    if j < last {
      MappedKeyValue(config, env, ms[..last], j);
    } else {
      UnmappedKeysUntouched(config, env, ms[..last], ms[j].configKey);
    }
  }

  /** The table has one entry per configuration key. */
  lemma EnvMappingsDistinct()
    ensures forall i, j :: 0 <= i < j < |EnvMappings| ==> EnvMappings[i].configKey != EnvMappings[j].configKey
  {
  }

  /** A boolean variable is True exactly for the four true words, in any
      letter case. */
  lemma BoolVariable(config: Config, env: map<string, string>)
    requires "TLS_VERIFY" in env
    ensures var r := ApplyMappings(config, env, EnvMappings);
      "tls_verify" in r && r["tls_verify"] == VBool(Lower(env["TLS_VERIFY"]) in TrueWords)
  {
    TlsVerifyEntry();
    BoolCoerced(env["TLS_VERIFY"]);
    MappedKeyValue(config, env, EnvMappings, 5);
  }

  lemma TlsVerifyEntry()
    ensures EnvMappings[5] == EnvMapping("TLS_VERIFY", "tls_verify")
    ensures forall i :: 0 <= i < |EnvMappings| && i != 5 ==> EnvMappings[i].configKey != EnvMappings[5].configKey
  {
    forall i | 0 <= i < |EnvMappings| && i != 5
      ensures EnvMappings[i].configKey != EnvMappings[5].configKey
    {
    }
  }

  lemma BoolCoerced(text: string)
    ensures Coerce("tls_verify", text) == Some(VBool(Lower(text) in TrueWords))
  {
    assert "tls_verify" !in IntKeys && "tls_verify" in BoolKeys;
  }

  /** An unparsable integer variable is ignored. */
  lemma BadIntegerIgnored(config: Config, env: map<string, string>)
    requires "CLUSTER_ID" in env && ParseInt(env["CLUSTER_ID"]).None?
    ensures var r := ApplyMappings(config, env, EnvMappings);
      ("cluster_id" in r <==> "cluster_id" in config) && ("cluster_id" in config ==> r["cluster_id"] == config["cluster_id"])
  {
    ClusterIdEntry();
    UnparsedIntIgnored(env["CLUSTER_ID"]);
    MappedKeyValue(config, env, EnvMappings, 6);
  }

  lemma ClusterIdEntry()
    ensures EnvMappings[6] == EnvMapping("CLUSTER_ID", "cluster_id")
    ensures forall i :: 0 <= i < |EnvMappings| && i != 6 ==> EnvMappings[i].configKey != EnvMappings[6].configKey
  {
    forall i | 0 <= i < |EnvMappings| && i != 6
      ensures EnvMappings[i].configKey != EnvMappings[6].configKey
    {
    }
  }

  lemma UnparsedIntIgnored(text: string)
    requires ParseInt(text).None?
    ensures Coerce("cluster_id", text) == None
  {
    assert "cluster_id" in IntKeys;
  }

  // ---------------------------------------------------------------------
  // .env files

  predicate IsQuote(c: char) { c == '"' || c == '\'' }

  function StripQuotesLeft(s: string): (r: string)
    ensures |r| <= |s| && r == s[|s| - |r|..]
    ensures r != [] ==> !IsQuote(r[0])
  {
    if s != [] && IsQuote(s[0]) then StripQuotesLeft(s[1..]) else s
  }

  function StripQuotesRight(s: string): (r: string)
    ensures |r| <= |s| && r == s[..|r|]
    ensures r != [] ==> !IsQuote(r[|r| - 1])
  {
    if s != [] && IsQuote(s[|s| - 1]) then StripQuotesRight(s[..|s| - 1]) else s
  }

  /** `s.strip('"\'')`. */
  function StripQuotes(s: string): (r: string)
    ensures |r| <= |s|
    ensures r != [] ==> !IsQuote(r[0]) && !IsQuote(r[|r| - 1])
  {
    StripQuotesRight(StripQuotesLeft(s))
  }

  /** One line of a `.env` file: blank lines, comments and lines without
      '=' give None; otherwise the text is split at the first '=', the key
      stripped and the value stripped of spaces and then of quotes. */
  function ParseEnvLine(line: string): (r: Option<(string, string)>)
    ensures r.Some? ==> Strip(line) != [] && Strip(line)[0] != '#' && '=' in Strip(line)
  {
    match SplitAtEquals(Strip(line))
    case None => None
    case Some(kv) => Some((Strip(kv.0), StripQuotes(Strip(kv.1))))
  }

  /** `line.split('=', 1)` of a stripped line that is neither blank nor a
      comment and holds a '='. */
  function SplitAtEquals(t: string): (r: Option<(string, string)>)
    ensures r.Some? ==> t != [] && t[0] != '#' && '=' in t
    ensures r.Some? ==> '=' !in r.value.0 && t == r.value.0 + "=" + r.value.1
  {
    if t == [] || t[0] == '#' || '=' !in t then None
    else
      var i := IndexOfChar(t, '=');
      assert t == t[..i] + "=" + t[i + 1..];
      Some((t[..i], t[i + 1..]))
  }

  lemma UnquotedStripQuotes(s: string)
    requires s != [] && !IsQuote(s[0]) && !IsQuote(s[|s| - 1])
    ensures StripQuotes(s) == s
  {
    assert StripQuotesLeft(s) == s;
  }

  /** A line written as `key=value` from a clean key and value reads back
      as that pair; '=' inside the value is kept. */
  lemma EnvLineRoundTrip(key: string, value: string)
    requires key != [] && key[0] != '#' && '=' !in key
    requires !IsSpace(key[0]) && !IsSpace(key[|key| - 1])
    requires value != [] && !IsSpace(value[0]) && !IsSpace(value[|value| - 1])
    requires !IsQuote(value[0]) && !IsQuote(value[|value| - 1])
    ensures ParseEnvLine(key + "=" + value) == Some((key, value))
  {
    var line := key + "=" + value;
    assert line[0] == key[0] && line[|line| - 1] == value[|value| - 1];
    NoSpaceStrip(line);
    assert line[..|key|] == key && line[|key| + 1..] == value;
    assert line[|key|] == '=';
    assert forall j :: 0 <= j < |key| ==> line[j] == key[j] && line[j] != '=';
    assert IndexOfChar(line, '=') == |key|;
    assert line[|key|] in line;
    assert SplitAtEquals(line) == Some((key, value));
    NoSpaceStrip(key);
    NoSpaceStrip(value);
    UnquotedStripQuotes(value);
  }

  /** Comments and blank lines are skipped. */
  lemma EnvCommentSkipped(line: string)
    requires Strip(line) == [] || Strip(line)[0] == '#'
    ensures ParseEnvLine(line).None?
  {
  }

  /** The three `.env` keys read for backward compatibility. */
  function EnvFileKey(key: string): (r: Option<string>)
    ensures r.Some? ==> r.value == "bot_token" || r.value == "log_level" || r.value == "log_file_path"
  {
    if key == "BOT_TOKEN" then Some("bot_token")
    else if key == "LOG_LEVEL" then Some("log_level")
    else if key == "LOG_FILE_PATH" then Some("log_file_path")
    else None
  }

  /** The effect of one `.env` line. */
  function EnvLineUpdate(config: Config, line: string): (r: Config)
    ensures forall k :: k != "bot_token" && k != "log_level" && k != "log_file_path" ==>
      (k in r <==> k in config) && (k in config ==> r[k] == config[k])
  {
    match ParseEnvLine(line)
    case None => config
    case Some(kv) =>
      match EnvFileKey(kv.0)
      case None => config
      case Some(k) => config[k := VStr(kv.1)]
  }

  /** The configuration after the first `|lines|` lines of a `.env` file. */
  function ApplyEnvLines(config: Config, lines: seq<string>): Config
  {
    if lines == [] then config
    else EnvLineUpdate(ApplyEnvLines(config, lines[..|lines| - 1]), lines[|lines| - 1])
  }

  /** `_load_from_env_file`, the file given as its lines. */
  method LoadFromEnvLines(config: Config, lines: seq<string>) returns (r: Config)
    ensures r == ApplyEnvLines(config, lines)
  {
    r := config;
    var i := 0;
    while i < |lines|
      invariant 0 <= i <= |lines|
      invariant r == ApplyEnvLines(config, lines[..i])
    {
      assert lines[..i + 1][..i] == lines[..i];
      r := EnvLineUpdate(r, lines[i]);
      i := i + 1;
    }
    assert lines[..i] == lines;
  }

  /** Only the three mapped keys can change, and each to a string. */
  lemma {:induction false} EnvLinesTouchOnlyMappedKeys(config: Config, lines: seq<string>, k: string)
    requires k != "bot_token" && k != "log_level" && k != "log_file_path"
    ensures var r := ApplyEnvLines(config, lines); (k in r <==> k in config) && (k in config ==> r[k] == config[k])
  {
    if lines != [] {
      EnvLinesTouchOnlyMappedKeys(config, lines[..|lines| - 1], k);
    }
  }

  // ---------------------------------------------------------------------
  // Environment detection

  datatype Environment = Development | Staging | Production | Testing

  function EnvironmentNamed(s: string): Option<Environment>
  {
    if s == "development" then Some(Development)
    else if s == "staging" then Some(Staging)
    else if s == "production" then Some(Production)
    else if s == "testing" then Some(Testing)
    else None
  }

  /** `_detect_environment`: an explicit, known SOUNDBRIDGE_ENVIRONMENT
      wins; then a `.git` directory or DEBUG means development; then
      PRODUCTION or HEROKU means production; otherwise development. An
      unset variable reads as "" (falsy). */
  function DetectEnvironment(env: map<string, string>, gitExists: bool): (r: Environment)
    ensures r == Staging || r == Testing ==>
      "SOUNDBRIDGE_ENVIRONMENT" in env && EnvironmentNamed(Lower(env["SOUNDBRIDGE_ENVIRONMENT"])) == Some(r)
    ensures "SOUNDBRIDGE_ENVIRONMENT" in env && EnvironmentNamed(Lower(env["SOUNDBRIDGE_ENVIRONMENT"])).Some? ==>
      r == EnvironmentNamed(Lower(env["SOUNDBRIDGE_ENVIRONMENT"])).value
    ensures !("SOUNDBRIDGE_ENVIRONMENT" in env && EnvironmentNamed(Lower(env["SOUNDBRIDGE_ENVIRONMENT"])).Some?) ==>
      (r == Production <==> (!gitExists && !("DEBUG" in env && env["DEBUG"] != [])
        && (("PRODUCTION" in env && env["PRODUCTION"] != []) || ("HEROKU" in env && env["HEROKU"] != []))))
  {
    var explicit := if "SOUNDBRIDGE_ENVIRONMENT" in env then Lower(env["SOUNDBRIDGE_ENVIRONMENT"]) else "";
    if explicit != [] && EnvironmentNamed(explicit).Some? then EnvironmentNamed(explicit).value
    else if gitExists || ("DEBUG" in env && env["DEBUG"] != []) then Development
    else if ("PRODUCTION" in env && env["PRODUCTION"] != []) || ("HEROKU" in env && env["HEROKU"] != []) then Production
    else Development
  }

  /** Development indicators are checked before production ones. */
  lemma DevelopmentBeforeProduction(env: map<string, string>)
    requires "SOUNDBRIDGE_ENVIRONMENT" !in env
    requires "DEBUG" in env && env["DEBUG"] != []
    ensures DetectEnvironment(env, false) == Development
  {
  }

  // ---------------------------------------------------------------------
  // Validation and loading

  datatype ConfigError = MissingToken | BadLogLevel | BadVolume | NotAString

  const LogLevels: set<string> := {"DEBUG", "INFO", "WARNING", "ERROR", "CRITICAL"}

  /** `kwargs.get(key, default)`. */
  function Get(config: Config, key: string, default: Value): Value
  {
    if key in config then config[key] else default
  }

  /** A number as Python compares it (bool counts as 0 or 1). */
  function AsNumber(v: Value): Option<real>
  {
    match v
    case VInt(i) => Some(i as real)
    case VReal(r) => Some(r)
    case VBool(b) => Some(if b then 1.0 else 0.0)
    case _ => None
  }

  /** The fallback `BotConfiguration(**data)`: the log level is upper-cased
      (a non-string raises), then `_validate` checks a truthy token, a known
      log level and a default volume in [0, 2]. */
  function ValidateFallback(config: Config): (r: Result<(), ConfigError>)
    ensures r.Ok? ==> Truthy(Get(config, "bot_token", VStr("")))
    ensures r.Ok? ==> (Get(config, "log_level", VStr("INFO")).VStr?
      && Upper(Get(config, "log_level", VStr("INFO")).s) in LogLevels)
    ensures r.Ok? ==> var v := AsNumber(Get(config, "default_volume", VReal(1.0)));
      v.Some? && 0.0 <= v.value <= 2.0
  {
    var level := Get(config, "log_level", VStr("INFO"));
    var volume := AsNumber(Get(config, "default_volume", VReal(1.0)));
    if !level.VStr? then Err(NotAString)
    else if !Truthy(Get(config, "bot_token", VStr(""))) then Err(MissingToken)
    else if Upper(level.s) !in LogLevels then Err(BadLogLevel)
    else if volume.None? then Err(NotAString)
    else if !(0.0 <= volume.value <= 2.0) then Err(BadVolume)
    else Ok(())
  }

  /** `_create_config_object`, the object `load_configuration` builds when
      pydantic is missing: it only upper-cases the log level and requires a
      truthy token. */
  function CreateConfigObject(config: Config): (r: Result<(), ConfigError>)
    ensures r.Ok? <==> Get(config, "log_level", VStr("INFO")).VStr? && Truthy(Get(config, "bot_token", VStr("")))
  {
    if !Get(config, "log_level", VStr("INFO")).VStr? then Err(NotAString)
    else if !Truthy(Get(config, "bot_token", VStr(""))) then Err(MissingToken)
    else Ok(())
  }

  /** The object built on load checks less than the fallback class: a
      default volume of 5 is loaded although `_validate` rejects it. */
  lemma LoadedObjectSkipsRangeChecks()
    ensures var c := map["bot_token" := VStr("t"), "default_volume" := VReal(5.0)];
      CreateConfigObject(c).Ok? && ValidateFallback(c) == Err(BadVolume)
  {
    var c := map["bot_token" := VStr("t"), "default_volume" := VReal(5.0)];
    assert Get(c, "log_level", VStr("INFO")) == VStr("INFO");
    assert Upper("INFO") == "INFO";
  }

  /** Whatever the fallback class accepts, the load path accepts too. */
  lemma FallbackStricterThanLoad(config: Config)
    requires ValidateFallback(config).Ok?
    ensures CreateConfigObject(config).Ok?
  {
  }

  /** `validate_configuration` without pydantic: only the presence of
      `bot_token` is checked. */
  function ValidateConfiguration(config: Config): (ok: bool)
    ensures ok <==> "bot_token" in config
  {
    "bot_token" in config
  }

  /** The configuration data `load_configuration` assembles: the default
      file, then the `.env` lines, then the deep-merged environment file,
      then the environment variables. */
  function LoadConfigData(defaultFile: Config, envLines: seq<string>, envFile: Config, env: map<string, string>): Config
  {
    ApplyMappings(DeepMerge(ApplyEnvLines(defaultFile, envLines), envFile), env, EnvMappings)
  }

  /** An environment variable overrides every file: a set BOT_TOKEN is the
      token whatever the files say. */
  lemma EnvironmentVariableWins(defaultFile: Config, envLines: seq<string>, envFile: Config, env: map<string, string>)
    requires "BOT_TOKEN" in env
    ensures var c := LoadConfigData(defaultFile, envLines, envFile, env);
      "bot_token" in c && c["bot_token"] == VStr(env["BOT_TOKEN"])
  {
    EnvMappingsDistinct();
    assert EnvMappings[0] == EnvMapping("BOT_TOKEN", "bot_token");
    MappedKeyValue(DeepMerge(ApplyEnvLines(defaultFile, envLines), envFile), env, EnvMappings, 0);
  }

  /** `load_configuration` without pydantic: the assembled data, checked by
      `_create_config_object`; failure becomes a ConfigurationError. */
  function LoadConfiguration(defaultFile: Config, envLines: seq<string>, envFile: Config, env: map<string, string>)
    : (r: Result<Config, ConfigError>)
    ensures r.Ok? ==> (r.value == LoadConfigData(defaultFile, envLines, envFile, env)
      && Truthy(Get(r.value, "bot_token", VStr(""))))
    ensures var c := LoadConfigData(defaultFile, envLines, envFile, env);
      && (r.Ok? <==> Get(c, "log_level", VStr("INFO")).VStr? && Truthy(Get(c, "bot_token", VStr(""))))
      && (!Get(c, "log_level", VStr("INFO")).VStr? ==> r == Err(NotAString))
      && (Get(c, "log_level", VStr("INFO")).VStr? && !Truthy(Get(c, "bot_token", VStr(""))) ==> r == Err(MissingToken))
  {
    var data := LoadConfigData(defaultFile, envLines, envFile, env);
    match CreateConfigObject(data)
    case Ok(_) => Ok(data)
    case Err(e) => Err(e)
  }
}

=== FILE: conflict_resolver.dfy ===
/** Cross-platform command conflicts: at most one active command per guild;
    a new command that conflicts with an unexpired active one is refused,
    with an advisory resolution computed from source priority and age. */
module ConflictResolution {
  import opened Util

  const CommandTimeout: real := 30.0
  const OverrideAfter: real := 5.0
  const MaxHistoryLength: nat := 100

  /** The priority list, highest first. */
  const PriorityOrder: seq<string> := ["discord", "second_life", "api"]

  datatype Command = Command(command: string, source: string, user: Option<string>, timestamp: real, requestId: string)

  /** `f"{guild_id}_{command}_{timestamp}"`; the timestamp's text is the
      caller's `stamp`. */
  function RequestId(guild: int, command: string, stamp: string): string
  {
    IntToString(guild) + "_" + command + "_" + stamp
  }

  datatype ConflictType = NoConflict | Duplicate | Streaming | Audio | Favorites

  const StreamingCommands: set<string> := {"play", "stop", "pause", "resume", "skip"}
  const AudioCommands: set<string> := {"volume", "eq", "bass", "treble"}
  const FavoritesCommands: set<string> := {"favorite_add", "favorite_remove", "favorite_play"}

  /** `_get_conflict_type`: two commands conflict when they fall in the same
      family; two equal streaming commands are a duplicate. */
  function ConflictTypeOf(newCommand: string, activeCommand: string): (r: ConflictType)
    ensures r == Duplicate <==> newCommand == activeCommand && newCommand in StreamingCommands
    ensures r == Streaming <==>
      newCommand != activeCommand && newCommand in StreamingCommands && activeCommand in StreamingCommands
    ensures r == Audio <==> newCommand in AudioCommands && activeCommand in AudioCommands
    ensures r == Favorites <==> newCommand in FavoritesCommands && activeCommand in FavoritesCommands
    ensures r == NoConflict <==>
      !(newCommand in StreamingCommands && activeCommand in StreamingCommands)
      && !(newCommand in AudioCommands && activeCommand in AudioCommands)
      && !(newCommand in FavoritesCommands && activeCommand in FavoritesCommands)
  {
    if newCommand in StreamingCommands && activeCommand in StreamingCommands then
      (if newCommand == activeCommand then Duplicate else Streaming)
    else if newCommand in AudioCommands && activeCommand in AudioCommands then Audio
    else if newCommand in FavoritesCommands && activeCommand in FavoritesCommands then Favorites
    else NoConflict
  }

  /** Conflicting is symmetric, and a type other than a duplicate does not
      depend on the order of the two commands. */
  lemma ConflictTypeSymmetric(a: string, b: string)
    ensures (ConflictTypeOf(a, b) == NoConflict) == (ConflictTypeOf(b, a) == NoConflict)
    ensures ConflictTypeOf(a, b) == ConflictTypeOf(b, a)
  {
  }

  /** `priority_order.index(source)`; None where `index` raises. */
  function Priority(source: string): (r: Option<nat>)
    ensures r.Some? <==> source in PriorityOrder
    ensures r.Some? ==> r.value < |PriorityOrder| && PriorityOrder[r.value] == source
  {
    if source == "discord" then Some(0)
    else if source == "second_life" then Some(1)
    else if source == "api" then Some(2)
    else None
  }

  datatype Action = Override | Reject
  datatype Reason = HigherPriority | LowerPriority | OldEnough | TooRecent | UnknownSource
  datatype Resolution = Resolution(action: Action, reason: Reason)

  /** `_resolve_conflict`: the earlier source in the priority list wins; for
      the same source a request more than 5 s newer overrides; an unknown
      source is rejected. */
  function Resolve(newSource: string, newTime: real, active: Command): (r: Resolution)
    ensures r.action == Override <==>
      Priority(newSource).Some? && Priority(active.source).Some?
      && (Priority(newSource).value < Priority(active.source).value
          || (newSource == active.source && newTime - active.timestamp > OverrideAfter))
    ensures Priority(newSource).None? || Priority(active.source).None? ==> r == Resolution(Reject, UnknownSource)
  {
    var np := Priority(newSource);
    var ap := Priority(active.source);
    if np.None? || ap.None? then Resolution(Reject, UnknownSource)
    else if np.value < ap.value then Resolution(Override, HigherPriority)
    else if np.value > ap.value then Resolution(Reject, LowerPriority)
    else if newTime - active.timestamp > OverrideAfter then Resolution(Override, OldEnough)
    else Resolution(Reject, TooRecent)
  }

  /** Between two different known sources exactly one would override the other. */
  lemma ResolveAntisymmetric(a: Command, b: Command, now: real)
    requires a.source in PriorityOrder && b.source in PriorityOrder && a.source != b.source
    ensures (Resolve(a.source, now, b).action == Override) != (Resolve(b.source, now, a).action == Override)
  {
  }

  datatype Completion = Completion(command: Command, completedAt: real, success: bool)

  datatype RequestOutcome =
    | Approved(requestId: string)
    | Conflicted(conflict: ConflictType, active: Command, resolution: Resolution)

  datatype ConflictCheck =
    | Clear
    | Conflict(conflict: ConflictType, active: Command, resolution: Resolution)

  class ConflictResolver {
    var active: map<int, Command>
    var history: map<int, seq<Completion>>

    ghost predicate Valid()
      reads this
    {
      forall g :: g in history ==> |history[g]| <= MaxHistoryLength
    }

    constructor ()
      ensures Valid() && active == map[] && history == map[]
    {
      active := map[];
      history := map[];
    }

    /** The guild's active command, if it has one that has not timed out. */
    function Unexpired(guild: int, now: real): Option<Command>
      reads this
    {
      if guild in active && now - active[guild].timestamp <= CommandTimeout then Some(active[guild]) else None
    }

    /** `_check_for_conflicts`: a timed-out active command is dropped first;
        an unexpired one conflicts when its family matches. */
    method CheckForConflicts(guild: int, command: string, source: string, now: real) returns (r: ConflictCheck)
      modifies this
      ensures history == old(history)
      ensures active == (if guild in old(active) && old(Unexpired(guild, now)).None? then old(active) - {guild} else old(active))
      ensures r.Conflict? <==>
        old(Unexpired(guild, now)).Some? && ConflictTypeOf(command, old(active)[guild].command) != NoConflict
      ensures r.Conflict? ==>
        r == Conflict(ConflictTypeOf(command, old(active)[guild].command), old(active)[guild],
                      Resolve(source, now, old(active)[guild]))
    {
      if guild in active {
        var a := active[guild];
        if now - a.timestamp > CommandTimeout {
          active := active - {guild};
        } else {
          var t := ConflictTypeOf(command, a.command);
          if t != NoConflict {
            return Conflict(t, a, Resolve(source, now, a));
          }
        }
      }
      return Clear;
    }

    /** `request_command_execution`: a conflict refuses the request and
        leaves the active command in place, even when the resolution says
        the new one would override; otherwise the request becomes active. */
    method RequestCommandExecution(guild: int, command: string, source: string, user: Option<string>,
                                   stamp: string, now: real)
      returns (r: RequestOutcome)
      requires Valid()
      modifies this
      ensures Valid() && history == old(history)
      ensures r.Conflicted? <==>
        old(Unexpired(guild, now)).Some? && ConflictTypeOf(command, old(active)[guild].command) != NoConflict
      ensures r.Conflicted? ==>
        active == old(active) && r.active == old(active)[guild]
        && r.resolution == Resolve(source, now, old(active)[guild])
      ensures r.Approved? ==>
        r.requestId == RequestId(guild, command, stamp)
        && active == old(active)[guild := Command(command, source, user, now, r.requestId)]
    {
      var c := CheckForConflicts(guild, command, source, now);
      if c.Conflict? {
        return Conflicted(c.conflict, c.active, c.resolution);
      }
      var id := RequestId(guild, command, stamp);
      active := active[guild := Command(command, source, user, now, id)];
      return Approved(id);
    }

    /** `_add_to_history`: append, dropping the oldest past the limit. */
    method AddToHistory(guild: int, c: Completion)
      requires Valid()
      modifies this
      ensures Valid() && active == old(active)
      ensures history == old(history)[guild :=
        KeepLast((if guild in old(history) then old(history)[guild] else []) + [c], MaxHistoryLength)]
    {
      var h := if guild in history then history[guild] else [];
      h := h + [c];
      if |h| > MaxHistoryLength {
        h := h[1..];
      }
      history := history[guild := h];
    }

    /** `command_completed`: only the matching active request is retired
        into the history. */
    method CommandCompleted(guild: int, requestId: string, success: bool, now: real)
      requires Valid()
      modifies this
      ensures Valid()
      ensures guild in old(active) && old(active)[guild].requestId == requestId ==>
        active == old(active) - {guild}
        && history == old(history)[guild := KeepLast(
             (if guild in old(history) then old(history)[guild] else []) + [Completion(old(active)[guild], now, success)],
             MaxHistoryLength)]
      ensures !(guild in old(active) && old(active)[guild].requestId == requestId) ==>
        active == old(active) && history == old(history)
    {
      if guild in active && active[guild].requestId == requestId {
        var a := active[guild];
        AddToHistory(guild, Completion(a, now, success));
        active := active - {guild};
      }
    }

    /** `get_command_history`: the last `limit` records (Python's
        `history[-limit:]`, which for a limit of 0 is the whole list). */
    function CommandHistory(guild: int, limit: int): (r: seq<Completion>)
      reads this
      ensures guild !in history ==> r == []
      ensures guild in history && limit > 0 ==> r == KeepLast(history[guild], limit)
      ensures guild in history && limit == 0 ==> r == history[guild]
    {
      if guild !in history then []
      else
        var h := history[guild];
        if |h| > limit then
          (if limit > 0 then NegativeSliceIsKeepLast(h, limit); PySliceFrom(h, -limit)
           else PySliceFrom(h, -limit))
        else h
    }

    /** `get_conflict_stats`: active count, history total and guild counts. */
    method ConflictStats() returns (activeCount: nat, totalHistory: nat, guildsWithHistory: nat)
      requires Valid()
      ensures activeCount == |active.Keys| && guildsWithHistory == |history.Keys|
      ensures totalHistory == SumValues(map g | g in history :: |history[g]|)
      ensures totalHistory <= MaxHistoryLength * |history.Keys|
    {
      var lengths := map g | g in history :: |history[g]|;
      totalHistory := SumMapValues(lengths);
      assert lengths.Keys == history.Keys;
      forall g | g in lengths
        ensures lengths[g] <= MaxHistoryLength
      {
        assert lengths[g] == |history[g]|;
      }
      SumValuesBound(lengths, MaxHistoryLength);
      activeCount := |active.Keys|;
      guildsWithHistory := |history.Keys|;
    }

    /** `cleanup_expired_commands`: drops every timed-out active command and
        counts them. */
    method CleanupExpiredCommands(now: real) returns (count: nat)
      modifies this
      ensures history == old(history)
      ensures active == map g | g in old(active) && now - old(active)[g].timestamp <= CommandTimeout :: old(active)[g]
      ensures count == |old(active).Keys| - |active.Keys|
    {
      var todo := active.Keys;
      var kept := active;
      ghost var orig := active;
      count := 0;
      while todo != {}
        invariant todo <= orig.Keys
        invariant kept.Keys <= orig.Keys
        invariant forall g :: g in kept ==> kept[g] == orig[g]
        invariant forall g :: g in orig && g !in todo ==>
          (g in kept <==> now - orig[g].timestamp <= CommandTimeout)
        invariant forall g :: g in todo ==> g in kept
        invariant count == |orig.Keys| - |kept.Keys|
        decreases todo
      {
        assert (forall h :: h !in todo) ==> todo == {};
        var g :| g in todo;
        if now - kept[g].timestamp > CommandTimeout {
          assert kept.Keys == (kept - {g}).Keys + {g};
          kept := kept - {g};
          count := count + 1;
        }
        todo := todo - {g};
      }
      ghost var want := map g | g in orig && now - orig[g].timestamp <= CommandTimeout :: orig[g];
      forall g
        ensures g in kept <==> g in want
      {
        assert g !in todo;
        if g in kept {
          assert g in orig.Keys;
        }
      }
      assert kept.Keys == want.Keys;
      assert forall g :: g in kept ==> kept[g] == want[g];
      active := kept;
    }
  }
}

=== FILE: digital_filter.dfy ===
/** Digital filters and the filter bank (audio/filters/digital_filter.py).
    The sample arithmetic of `scipy.signal.lfilter` is a parameter `lfilter`;
    what is modelled is the FIR/IIR classification, the empty-input rule and
    the bank's registry and processing order. */
module DigitalFilters {
  import opened AdvancedTypes

  /** A filter is its coefficients; the running `lfilter` state is not kept. */
  datatype DigitalFilter = DigitalFilter(coefficients: FilterCoefficients)

  /** The numerical core of one filtering call. */
  type LFilter = (FilterCoefficients, seq<real>) -> seq<real>

  /** `_is_fir`: the denominator is exactly [1.0]. */
  predicate IsFir(f: DigitalFilter)
  {
    f.coefficients.denominator == [1.0]
  }

  /** The filter that passes every sample through (b = a = [1.0]). */
  const AllPass: DigitalFilter := DigitalFilter(FilterCoefficients([1.0], [1.0], 1.0))

  lemma AllPassIsFir()
    ensures IsFir(AllPass)
  {
  }

  /** A filter whose denominator has more than one coefficient is IIR, as is
      one whose single coefficient is not 1. */
  lemma FirIffUnitDenominator(f: DigitalFilter)
    ensures IsFir(f) <==> |f.coefficients.denominator| == 1 && f.coefficients.denominator[0] == 1.0
  {
  }

  /** `DigitalFilter.process` on 1-D data: empty input is returned as it is,
      anything else goes through `lfilter`. */
  function Apply(f: DigitalFilter, x: seq<real>, lfilter: LFilter): (y: seq<real>)
    ensures x == [] ==> y == []
    ensures x != [] ==> y == lfilter(f.coefficients, x)
  {
    if x == [] then x else lfilter(f.coefficients, x)
  }

  /** Cascading the filters named in `order`, skipping ids without a filter. */
  function Series<K>(order: seq<K>, filters: map<K, DigitalFilter>, x: seq<real>, lfilter: LFilter): seq<real>
  {
    if order == [] then x
    else
      var y := if order[0] in filters then Apply(filters[order[0]], x, lfilter) else x;
      Series(order[1..], filters, y, lfilter)
  }

  /** Cascading two runs of the order list is one run over their concatenation. */
  lemma {:induction false} SeriesAppend<K>(a: seq<K>, b: seq<K>, filters: map<K, DigitalFilter>,
                                            x: seq<real>, lfilter: LFilter)
    ensures Series(a + b, filters, x, lfilter) == Series(b, filters, Series(a, filters, x, lfilter), lfilter)
  {
    if a != [] {
      assert (a + b)[0] == a[0] && (a + b)[1..] == a[1..] + b;
      var y := if a[0] in filters then Apply(filters[a[0]], x, lfilter) else x;
      assert Series(a + b, filters, x, lfilter) == Series(a[1..] + b, filters, y, lfilter);
      SeriesAppend(a[1..], b, filters, y, lfilter);
    } else {
      assert a + b == b;
    }
  }

  /** Empty input passes through any cascade untouched. */
  lemma {:induction false} SeriesOfEmpty<K>(order: seq<K>, filters: map<K, DigitalFilter>, lfilter: LFilter)
    ensures Series(order, filters, [], lfilter) == []
  {
    if order != [] {
      SeriesOfEmpty(order[1..], filters, lfilter);
    }
  }

  /** A cascade of pass-through filters leaves the signal as it is, whatever
      `lfilter` does to other coefficients, provided it passes the signal
      through an all-pass filter unchanged. */
  lemma {:induction false} AllPassCascadeIsIdentity<K>(order: seq<K>, filters: map<K, DigitalFilter>,
                                                       x: seq<real>, lfilter: LFilter)
    requires forall s :: lfilter(AllPass.coefficients, s) == s
    requires forall k :: k in filters ==> filters[k] == AllPass
    ensures Series(order, filters, x, lfilter) == x
  {
    if order != [] {
      AllPassCascadeIsIdentity(order[1..], filters, x, lfilter);
    }
  }

  /** `list.remove(x)`: drop the first occurrence. */
  function RemoveFirst<K(==)>(s: seq<K>, k: K): (r: seq<K>)
    ensures k !in s ==> r == s
    ensures k in s ==> |r| == |s| - 1
    ensures forall j :: j in r ==> j in s
    ensures forall j :: j in s && j != k ==> j in r
  {
    if s == [] then []
    else if s[0] == k then s[1..]
    else [s[0]] + RemoveFirst(s[1..], k)
  }

  predicate NoDuplicates<K(==)>(s: seq<K>)
  {
    forall i, j :: 0 <= i < j < |s| ==> s[i] != s[j]
  }

  /** Without duplicates, removal leaves no copy of the element behind and
      keeps the rest duplicate-free. */
  lemma {:induction false} RemoveFirstNoDuplicates<K>(s: seq<K>, k: K)
    requires NoDuplicates(s)
    ensures k !in RemoveFirst(s, k) && NoDuplicates(RemoveFirst(s, k))
  {
    if s != [] && s[0] != k {
      assert NoDuplicates(s[1..]) by {
        forall i, j | 0 <= i < j < |s[1..]| ensures s[1..][i] != s[1..][j] {
          assert s[1..][i] == s[i + 1] && s[1..][j] == s[j + 1];
        }
      }
      RemoveFirstNoDuplicates(s[1..], k);
      var r := RemoveFirst(s[1..], k);
      forall i, j | 0 <= i < j < |[s[0]] + r| ensures ([s[0]] + r)[i] != ([s[0]] + r)[j] {
        if i == 0 {
          assert s[0] !in s[1..];
          assert ([s[0]] + r)[j] in r;
        }
      }
    } else if s != [] {
      assert s[0] !in s[1..];
      forall i, j | 0 <= i < j < |s[1..]| ensures s[1..][i] != s[1..][j] {
        assert s[1..][i] == s[i + 1] && s[1..][j] == s[j + 1];
      }
    }
  }

  /** `FilterBank`: filters by id, run in the order the ids were first added. */
  class FilterBank<K(==,!new)> {
    var filters: map<K, DigitalFilter>
    var order: seq<K>

    /** The order list names every registered filter exactly once. */
    ghost predicate Valid()
      reads this
    {
      NoDuplicates(order)
      && (forall k :: k in filters <==> k in order)
    }

    constructor()
      ensures Valid() && filters == map[] && order == []
    {
      filters := map[];
      order := [];
    }

    /** `add_filter`: an existing id keeps its place in the order and has its
        filter replaced; a new id goes to the end. */
    method AddFilter(id: K, f: DigitalFilter)
      requires Valid()
      modifies this
      ensures Valid()
      ensures filters == old(filters)[id := f]
      ensures id in old(filters) ==> order == old(order)
      ensures id !in old(filters) ==> order == old(order) + [id]
    {
      filters := filters[id := f];
      if id !in order {
        order := order + [id];
      }
    }

    /** `remove_filter`: false for an unknown id; otherwise the id leaves
        both the map and the order list. */
    method RemoveFilter(id: K) returns (removed: bool)
      requires Valid()
      modifies this
      ensures Valid()
      ensures removed <==> id in old(filters)
      ensures filters == old(filters) - {id}
      ensures order == RemoveFirst(old(order), id)
      ensures id !in order
    {
      if id in filters {
        filters := filters - {id};
        RemoveFirstNoDuplicates(order, id);
        order := RemoveFirst(order, id);
        removed := true;
      } else {
        removed := false;
      }
    }

    /** A `remove_filter` followed by an `add_filter` of the same id: the
        filter is replaced and the id moves to the end of the order. */
    method Readd(id: K, f: DigitalFilter)
      requires Valid()
      modifies this
      ensures Valid()
      ensures filters == (old(filters) - {id})[id := f]
      ensures order == RemoveFirst(old(order), id) + [id]
    {
      var _ := RemoveFilter(id);
      AddFilter(id, f);
    }

    function Count(): (n: nat)
      reads this
      requires Valid()
      ensures n == |filters|
    {
      |filters|
    }

    /** `process(..., parallel=False)`: an empty bank returns its input;
        otherwise the filters run in series in `order`. */
    method Process(x: seq<real>, lfilter: LFilter) returns (y: seq<real>)
      requires Valid()
      ensures filters == map[] ==> y == x
      ensures filters != map[] ==> y == Series(order, filters, x, lfilter)
    {
      if filters == map[] {
        return x;
      }
      y := x;
      var i := 0;
      while i < |order|
        invariant 0 <= i <= |order|
        invariant Series(order, filters, x, lfilter) == Series(order[i..], filters, y, lfilter)
      {
        assert order[i..] == [order[i]] + order[i + 1..];
        if order[i] in filters {
          y := Apply(filters[order[i]], y, lfilter);
        }
        i := i + 1;
      }
    }
  }
}

=== FILE: effects_chain.dfy ===
/** The per-guild effects chain (audio/effects_chain.py): an ordered list
    of effects with parameters, the 3-band EQ and its presets, crossfade
    and ducking settings, and the sample pipeline that runs the enabled
    effects in order and clips to int16. */
module Effects {
  import opened Util
  import opened AudioTypes

  /** An effect definition; numeric parameters by name. */
  datatype Effect = Effect(id: string, kind: EffectType, params: map<string, real>, enabled: bool)

  function Get(params: map<string, real>, key: string, default: real): real
  {
    if key in params then params[key] else default
  }

  // ---------------------------------------------------------------------
  // EQ presets

  datatype EqTriple = EqTriple(bass: real, mid: real, treble: real)

  const PresetNames: seq<string> :=
    ["flat", "rock", "pop", "jazz", "classical", "electronic", "vocal", "bass_boost", "treble_boost"]

  /** The preset table; None for an unknown name. */
  function Preset(name: string): (p: Option<EqTriple>)
    ensures p.Some? <==> name in PresetNames
    ensures p.Some? ==> -12.0 <= p.value.bass <= 12.0 && -12.0 <= p.value.mid <= 12.0 && -12.0 <= p.value.treble <= 12.0
  {
    match name
    case "flat" => Some(EqTriple(0.0, 0.0, 0.0))
    case "rock" => Some(EqTriple(4.0, 2.0, 3.0))
    case "pop" => Some(EqTriple(2.0, 1.0, 4.0))
    case "jazz" => Some(EqTriple(3.0, -1.0, 2.0))
    case "classical" => Some(EqTriple(1.0, -2.0, 3.0))
    case "electronic" => Some(EqTriple(6.0, -2.0, 4.0))
    case "vocal" => Some(EqTriple(-2.0, 4.0, 2.0))
    case "bass_boost" => Some(EqTriple(8.0, 0.0, 0.0))
    case "treble_boost" => Some(EqTriple(0.0, 0.0, 8.0))
    case _ => None
  }

  /** Three named presets, spelled out. */
  lemma PresetValues()
    ensures Preset("rock") == Some(EqTriple(4.0, 2.0, 3.0))
    ensures Preset("bass_boost") == Some(EqTriple(8.0, 0.0, 0.0))
    ensures Preset("vocal") == Some(EqTriple(-2.0, 4.0, 2.0))
    ensures Preset("Rock") == None
  {
  }

  /** `set_eq`'s band clamp. */
  function ClampBand(x: real): (r: real)
    ensures -12.0 <= r <= 12.0
    ensures -12.0 <= x <= 12.0 ==> r == x
  {
    Clamp(x, -12.0, 12.0)
  }

  /** A known preset's bands pass the clamp unchanged. */
  lemma PresetSurvivesClamp(name: string)
    requires Preset(name).Some?
    ensures var p := Preset(name).value;
      ClampBand(p.bass) == p.bass && ClampBand(p.mid) == p.mid && ClampBand(p.treble) == p.treble
  {
  }

  // ---------------------------------------------------------------------
  // Sample-level effects (`_apply_eq`, `_apply_compressor`, `_apply_ducking`)

  /** One effect on one sample. `dbGain(db)` stands for `10 ** (db / 20)`. */
  function ApplyEffect(e: Effect, x: real, dbGain: real -> real): real
  {
    match e.kind
    case Equalizer => x * dbGain(Get(e.params, "mid", 0.0))
    case Compressor => Compress(x, Get(e.params, "threshold", 0.7), Get(e.params, "ratio", 0.5))
    case Ducking => x * (1.0 - Get(e.params, "level", 0.3) * 0.5)
    case _ => x
  }

  /** The enabled effects applied in chain order to one sample. */
  function ApplyChain(effects: seq<Effect>, x: real, dbGain: real -> real): real
  {
    if effects == [] then x
    else ApplyChain(effects[1..], if effects[0].enabled then ApplyEffect(effects[0], x, dbGain) else x, dbGain)
  }

  function EnabledOnly(effects: seq<Effect>): (r: seq<Effect>)
    ensures |r| <= |effects|
    ensures forall i :: 0 <= i < |r| ==> r[i].enabled
  {
    if effects == [] then []
    else (if effects[0].enabled then [effects[0]] else []) + EnabledOnly(effects[1..])
  }

  /** Disabled effects do not take part: the chain acts as its enabled
      effects alone. */
  lemma {:induction false} DisabledEffectsIgnored(effects: seq<Effect>, x: real, dbGain: real -> real)
    ensures ApplyChain(effects, x, dbGain) == ApplyChain(EnabledOnly(effects), x, dbGain)
  {
    if effects != [] {
      var y := if effects[0].enabled then ApplyEffect(effects[0], x, dbGain) else x;
      DisabledEffectsIgnored(effects[1..], y, dbGain);
      if effects[0].enabled {
        assert EnabledOnly(effects) == [effects[0]] + EnabledOnly(effects[1..]);
        assert EnabledOnly(effects)[1..] == EnabledOnly(effects[1..]);
      } else {
        assert EnabledOnly(effects) == EnabledOnly(effects[1..]);
      }
    }
  }

  /** A chain of unsupported effect kinds leaves the sample as it is. */
  lemma {:induction false} InertChainIsIdentity(effects: seq<Effect>, x: real, dbGain: real -> real)
    requires forall i :: 0 <= i < |effects| ==> effects[i].kind !in {Equalizer, Compressor, Ducking}
    ensures ApplyChain(effects, x, dbGain) == x
  {
    if effects != [] {
      InertChainIsIdentity(effects[1..], x, dbGain);
    }
  }

  // ---------------------------------------------------------------------
  // Config updates made through `_update_audio_config`

  function WithEq(c: AudioConfig, t: EqTriple): AudioConfig
  {
    c.(eqEnabled := true, eqBass := t.bass, eqMid := t.mid, eqTreble := t.treble)
  }

  /** The first index of an effect of `kind`, if any. */
  predicate IsFirstOfKind(effects: seq<Effect>, kind: EffectType, i: nat)
  {
    i < |effects| && effects[i].kind == kind && forall j :: 0 <= j < i ==> effects[j].kind != kind
  }

  /** The index of the first effect of `kind`, or the chain's length when
      there is none. */
  function IndexOfKind(effects: seq<Effect>, kind: EffectType): (i: nat)
    ensures i <= |effects|
    ensures i < |effects| ==> effects[i].kind == kind
    ensures forall j :: 0 <= j < i ==> effects[j].kind != kind
  {
    if effects == [] then 0
    else if effects[0].kind == kind then 0
    else 1 + IndexOfKind(effects[1..], kind)
  }

  /** The index of the first effect with `id`, or the chain's length when
      there is none. */
  function IndexOfId(effects: seq<Effect>, id: string): (i: nat)
    ensures i <= |effects|
    ensures i < |effects| ==> effects[i].id == id
    ensures forall j :: 0 <= j < i ==> effects[j].id != id
  {
    if effects == [] then 0
    else if effects[0].id == id then 0
    else 1 + IndexOfId(effects[1..], id)
  }

  /** The effect at `k` with `p` merged into its parameters. */
  function MergeAt(effects: seq<Effect>, k: nat, p: map<string, real>): seq<Effect>
    requires k < |effects|
  {
    effects[k := effects[k].(params := effects[k].params + p)]
  }

  /** The parameters `set_eq` stores for the three bands. */
  function EqParams(t: EqTriple): map<string, real>
  {
    map["bass" := t.bass, "mid" := t.mid, "treble" := t.treble]
  }

  /** What `set_eq` does to a guild's chain and to the parameter registry. */
  datatype EqOutcome = EqOutcome(ok: bool, chain: seq<Effect>, registry: map<string, map<string, real>>)

  /** `set_eq` on a chain: when the first EQ effect has a (truthy) id, `p`
      is merged into the first effect with that id and into the id's
      registry entry, the call failing when that entry is missing;
      otherwise a new EQ effect with `p` is appended under `freshId`, the
      call failing when that id is empty. */
  function SetEqOutcome(ch: seq<Effect>, registry: map<string, map<string, real>>, p: map<string, real>, freshId: string)
    : (o: EqOutcome)
    ensures |o.chain| == |ch| || o.chain == ch + [Effect(freshId, Equalizer, p, true)]
  {
    var e := IndexOfKind(ch, Equalizer);
    if e < |ch| && ch[e].id != "" then
      var id := ch[e].id;
      var k := IndexOfId(ch, id);
      if id in registry then EqOutcome(true, MergeAt(ch, k, p), registry[id := registry[id] + p])
      else EqOutcome(false, MergeAt(ch, k, p), registry)
    else EqOutcome(freshId != "", ch + [Effect(freshId, Equalizer, p, true)], registry[freshId := p])
  }

  /** The first index of `kind` is the one before which no effect has it
      and at which (unless at the end) one does. */
  lemma IndexOfKindIs(effects: seq<Effect>, kind: EffectType, i: nat)
    requires i <= |effects| && (i < |effects| ==> effects[i].kind == kind)
    requires forall t :: 0 <= t < i ==> effects[t].kind != kind
    ensures IndexOfKind(effects, kind) == i
  {
  }

  /** Merging parameters keeps every effect's kind. */
  lemma MergeKeepsFirstOfKind(effects: seq<Effect>, k: nat, p: map<string, real>, kind: EffectType)
    requires k < |effects|
    ensures IndexOfKind(MergeAt(effects, k, p), kind) == IndexOfKind(effects, kind)
  {
    var m := MergeAt(effects, k, p);
    var i := IndexOfKind(effects, kind);
    assert forall t :: 0 <= t < |m| ==> m[t].kind == effects[t].kind;
    IndexOfKindIs(m, kind, i);
  }

  /** An appended effect of `kind` is the first of its kind only when the
      chain had none before. */
  lemma AppendFirstOfKind(effects: seq<Effect>, x: Effect)
    requires forall j :: 0 <= j < |effects| ==> effects[j].kind != x.kind
    ensures IndexOfKind(effects + [x], x.kind) == |effects|
  {
    var m := effects + [x];
    assert forall t :: 0 <= t < |effects| ==> m[t] == effects[t];
    IndexOfKindIs(m, x.kind, |effects|);
  }

  /** With distinct, non-empty effect ids and a non-empty fresh id,
      `set_eq` leaves the chain with an EQ effect whose parameters hold
      the three bands, and it fails only when the EQ effect it found has
      no registry entry. */
  lemma SetEqStoresBands(ch: seq<Effect>, registry: map<string, map<string, real>>, t: EqTriple, freshId: string)
    requires forall i, j :: 0 <= i < j < |ch| ==> ch[i].id != ch[j].id
    requires forall i :: 0 <= i < |ch| ==> ch[i].id != ""
    requires freshId != ""
    ensures var o := SetEqOutcome(ch, registry, EqParams(t), freshId);
      var e := IndexOfKind(o.chain, Equalizer);
      && e < |o.chain|
      && "bass" in o.chain[e].params && o.chain[e].params["bass"] == t.bass
      && "mid" in o.chain[e].params && o.chain[e].params["mid"] == t.mid
      && "treble" in o.chain[e].params && o.chain[e].params["treble"] == t.treble
      && (o.ok <==> IndexOfKind(ch, Equalizer) == |ch| || ch[IndexOfKind(ch, Equalizer)].id in registry)
  {
    var p := EqParams(t);
    var e := IndexOfKind(ch, Equalizer);
    if e < |ch| {
      var k := IndexOfId(ch, ch[e].id);
      assert k == e;
      MergeKeepsFirstOfKind(ch, k, p, Equalizer);
    } else {
      AppendFirstOfKind(ch, Effect(freshId, Equalizer, p, true));
    }
  }

  /** `_find_eq_effect`'s scan, as an index into the chain. */
  method FindFirstOfKind(effects: seq<Effect>, kind: EffectType) returns (r: Option<nat>)
    ensures r.Some? ==> IsFirstOfKind(effects, kind, r.value)
    ensures r.None? <==> forall j :: 0 <= j < |effects| ==> effects[j].kind != kind
    ensures r == if IndexOfKind(effects, kind) < |effects| then Some(IndexOfKind(effects, kind)) else None
  {
    var i := 0;
    while i < |effects|
      invariant 0 <= i <= |effects|
      invariant forall j :: 0 <= j < i ==> effects[j].kind != kind
    {
      if effects[i].kind == kind {
        return Some(i);
      }
      i := i + 1;
    }
    return None;
  }

  /** Index of the first effect with `id`, if any. */
  method FindById(effects: seq<Effect>, id: string) returns (r: Option<nat>)
    ensures r.Some? ==> (r.value < |effects| && effects[r.value].id == id
      && forall j :: 0 <= j < r.value ==> effects[j].id != id)
    ensures r.None? <==> forall j :: 0 <= j < |effects| ==> effects[j].id != id
    ensures r == if IndexOfId(effects, id) < |effects| then Some(IndexOfId(effects, id)) else None
  {
    var i := 0;
    while i < |effects|
      invariant 0 <= i <= |effects|
      invariant forall j :: 0 <= j < i ==> effects[j].id != id
    {
      if effects[i].id == id {
        return Some(i);
      }
      i := i + 1;
    }
    return None;
  }

  class EffectsChain {
    var chains: map<int, seq<Effect>>
    var effectParams: map<string, map<string, real>>
    var crossfadeDurations: map<int, real>
    /** The audio configs of the guilds whose state carries one. */
    var configs: map<int, AudioConfig>

    constructor (configs: map<int, AudioConfig>)
      ensures chains == map[] && effectParams == map[] && crossfadeDurations == map[]
      ensures this.configs == configs
    {
      chains, effectParams, crossfadeDurations := map[], map[], map[];
      this.configs := configs;
    }

    function ChainOf(g: int): seq<Effect>
      reads this
    {
      if g in chains then chains[g] else []
    }

    /** `_update_audio_config`: only a guild that has a config is updated. */
    method UpdateAudioConfig(g: int, f: AudioConfig -> AudioConfig)
      modifies this
      ensures configs == if g in old(configs) then old(configs)[g := f(old(configs)[g])] else old(configs)
      ensures chains == old(chains) && effectParams == old(effectParams)
      ensures crossfadeDurations == old(crossfadeDurations)
    {
      if g in configs {
        configs := configs[g := f(configs[g])];
      }
    }

    /** `add_effect` with `freshId` for the generated id: the effect is
        appended enabled, with its own copy of the parameters. */
    method AddEffect(g: int, kind: EffectType, params: map<string, real>, freshId: string) returns (id: string)
      modifies this
      ensures id == freshId
      ensures chains == old(chains)[g := old(ChainOf(g)) + [Effect(freshId, kind, params, true)]]
      ensures effectParams == old(effectParams)[freshId := params]
      ensures configs == old(configs) && crossfadeDurations == old(crossfadeDurations)
    {
      if g !in chains {
        chains := chains[g := []];
      }
      chains := chains[g := chains[g] + [Effect(freshId, kind, params, true)]];
      effectParams := effectParams[freshId := params];
      id := freshId;
    }

    /** `remove_effect`: False when the guild or the id is unknown; otherwise
        the first effect with the id and its parameters are removed. */
    method RemoveEffect(g: int, id: string) returns (removed: bool)
      modifies this
      ensures removed <==> g in old(chains) && exists i :: 0 <= i < |old(chains)[g]| && old(chains)[g][i].id == id
      ensures !removed ==> unchanged(this)
      ensures removed ==> exists i :: (0 <= i < |old(chains)[g]| && old(chains)[g][i].id == id
        && (forall j :: 0 <= j < i ==> old(chains)[g][j].id != id)
        && chains == old(chains)[g := old(chains)[g][..i] + old(chains)[g][i + 1..]])
      ensures removed ==> effectParams == old(effectParams) - {id}
      ensures configs == old(configs) && crossfadeDurations == old(crossfadeDurations)
    {
      if g !in chains {
        return false;
      }
      var effects := chains[g];
      var k := FindById(effects, id);
      if k.None? {
        return false;
      }
      chains := chains[g := effects[..k.value] + effects[k.value + 1..]];
      effectParams := effectParams - {id};
      return true;
    }

    /** `update_effect`: the first effect with the id gets the new parameters
        merged in; the registry copy is merged too, and a missing registry
        entry makes the call answer False after the chain was updated. */
    method UpdateEffect(g: int, id: string, params: map<string, real>) returns (ok: bool)
      modifies this
      ensures var ch := old(ChainOf(g)); var k := IndexOfId(ch, id);
        && (ok <==> k < |ch| && id in old(effectParams))
        && chains == (if k < |ch| then old(chains)[g := MergeAt(ch, k, params)] else old(chains))
        && effectParams == (if ok then old(effectParams)[id := old(effectParams)[id] + params] else old(effectParams))
      ensures configs == old(configs) && crossfadeDurations == old(crossfadeDurations)
    {
      if g !in chains {
        return false;
      }
      var effects := chains[g];
      var k := FindById(effects, id);
      if k.None? {
        return false;
      }
      var i := k.value;
      chains := chains[g := effects[i := effects[i].(params := effects[i].params + params)]];
      if id !in effectParams {
        return false;
      }
      effectParams := effectParams[id := effectParams[id] + params];
      return true;
    }

    /** `set_eq`: bands clamped to [-12, 12]; the first EQ effect of the chain
        is updated, or a new one added; on success the config follows. */
    method SetEq(g: int, bass: real, mid: real, treble: real, freshId: string) returns (ok: bool)
      modifies this
      ensures var t := EqTriple(ClampBand(bass), ClampBand(mid), ClampBand(treble));
        var o := SetEqOutcome(old(ChainOf(g)), old(effectParams), EqParams(t), freshId);
        && ok == o.ok && chains == old(chains)[g := o.chain] && effectParams == o.registry
        && (ok ==> configs == if g in old(configs) then old(configs)[g := WithEq(old(configs)[g], t)] else old(configs))
        && (!ok ==> configs == old(configs))
      ensures crossfadeDurations == old(crossfadeDurations)
    {
      var b, m, t := ClampBand(bass), ClampBand(mid), ClampBand(treble);
      var params := EqParams(EqTriple(b, m, t));
      var found := FindFirstOfKind(ChainOf(g), Equalizer);
      if found.Some? && ChainOf(g)[found.value].id != "" {
        ok := UpdateEffect(g, ChainOf(g)[found.value].id, params);
      } else {
        var id := AddEffect(g, Equalizer, params, freshId);
        ok := id != "";
      }
      if ok {
        UpdateAudioConfig(g, c => WithEq(c, EqTriple(b, m, t)));
      }
    }

    /** `apply_eq_preset`: False for an unknown name; otherwise `set_eq` with
        the preset's bands and, on success, the preset name in the config. */
    method ApplyEqPreset(g: int, name: string, freshId: string) returns (ok: bool)
      modifies this
      ensures Preset(name).None? ==> !ok && unchanged(this)
      ensures Preset(name).Some? ==>
        var o := SetEqOutcome(old(ChainOf(g)), old(effectParams), EqParams(Preset(name).value), freshId);
        && ok == o.ok && chains == old(chains)[g := o.chain] && effectParams == o.registry
        && (!ok ==> configs == old(configs))
        && (ok && g !in old(configs) ==> configs == old(configs))
      ensures ok ==> Preset(name).Some? && g in old(configs) ==>
        configs == old(configs)[g := WithEq(old(configs)[g], Preset(name).value).(eqPreset := Some(name))]
      ensures crossfadeDurations == old(crossfadeDurations)
    {
      var p := Preset(name);
      if p.None? {
        return false;
      }
      PresetSurvivesClamp(name);
      ok := SetEq(g, p.value.bass, p.value.mid, p.value.treble, freshId);
      if ok {
        UpdateAudioConfig(g, (c: AudioConfig) => c.(eqPreset := Some(name)));
      }
    }

    /** `enable_crossfade`: the duration is clamped to [0.1, 10]. */
    method EnableCrossfade(g: int, duration: real) returns (ok: bool)
      modifies this
      ensures ok
      ensures crossfadeDurations == old(crossfadeDurations)[g := Clamp(duration, 0.1, 10.0)]
      ensures 0.1 <= crossfadeDurations[g] <= 10.0
      ensures configs == if g in old(configs) then old(configs)[g := old(configs)[g].(crossfadeDuration := Clamp(duration, 0.1, 10.0))] else old(configs)
      ensures chains == old(chains) && effectParams == old(effectParams)
    {
      var d := Clamp(duration, 0.1, 10.0);
      crossfadeDurations := crossfadeDurations[g := d];
      UpdateAudioConfig(g, (c: AudioConfig) => c.(crossfadeDuration := d));
      ok := true;
    }

    /** `enable_ducking`: level and sensitivity clamped to [0, 1]; a DUCKING
        effect is appended. */
    method EnableDucking(g: int, level: real, sensitivity: real, freshId: string) returns (ok: bool)
      modifies this
      ensures ok == (freshId != "")
      ensures var l, s := Clamp(level, 0.0, 1.0), Clamp(sensitivity, 0.0, 1.0);
        chains == old(chains)[g := old(ChainOf(g)) + [Effect(freshId, Ducking,
          map["level" := l, "sensitivity" := s, "attack_time" := 0.1, "release_time" := 0.5], true)]]
      ensures var l, s := Clamp(level, 0.0, 1.0), Clamp(sensitivity, 0.0, 1.0);
        effectParams == old(effectParams)[freshId := map["level" := l, "sensitivity" := s, "attack_time" := 0.1, "release_time" := 0.5]]
      ensures var l, s := Clamp(level, 0.0, 1.0), Clamp(sensitivity, 0.0, 1.0);
        configs == if ok && g in old(configs)
                   then old(configs)[g := old(configs)[g].(duckingEnabled := true, duckingLevel := l, duckingSensitivity := s)]
                   else old(configs)
      ensures crossfadeDurations == old(crossfadeDurations)
    {
      var l, s := Clamp(level, 0.0, 1.0), Clamp(sensitivity, 0.0, 1.0);
      var params := map["level" := l, "sensitivity" := s, "attack_time" := 0.1, "release_time" := 0.5];
      var id := AddEffect(g, Ducking, params, freshId);
      if id != "" {
        UpdateAudioConfig(g, (c: AudioConfig) => c.(duckingEnabled := true, duckingLevel := l, duckingSensitivity := s));
      }
      ok := id != "";
    }

    /** `process_audio_effects` on int16 samples: unchanged when empty or when
        the guild has no chain; otherwise every sample goes through the
        enabled effects in order and is clipped to int16. */
    method ProcessAudioEffects(g: int, samples: seq<int>, dbGain: real -> real) returns (out: seq<int>)
      ensures samples == [] || g !in chains ==> out == samples
      ensures g in chains ==> |out| == |samples|
      ensures g in chains ==> forall k :: 0 <= k < |out| ==>
        out[k] == ClipInt16(ApplyChain(chains[g], samples[k] as real, dbGain))
    {
      if samples == [] || g !in chains {
        return samples;
      }
      var effects := chains[g];
      var audio: seq<real> := seq(|samples|, k requires 0 <= k < |samples| => samples[k] as real);
      var i := 0;
      while i < |effects|
        invariant 0 <= i <= |effects|
        invariant |audio| == |samples|
        invariant forall k :: 0 <= k < |audio| ==>
          ApplyChain(effects[i..], audio[k], dbGain) == ApplyChain(effects, samples[k] as real, dbGain)
      {
        if effects[i].enabled {
          audio := seq(|audio|, k requires 0 <= k < |audio| => ApplyEffect(effects[i], audio[k], dbGain));
        }
        i := i + 1;
      }
      out := seq(|audio|, k requires 0 <= k < |audio| => ClipInt16(audio[k]));
    }

    /** `process_audio_effects` on the bytes it is handed: empty bytes or a
        guild without a chain come back as they are; an odd byte count makes
        `np.frombuffer` raise and the `except` hands the input back; otherwise
        the decoded samples run through the chain and are written back. */
    method ProcessAudioEffectsBytes(g: int, data: seq<uint8>, dbGain: real -> real) returns (out: seq<uint8>)
      ensures |data| % 2 == 1 || g !in chains ==> out == data
      ensures |out| == |data|
      ensures |data| % 2 == 0 && g in chains ==>
        var samples := FromBuffer(data).value;
        && FromBuffer(out).Some? && |FromBuffer(out).value| == |samples|
        && forall k :: 0 <= k < |samples| ==>
             FromBuffer(out).value[k] == ClipInt16(ApplyChain(chains[g], samples[k] as real, dbGain))
    {
      if data == [] || g !in chains {
        return data;
      }
      var decoded := FromBuffer(data);
      if decoded.None? {
        return data;
      }
      var processed := ProcessAudioEffects(g, decoded.value, dbGain);
      FromBufferToBytes(processed);
      out := ToBytes(processed);
    }
  }

  // ---------------------------------------------------------------------
  // `get_effects_stats`

  function CountKind(effects: seq<Effect>, kind: EffectType): (n: nat)
    ensures n <= |effects|
  {
    if effects == [] then 0 else (if effects[0].kind == kind then 1 else 0) + CountKind(effects[1..], kind)
  }

  function AllKinds(): seq<EffectType>
  {
    [Equalizer, Compressor, Limiter, Reverb, Chorus, Distortion, NoiseGate, Ducking, Crossfade]
  }

  function SumCounts(effects: seq<Effect>, kinds: seq<EffectType>): nat
  {
    if kinds == [] then 0 else CountKind(effects, kinds[0]) + SumCounts(effects, kinds[1..])
  }

  /** The per-type counts of the stats add up to the total number of effects. */
  lemma {:induction false} CountsAddUp(effects: seq<Effect>)
    ensures SumCounts(effects, AllKinds()) == |effects|
  {
    if effects != [] {
      CountsAddUp(effects[1..]);
      SumCountsSplit(effects, AllKinds());
      AllKindsDistinct();
      SingleSum(effects[0], AllKinds());
      AllKindsComplete(effects[0].kind);
    } else {
      NoEffectsNoCounts(AllKinds());
    }
  }

  lemma AllKindsDistinct()
    ensures forall i, j :: 0 <= i < j < |AllKinds()| ==> AllKinds()[i] != AllKinds()[j]
  {
  }

  lemma AllKindsComplete(k: EffectType)
    ensures k in AllKinds()
  {
  }

  lemma {:induction false} NoEffectsNoCounts(kinds: seq<EffectType>)
    ensures SumCounts([], kinds) == 0
  {
    if kinds != [] {
      NoEffectsNoCounts(kinds[1..]);
    }
  }

  lemma {:induction false} SingleSum(e: Effect, kinds: seq<EffectType>)
    requires forall i, j :: 0 <= i < j < |kinds| ==> kinds[i] != kinds[j]
    ensures SumCounts([e], kinds) == if e.kind in kinds then 1 else 0
  {
    if kinds != [] {
      SingleSum(e, kinds[1..]);
    }
  }

  lemma {:induction false} SumCountsSplit(effects: seq<Effect>, kinds: seq<EffectType>)
    requires effects != []
    ensures SumCounts(effects, kinds) == SumCounts(effects[1..], kinds) + SumCounts([effects[0]], kinds)
  {
    if kinds != [] {
      SumCountsSplit(effects, kinds[1..]);
    }
  }
}

=== FILE: event_bridge.dfy ===
/** The event bridge: internal events are queued while the bridge runs and
    later delivered, in batches, to the external handlers whose pattern
    matches the event name and whose platform is registered and active.

    Handlers are identified by a number; calling one is recorded as its
    identifier appearing in the delivery list. */
module EventBridging {
  import opened Util
  import opened Values
  import opened Synchronizer

  const EventQueueMaxSize: nat := 1000
  const BatchSize: nat := 10

  /** `_event_matches_pattern`: "*" matches every name, a trailing "*" asks
      for a prefix, a leading "*" for a suffix, anything else for equality. */
  function EventMatchesPattern(name: string, pattern: string): (r: bool)
    ensures pattern == "*" ==> r
    ensures pattern != "*" && EndsWith(pattern, "*") ==> (r <==> StartsWith(name, pattern[..|pattern| - 1]))
    ensures !EndsWith(pattern, "*") && StartsWith(pattern, "*") ==> (r <==> EndsWith(name, pattern[1..]))
    ensures !EndsWith(pattern, "*") && !StartsWith(pattern, "*") ==> (r <==> name == pattern)
  {
    if pattern == "*" then true
    else if EndsWith(pattern, "*") then StartsWith(name, pattern[..|pattern| - 1])
    else if StartsWith(pattern, "*") then EndsWith(name, pattern[1..])
    else name == pattern
  }

  /** Every pattern matches its own text (the wildcard matches itself
      literally as a prefix or suffix). */
  lemma PatternMatchesItself(pattern: string)
    ensures EventMatchesPattern(pattern, pattern)
  {
    if pattern != "*" && EndsWith(pattern, "*") {
      assert pattern[..|pattern| - 1] == pattern[..|pattern[..|pattern| - 1]|];
    } else if !EndsWith(pattern, "*") && StartsWith(pattern, "*") {
      assert pattern[|pattern| - |pattern[1..]|..] == pattern[1..];
    }
  }

  /** A pattern without wildcards at either end matches exactly itself. */
  lemma LiteralPatternIsExact(name: string, pattern: string)
    requires pattern == [] || (pattern[0] != '*' && pattern[|pattern| - 1] != '*')
    ensures EventMatchesPattern(name, pattern) <==> name == pattern
  {
    if pattern != [] {
      assert pattern[|pattern| - 1..] != "*";
      assert pattern[..1] != "*";
    }
  }

  datatype HandlerInfo = HandlerInfo(handler: nat, platform: string, registeredAt: real)
  datatype PlatformConnection = PlatformConnection(info: Record, registeredAt: real, active: bool)
  datatype BridgedEvent = BridgedEvent(name: string, data: Record, timestamp: string)

  /** The handlers of the patterns, in pattern order, that match `name`. */
  function MatchingHandlers(patterns: seq<string>, handlers: map<string, seq<HandlerInfo>>, name: string)
    : (r: seq<HandlerInfo>)
    ensures forall h :: h in r ==> exists p :: p in patterns && p in handlers && EventMatchesPattern(name, p) && h in handlers[p]
    ensures forall i, h ::
      (0 <= i < |patterns| && patterns[i] in handlers && EventMatchesPattern(name, patterns[i])
       && h in handlers[patterns[i]]) ==> h in r
    decreases |patterns|
  {
    if patterns == [] then []
    else
      (if patterns[0] in handlers && EventMatchesPattern(name, patterns[0]) then handlers[patterns[0]] else [])
      + MatchingHandlers(patterns[1..], handlers, name)
  }

  lemma {:induction false} MatchingHandlersAppend(patterns: seq<string>, p: string,
                                                  handlers: map<string, seq<HandlerInfo>>, name: string)
    ensures MatchingHandlers(patterns + [p], handlers, name)
      == MatchingHandlers(patterns, handlers, name)
         + (if p in handlers && EventMatchesPattern(name, p) then handlers[p] else [])
    decreases |patterns|
  {
    var last := if p in handlers && EventMatchesPattern(name, p) then handlers[p] else [];
    if patterns == [] {
      assert [p][1..] == [];
      assert MatchingHandlers([p], handlers, name) == last + MatchingHandlers([], handlers, name);
    } else {
      var q := patterns[0];
      var first := if q in handlers && EventMatchesPattern(name, q) then handlers[q] else [];
      assert (patterns + [p])[0] == q;
      assert (patterns + [p])[1..] == patterns[1..] + [p];
      MatchingHandlersAppend(patterns[1..], p, handlers, name);
      calc {
        MatchingHandlers(patterns + [p], handlers, name);
        first + MatchingHandlers(patterns[1..] + [p], handlers, name);
        first + (MatchingHandlers(patterns[1..], handlers, name) + last);
        (first + MatchingHandlers(patterns[1..], handlers, name)) + last;
        MatchingHandlers(patterns, handlers, name) + last;
      }
    }
  }

  /** Pattern order: the handlers of pattern `i` come after those of the
      patterns before it and before those of the patterns after it. */
  lemma {:induction false} MatchingHandlersSplit(patterns: seq<string>, i: nat,
                                                 handlers: map<string, seq<HandlerInfo>>, name: string)
    requires i < |patterns|
    ensures MatchingHandlers(patterns, handlers, name)
      == MatchingHandlers(patterns[..i], handlers, name)
         + (if patterns[i] in handlers && EventMatchesPattern(name, patterns[i]) then handlers[patterns[i]] else [])
         + MatchingHandlers(patterns[i + 1..], handlers, name)
    decreases i
  {
    if i > 0 {
      MatchingHandlersSplit(patterns[1..], i - 1, handlers, name);
      assert patterns[1..][..i - 1] == patterns[..i][1..];
      assert patterns[1..][i..] == patterns[i + 1..];
      assert patterns[..i][0] == patterns[0];
    } else {
      assert patterns[..0] == [];
      assert patterns[1..] == patterns[i + 1..];
    }
  }

  /** The identifiers of the handlers whose platform is registered and active. */
  function ActiveHandlers(hs: seq<HandlerInfo>, platforms: map<string, PlatformConnection>): (r: seq<nat>)
    ensures |r| <= |hs|
    ensures forall i :: 0 <= i < |hs| && hs[i].platform in platforms && platforms[hs[i].platform].active ==> hs[i].handler in r
    ensures forall x :: x in r ==> exists h :: h in hs && h.handler == x && h.platform in platforms && platforms[h.platform].active
    decreases |hs|
  {
    if hs == [] then []
    else
      (if hs[0].platform in platforms && platforms[hs[0].platform].active then [hs[0].handler] else [])
      + ActiveHandlers(hs[1..], platforms)
  }

  lemma {:induction false} ActiveHandlersAppend(a: seq<HandlerInfo>, h: HandlerInfo, platforms: map<string, PlatformConnection>)
    ensures ActiveHandlers(a + [h], platforms)
      == ActiveHandlers(a, platforms) + (if h.platform in platforms && platforms[h.platform].active then [h.handler] else [])
    decreases |a|
  {
    if a == [] {
      assert [h][1..] == [];
    } else {
      assert (a + [h])[1..] == a[1..] + [h];
      ActiveHandlersAppend(a[1..], h, platforms);
    }
  }

  /** Without any registered platform nothing is delivered. */
  lemma {:induction false} NoPlatformNoDelivery(hs: seq<HandlerInfo>)
    ensures ActiveHandlers(hs, map[]) == []
    decreases |hs|
  {
    if hs != [] {
      NoPlatformNoDelivery(hs[1..]);
    }
  }

  class EventBridge {
    /** The subscribed patterns in the order they were first used. */
    var patterns: seq<string>
    var handlers: map<string, seq<HandlerInfo>>
    var platforms: map<string, PlatformConnection>
    var queue: seq<BridgedEvent>
    var isRunning: bool

    ghost predicate Valid()
      reads this
    {
      (forall p :: p in patterns <==> p in handlers)
      && (forall i, j :: 0 <= i < j < |patterns| ==> patterns[i] != patterns[j])
      && |queue| <= EventQueueMaxSize
    }

    constructor ()
      ensures Valid() && patterns == [] && handlers == map[] && platforms == map[] && queue == [] && !isRunning
    {
      patterns := [];
      handlers := map[];
      platforms := map[];
      queue := [];
      isRunning := false;
    }

    method Start()
      modifies this
      ensures isRunning
      ensures patterns == old(patterns) && handlers == old(handlers) && platforms == old(platforms) && queue == old(queue)
    {
      isRunning := true;
    }

    method Stop()
      modifies this
      ensures !isRunning
      ensures patterns == old(patterns) && handlers == old(handlers) && platforms == old(platforms) && queue == old(queue)
    {
      isRunning := false;
    }

    /** `register_platform`: (re)registered as active. */
    method RegisterPlatform(id: string, info: Record, now: real)
      requires Valid()
      modifies this
      ensures Valid() && platforms == old(platforms)[id := PlatformConnection(info, now, true)]
      ensures patterns == old(patterns) && handlers == old(handlers) && queue == old(queue) && isRunning == old(isRunning)
    {
      platforms := platforms[id := PlatformConnection(info, now, true)];
    }

    /** `unregister_platform`: an unknown platform changes nothing. */
    method UnregisterPlatform(id: string)
      requires Valid()
      modifies this
      ensures Valid() && platforms == old(platforms) - {id}
      ensures id !in old(platforms) ==> platforms == old(platforms)
      ensures patterns == old(patterns) && handlers == old(handlers) && queue == old(queue) && isRunning == old(isRunning)
    {
      if id in platforms {
        platforms := platforms - {id};
      }
    }

    /** `subscribe_to_event`: the handler joins the end of its pattern's list. */
    method SubscribeToEvent(pattern: string, handler: nat, platform: string, now: real)
      requires Valid()
      modifies this
      ensures Valid()
      ensures patterns == old(patterns) + (if pattern in old(handlers) then [] else [pattern])
      ensures handlers == old(handlers)[pattern :=
        (if pattern in old(handlers) then old(handlers)[pattern] else []) + [HandlerInfo(handler, platform, now)]]
      ensures platforms == old(platforms) && queue == old(queue) && isRunning == old(isRunning)
    {
      if pattern !in handlers {
        patterns := patterns + [pattern];
        handlers := handlers[pattern := []];
      }
      handlers := handlers[pattern := handlers[pattern] + [HandlerInfo(handler, platform, now)]];
    }

    /** `bridge_event`: nothing while stopped; dropped when the queue is full. */
    method BridgeEvent(name: string, data: Record, stamp: string)
      requires Valid()
      modifies this
      ensures Valid()
      ensures queue == if isRunning && |old(queue)| < EventQueueMaxSize then old(queue) + [BridgedEvent(name, data, stamp)] else old(queue)
      ensures patterns == old(patterns) && handlers == old(handlers) && platforms == old(platforms) && isRunning == old(isRunning)
    {
      if !isRunning {
        return;
      }
      if |queue| < EventQueueMaxSize {
        queue := queue + [BridgedEvent(name, data, stamp)];
      }
    }

    /** `_on_internal_event`: the data gains the internal-event markers. */
    method OnInternalEvent(name: string, data: Record, stamp: string)
      requires Valid()
      modifies this
      ensures Valid()
      ensures var d := data["internal_event" := VBool(true)]["original_event" := VStr(name)];
        queue == if isRunning && |old(queue)| < EventQueueMaxSize then old(queue) + [BridgedEvent(name, d, stamp)] else old(queue)
      ensures patterns == old(patterns) && handlers == old(handlers) && platforms == old(platforms) && isRunning == old(isRunning)
    {
      BridgeEvent(name, data["internal_event" := VBool(true)]["original_event" := VStr(name)], stamp);
    }

    /** One collection step of the processing loop: up to ten queued events,
        oldest first. */
    method TakeBatch() returns (batch: seq<BridgedEvent>)
      requires Valid()
      modifies this
      ensures Valid()
      ensures |batch| == MinInt(|old(queue)|, BatchSize) && old(queue) == batch + queue
      ensures patterns == old(patterns) && handlers == old(handlers) && platforms == old(platforms) && isRunning == old(isRunning)
    {
      var n := MinInt(|queue|, BatchSize);
      batch := queue[..n];
      queue := queue[n..];
    }

    /** `_deliver_event_to_handlers`: the matching handlers in pattern order,
        of which those on a registered, active platform are called. */
    method DeliverEvent(e: BridgedEvent) returns (called: seq<nat>)
      ensures called == ActiveHandlers(MatchingHandlers(patterns, handlers, e.name), platforms)
    {
      var matching := CollectMatching(e.name);
      called := CallActive(matching);
    }

    /** The handlers of every pattern the event name matches, in pattern
        order. */
    method CollectMatching(name: string) returns (matching: seq<HandlerInfo>)
      ensures matching == MatchingHandlers(patterns, handlers, name)
    {
      matching := [];
      var i := 0;
      while i < |patterns|
        invariant 0 <= i <= |patterns|
        invariant matching == MatchingHandlers(patterns[..i], handlers, name)
      {
        MatchingHandlersAppend(patterns[..i], patterns[i], handlers, name);
        assert patterns[..i + 1] == patterns[..i] + [patterns[i]];
        if patterns[i] in handlers && EventMatchesPattern(name, patterns[i]) {
          matching := matching + handlers[patterns[i]];
        }
        i := i + 1;
      }
      assert patterns[..i] == patterns;
    }

    /** The handlers whose platform is registered and active, in order. */
    method CallActive(matching: seq<HandlerInfo>) returns (called: seq<nat>)
      ensures called == ActiveHandlers(matching, platforms)
    {
      called := [];
      var j := 0;
      while j < |matching|
        invariant 0 <= j <= |matching|
        invariant called == ActiveHandlers(matching[..j], platforms)
      {
        ActiveHandlersAppend(matching[..j], matching[j], platforms);
        assert matching[..j + 1] == matching[..j] + [matching[j]];
        var h := matching[j];
        if h.platform in platforms && platforms[h.platform].active {
          called := called + [h.handler];
        }
        j := j + 1;
      }
      assert matching[..j] == matching;
    }

    /** `get_bridge_stats`. */
    method BridgeStats() returns (running: bool, platformCount: nat, patternCount: nat, totalHandlers: nat, queueSize: nat)
      requires Valid()
      ensures running == isRunning && platformCount == |platforms.Keys| && patternCount == |handlers.Keys|
      ensures totalHandlers == SumValues(map p | p in handlers :: |handlers[p]|)
      ensures queueSize == |queue| <= EventQueueMaxSize
    {
      totalHandlers := SumMapValues(map p | p in handlers :: |handlers[p]|);
      running, platformCount, patternCount, queueSize := isRunning, |platforms.Keys|, |handlers.Keys|, |queue|;
    }
  }
}

=== FILE: event_bus.dfy ===
/** The in-process publish/subscribe bus (`core/event_bus.py`): handler
    registration, routing of an event to the handlers that can take it,
    priority ordering, propagation stop, middleware and the bounded
    event history. Handler and filter callables are modelled as functions
    of the handler id; async handlers are only scheduled during a publish. */
module EventBus {
  import opened Util
  import opened Values

  /** Handler priority; handlers run in ascending `Rank`. */
  datatype Priority = Critical | High | Normal | Low

  function Rank(p: Priority): (v: nat)
    ensures p == Critical <==> v == 0
  {
    match p
    case Critical => 0
    case High => 10
    case Normal => 50
    case Low => 100
  }

  /** An event. An absent target or exclude list and an empty one behave
      the same (both are falsy), so both are the empty sequence here. */
  datatype Event = Event(
    eventType: string,
    data: map<string, Value>,
    targets: seq<string>,
    excludes: seq<string>,
    propagate: bool,
    asyncOnly: bool)

  /** A registration: id, subscribed types ('*' for all), priority,
      whether the callable is a coroutine and whether a filter is set. */
  datatype Handler = Handler(
    id: string,
    eventTypes: seq<string>,
    priority: Priority,
    isAsync: bool,
    hasFilter: bool)

  /** `EventHandler.can_handle`, with `accepts(id, e)` the handler's filter. */
  predicate CanHandle(h: Handler, e: Event, accepts: (string, Event) -> bool)
  {
    if e.eventType !in h.eventTypes && "*" !in h.eventTypes then false
    else if e.targets != [] && h.id !in e.targets then false
    else if e.excludes != [] && h.id in e.excludes then false
    else if e.asyncOnly && !h.isAsync then false
    else if h.hasFilter && !accepts(h.id, e) then false
    else true
  }

  /** The routing rule as one conjunction. */
  lemma CanHandleIff(h: Handler, e: Event, accepts: (string, Event) -> bool)
    ensures CanHandle(h, e, accepts) <==>
      (e.eventType in h.eventTypes || "*" in h.eventTypes)
      && (e.targets == [] || h.id in e.targets)
      && h.id !in e.excludes
      && (!e.asyncOnly || h.isAsync)
      && (!h.hasFilter || accepts(h.id, e))
  {
  }

  /** A wildcard subscriber without filter sees every untargeted,
      unexcluded event of its kind of callable. */
  lemma WildcardSeesEverything(h: Handler, e: Event, accepts: (string, Event) -> bool)
    requires "*" in h.eventTypes && !h.hasFilter && h.isAsync
    requires e.targets == [] && e.excludes == []
    ensures CanHandle(h, e, accepts)
  {
  }

  // ---------------------------------------------------------------------
  // The registry: an insertion-ordered dictionary from id to handler

  function Ids(hs: seq<Handler>): (r: seq<string>)
    ensures |r| == |hs|
    ensures forall i :: 0 <= i < |hs| ==> r[i] == hs[i].id
  {
    if hs == [] then [] else [hs[0].id] + Ids(hs[1..])
  }

  predicate DistinctIds(hs: seq<Handler>)
  {
    forall i, j :: 0 <= i < j < |hs| ==> hs[i].id != hs[j].id
  }

  /** Position of the first registration with this id, or -1. */
  function FirstIndex(hs: seq<Handler>, id: string): (k: int)
    ensures -1 <= k < |hs|
    ensures k >= 0 ==> hs[k].id == id
    ensures k < 0 <==> id !in Ids(hs)
  {
    if hs == [] then -1
    else if hs[0].id == id then 0
    else
      var k := FirstIndex(hs[1..], id);
      assert Ids(hs) == [hs[0].id] + Ids(hs[1..]);
      if k < 0 then -1 else k + 1
  }

  /** `handlers[h.id] = h`: an existing id keeps its position, a new one is
      appended. */
  function Upsert(hs: seq<Handler>, h: Handler): (r: seq<Handler>)
  {
    var k := FirstIndex(hs, h.id);
    if k >= 0 then hs[k := h] else hs + [h]
  }

  /** `del handlers[id]`. */
  function RemoveId(hs: seq<Handler>, id: string): (r: seq<Handler>)
  {
    if hs == [] then []
    else if hs[0].id == id then RemoveId(hs[1..], id)
    else [hs[0]] + RemoveId(hs[1..], id)
  }

  /** After an upsert ids stay distinct, the new handler is registered,
      every other registration is kept, and the size grows only for a new id. */
  lemma UpsertSpec(hs: seq<Handler>, h: Handler)
    requires DistinctIds(hs)
    ensures var r := Upsert(hs, h);
      DistinctIds(r) && h in r
      && (forall x :: x in r ==> x == h || (x in hs && x.id != h.id))
      && (forall x :: x in hs && x.id != h.id ==> x in r)
      && (h.id in Ids(hs) ==> |r| == |hs|)
      && (h.id !in Ids(hs) ==> |r| == |hs| + 1)
  {
    var k := FirstIndex(hs, h.id);
    var r := Upsert(hs, h);
    if k >= 0 {
      assert r[k] == h;
      forall x | x in hs && x.id != h.id ensures x in r {
        var i :| 0 <= i < |hs| && hs[i] == x;
        assert r[i] == x;
      }
      forall x | x in r ensures x == h || (x in hs && x.id != h.id) {
        var i :| 0 <= i < |r| && r[i] == x;
        if i != k {
          assert x == hs[i];
        }
      }
    } else {
      assert r[|hs|] == h;
      forall i, j | 0 <= i < j < |r| ensures r[i].id != r[j].id {
        if j == |hs| {
          assert Ids(hs)[i] == hs[i].id;
        }
      }
    }
  }

  /** After a removal the id is gone and every other registration stays. */
  lemma {:induction false} RemoveIdSpec(hs: seq<Handler>, id: string)
    ensures var r := RemoveId(hs, id);
      id !in Ids(r)
      && (forall x :: x in r <==> x in hs && x.id != id)
      && (id !in Ids(hs) ==> r == hs)
      && (id in Ids(hs) ==> |r| < |hs|)
  {
    if hs != [] {
      RemoveIdSpec(hs[1..], id);
      assert hs == [hs[0]] + hs[1..];
      assert Ids(hs) == [hs[0].id] + Ids(hs[1..]);
      var r := RemoveId(hs, id);
      if hs[0].id != id {
        assert Ids(r) == [hs[0].id] + Ids(RemoveId(hs[1..], id));
      }
    }
  }

  lemma DistinctTail(hs: seq<Handler>)
    requires hs != [] && DistinctIds(hs)
    ensures DistinctIds(hs[1..])
  {
    var t := hs[1..];
    forall a, b | 0 <= a < b < |t| ensures t[a].id != t[b].id {
      assert t[a] == hs[a + 1] && t[b] == hs[b + 1];
    }
  }

  lemma DistinctHead(hs: seq<Handler>, x: Handler)
    requires hs != [] && DistinctIds(hs) && x in hs[1..]
    ensures x.id != hs[0].id
  {
    var k :| 0 <= k < |hs[1..]| && hs[1..][k] == x;
    assert hs[k + 1] == x;
  }

  lemma DistinctCons(x: Handler, s: seq<Handler>)
    requires DistinctIds(s)
    requires forall y :: y in s ==> y.id != x.id
    ensures DistinctIds([x] + s)
  {
    var r := [x] + s;
    forall i, j | 0 <= i < j < |r| ensures r[i].id != r[j].id {
      assert r[j] == s[j - 1];
      if i > 0 {
        assert r[i] == s[i - 1];
      }
    }
  }

  lemma {:induction false} RemoveIdSubset(hs: seq<Handler>, id: string, x: Handler)
    requires x in RemoveId(hs, id)
    ensures x in hs
  {
    if hs[0].id == id || x != hs[0] {
      RemoveIdSubset(hs[1..], id, x);
    }
  }

  lemma {:induction false} RemoveIdDistinct(hs: seq<Handler>, id: string)
    requires DistinctIds(hs)
    ensures DistinctIds(RemoveId(hs, id))
  {
    if hs != [] {
      var t := hs[1..];
      DistinctTail(hs);
      RemoveIdDistinct(t, id);
      if hs[0].id != id {
        var rt := RemoveId(t, id);
        forall x | x in rt ensures x.id != hs[0].id {
          RemoveIdSubset(t, id, x);
          DistinctHead(hs, x);
        }
        DistinctCons(hs[0], rt);
      }
    }
  }

  // ---------------------------------------------------------------------
  // Routing and ordering

  /** `_get_applicable_handlers`: the handlers that can take `e`, in
      registration order. */
  function Applicable(hs: seq<Handler>, e: Event, accepts: (string, Event) -> bool): (r: seq<Handler>)
    ensures |r| <= |hs|
  {
    if hs == [] then []
    else (if CanHandle(hs[0], e, accepts) then [hs[0]] else []) + Applicable(hs[1..], e, accepts)
  }

  /** One step of the scan from position `i`. */
  lemma ApplicableAt(hs: seq<Handler>, i: nat, e: Event, accepts: (string, Event) -> bool)
    requires i < |hs|
    ensures Applicable(hs[i..], e, accepts)
      == (if CanHandle(hs[i], e, accepts) then [hs[i]] else []) + Applicable(hs[i + 1..], e, accepts)
  {
    assert hs[i..][0] == hs[i] && hs[i..][1..] == hs[i + 1..];
  }

  /** Exactly the registered handlers that can take the event are applicable. */
  lemma {:induction false} ApplicableMembers(hs: seq<Handler>, e: Event, accepts: (string, Event) -> bool, x: Handler)
    ensures x in Applicable(hs, e, accepts) <==> x in hs && CanHandle(x, e, accepts)
  {
    if hs != [] {
      ApplicableMembers(hs[1..], e, accepts, x);
      assert hs == [hs[0]] + hs[1..];
    }
  }

  /** The handlers of one priority, in their original order. */
  function OfPriority(hs: seq<Handler>, p: Priority): (r: seq<Handler>)
    ensures |r| <= |hs|
    ensures forall x :: x in r ==> x in hs && x.priority == p
  {
    if hs == [] then []
    else (if hs[0].priority == p then [hs[0]] else []) + OfPriority(hs[1..], p)
  }

  /** `list.sort(key=lambda h: h.priority.value)`: Python's sort is stable
      and there are four priorities, so the result is the four priority
      classes one after another. */
  function PriorityOrder(hs: seq<Handler>): seq<Handler>
  {
    OfPriority(hs, Critical) + OfPriority(hs, High) + OfPriority(hs, Normal) + OfPriority(hs, Low)
  }

  lemma ConcatAssoc(x: seq<Handler>, y: seq<Handler>, z: seq<Handler>)
    ensures x + (y + z) == (x + y) + z
  {
  }

  lemma {:induction false} OfPriorityAppend(a: seq<Handler>, b: seq<Handler>, p: Priority)
    ensures OfPriority(a + b, p) == OfPriority(a, p) + OfPriority(b, p)
  {
    if a != [] {
      var hd := if a[0].priority == p then [a[0]] else [];
      assert (a + b)[0] == a[0] && (a + b)[1..] == a[1..] + b;
      assert OfPriority(a + b, p) == hd + OfPriority(a[1..] + b, p);
      OfPriorityAppend(a[1..], b, p);
      assert OfPriority(a, p) == hd + OfPriority(a[1..], p);
      ConcatAssoc(hd, OfPriority(a[1..], p), OfPriority(b, p));
    } else {
      assert a + b == b;
    }
  }

  lemma {:induction false} OfPriorityTwice(hs: seq<Handler>, p: Priority, q: Priority)
    ensures p == q ==> OfPriority(OfPriority(hs, q), p) == OfPriority(hs, p)
    ensures p != q ==> OfPriority(OfPriority(hs, q), p) == []
  {
    if hs != [] {
      OfPriorityTwice(hs[1..], p, q);
      var head := if hs[0].priority == q then [hs[0]] else [];
      OfPriorityAppend(head, OfPriority(hs[1..], q), p);
    }
  }

  lemma OfPriorityCons(x: Handler, t: seq<Handler>, p: Priority)
    ensures x.priority == p ==> multiset(OfPriority([x] + t, p)) == multiset{x} + multiset(OfPriority(t, p))
    ensures x.priority != p ==> multiset(OfPriority([x] + t, p)) == multiset(OfPriority(t, p))
  {
    assert ([x] + t)[0] == x && ([x] + t)[1..] == t;
    if x.priority == p {
      assert OfPriority([x] + t, p) == [x] + OfPriority(t, p);
    } else {
      assert OfPriority([x] + t, p) == OfPriority(t, p);
    }
  }

  lemma {:induction false} MultisetOfPriorities(hs: seq<Handler>)
    ensures multiset(hs) == multiset(OfPriority(hs, Critical)) + multiset(OfPriority(hs, High))
                            + multiset(OfPriority(hs, Normal)) + multiset(OfPriority(hs, Low))
  {
    if hs != [] {
      var t := hs[1..];
      var x := hs[0];
      MultisetOfPriorities(t);
      assert hs == [x] + t;
      assert multiset(hs) == multiset{x} + multiset(t);
      OfPriorityCons(x, t, Critical);
      OfPriorityCons(x, t, High);
      OfPriorityCons(x, t, Normal);
      OfPriorityCons(x, t, Low);
      var mc, mh, mn, ml := multiset(OfPriority(t, Critical)), multiset(OfPriority(t, High)),
                            multiset(OfPriority(t, Normal)), multiset(OfPriority(t, Low));
      MultisetInsert(multiset{x}, mc, mh, mn, ml);
      match x.priority
      case Critical => assert multiset(hs) == (multiset{x} + mc) + mh + mn + ml;
      case High => assert multiset(hs) == mc + (multiset{x} + mh) + mn + ml;
      case Normal => assert multiset(hs) == mc + mh + (multiset{x} + mn) + ml;
      case Low => assert multiset(hs) == mc + mh + mn + (multiset{x} + ml);
    }
  }

  /** Adding an element to a sum of four multisets adds it to any one part. */
  lemma MultisetInsert(e: multiset<Handler>, a: multiset<Handler>, b: multiset<Handler>,
                       c: multiset<Handler>, d: multiset<Handler>)
    ensures e + (a + b + c + d) == (e + a) + b + c + d
    ensures e + (a + b + c + d) == a + (e + b) + c + d
    ensures e + (a + b + c + d) == a + b + (e + c) + d
    ensures e + (a + b + c + d) == a + b + c + (e + d)
  {
  }

  predicate SortedByRank(r: seq<Handler>)
  {
    forall i, j :: 0 <= i < j < |r| ==> Rank(r[i].priority) <= Rank(r[j].priority)
  }

  lemma SortedAppend(a: seq<Handler>, b: seq<Handler>, bound: nat)
    requires SortedByRank(a) && SortedByRank(b)
    requires forall x :: x in a ==> Rank(x.priority) <= bound
    requires forall x :: x in b ==> bound <= Rank(x.priority)
    ensures SortedByRank(a + b)
  {
    var r := a + b;
    forall i, j | 0 <= i < j < |r| ensures Rank(r[i].priority) <= Rank(r[j].priority) {
      if j < |a| {
        assert r[i] == a[i] && r[j] == a[j];
      } else if i >= |a| {
        assert r[i] == b[i - |a|] && r[j] == b[j - |a|];
      } else {
        assert r[i] == a[i] && r[j] == b[j - |a|];
      }
    }
  }

  /** The ordering sorts by ascending rank. */
  lemma PriorityOrderSorted(hs: seq<Handler>)
    ensures SortedByRank(PriorityOrder(hs))
  {
    var c, h, n, l := OfPriority(hs, Critical), OfPriority(hs, High), OfPriority(hs, Normal), OfPriority(hs, Low);
    OfPrioritySorted(hs, Critical);
    OfPrioritySorted(hs, High);
    OfPrioritySorted(hs, Normal);
    OfPrioritySorted(hs, Low);
    SortedAppend(c, h, 0);
    RanksAtMost(c, h, 10);
    SortedAppend(c + h, n, 10);
    RanksAtMost(c + h, n, 50);
    SortedAppend(c + h + n, l, 50);
  }

  /** One priority class is sorted, all of it at that priority's rank. */
  lemma OfPrioritySorted(hs: seq<Handler>, p: Priority)
    ensures SortedByRank(OfPriority(hs, p))
    ensures forall x :: x in OfPriority(hs, p) ==> Rank(x.priority) == Rank(p)
  {
    var r := OfPriority(hs, p);
    forall i, j | 0 <= i < j < |r| ensures Rank(r[i].priority) <= Rank(r[j].priority) {
      assert r[i] in r && r[j] in r;
    }
  }

  lemma RanksAtMost(a: seq<Handler>, b: seq<Handler>, bound: nat)
    requires forall x :: x in a ==> Rank(x.priority) <= bound
    requires forall x :: x in b ==> Rank(x.priority) <= bound
    ensures forall x :: x in a + b ==> Rank(x.priority) <= bound
  {
  }

  /** The ordering is a permutation of its input. */
  lemma PriorityOrderPermutation(hs: seq<Handler>)
    ensures multiset(PriorityOrder(hs)) == multiset(hs)
  {
    MultisetOfPriorities(hs);
  }

  /** The ordering is stable: each priority class keeps its registration
      order. */
  lemma PriorityOrderStable(hs: seq<Handler>, p: Priority)
    ensures OfPriority(PriorityOrder(hs), p) == OfPriority(hs, p)
  {
    var c, h, n, l := OfPriority(hs, Critical), OfPriority(hs, High), OfPriority(hs, Normal), OfPriority(hs, Low);
    OfPriorityOfParts(c, h, n, l, p);
    OfPriorityTwice(hs, p, Critical);
    OfPriorityTwice(hs, p, High);
    OfPriorityTwice(hs, p, Normal);
    OfPriorityTwice(hs, p, Low);
  }

  lemma OfPriorityOfParts(c: seq<Handler>, h: seq<Handler>, n: seq<Handler>, l: seq<Handler>, p: Priority)
    ensures OfPriority(c + h + n + l, p) == OfPriority(c, p) + OfPriority(h, p) + OfPriority(n, p) + OfPriority(l, p)
  {
    OfPriorityAppend(c + h + n, l, p);
    OfPriorityAppend(c + h, n, p);
    OfPriorityAppend(c, h, p);
  }

  // ---------------------------------------------------------------------
  // Middleware and dispatch

  /** What one middleware call does: hand on an event, return None, or raise
      (the error is logged and the event is kept). */
  datatype MiddlewareResult = Pass(event: Event) | Drop | Raise

  /** The middleware chain; None when some middleware returned None. */
  function ApplyMiddleware(ms: seq<Event -> MiddlewareResult>, e: Event): Option<Event>
  {
    if ms == [] then Some(e)
    else match ms[0](e)
      case Drop => None
      case Pass(e2) => ApplyMiddleware(ms[1..], e2)
      case Raise => ApplyMiddleware(ms[1..], e)
  }

  /** What a synchronous handler call does: whether it raised and whether
      it called `stop_propagation` on the event. */
  datatype HandlerOutcome = HandlerOutcome(raised: bool, stops: bool)

  /** Handlers invoked, handled count and error count of one dispatch. */
  datatype Dispatched = Dispatched(invoked: seq<Handler>, handled: nat, errors: nat)

  /** A synchronous handler that stops propagation. */
  predicate Stops(h: Handler, e: Event, run: (string, Event) -> HandlerOutcome)
  {
    !h.isAsync && run(h.id, e).stops
  }

  /** The handler loop of `publish`: before each handler the propagate flag
      is checked; async handlers are scheduled and counted; a sync handler
      that raises is counted as an error. */
  function Dispatch(hs: seq<Handler>, e: Event, run: (string, Event) -> HandlerOutcome): (r: Dispatched)
    ensures |r.invoked| <= |hs|
    ensures r.handled + r.errors == |r.invoked|
    ensures !e.propagate ==> r.invoked == []
  {
    if hs == [] || !e.propagate then Dispatched([], 0, 0)
    else
      var h := hs[0];
      if h.isAsync then
        var rest := Dispatch(hs[1..], e, run);
        Dispatched([h] + rest.invoked, rest.handled + 1, rest.errors)
      else
        var o := run(h.id, e);
        var rest := Dispatch(hs[1..], if o.stops then e.(propagate := false) else e, run);
        Dispatched([h] + rest.invoked, rest.handled + (if o.raised then 0 else 1), rest.errors + (if o.raised then 1 else 0))
  }

  /** Propagation stop: the invoked handlers are a prefix of the ordered
      list; every one but the last let the event through; and if some
      handler was skipped, the last one invoked stopped the event. The flag
      only goes from set to cleared, so every handler sees the event as
      published. */
  lemma DispatchStopsAtFirstStop(hs: seq<Handler>, e: Event, run: (string, Event) -> HandlerOutcome)
    requires e.propagate
    ensures var d := Dispatch(hs, e, run);
      (forall i :: 0 <= i < |d.invoked| - 1 ==> !Stops(d.invoked[i], e, run))
      && (|d.invoked| < |hs| ==> |d.invoked| > 0 && Stops(d.invoked[|d.invoked| - 1], e, run))
  {
    DispatchPassesBeforeLast(hs, e, run);
    DispatchSkipsAfterStop(hs, e, run);
  }

  /** Every invoked handler but the last let the event through. */
  lemma {:induction false} DispatchPassesBeforeLast(hs: seq<Handler>, e: Event, run: (string, Event) -> HandlerOutcome)
    requires e.propagate
    ensures var d := Dispatch(hs, e, run);
      forall i :: 0 <= i < |d.invoked| - 1 ==> !Stops(d.invoked[i], e, run)
  {
    if hs != [] {
      var h := hs[0];
      DispatchStep(hs, e, run);
      var d := Dispatch(hs, e, run);
      var rest := Dispatch(hs[1..], After(h, e, run), run);
      if Stops(h, e, run) {
        assert rest.invoked == [];
      } else {
        DispatchPassesBeforeLast(hs[1..], e, run);
        forall i | 1 <= i < |d.invoked| - 1
          ensures !Stops(d.invoked[i], e, run)
        {
          assert d.invoked[i] == rest.invoked[i - 1];
        }
      }
    }
  }

  /** If a handler was skipped, the last one invoked stopped the event. */
  lemma {:induction false} DispatchSkipsAfterStop(hs: seq<Handler>, e: Event, run: (string, Event) -> HandlerOutcome)
    requires e.propagate
    ensures var d := Dispatch(hs, e, run);
      |d.invoked| < |hs| ==> |d.invoked| > 0 && Stops(d.invoked[|d.invoked| - 1], e, run)
  {
    if hs != [] {
      var h := hs[0];
      DispatchStep(hs, e, run);
      var d := Dispatch(hs, e, run);
      var rest := Dispatch(hs[1..], After(h, e, run), run);
      if Stops(h, e, run) {
        assert rest.invoked == [];
        assert d.invoked == [h];
      } else {
        DispatchSkipsAfterStop(hs[1..], e, run);
        if |d.invoked| < |hs| {
          assert d.invoked[|d.invoked| - 1] == rest.invoked[|rest.invoked| - 1];
        }
      }
    }
  }

  /** The event as the next handler sees it. */
  function After(h: Handler, e: Event, run: (string, Event) -> HandlerOutcome): Event
  {
    if Stops(h, e, run) then e.(propagate := false) else e
  }

  /** One step of the handler loop. */
  lemma DispatchStep(hs: seq<Handler>, e: Event, run: (string, Event) -> HandlerOutcome)
    requires hs != [] && e.propagate
    ensures Dispatch(hs, e, run).invoked == [hs[0]] + Dispatch(hs[1..], After(hs[0], e, run), run).invoked
  {
  }

  /** The invoked handlers are a prefix of the ordered list. */
  lemma {:induction false} DispatchPrefix(hs: seq<Handler>, e: Event, run: (string, Event) -> HandlerOutcome)
    ensures var d := Dispatch(hs, e, run); d.invoked == hs[..|d.invoked|]
  {
    if hs != [] && e.propagate {
      var h := hs[0];
      var e2 := After(h, e, run);
      DispatchStep(hs, e, run);
      DispatchPrefix(hs[1..], e2, run);
      var rest := Dispatch(hs[1..], e2, run);
      assert hs[..1 + |rest.invoked|] == [h] + hs[1..][..|rest.invoked|];
    }
  }

  /** With no stopping handler every handler is invoked. */
  lemma {:induction false} DispatchWithoutStopReachesAll(hs: seq<Handler>, e: Event, run: (string, Event) -> HandlerOutcome)
    requires e.propagate
    requires forall i :: 0 <= i < |hs| ==> !Stops(hs[i], e, run)
    ensures Dispatch(hs, e, run).invoked == hs
  {
    if hs != [] {
      DispatchWithoutStopReachesAll(hs[1..], e, run);
    }
  }

  /** The middleware loop of `publish`. */
  method RunMiddleware(ms: seq<Event -> MiddlewareResult>, e: Event) returns (r: Option<Event>)
    ensures r == ApplyMiddleware(ms, e)
  {
    var cur := e;
    var i := 0;
    while i < |ms|
      invariant 0 <= i <= |ms|
      invariant ApplyMiddleware(ms, e) == ApplyMiddleware(ms[i..], cur)
    {
      assert ms[i..][0] == ms[i] && ms[i..][1..] == ms[i + 1..];
      match ms[i](cur) {
        case Drop =>
          return None;
        case Pass(e2) =>
          cur := e2;
        case Raise =>
      }
      i := i + 1;
    }
    r := Some(cur);
  }

  /** The handler loop of `publish`. */
  method DispatchHandlers(hs: seq<Handler>, e: Event, run: (string, Event) -> HandlerOutcome)
    returns (handled: nat, errors: nat)
    ensures handled == Dispatch(hs, e, run).handled && errors == Dispatch(hs, e, run).errors
  {
    var cur := e;
    handled, errors := 0, 0;
    var j := 0;
    while j < |hs| && cur.propagate
      invariant 0 <= j <= |hs|
      invariant Dispatch(hs[j..], cur, run).handled + handled == Dispatch(hs, e, run).handled
      invariant Dispatch(hs[j..], cur, run).errors + errors == Dispatch(hs, e, run).errors
    {
      var h := hs[j];
      assert hs[j..][0] == h && hs[j..][1..] == hs[j + 1..];
      if h.isAsync {
        handled := handled + 1;
      } else {
        var o := run(h.id, cur);
        if o.stops {
          cur := cur.(propagate := false);
        }
        if o.raised {
          errors := errors + 1;
        } else {
          handled := handled + 1;
        }
      }
      j := j + 1;
    }
  }

  // ---------------------------------------------------------------------
  // The bus

  class Bus {
    var handlers: seq<Handler>
    var history: seq<Event>
    var maxHistory: nat
    var middleware: seq<Event -> MiddlewareResult>
    var eventsPublished: nat
    var eventsHandled: nat
    var handlerErrors: nat

    ghost predicate Valid()
      reads this
    {
      DistinctIds(handlers) && (maxHistory > 0 ==> |history| <= maxHistory)
    }

    constructor (maxHistory: nat)
      ensures Valid()
      ensures handlers == [] && history == [] && middleware == []
      ensures this.maxHistory == maxHistory
      ensures eventsPublished == 0 && eventsHandled == 0 && handlerErrors == 0
    {
      this.maxHistory := maxHistory;
      handlers := [];
      history := [];
      middleware := [];
      eventsPublished := 0;
      eventsHandled := 0;
      handlerErrors := 0;
    }

    /** `subscribe`: registering an id again replaces its handler in place. */
    method Subscribe(h: Handler) returns (id: string)
      requires Valid()
      modifies this
      ensures Valid()
      ensures id == h.id
      ensures handlers == Upsert(old(handlers), h)
      ensures h in handlers
      ensures forall x :: x in handlers ==> x == h || (x in old(handlers) && x.id != h.id)
      ensures forall x :: x in old(handlers) && x.id != h.id ==> x in handlers
      ensures unchanged(`history, `maxHistory, `middleware, `eventsPublished, `eventsHandled, `handlerErrors)
    {
      UpsertSpec(handlers, h);
      handlers := Upsert(handlers, h);
      id := h.id;
    }

    /** `unsubscribe`: True iff the id was registered. */
    method Unsubscribe(id: string) returns (found: bool)
      requires Valid()
      modifies this
      ensures Valid()
      ensures found <==> id in Ids(old(handlers))
      ensures handlers == RemoveId(old(handlers), id)
      ensures id !in Ids(handlers)
      ensures forall x :: x in handlers <==> x in old(handlers) && x.id != id
      ensures unchanged(`history, `maxHistory, `middleware, `eventsPublished, `eventsHandled, `handlerErrors)
    {
      RemoveIdSpec(handlers, id);
      RemoveIdDistinct(handlers, id);
      found := id in Ids(handlers);
      handlers := RemoveId(handlers, id);
    }

    method AddMiddleware(m: Event -> MiddlewareResult)
      modifies this
      ensures middleware == old(middleware) + [m]
      ensures unchanged(`handlers, `history, `maxHistory, `eventsPublished, `eventsHandled, `handlerErrors)
    {
      middleware := middleware + [m];
    }

    /** `_add_to_history`. The trim is `h[-max_history:]`, which for a
        maximum of 0 is the whole list, so only a positive maximum caps it. */
    method AddToHistory(e: Event)
      requires Valid()
      modifies this
      ensures Valid()
      ensures maxHistory > 0 ==> history == KeepLast(old(history) + [e], maxHistory)
      ensures maxHistory == 0 ==> history == old(history) + [e]
      ensures unchanged(`handlers, `maxHistory, `middleware, `eventsPublished, `eventsHandled, `handlerErrors)
    {
      history := history + [e];
      if |history| > maxHistory {
        history := PySliceFrom(history, -(maxHistory as int));
      }
      if maxHistory > 0 {
        NegativeSliceIsKeepLast(old(history) + [e], maxHistory);
      }
    }

    /** `_get_applicable_handlers`. */
    method ApplicableHandlers(e: Event, accepts: (string, Event) -> bool) returns (r: seq<Handler>)
      ensures r == Applicable(handlers, e, accepts)
    {
      var hs := handlers;
      r := [];
      var i := 0;
      while i < |hs|
        invariant 0 <= i <= |hs|
        invariant r + Applicable(hs[i..], e, accepts) == Applicable(hs, e, accepts)
      {
        var hd := if CanHandle(hs[i], e, accepts) then [hs[i]] else [];
        ApplicableAt(hs, i, e, accepts);
        ConcatAssoc(r, hd, Applicable(hs[i + 1..], e, accepts));
        r := r + hd;
        i := i + 1;
      }
    }

    /** `publish`: count, record, run the middleware, then dispatch to the
        applicable handlers in priority order. Returns the handled count. */
    method Publish(e: Event, accepts: (string, Event) -> bool, run: (string, Event) -> HandlerOutcome)
      returns (count: nat)
      requires Valid()
      modifies this
      ensures Valid()
      ensures eventsPublished == old(eventsPublished) + 1
      ensures maxHistory > 0 ==> history == KeepLast(old(history) + [e], maxHistory)
      ensures maxHistory == 0 ==> history == old(history) + [e]
      ensures handlers == old(handlers) && middleware == old(middleware) && maxHistory == old(maxHistory)
      ensures match ApplyMiddleware(middleware, e)
        case None => count == 0 && eventsHandled == old(eventsHandled) && handlerErrors == old(handlerErrors)
        case Some(e2) =>
          var d := Dispatch(PriorityOrder(Applicable(handlers, e2, accepts)), e2, run);
          count == d.handled && eventsHandled == old(eventsHandled) + d.handled
          && handlerErrors == old(handlerErrors) + d.errors
    {
      eventsPublished := eventsPublished + 1;
      AddToHistory(e);
      var routed := RunMiddleware(middleware, e);
      if routed.None? {
        return 0;
      }
      var applicable := ApplicableHandlers(routed.value, accepts);
      var handled, errors := DispatchHandlers(PriorityOrder(applicable), routed.value, run);
      eventsHandled := eventsHandled + handled;
      handlerErrors := handlerErrors + errors;
      count := handled;
    }

    /** `get_event_history(limit)`: a falsy limit (None or 0) gives the whole
        history, otherwise `history[-limit:]`. */
    function EventHistory(limit: Option<int>): (r: seq<Event>)
      reads this
      ensures |r| <= |history| && r == history[|history| - |r|..]
      ensures limit.None? || limit == Some(0) ==> r == history
      ensures limit.Some? && limit.value > 0 ==> r == KeepLast(history, limit.value)
      ensures limit.Some? && limit.value < 0 ==>
        r == if -limit.value <= |history| then history[-limit.value..] else []
    {
      if limit.None? || limit.value == 0 then history
      else if limit.value > 0 then
        NegativeSliceIsKeepLast(history, limit.value);
        PySliceFrom(history, -limit.value)
      else PySliceFrom(history, -limit.value)
    }
  }
}

=== FILE: favorites_service.dfy ===
/** Favorites (services/favorites_service.py). The SQLite `favorites` table is
    a sequence of rows in insertion (rowid) order; the SQL statements become
    functions over that sequence. Stream probing and the server-name lookup
    are parameters. */
module Favorites {
  import opened Util

  /** One row of the `favorites` table (the autoincrement id is the row's
      position in the sequence). */
  datatype Favorite = Favorite(guildId: int, number: int, url: string, name: string, addedBy: int, addedDate: real)

  /** `WHERE guild_id = ?`, in table order. */
  function GuildRows(rows: seq<Favorite>, g: int): (r: seq<Favorite>)
    ensures |r| <= |rows|
    ensures forall i :: 0 <= i < |r| ==> r[i].guildId == g && r[i] in rows
    ensures forall f :: f in rows && f.guildId == g ==> f in r
  {
    if rows == [] then []
    else (if rows[0].guildId == g then [rows[0]] else []) + GuildRows(rows[1..], g)
  }

  /** Rows numbered b, b + 1, ... in table order. */
  predicate Dense(l: seq<Favorite>, b: int)
  {
    forall i :: 0 <= i < |l| ==> l[i].number == b + i
  }

  /** `SELECT MAX(favorite_number)` over a non-empty guild. */
  function MaxNumber(l: seq<Favorite>): int
    requires l != []
  {
    if |l| == 1 then l[0].number else MaxInt(l[0].number, MaxNumber(l[1..]))
  }

  /** `(max_num or 0) + 1`. */
  function NextNumber(l: seq<Favorite>): int
  {
    (if l == [] then 0 else MaxNumber(l)) + 1
  }

  lemma {:induction false} MaxOfDense(l: seq<Favorite>, b: int)
    requires l != [] && Dense(l, b)
    ensures MaxNumber(l) == b + |l| - 1
  {
    if |l| > 1 {
      MaxOfDense(l[1..], b + 1);
    }
  }

  /** With the numbers 1..n in use, the next favorite is number n + 1. */
  lemma NextNumberIsCountPlusOne(l: seq<Favorite>)
    requires Dense(l, 1)
    ensures NextNumber(l) == |l| + 1
  {
    if l != [] {
      MaxOfDense(l, 1);
    }
  }

  lemma {:induction false} GuildRowsAppend(rows: seq<Favorite>, f: Favorite, h: int)
    ensures GuildRows(rows + [f], h) == GuildRows(rows, h) + (if f.guildId == h then [f] else [])
  {
    if rows == [] {
      assert rows + [f] == [f];
    } else {
      assert (rows + [f])[0] == rows[0] && (rows + [f])[1..] == rows[1..] + [f];
      GuildRowsAppend(rows[1..], f, h);
    }
  }

  /** Rows that all belong to `g` are `g`'s whole listing and no other
      guild's. */
  lemma {:induction false} GuildRowsOwn(rows: seq<Favorite>, g: int, h: int)
    requires forall j :: 0 <= j < |rows| ==> rows[j].guildId == g
    ensures GuildRows(rows, h) == if h == g then rows else []
  {
    if rows != [] {
      GuildRowsOwn(rows[1..], g, h);
      if h == g {
        assert rows == [rows[0]] + rows[1..];
      }
    }
  }

  /** Appending rows that all belong to `g` adds them to `g`'s listing
      and to no other guild's. */
  lemma {:induction false} GuildRowsAppendOwn(rows: seq<Favorite>, added: seq<Favorite>, g: int, h: int)
    requires forall j :: 0 <= j < |added| ==> added[j].guildId == g
    ensures GuildRows(rows + added, h) == GuildRows(rows, h) + (if h == g then added else [])
  {
    if rows == [] {
      assert rows + added == added;
      GuildRowsOwn(added, g, h);
    } else {
      assert (rows + added)[0] == rows[0] && (rows + added)[1..] == rows[1..] + added;
      GuildRowsAppendOwn(rows[1..], added, g, h);
    }
  }

  /** `DELETE ... WHERE guild_id = g AND favorite_number = n`. */
  function Without(rows: seq<Favorite>, g: int, n: int): (r: seq<Favorite>)
    ensures |r| <= |rows|
  {
    if rows == [] then []
    else if rows[0].guildId == g && rows[0].number == n then Without(rows[1..], g, n)
    else [rows[0]] + Without(rows[1..], g, n)
  }

  /** Deleting a row that is not there changes nothing. */
  lemma {:induction false} WithoutAbsent(rows: seq<Favorite>, g: int, n: int)
    requires forall i :: 0 <= i < |rows| ==> !(rows[i].guildId == g && rows[i].number == n)
    ensures Without(rows, g, n) == rows
  {
    if rows != [] {
      WithoutAbsent(rows[1..], g, n);
    }
  }

  function Decrement(f: Favorite, g: int, n: int): Favorite
  {
    if f.guildId == g && f.number > n then f.(number := f.number - 1) else f
  }

  /** `UPDATE ... SET favorite_number = favorite_number - 1 WHERE guild_id = g
      AND favorite_number > n`. */
  function Renumber(rows: seq<Favorite>, g: int, n: int): (r: seq<Favorite>)
    ensures |r| == |rows|
    ensures forall i :: 0 <= i < |rows| ==> r[i] == Decrement(rows[i], g, n)
  {
    if rows == [] then [] else [Decrement(rows[0], g, n)] + Renumber(rows[1..], g, n)
  }

  lemma {:induction false} GuildRowsWithout(rows: seq<Favorite>, g: int, n: int, h: int)
    ensures GuildRows(Without(rows, g, n), h) == Without(GuildRows(rows, h), g, n)
  {
    if rows != [] {
      GuildRowsWithout(rows[1..], g, n, h);
      var w := Without(rows[1..], g, n);
      var l := GuildRows(rows[1..], h);
      if rows[0].guildId == h {
        assert GuildRows(rows, h) == [rows[0]] + l;
        assert ([rows[0]] + l)[0] == rows[0] && ([rows[0]] + l)[1..] == l;
      } else {
        assert GuildRows(rows, h) == l;
      }
      if rows[0].guildId == g && rows[0].number == n {
        assert Without(rows, g, n) == w;
      } else {
        assert Without(rows, g, n) == [rows[0]] + w;
        assert ([rows[0]] + w)[0] == rows[0] && ([rows[0]] + w)[1..] == w;
      }
    }
  }

  lemma {:induction false} GuildRowsRenumber(rows: seq<Favorite>, g: int, n: int, h: int)
    ensures GuildRows(Renumber(rows, g, n), h) == Renumber(GuildRows(rows, h), g, n)
  {
    if rows != [] {
      GuildRowsRenumber(rows[1..], g, n, h);
      var d := Decrement(rows[0], g, n);
      var rn := Renumber(rows[1..], g, n);
      assert ([d] + rn)[0] == d && ([d] + rn)[1..] == rn;
      var l := GuildRows(rows[1..], h);
      if rows[0].guildId == h {
        assert GuildRows(rows, h) == [rows[0]] + l;
        assert ([rows[0]] + l)[0] == rows[0] && ([rows[0]] + l)[1..] == l;
      }
    }
  }

  /** Deleting number n from a guild numbered b, b + 1, ... and closing the
      gap: the rows before n stay, the ones after n move down by one. */
  lemma {:induction false} RemoveFromDense(l: seq<Favorite>, g: int, n: int, b: int)
    requires forall i :: 0 <= i < |l| ==> l[i].guildId == g
    requires Dense(l, b) && b <= n < b + |l|
    ensures Renumber(Without(l, g, n), g, n) == l[..n - b] + Renumber(l[n - b + 1..], g, n)
  {
    var t := l[1..];
    if n == b {
      RemoveHeadOfDense(l, g, n);
    } else {
      var w := Without(t, g, n);
      assert Without(l, g, n) == [l[0]] + w;
      assert Decrement(l[0], g, n) == l[0];
      RenumberCons(l[0], w, g, n);
      TailDense(l, b);
      RemoveFromDense(t, g, n, b + 1);
      ConsSplit(l, n - b, Renumber(l[n - b + 1..], g, n));
    }
  }

  /** Deleting the first row of a dense guild leaves the rest, which has no
      other row of that number. */
  lemma RemoveHeadOfDense(l: seq<Favorite>, g: int, n: int)
    requires l != [] && l[0].guildId == g && l[0].number == n
    requires Dense(l, n)
    ensures Renumber(Without(l, g, n), g, n) == Renumber(l[1..], g, n)
  {
    var t := l[1..];
    assert Without(l, g, n) == Without(t, g, n);
    forall i | 0 <= i < |t| ensures !(t[i].guildId == g && t[i].number == n) {
      assert t[i] == l[i + 1];
    }
    WithoutAbsent(t, g, n);
  }

  lemma TailDense(l: seq<Favorite>, b: int)
    requires l != [] && Dense(l, b)
    ensures Dense(l[1..], b + 1)
  {
    forall i | 0 <= i < |l| - 1 ensures l[1..][i].number == b + 1 + i {
      assert l[1..][i] == l[i + 1];
    }
  }

  lemma ConsSplit(l: seq<Favorite>, k: nat, x: seq<Favorite>)
    requires 1 <= k < |l|
    ensures [l[0]] + (l[1..][..k - 1] + x) == l[..k] + x
  {
    assert [l[0]] + l[1..][..k - 1] == l[..k];
  }

  lemma RenumberCons(f: Favorite, w: seq<Favorite>, g: int, n: int)
    ensures Renumber([f] + w, g, n) == [Decrement(f, g, n)] + Renumber(w, g, n)
  {
    assert ([f] + w)[0] == f && ([f] + w)[1..] == w;
  }

  /** After the deletion the guild is again numbered b, b + 1, ... */
  lemma RemoveKeepsDense(l: seq<Favorite>, g: int, n: int, b: int)
    requires forall i :: 0 <= i < |l| ==> l[i].guildId == g
    requires Dense(l, b) && b <= n < b + |l|
    ensures Dense(Renumber(Without(l, g, n), g, n), b)
  {
    RemoveFromDense(l, g, n, b);
    var k := n - b;
    var r := l[..k] + Renumber(l[k + 1..], g, n);
    forall i | 0 <= i < |r| ensures r[i].number == b + i {
      if i >= k {
        assert r[i] == Renumber(l[k + 1..], g, n)[i - k];
        assert l[k + 1..][i - k] == l[i + 1];
      }
    }
  }

  /** A guild without a row of guild g is untouched by deleting or
      renumbering in guild g. */
  lemma OtherGuildUntouched(l: seq<Favorite>, g: int, n: int)
    requires forall i :: 0 <= i < |l| ==> l[i].guildId != g
    ensures Renumber(Without(l, g, n), g, n) == l
  {
    WithoutAbsent(l, g, n);
  }

  /** Every guild is numbered 1, 2, ... in table order. */
  ghost predicate AllDense(rows: seq<Favorite>)
  {
    forall g :: Dense(GuildRows(rows, g), 1)
  }

  /** Appending the next number of its guild keeps every guild dense. */
  lemma AppendKeepsDense(rows: seq<Favorite>, f: Favorite)
    requires AllDense(rows) && f.number == |GuildRows(rows, f.guildId)| + 1
    ensures AllDense(rows + [f])
  {
    forall h ensures Dense(GuildRows(rows + [f], h), 1) {
      GuildRowsAppend(rows, f, h);
    }
  }

  /** Deleting number n of guild g and closing the gap keeps every guild
      dense, moves g's later rows down by one and leaves other guilds as
      they were. */
  lemma RemoveKeepsAllDense(rows: seq<Favorite>, g: int, n: int)
    requires AllDense(rows) && 1 <= n <= |GuildRows(rows, g)|
    ensures AllDense(Renumber(Without(rows, g, n), g, n))
    ensures GuildRows(Renumber(Without(rows, g, n), g, n), g)
      == GuildRows(rows, g)[..n - 1] + Renumber(GuildRows(rows, g)[n..], g, n)
    ensures forall h :: h != g ==> GuildRows(Renumber(Without(rows, g, n), g, n), h) == GuildRows(rows, h)
  {
    var l := GuildRows(rows, g);
    var newRows := Renumber(Without(rows, g, n), g, n);
    RemovedGuildRows(rows, g, n, g);
    RemoveFromDense(l, g, n, 1);
    RemoveKeepsDense(l, g, n, 1);
    forall h | h != g ensures GuildRows(newRows, h) == GuildRows(rows, h) {
      RemovedOtherGuild(rows, g, n, h);
    }
    forall h ensures Dense(GuildRows(newRows, h), 1) {
      if h != g {
        RemovedOtherGuild(rows, g, n, h);
        assert Dense(GuildRows(rows, h), 1);
      }
    }
  }

  /** Deleting and renumbering commute with taking one guild's rows. */
  lemma RemovedGuildRows(rows: seq<Favorite>, g: int, n: int, h: int)
    ensures GuildRows(Renumber(Without(rows, g, n), g, n), h) == Renumber(Without(GuildRows(rows, h), g, n), g, n)
  {
    GuildRowsRenumber(Without(rows, g, n), g, n, h);
    GuildRowsWithout(rows, g, n, h);
  }

  lemma RemovedOtherGuild(rows: seq<Favorite>, g: int, n: int, h: int)
    requires h != g
    ensures GuildRows(Renumber(Without(rows, g, n), g, n), h) == GuildRows(rows, h)
  {
    RemovedGuildRows(rows, g, n, h);
    OtherGuildUntouched(GuildRows(rows, h), g, n);
  }

  /** `WHERE guild_id = ? AND favorite_number = ?` within one guild's rows. */
  function FindByNumber(l: seq<Favorite>, n: int): (r: Option<Favorite>)
    ensures r.Some? ==> r.value in l && r.value.number == n
    ensures r.None? ==> forall i :: 0 <= i < |l| ==> l[i].number != n
  {
    if l == [] then None else if l[0].number == n then Some(l[0]) else FindByNumber(l[1..], n)
  }

  /** In a densely numbered guild, number n is found exactly when 1 <= n <= count. */
  lemma {:induction false} FindInDense(l: seq<Favorite>, n: int, b: int)
    requires Dense(l, b)
    ensures b <= n < b + |l| ==> FindByNumber(l, n) == Some(l[n - b])
    ensures !(b <= n < b + |l|) ==> FindByNumber(l, n) == None
  {
    if l != [] {
      FindInDense(l[1..], n, b + 1);
    }
  }

  /** The fallback of `_is_valid_url`. */
  predicate IsValidUrl(url: string)
  {
    StartsWith(url, "http://") || StartsWith(url, "https://")
  }

  /** `_is_valid_url`: the verdict of the `validators` package's URL check
      when that package can be imported (`Some`), else the fallback. */
  predicate UrlAccepted(url: string, verdict: Option<bool>)
  {
    if verdict.Some? then verdict.value else IsValidUrl(url)
  }

  /** The station name stored by `add_favorite`: the given name unless empty,
      else the stream's `server_name`, else "Unknown Station". */
  function StationName(name: string, serverName: Option<string>): (r: string)
    ensures name != "" ==> r == name
    ensures name == "" && serverName.None? ==> r == "Unknown Station"
  {
    if name != "" then name
    else if serverName.Some? then serverName.value
    else "Unknown Station"
  }

  /** `name.lower()` or `url.lower()` contains `query.lower()`. */
  predicate Matches(f: Favorite, query: string)
  {
    Contains(Lower(f.name), Lower(query)) || Contains(Lower(f.url), Lower(query))
  }

  /** The favorites kept by `search_favorites`, in listing order. */
  function Matching(l: seq<Favorite>, query: string): (r: seq<Favorite>)
  {
    if l == [] then [] else Matching(l[..|l| - 1], query) + (if Matches(l[|l| - 1], query) then [l[|l| - 1]] else [])
  }

  /** The loop of `validate_all_favorites`: every favorite is either
      counted valid or listed invalid. */
  method CheckStreams(all: seq<Favorite>, streamOk: string -> bool) returns (valid: nat, invalid: seq<Favorite>)
    ensures valid + |invalid| == |all|
    ensures forall f :: f in invalid <==> f in all && !streamOk(f.url)
  {
    valid := 0;
    invalid := [];
    var i := 0;
    while i < |all|
      invariant 0 <= i <= |all|
      invariant valid + |invalid| == i
      invariant forall f :: f in invalid <==> f in all[..i] && !streamOk(f.url)
    {
      assert all[..i + 1] == all[..i] + [all[i]];
      if streamOk(all[i].url) {
        valid := valid + 1;
      } else {
        invalid := invalid + [all[i]];
      }
      i := i + 1;
    }
    assert all[..i] == all;
  }

  /** The scan of `search_favorites` over a listing. */
  method FilterMatching(all: seq<Favorite>, query: string) returns (r: seq<Favorite>)
    ensures r == Matching(all, query)
  {
    r := [];
    var i := 0;
    while i < |all|
      invariant 0 <= i <= |all|
      invariant r == Matching(all[..i], query)
    {
      assert all[..i + 1][..i] == all[..i];
      if Matches(all[i], query) {
        r := r + [all[i]];
      }
      i := i + 1;
    }
    assert all[..i] == all;
  }

  /** The search result holds exactly the matching favorites. */
  lemma {:induction false} MatchingExact(l: seq<Favorite>, query: string)
    ensures forall f :: f in Matching(l, query) <==> f in l && Matches(f, query)
  {
    if l != [] {
      MatchingExact(l[..|l| - 1], query);
      assert l == l[..|l| - 1] + [l[|l| - 1]];
    }
  }

  /** The search is case-insensitive in its query. */
  lemma MatchingIgnoresQueryCase(l: seq<Favorite>, query: string)
    ensures Matching(l, Lower(query)) == Matching(l, query)
  {
    LowerIdempotent(query);
  }

  datatype AddError = InvalidUrlFormat | StreamNotAccessible
  datatype AddResult = Added(stationName: string, favoriteNumber: int) | AddFailed(error: AddError)
  datatype RemoveResult = Removed(stationName: string) | NotFound

  /** One entry of an import: missing fields are "". */
  datatype ImportItem = ImportItem(url: string, streamUrl: string, name: string, stationName: string)

  /** `favorite_data.get('url') or favorite_data.get('stream_url')`. */
  function ImportUrl(item: ImportItem): string
  {
    if item.url != "" then item.url else item.streamUrl
  }

  function ImportName(item: ImportItem): string
  {
    if item.name != "" then item.name else item.stationName
  }

  /** An entry `import_favorites` hands on to `add_favorite` and that
      `add_favorite` accepts: it has a URL, the URL check passes and the
      stream answers. */
  predicate ImportAccepted(item: ImportItem, urlVerdict: string -> Option<bool>, streamOk: string -> bool)
  {
    var url := ImportUrl(item);
    url != "" && UrlAccepted(url, urlVerdict(url)) && streamOk(url)
  }

  /** The rows an import of `items` appends for guild `g`: one per accepted
      entry, in entry order; they belong to the guild and are numbered
      `start`, `start + 1`, ... without gaps. */
  function ImportedRows(g: int, items: seq<ImportItem>, userId: int,
                        urlVerdict: string -> Option<bool>, streamOk: string -> bool,
                        serverName: string -> Option<string>, now: real, start: int): (r: seq<Favorite>)
    ensures |r| <= |items|
    ensures forall j :: 0 <= j < |r| ==> r[j].guildId == g && r[j].number == start + j
  {
    if items == [] then []
    else
      var pre := ImportedRows(g, items[..|items| - 1], userId, urlVerdict, streamOk, serverName, now, start);
      var item := items[|items| - 1];
      var url := ImportUrl(item);
      if ImportAccepted(item, urlVerdict, streamOk) then
        pre + [Favorite(g, start + |pre|, url, StationName(ImportName(item), serverName(url)), userId, now)]
      else pre
  }

  /** Importing one entry more appends its row exactly when it is accepted. */
  lemma ImportedRowsStep(g: int, items: seq<ImportItem>, i: nat, userId: int,
                         urlVerdict: string -> Option<bool>, streamOk: string -> bool,
                         serverName: string -> Option<string>, now: real, start: int)
    requires i < |items|
    ensures var pre := ImportedRows(g, items[..i], userId, urlVerdict, streamOk, serverName, now, start);
            var url := ImportUrl(items[i]);
            var post := ImportedRows(g, items[..i + 1], userId, urlVerdict, streamOk, serverName, now, start);
            (ImportAccepted(items[i], urlVerdict, streamOk) ==>
               post == pre + [Favorite(g, start + |pre|, url, StationName(ImportName(items[i]), serverName(url)), userId, now)])
            && (!ImportAccepted(items[i], urlVerdict, streamOk) ==> post == pre)
  {
    assert items[..i + 1][..i] == items[..i];
  }

  /** The table `rows` after the first `i` entries of an import into `g`
      that started from `rows0` and numbers on from `start`: their rows
      are appended and the counts add up. */
  ghost predicate ImportedUpTo(rows: seq<Favorite>, g: int, items: seq<ImportItem>, i: nat, userId: int,
                               urlVerdict: string -> Option<bool>, streamOk: string -> bool,
                               serverName: string -> Option<string>, now: real,
                               rows0: seq<Favorite>, start: int, imported: nat, failed: nat)
    requires i <= |items|
  {
    var added := ImportedRows(g, items[..i], userId, urlVerdict, streamOk, serverName, now, start);
    imported + failed == i && rows == rows0 + added && imported == |added|
  }

  /** Midway through an import, the guild's next number is the one after
      the rows imported so far. */
  lemma ImportedNumber(rows: seq<Favorite>, g: int, items: seq<ImportItem>, i: nat, userId: int,
                       urlVerdict: string -> Option<bool>, streamOk: string -> bool,
                       serverName: string -> Option<string>, now: real,
                       rows0: seq<Favorite>, start: int, imported: nat, failed: nat)
    requires i <= |items| && start == |GuildRows(rows0, g)| + 1
    requires ImportedUpTo(rows, g, items, i, userId, urlVerdict, streamOk, serverName, now, rows0, start, imported, failed)
    ensures |GuildRows(rows, g)| + 1 == start + imported
  {
    GuildRowsAppendOwn(rows0, ImportedRows(g, items[..i], userId, urlVerdict, streamOk, serverName, now, start), g, g);
  }

  /** After entry `i` has gone through `add_favorite`, which numbers a new
      row `number`, the table holds the rows of the first `i + 1` entries. */
  lemma ImportedUpToNext(before: seq<Favorite>, after: seq<Favorite>, ok: bool, number: int,
                         g: int, items: seq<ImportItem>, i: nat, userId: int,
                         urlVerdict: string -> Option<bool>, streamOk: string -> bool,
                         serverName: string -> Option<string>, now: real,
                         rows0: seq<Favorite>, start: int, imported: nat, failed: nat)
    requires i < |items|
    requires ImportedUpTo(before, g, items, i, userId, urlVerdict, streamOk, serverName, now, rows0, start, imported, failed)
    requires ok == ImportAccepted(items[i], urlVerdict, streamOk) && number == start + imported
    requires var url := ImportUrl(items[i]);
             after == before + if ok then [Favorite(g, number, url, StationName(ImportName(items[i]), serverName(url)), userId, now)]
                               else []
    ensures ImportedUpTo(after, g, items, i + 1, userId, urlVerdict, streamOk, serverName, now, rows0, start,
                         if ok then imported + 1 else imported, if ok then failed else failed + 1)
  {
    var pre := ImportedRows(g, items[..i], userId, urlVerdict, streamOk, serverName, now, start);
    ImportedRowsStep(g, items, i, userId, urlVerdict, streamOk, serverName, now, start);
    if ok {
      var url := ImportUrl(items[i]);
      var f := Favorite(g, number, url, StationName(ImportName(items[i]), serverName(url)), userId, now);
      assert after == rows0 + (pre + [f]);
    }
  }

  /** The positions of the accepted entries. */
  ghost function AcceptedEntries(items: seq<ImportItem>, urlVerdict: string -> Option<bool>,
                                 streamOk: string -> bool): set<int>
  {
    set j | 0 <= j < |items| && ImportAccepted(items[j], urlVerdict, streamOk)
  }

  /** One more entry adds its position exactly when it is accepted. */
  lemma AcceptedEntriesStep(items: seq<ImportItem>, urlVerdict: string -> Option<bool>, streamOk: string -> bool)
    requires items != []
    ensures var last := |items| - 1;
            |AcceptedEntries(items, urlVerdict, streamOk)|
            == |AcceptedEntries(items[..last], urlVerdict, streamOk)|
               + (if ImportAccepted(items[last], urlVerdict, streamOk) then 1 else 0)
  {
    var last := |items| - 1;
    var sp := AcceptedEntries(items[..last], urlVerdict, streamOk);
    var sa := AcceptedEntries(items, urlVerdict, streamOk);
    var extra := if ImportAccepted(items[last], urlVerdict, streamOk) then {last} else {};
    forall j ensures j in sa <==> j in sp + extra {
      if 0 <= j < last {
        assert items[j] == items[..last][j];
      }
    }
    assert sa == sp + extra;
    assert last !in sp;
  }

  /** An import adds exactly one row per accepted entry. */
  lemma {:induction false} ImportedRowsCount(g: int, items: seq<ImportItem>, userId: int,
                                             urlVerdict: string -> Option<bool>, streamOk: string -> bool,
                                             serverName: string -> Option<string>, now: real, start: int)
    ensures |ImportedRows(g, items, userId, urlVerdict, streamOk, serverName, now, start)|
            == |AcceptedEntries(items, urlVerdict, streamOk)|
  {
    if items != [] {
      ImportedRowsCount(g, items[..|items| - 1], userId, urlVerdict, streamOk, serverName, now, start);
      AcceptedEntriesStep(items, urlVerdict, streamOk);
    }
  }

  class FavoritesService {
    var rows: seq<Favorite>

    /** `UNIQUE(guild_id, favorite_number)` and more: each guild's rows are
        numbered 1, 2, ..., n in table order. */
    ghost predicate Valid()
      reads this
    {
      AllDense(rows)
    }

    constructor()
      ensures Valid() && rows == []
    {
      rows := [];
    }

    /** `get_all_favorites`: one guild's favorites ordered by number; since
        the table keeps each guild densely numbered in order, the ordered
        listing is the guild's rows as stored. */
    function AllFavorites(g: int): (r: seq<Favorite>)
      reads this
      requires Valid()
      ensures forall i :: 0 <= i < |r| ==> r[i].guildId == g && r[i].number == i + 1
      ensures forall f :: f in rows && f.guildId == g <==> f in r
    {
      GuildRows(rows, g)
    }

    /** `get_favorite_by_number`. */
    function FavoriteByNumber(g: int, n: int): (r: Option<Favorite>)
      reads this
      requires Valid()
      ensures r.Some? <==> 1 <= n <= |AllFavorites(g)|
      ensures r.Some? ==> r.value == AllFavorites(g)[n - 1]
    {
      FindInDense(GuildRows(rows, g), n, 1);
      FindByNumber(GuildRows(rows, g), n)
    }

    /** `add_favorite`: a URL `_is_valid_url` rejects (`urlVerdict` is the
        `validators` package's answer, None when it cannot be imported) or an
        unreachable stream fails with
        no insert; otherwise the new row gets number max + 1 (1 for a guild
        without favorites), which is the guild's count plus one. */
    method AddFavorite(g: int, url: string, name: string, userId: Option<int>,
                       urlVerdict: Option<bool>, streamOk: bool, serverName: Option<string>, now: real)
      returns (r: AddResult)
      requires Valid()
      modifies this
      ensures Valid()
      ensures !UrlAccepted(url, urlVerdict) ==> r == AddFailed(InvalidUrlFormat) && rows == old(rows)
      ensures UrlAccepted(url, urlVerdict) && !streamOk ==> r == AddFailed(StreamNotAccessible) && rows == old(rows)
      ensures UrlAccepted(url, urlVerdict) && streamOk ==>
        var n := |GuildRows(old(rows), g)| + 1;
        r == Added(StationName(name, serverName), n)
        && rows == old(rows) + [Favorite(g, n, url, StationName(name, serverName),
                                         if userId.Some? then userId.value else 0, now)]
    {
      if !UrlAccepted(url, urlVerdict) {
        return AddFailed(InvalidUrlFormat);
      }
      if !streamOk {
        return AddFailed(StreamNotAccessible);
      }
      var station := StationName(name, serverName);
      var next := NextNumber(GuildRows(rows, g));
      NextNumberIsCountPlusOne(GuildRows(rows, g));
      var f := Favorite(g, next, url, station, if userId.Some? then userId.value else 0, now);
      AppendKeepsDense(rows, f);
      rows := rows + [f];
      r := Added(station, next);
    }

    /** `remove_favorite`: an unknown number fails; otherwise that row goes
        and every higher number of the guild moves down by one, so the guild
        stays numbered 1..n - 1 and other guilds are untouched. */
    method RemoveFavorite(g: int, n: int) returns (r: RemoveResult)
      requires Valid()
      modifies this
      ensures Valid()
      ensures var l := GuildRows(old(rows), g);
              if 1 <= n <= |l| then
                r == Removed(l[n - 1].name) && rows == Renumber(Without(old(rows), g, n), g, n)
                && GuildRows(rows, g) == l[..n - 1] + Renumber(l[n..], g, n)
              else
                r == NotFound && rows == old(rows)
      ensures forall h :: h != g ==> GuildRows(rows, h) == GuildRows(old(rows), h)
    {
      var l := GuildRows(rows, g);
      FindInDense(l, n, 1);
      var found := FindByNumber(l, n);
      if found.None? {
        return NotFound;
      }
      var newRows := Renumber(Without(rows, g, n), g, n);
      RemoveKeepsAllDense(rows, g, n);
      rows := newRows;
      r := Removed(found.value.name);
    }

    /** `search_favorites`: the guild's favorites whose lowercase name or URL
        contains the lowercase query, in listing order. */
    method SearchFavorites(g: int, query: string) returns (r: seq<Favorite>)
      requires Valid()
      ensures r == Matching(AllFavorites(g), query)
      ensures forall f :: f in r <==> f in AllFavorites(g) && Matches(f, query)
    {
      var all := AllFavorites(g);
      r := FilterMatching(all, query);
      MatchingExact(all, query);
    }

    /** `validate_all_favorites`: each favorite is counted valid or listed
        invalid, so the two add up to the total. */
    method ValidateAllFavorites(g: int, streamOk: string -> bool)
      returns (total: nat, valid: nat, invalid: seq<Favorite>)
      requires Valid()
      ensures total == |AllFavorites(g)| && valid + |invalid| == total
      ensures forall f :: f in invalid <==> f in AllFavorites(g) && !streamOk(f.url)
    {
      var all := AllFavorites(g);
      total := |all|;
      valid, invalid := CheckStreams(all, streamOk);
    }

    /** One entry of `import_favorites`: an entry without a URL fails,
        any other goes through `add_favorite`. */
    method ImportEntry(g: int, item: ImportItem, userId: int, urlVerdict: string -> Option<bool>,
                       streamOk: string -> bool, serverName: string -> Option<string>, now: real)
      returns (ok: bool)
      requires Valid()
      modifies this
      ensures Valid()
      ensures ok == ImportAccepted(item, urlVerdict, streamOk)
      ensures var url := ImportUrl(item);
              rows == old(rows) + if ok then [Favorite(g, |GuildRows(old(rows), g)| + 1, url,
                                                      StationName(ImportName(item), serverName(url)), userId, now)]
                                  else []
    {
      var url := ImportUrl(item);
      if url == "" {
        return false;
      }
      var res := AddFavorite(g, url, ImportName(item), Some(userId), urlVerdict(url), streamOk(url), serverName(url), now);
      ok := res.Added?;
    }

    /** Entry `i` of an import: the entry's row, if any, follows those of
        the first `i` entries, and it counts as imported or failed. */
    method ImportNext(g: int, items: seq<ImportItem>, i: nat, userId: int, urlVerdict: string -> Option<bool>,
                      streamOk: string -> bool, serverName: string -> Option<string>, now: real,
                      ghost rows0: seq<Favorite>, ghost start: int, imported: nat, failed: nat)
      returns (imported': nat, failed': nat)
      requires Valid() && i < |items| && start == |GuildRows(rows0, g)| + 1
      requires ImportedUpTo(rows, g, items, i, userId, urlVerdict, streamOk, serverName, now, rows0, start, imported, failed)
      modifies this
      ensures Valid()
      ensures ImportedUpTo(rows, g, items, i + 1, userId, urlVerdict, streamOk, serverName, now, rows0, start, imported', failed')
      ensures imported' == if ImportAccepted(items[i], urlVerdict, streamOk) then imported + 1 else imported
    {
      ghost var before := rows;
      ImportedNumber(before, g, items, i, userId, urlVerdict, streamOk, serverName, now, rows0, start, imported, failed);
      var ok := ImportEntry(g, items[i], userId, urlVerdict, streamOk, serverName, now);
      if ok {
        imported', failed' := imported + 1, failed;
      } else {
        imported', failed' := imported, failed + 1;
      }
      ImportedUpToNext(before, rows, ok, |GuildRows(before, g)| + 1, g, items, i, userId, urlVerdict, streamOk,
                       serverName, now, rows0, start, imported, failed);
    }

    /** `import_favorites`: an entry without a URL fails, any other entry
        goes through `add_favorite`; imported + failed is the number of
        entries, and the guild gains exactly the imported favorites. */
    method ImportFavorites(g: int, items: seq<ImportItem>, userId: int,
                           urlVerdict: string -> Option<bool>, streamOk: string -> bool,
                           serverName: string -> Option<string>, now: real)
      returns (imported: nat, failed: nat)
      requires Valid()
      modifies this
      ensures Valid()
      ensures imported + failed == |items|
      ensures var added := ImportedRows(g, items, userId, urlVerdict, streamOk, serverName, now,
                                        |GuildRows(old(rows), g)| + 1);
              rows == old(rows) + added && imported == |added|
      ensures |GuildRows(rows, g)| == |GuildRows(old(rows), g)| + imported
      ensures forall h :: h != g ==> GuildRows(rows, h) == GuildRows(old(rows), h)
    {
      ghost var start := |GuildRows(rows, g)| + 1;
      imported, failed := 0, 0;
      var i := 0;
      assert items[..0] == [];
      while i < |items|
        invariant 0 <= i <= |items|
        invariant Valid()
        invariant ImportedUpTo(rows, g, items, i, userId, urlVerdict, streamOk, serverName, now, old(rows), start, imported, failed)
      {
        imported, failed := ImportNext(g, items, i, userId, urlVerdict, streamOk, serverName, now, old(rows), start, imported, failed);
        i := i + 1;
      }
      assert items[..i] == items;
      ghost var added := ImportedRows(g, items, userId, urlVerdict, streamOk, serverName, now, start);
      forall h ensures GuildRows(rows, h) == GuildRows(old(rows), h) + (if h == g then added else []) {
        GuildRowsAppendOwn(old(rows), added, g, h);
      }
    }
  }
}

=== FILE: filter_designer.dfy ===
/** Filter design (audio/filters/design/filter_designer.py): the designer's
    own validation of a specification, the guard in `design_filter`, and the
    coefficient cache of `FilterDesignService`. The scipy design routines
    are a parameter `design`. */
module FilterDesign {
  import opened Util
  import opened AdvancedTypes

  const MinOrder: int := 1
  const MaxOrder: int := 20

  predicate IsBandResponse(r: FilterResponse)
  {
    r == Bandpass || r == Bandstop
  }

  predicate UsesRipple(t: FilterType) { t == ChebyshevI || t == Elliptic }

  predicate UsesAttenuation(t: FilterType) { t == ChebyshevII || t == Elliptic }

  /** `validate_specification`, checked rule by rule in the source's order. */
  function ValidateSpecification(spec: FilterSpecification): (ok: bool)
    ensures ok ==> spec.sampleRate > 0.0 && MinOrder <= spec.order <= MaxOrder
    ensures ok ==> forall i :: 0 <= i < |spec.cutoffs| ==> CutoffInRange(spec.cutoffs[i], spec.sampleRate)
    ensures ok ==> (IsBandResponse(spec.responseType) <==> |spec.cutoffs| == 2)
    ensures ok ==> !IsBandResponse(spec.responseType) ==> |spec.cutoffs| == 1
    ensures ok && IsBandResponse(spec.responseType) ==> spec.cutoffs[0] < spec.cutoffs[1]
    ensures ok && UsesRipple(spec.filterType) ==> 0.0 < spec.rippleDb <= 10.0
    ensures ok && UsesAttenuation(spec.filterType) ==> 0.0 < spec.attenuationDb <= 120.0
  {
    if spec.sampleRate <= 0.0 then false
    else if !(MinOrder <= spec.order <= MaxOrder) then false
    else if FirstBadCutoff(spec.cutoffs, spec.sampleRate).Some? then false
    else if IsBandResponse(spec.responseType) && |spec.cutoffs| != 2 then false
    else if IsBandResponse(spec.responseType) && spec.cutoffs[0] >= spec.cutoffs[1] then false
    else if !IsBandResponse(spec.responseType) && |spec.cutoffs| != 1 then false
    else if UsesRipple(spec.filterType) && (spec.rippleDb <= 0.0 || spec.rippleDb > 10.0) then false
    else if UsesAttenuation(spec.filterType) && (spec.attenuationDb <= 0.0 || spec.attenuationDb > 120.0) then false
    else true
  }

  /** Every rule that a specification breaks makes the designer refuse it:
      the converse of the guarantees stated on `ValidateSpecification`. */
  lemma ValidateSpecificationComplete(spec: FilterSpecification)
    requires spec.sampleRate > 0.0 && MinOrder <= spec.order <= MaxOrder
    requires forall i :: 0 <= i < |spec.cutoffs| ==> CutoffInRange(spec.cutoffs[i], spec.sampleRate)
    requires IsBandResponse(spec.responseType) ==> |spec.cutoffs| == 2 && spec.cutoffs[0] < spec.cutoffs[1]
    requires !IsBandResponse(spec.responseType) ==> |spec.cutoffs| == 1
    requires UsesRipple(spec.filterType) ==> 0.0 < spec.rippleDb <= 10.0
    requires UsesAttenuation(spec.filterType) ==> 0.0 < spec.attenuationDb <= 120.0
    ensures ValidateSpecification(spec)
  {
  }

  /** The designer is stricter than the value object: whatever it accepts
      could have been built by `FilterSpecification(...)` with these fields. */
  lemma DesignerAcceptsOnlyConstructible(spec: FilterSpecification)
    requires ValidateSpecification(spec)
    ensures NewFilterSpecification(spec.filterType, spec.responseType, spec.cutoffs, spec.sampleRate,
                                   spec.order, spec.rippleDb, spec.attenuationDb) == Ok(spec)
  {
  }

  /** The errors `design_filter` raises. */
  datatype DesignError = InvalidFilterSpecification | FilterDesignFailed

  /** The scipy design strategies, one per filter type; all six types have one. */
  type Designer = FilterSpecification -> Result<FilterCoefficients, DesignError>

  /** `design_filter`: an invalid specification is refused before any design
      strategy runs. */
  function DesignFilter(spec: FilterSpecification, design: Designer): (r: Result<FilterCoefficients, DesignError>)
    ensures !ValidateSpecification(spec) ==> r == Err(InvalidFilterSpecification)
    ensures ValidateSpecification(spec) ==> r == design(spec)
  {
    if !ValidateSpecification(spec) then Err(InvalidFilterSpecification) else design(spec)
  }

  /** `get_cache_stats()['hit_rate_percent']` before rounding. */
  function HitRate(hits: nat, misses: nat): (rate: real)
    ensures 0.0 <= rate <= 100.0
    ensures hits + misses == 0 ==> rate == 0.0
    ensures hits + misses > 0 ==> rate * (hits + misses) as real == hits as real * 100.0
    ensures misses == 0 && hits > 0 ==> rate == 100.0
  {
    if hits + misses > 0 then hits as real / (hits + misses) as real * 100.0 else 0.0
  }

  datatype CacheStats = CacheStats(cacheSize: nat, cacheHits: nat, cacheMisses: nat, hitRatePercent: real)

  /** `FilterDesignService`. The cache key in the source is the md5 of the
      text of the specification's fields, which also tells apart values that
      are equal as numbers (48000 and 48000.0) or differ only as a list and
      a tuple; here the specification value itself is the key, so those
      spellings share one entry. */
  class FilterDesignService {
    var cache: map<FilterSpecification, FilterCoefficients>
    var hits: nat
    var misses: nat

    constructor()
      ensures cache == map[] && hits == 0 && misses == 0
    {
      cache := map[];
      hits := 0;
      misses := 0;
    }

    /** `get_or_create_filter`: a cached specification is answered from the
        cache and counted as a hit; otherwise the miss is counted, the filter
        designed, and stored only when the design succeeds (a failing design
        raises after the miss has been counted). */
    method GetOrCreateFilter(spec: FilterSpecification, design: Designer)
      returns (r: Result<FilterCoefficients, DesignError>)
      modifies this
      ensures spec in old(cache) ==> r == Ok(old(cache)[spec]) && cache == old(cache)
                                     && hits == old(hits) + 1 && misses == old(misses)
      ensures spec !in old(cache) ==> r == DesignFilter(spec, design)
                                      && hits == old(hits) && misses == old(misses) + 1
      ensures spec !in old(cache) && r.Ok? ==> cache == old(cache)[spec := r.value]
      ensures spec !in old(cache) && r.Err? ==> cache == old(cache)
    {
      if spec in cache {
        hits := hits + 1;
        return Ok(cache[spec]);
      }
      misses := misses + 1;
      r := DesignFilter(spec, design);
      if r.Ok? {
        cache := cache[spec := r.value];
      }
    }

    /** `clear_cache`: empties the cache and zeroes both counters. */
    method ClearCache()
      modifies this
      ensures cache == map[] && hits == 0 && misses == 0
    {
      cache := map[];
      hits := 0;
      misses := 0;
    }

    method GetCacheStats() returns (s: CacheStats)
      ensures s.cacheSize == |cache| && s.cacheHits == hits && s.cacheMisses == misses
      ensures s.hitRatePercent == HitRate(hits, misses)
    {
      s := CacheStats(|cache|, hits, misses, HitRate(hits, misses));
    }
  }

  /** Two lookups of one specification design the filter at most once: the
      second is always a hit returning what the first stored. */
  method RepeatedLookupHits(spec: FilterSpecification, design: Designer)
    returns (first: Result<FilterCoefficients, DesignError>, second: Result<FilterCoefficients, DesignError>)
    ensures first.Ok? ==> second == first
  {
    var service := new FilterDesignService();
    first := service.GetOrCreateFilter(spec, design);
    second := service.GetOrCreateFilter(spec, design);
    assert first.Ok? ==> spec in service.cache;
  }
}

=== FILE: health_monitor.dfy ===
/** Health monitoring: the guild and system status aggregation, the issue
    detectors that feed it, and the per-guild and system histories capped at
    100 checks.

    What the Discord client reports about a guild (whether the bot sees it,
    whether it has a voice client and whether that client is connected) is a
    parameter, as are the stream metrics and the system snapshot. */
module Health {
  import opened Util
  import opened MonitoringTypes
  import Metrics

  const MaxHistoryItems: nat := 100
  const StuckCleanupSeconds: real := 300.0
  const HighResponseMs: real := 3000.0

  /** How severe a status is, for comparing aggregation results. */
  function Rank(s: HealthStatus): nat
  {
    match s
    case Healthy => 0
    case Warning => 1
    case Critical => 2
    case Offline => 3
    case Unknown => 3
  }

  // -----------------------------------------------------------------------
  // Issue detectors

  /** What the bot sees of a guild: not at all, or with an optional voice
      client whose connected flag is given. */
  datatype GuildView = NotFound | Found(voiceConnected: Option<bool>)

  datatype Issue =
    | GuildNotFound
    | UrlWithoutVoiceClient
    | VoiceClientWithoutUrl
    | VoiceClientDisconnected
    | HighResponseTime
    | PoorConnection
    | UrlNotConnected
    | CleanupStuck
    | VoiceClientNotConnected

  /** `_check_state_consistency`. */
  function StateConsistencyIssues(view: GuildView, hasUrl: bool): (r: seq<Issue>)
    ensures view.NotFound? ==> r == [GuildNotFound]
    ensures view.Found? ==> (r == [] <==> (hasUrl == view.voiceConnected.Some? && (hasUrl ==> view.voiceConnected.value)))
  {
    match view
    case NotFound => [GuildNotFound]
    case Found(voice) =>
      (if hasUrl && voice.None? then [UrlWithoutVoiceClient] else [])
      + (if voice.Some? && !hasUrl then [VoiceClientWithoutUrl] else [])
      + (if voice.Some? && hasUrl && !voice.value then [VoiceClientDisconnected] else [])
  }

  /** `_check_stream_health`. */
  function StreamIssues(m: Metrics.StreamMetrics): (r: seq<Issue>)
    ensures |r| <= 3
    ensures HighResponseTime in r <==> m.responseMs.Some? && m.responseMs.value > HighResponseMs
    ensures PoorConnection in r <==> m.quality == Metrics.Poor
    ensures UrlNotConnected in r <==> m.url.Some? && m.url.value != [] && !m.connected
  {
    (if m.responseMs.Some? && m.responseMs.value != 0.0 && m.responseMs.value > HighResponseMs
     then [HighResponseTime] else [])
    + (if m.quality == Metrics.Poor then [PoorConnection] else [])
    + (if m.url.Some? && m.url.value != [] && !m.connected then [UrlNotConnected] else [])
  }

  /** `_check_cleanup_state`: a cleanup running for more than five minutes. */
  function CleanupIssues(cleaningUp: bool, lastUpdated: Option<real>, now: real): (r: seq<Issue>)
    ensures r != [] <==> cleaningUp && lastUpdated.Some? && now - lastUpdated.value > StuckCleanupSeconds
  {
    if cleaningUp && lastUpdated.Some? && now - lastUpdated.value > StuckCleanupSeconds
    then [CleanupStuck] else []
  }

  /** `_check_voice_client_health`. */
  function VoiceIssues(view: GuildView): (r: seq<Issue>)
    ensures r != [] <==> view == Found(Some(false))
  {
    if view == Found(Some(false)) then [VoiceClientNotConnected] else []
  }

  // -----------------------------------------------------------------------
  // Guild status

  /** The guild status stated case by case: no state is offline; state or
      cleanup issues, or two or more stream issues, are critical; one stream
      issue or any voice issue is a warning. */
  function GuildStatus(hasState: bool, stateIssues: nat, streamIssues: nat, cleanupIssues: nat,
                       voiceIssues: nat): HealthStatus
  {
    if !hasState then Offline
    else if stateIssues > 0 || cleanupIssues > 0 || streamIssues >= 2 then Critical
    else if streamIssues == 1 || voiceIssues > 0 then Warning
    else Healthy
  }

  /** The aggregation in `check_guild_health`, step by step as the source
      updates its status variable. */
  method AggregateGuildStatus(hasState: bool, stateIssues: nat, streamIssues: nat, cleanupIssues: nat,
                              voiceIssues: nat) returns (status: HealthStatus)
    ensures status == GuildStatus(hasState, stateIssues, streamIssues, cleanupIssues, voiceIssues)
  {
    if !hasState {
      return Offline;
    }
    status := Healthy;
    if stateIssues > 0 {
      status := Critical;
    }
    if streamIssues > 0 && status == Healthy {
      status := if streamIssues == 1 then Warning else Critical;
    }
    if cleanupIssues > 0 {
      status := Critical;
    }
    if voiceIssues > 0 && status == Healthy {
      status := Warning;
    }
  }

  /** Adding issues of any kind never makes a guild's status less severe. */
  lemma GuildStatusMonotone(hasState: bool, a1: nat, b1: nat, c1: nat, d1: nat, a2: nat, b2: nat, c2: nat, d2: nat)
    requires a1 <= a2 && b1 <= b2 && c1 <= c2 && d1 <= d2
    ensures Rank(GuildStatus(hasState, a1, b1, c1, d1)) <= Rank(GuildStatus(hasState, a2, b2, c2, d2))
  {
  }

  /** A voice issue alone can only ever produce a warning. */
  lemma VoiceIssuesOnlyWarn(voiceIssues: nat)
    requires voiceIssues > 0
    ensures GuildStatus(true, 0, 0, 0, voiceIssues) == Warning
  {
  }

  /** The message of a guild check. */
  function GuildMessage(status: HealthStatus, issues: nat): string
  {
    match status
    case Healthy => "Guild is healthy and operating normally"
    case Warning => "Guild has " + IntToString(issues) + " minor issue(s) detected"
    case Critical => "Guild has " + IntToString(issues) + " critical issue(s) requiring attention"
    case _ => "Guild health status unknown"
  }

  /** The check `check_guild_health` returns for a guild with or without state. */
  function GuildCheck(hasState: bool, view: GuildView, hasUrl: bool, metrics: Metrics.StreamMetrics,
                      cleaningUp: bool, lastUpdated: Option<real>, now: real): (c: HealthCheck)
    ensures c.component == "guild"
    ensures !hasState ==> c.status == Offline
    ensures hasState ==> c.status in {Healthy, Warning, Critical}
    ensures hasState && view.NotFound? ==> c.status == Critical
    ensures hasState && cleaningUp && lastUpdated.Some? && now - lastUpdated.value > StuckCleanupSeconds
      ==> c.status == Critical
  {
    if !hasState then HealthCheck("guild", Offline, "No active state - guild is offline")
    else
      var s := StateConsistencyIssues(view, hasUrl);
      var st := StreamIssues(metrics);
      var cl := CleanupIssues(cleaningUp, lastUpdated, now);
      var v := VoiceIssues(view);
      var status := GuildStatus(true, |s|, |st|, |cl|, |v|);
      HealthCheck("guild", status, GuildMessage(status, |s| + |st| + |cl| + |v|))
  }

  // -----------------------------------------------------------------------
  // System status

  datatype SystemIssue = ElevatedCpu | ElevatedMemory | CriticalCpu | CriticalMemory | GuildInactivity

  /** Warning levels sit 10 points below the configured critical thresholds. */
  function ResourceIssues(s: Metrics.SystemSample, thresholds: map<string, real>): (r: seq<SystemIssue>)
    ensures ElevatedCpu in r <==> s.cpuPercent > Metrics.ThresholdOr(thresholds, "cpu_usage", 80.0) - 10.0
    ensures ElevatedMemory in r <==> s.memoryPercent > Metrics.ThresholdOr(thresholds, "memory_usage", 85.0) - 10.0
    ensures |r| <= 2
  {
    (if s.cpuPercent > Metrics.ThresholdOr(thresholds, "cpu_usage", 80.0) - 10.0 then [ElevatedCpu] else [])
    + (if s.memoryPercent > Metrics.ThresholdOr(thresholds, "memory_usage", 85.0) - 10.0 then [ElevatedMemory] else [])
  }

  function CriticalIssues(s: Metrics.SystemSample, thresholds: map<string, real>): (r: seq<SystemIssue>)
    ensures CriticalCpu in r <==> s.cpuPercent > Metrics.ThresholdOr(thresholds, "cpu_usage", 80.0)
    ensures CriticalMemory in r <==> s.memoryPercent > Metrics.ThresholdOr(thresholds, "memory_usage", 85.0)
    ensures |r| <= 2
  {
    (if s.cpuPercent > Metrics.ThresholdOr(thresholds, "cpu_usage", 80.0) then [CriticalCpu] else [])
    + (if s.memoryPercent > Metrics.ThresholdOr(thresholds, "memory_usage", 85.0) then [CriticalMemory] else [])
  }

  /** A ratio above one half, without division. */
  lemma RatioAboveHalf(x: int, t: int)
    requires t > 0
    ensures (x as real) / (t as real) > 0.5 <==> 2 * x > t
  {
    var q := (x as real) / (t as real);
    assert q * (t as real) == x as real;
    if q > 0.5 {
      MulNonNeg(q - 0.5, t as real);
      assert (q - 0.5) * (t as real) == x as real - 0.5 * (t as real);
    } else {
      MulNonNeg(0.5 - q, t as real);
      assert (0.5 - q) * (t as real) == 0.5 * (t as real) - x as real;
    }
  }

  /** More than half of the known guilds inactive. */
  function AggregateIssues(totalGuilds: nat, activeGuilds: nat): (r: seq<SystemIssue>)
    ensures r != [] <==> totalGuilds > 0 && 2 * (totalGuilds - activeGuilds) > totalGuilds
  {
    if totalGuilds == 0 then []
    else
      RatioAboveHalf(totalGuilds - activeGuilds, totalGuilds);
      if ((totalGuilds - activeGuilds) as real) / (totalGuilds as real) > 0.5 then [GuildInactivity] else []
  }

  function SystemStatus(resource: nat, critical: nat, aggregate: nat): HealthStatus
  {
    if critical > 0 then Critical
    else if resource > 0 || aggregate > 0 then Warning
    else Healthy
  }

  /** Every critical reading is also above its warning level, so a critical
      system always reports the matching elevated-usage issue too. */
  lemma CriticalImpliesElevated(s: Metrics.SystemSample, thresholds: map<string, real>)
    ensures CriticalCpu in CriticalIssues(s, thresholds) ==> ElevatedCpu in ResourceIssues(s, thresholds)
    ensures CriticalMemory in CriticalIssues(s, thresholds) ==> ElevatedMemory in ResourceIssues(s, thresholds)
    ensures CriticalIssues(s, thresholds) != [] ==> ResourceIssues(s, thresholds) != []
  {
    var c := CriticalIssues(s, thresholds);
    var r := ResourceIssues(s, thresholds);
    if c != [] {
      assert c[0] == CriticalCpu || c[0] == CriticalMemory;
      assert c[0] in c;
    }
  }

  /** `check_system_health`'s status: critical readings win, then resource or
      inactivity warnings. */
  function SystemCheck(m: Metrics.SystemMetrics, thresholds: map<string, real>): (c: HealthCheck)
    ensures c.component == "system"
    ensures c.status == Critical <==> CriticalIssues(m.sample, thresholds) != []
    ensures c.status == Healthy <==>
      ResourceIssues(m.sample, thresholds) == [] && AggregateIssues(m.sample.totalGuilds, m.sample.activeGuilds) == []
  {
    CriticalImpliesElevated(m.sample, thresholds);
    var r := ResourceIssues(m.sample, thresholds);
    var c := CriticalIssues(m.sample, thresholds);
    var a := AggregateIssues(m.sample.totalGuilds, m.sample.activeGuilds);
    var status := SystemStatus(|r|, |c|, |a|);
    var n := |r| + |c| + |a|;
    HealthCheck("system", status,
      match status
      case Healthy => "System healthy: " + IntToString(m.sample.activeGuilds) + " active guilds"
      case Warning => "System has " + IntToString(n) + " warning(s): elevated resource usage detected"
      case _ => "System has " + IntToString(n) + " critical issue(s): immediate attention required")
  }

  // -----------------------------------------------------------------------
  // The monitor and its histories

  class HealthMonitor {
    var guildHistory: map<int, seq<HealthCheck>>
    var systemHistory: seq<HealthCheck>

    ghost predicate Valid()
      reads this
    {
      |systemHistory| <= MaxHistoryItems
      && forall g :: g in guildHistory ==> |guildHistory[g]| <= MaxHistoryItems
    }

    constructor ()
      ensures Valid() && guildHistory == map[] && systemHistory == []
    {
      guildHistory := map[];
      systemHistory := [];
    }

    /** `_add_to_guild_history`. */
    method AddToGuildHistory(guild: int, c: HealthCheck)
      requires Valid()
      modifies this
      ensures Valid()
      ensures guildHistory == old(guildHistory)[guild :=
        KeepLast((if guild in old(guildHistory) then old(guildHistory)[guild] else []) + [c], MaxHistoryItems)]
      ensures systemHistory == old(systemHistory)
    {
      var h := if guild in guildHistory then guildHistory[guild] else [];
      guildHistory := guildHistory[guild := KeepLast(h + [c], MaxHistoryItems)];
    }

    /** `check_guild_health`: a guild without state is reported offline and
        nothing is recorded; otherwise the check is appended to its history. */
    method CheckGuildHealth(guild: int, hasState: bool, view: GuildView, hasUrl: bool,
                            metrics: Metrics.StreamMetrics, cleaningUp: bool, lastUpdated: Option<real>,
                            now: real) returns (c: HealthCheck)
      requires Valid()
      modifies this
      ensures Valid()
      ensures c == GuildCheck(hasState, view, hasUrl, metrics, cleaningUp, lastUpdated, now)
      ensures !hasState ==> guildHistory == old(guildHistory)
      ensures hasState ==> guildHistory == old(guildHistory)[guild :=
        KeepLast((if guild in old(guildHistory) then old(guildHistory)[guild] else []) + [c], MaxHistoryItems)]
      ensures hasState ==>
        guild in guildHistory && |guildHistory[guild]| > 0
        && guildHistory[guild][|guildHistory[guild]| - 1] == c
      ensures forall g :: g != guild ==>
        (g in guildHistory <==> g in old(guildHistory))
        && (g in guildHistory ==> guildHistory[g] == old(guildHistory)[g])
      ensures systemHistory == old(systemHistory)
    {
      c := GuildCheck(hasState, view, hasUrl, metrics, cleaningUp, lastUpdated, now);
      if hasState {
        RecordGuildCheck(guild, c);
      }
    }

    /** Appends a check to the guild's capped history: it becomes the newest
        entry and no other guild's history changes. */
    method RecordGuildCheck(guild: int, c: HealthCheck)
      requires Valid()
      modifies this
      ensures Valid()
      ensures guildHistory == old(guildHistory)[guild :=
        KeepLast((if guild in old(guildHistory) then old(guildHistory)[guild] else []) + [c], MaxHistoryItems)]
      ensures guild in guildHistory && |guildHistory[guild]| > 0
        && guildHistory[guild][|guildHistory[guild]| - 1] == c
      ensures forall g :: g != guild ==>
        (g in guildHistory <==> g in old(guildHistory))
        && (g in guildHistory ==> guildHistory[g] == old(guildHistory)[g])
      ensures systemHistory == old(systemHistory)
    {
      var h := if guild in guildHistory then guildHistory[guild] else [];
      AppendKeepLastNewest(h, c, MaxHistoryItems);
      AddToGuildHistory(guild, c);
    }

    /** `check_system_health`: the check is appended to the capped system history. */
    method CheckSystemHealth(m: Metrics.SystemMetrics, thresholds: map<string, real>) returns (c: HealthCheck)
      requires Valid()
      modifies this
      ensures Valid()
      ensures c == SystemCheck(m, thresholds)
      ensures systemHistory == KeepLast(old(systemHistory) + [c], MaxHistoryItems)
      ensures systemHistory[|systemHistory| - 1] == c
      ensures guildHistory == old(guildHistory)
    {
      c := SystemCheck(m, thresholds);
      AppendKeepLastNewest(systemHistory, c, MaxHistoryItems);
      systemHistory := KeepLast(systemHistory + [c], MaxHistoryItems);
    }

    /** `get_guild_health_history(guild, limit)`: the newest `limit` checks,
        all of them for `limit` 0, none for an unknown guild. */
    function GuildHealthHistory(guild: int, limit: int): (r: seq<HealthCheck>)
      reads this
      ensures guild !in guildHistory ==> r == []
      ensures guild in guildHistory && limit == 0 ==> r == guildHistory[guild]
      ensures guild in guildHistory && limit > 0 ==> r == KeepLast(guildHistory[guild], limit)
    {
      var h := if guild in guildHistory then guildHistory[guild] else [];
      if limit > 0 then NegativeSliceIsKeepLast(h, limit); PySliceFrom(h, -limit)
      else if limit != 0 then PySliceFrom(h, -limit)
      else h
    }

    function SystemHealthHistory(limit: int): (r: seq<HealthCheck>)
      reads this
      ensures limit == 0 ==> r == systemHistory
      ensures limit > 0 ==> r == KeepLast(systemHistory, limit)
    {
      if limit > 0 then NegativeSliceIsKeepLast(systemHistory, limit); PySliceFrom(systemHistory, -limit)
      else if limit != 0 then PySliceFrom(systemHistory, -limit)
      else systemHistory
    }
  }
}

=== FILE: maintenance_manager.dfy ===
/** Maintenance windows: a schedule/start/end/cancel state machine over the
    `maintenance_windows` table (an in-memory map here), the record of the
    maintenance currently running, a bounded history of completed windows and
    the human-readable duration text used in announcements.

    Times are seconds on one real-valued clock supplied by the caller. */
module Maintenance {
  import opened Util

  datatype Status = Scheduled | Active | Completed | Cancelled

  /** One row of the `maintenance_windows` table. */
  datatype Row = Row(startTime: real, endTime: real, message: string, status: Status)

  /** The dictionary the manager passes around for one window. Rows read back
      from the table carry no actual start or end time; those keys are only
      added in memory by start and end. */
  datatype Window = Window(
    id: int,
    startTime: real,
    endTime: real,
    message: string,
    status: Status,
    actualStart: Option<real>,
    actualEnd: Option<real>,
    completion: Option<string>)

  const MaxHistoryItems: nat := 100
  const AutoEndMessage: string := "Maintenance window completed automatically"

  /** What `get_maintenance_stats` reports. */
  datatype Stats = Stats(
    totalCompleted: nat,
    averageDurationSeconds: real,
    activeMaintenance: bool,
    activeMaintenanceId: Option<int>)

  /** Seconds between actual start and actual end, for the windows that have both. */
  function MeasuredDurations(h: seq<Window>): seq<real>
  {
    if h == [] then []
    else (if h[0].actualStart.Some? && h[0].actualEnd.Some?
          then [h[0].actualEnd.value - h[0].actualStart.value] else [])
         + MeasuredDurations(h[1..])
  }

  /** The summed measured durations divided by the number of ALL history
      entries, measured or not. */
  function AverageDuration(h: seq<Window>): (r: real)
    ensures h == [] ==> r == 0.0
  {
    if h == [] then 0.0 else SumReal(MeasuredDurations(h)) / (|h| as real)
  }

  /** Entries without an actual start time contribute nothing to the average. */
  lemma {:induction false} UnmeasuredHistoryAveragesZero(h: seq<Window>)
    requires forall i :: 0 <= i < |h| ==> h[i].actualStart.None?
    ensures MeasuredDurations(h) == []
    ensures AverageDuration(h) == 0.0
  {
    if h != [] {
      UnmeasuredHistoryAveragesZero(h[1..]);
    }
  }

  /** A table row read back as a window dictionary. */
  function RowWindow(id: int, row: Row): (w: Window)
    ensures w.id == id && w.startTime == row.startTime && w.endTime == row.endTime
    ensures w.message == row.message && w.status == row.status
    ensures w.actualStart.None? && w.actualEnd.None? && w.completion.None?
  {
    Window(id, row.startTime, row.endTime, row.message, row.status, None, None, None)
  }

  /** `ORDER BY start_time`. */
  predicate StartOrdered(s: seq<Window>)
  {
    forall i, j | 0 <= i < j < |s| :: s[i].startTime <= s[j].startTime
  }

  /** `w` placed after every window starting no later than it. */
  function InsertByStart(s: seq<Window>, w: Window): (r: seq<Window>)
    ensures multiset(r) == multiset(s) + multiset{w}
  {
    if s == [] || w.startTime < s[0].startTime then
      [w] + s
    else
      assert s == [s[0]] + s[1..];
      [s[0]] + InsertByStart(s[1..], w)
  }

  /** Inserting into an ordered listing keeps it ordered. */
  lemma {:induction false} InsertByStartOrdered(s: seq<Window>, w: Window)
    requires StartOrdered(s)
    ensures StartOrdered(InsertByStart(s, w))
  {
    if s != [] && w.startTime >= s[0].startTime {
      var rest := InsertByStart(s[1..], w);
      InsertByStartOrdered(s[1..], w);
      forall x: Window | x in multiset(rest) ensures s[0].startTime <= x.startTime {
        if x != w {
          assert x in multiset(s[1..]);
          var k :| 0 <= k < |s[1..]| && s[1..][k] == x;
          assert s[k + 1] == x;
        }
      }
      assert forall k | 0 <= k < |rest| :: rest[k] in multiset(rest);
    }
  }

  /** One more row read into the listing. */
  lemma WindowsStep(table: map<int, Row>, done: set<int>, id: int, r: seq<Window>)
    requires id in table && id !in done && done <= table.Keys
    requires forall w :: w in multiset(r) <==> w.id in done && w == RowWindow(w.id, table[w.id])
    ensures forall w :: w in multiset(InsertByStart(r, RowWindow(id, table[id]))) <==>
      w.id in done + {id} && w == RowWindow(w.id, table[w.id])
  {
  }

  /** The rows `ids` of `table` read back as windows, once each, in order
      of start time. */
  method OrderedWindows(table: map<int, Row>, ids: set<int>) returns (r: seq<Window>)
    requires ids <= table.Keys
    ensures StartOrdered(r)
    ensures forall w :: w in r <==> w.id in ids && w == RowWindow(w.id, table[w.id])
    ensures |r| == |ids|
  {
    var todo := ids;
    r := [];
    while todo != {}
      invariant todo <= ids
      invariant StartOrdered(r)
      invariant forall w :: w in multiset(r) <==> w.id in ids - todo && w == RowWindow(w.id, table[w.id])
      invariant |r| == |ids - todo|
      decreases |todo|
    {
      assert (forall h :: h !in todo) ==> todo == {};
      var id :| id in todo;
      InsertByStartOrdered(r, RowWindow(id, table[id]));
      WindowsStep(table, ids - todo, id, r);
      r := InsertByStart(r, RowWindow(id, table[id]));
      assert ids - (todo - {id}) == (ids - todo) + {id};
      todo := todo - {id};
    }
    assert ids - todo == ids;
  }

  class MaintenanceManager {
    /** Whether a database connection was supplied. */
    const hasDb: bool
    /** The `maintenance_windows` table, keyed by row id. */
    var table: map<int, Row>
    /** The row id the next insert receives. */
    var nextRowId: int
    var active: Option<Window>
    var history: seq<Window>

    /** Without a database nothing is stored and so nothing can ever be looked
        up, started or ended; with one, every history entry was read back from
        the table and so lacks an actual start time. */
    ghost predicate Valid()
      reads this
    {
      |history| <= MaxHistoryItems
      && nextRowId >= 1
      && (forall id :: id in table ==> id < nextRowId)
      && (!hasDb ==> table == map[] && active.None? && history == [])
      && (forall i :: 0 <= i < |history| ==> history[i].actualStart.None?)
    }

    constructor (withDatabase: bool)
      ensures Valid()
      ensures hasDb == withDatabase
      ensures table == map[] && nextRowId == 1 && active == None && history == []
    {
      hasDb := withDatabase;
      table := map[];
      nextRowId := 1;
      active := None;
      history := [];
    }

    /** `_get_maintenance_by_id`: the table row when there is a database,
        otherwise the active record if its id matches. */
    function Lookup(id: int): (r: Option<Window>)
      reads this
      ensures r.Some? ==> r.value.id == id
      ensures !hasDb ==> r == (if active.Some? && active.value.id == id then active else None)
      ensures hasDb ==> (r.Some? <==> id in table)
      ensures hasDb && r.Some? ==>
        r.value.status == table[id].status && r.value.actualStart.None?
        && r.value.startTime == table[id].startTime && r.value.endTime == table[id].endTime
    {
      if !hasDb then
        (if active.Some? && active.value.id == id then active else None)
      else if id in table then
        Some(RowWindow(id, table[id]))
      else None
    }

    /** Without a database no window can ever be found. */
    lemma NothingFoundWithoutDatabase(id: int)
      requires Valid() && !hasDb
      ensures Lookup(id) == None
    {
    }

    method StartMaintenance(id: int, now: real) returns (ok: bool)
      requires Valid()
      modifies this
      ensures Valid()
      ensures ok <==> old(Lookup(id)).Some? && old(Lookup(id)).value.status == Scheduled
      ensures ok ==> active == Some(old(Lookup(id)).value.(status := Active, actualStart := Some(now)))
      ensures ok ==> table == (if hasDb then old(table)[id := old(table)[id].(status := Active)] else old(table))
      ensures !ok ==> active == old(active) && table == old(table)
      ensures history == old(history) && nextRowId == old(nextRowId)
    {
      var found := Lookup(id);
      if found.None? || found.value.status != Scheduled {
        return false;
      }
      var w := found.value.(status := Active, actualStart := Some(now));
      if hasDb {
        table := table[id := table[id].(status := Active)];
      }
      active := Some(w);
      ok := true;
    }

    method EndMaintenance(id: int, completion: string, now: real) returns (ok: bool)
      requires Valid()
      modifies this
      ensures Valid()
      ensures ok <==> old(Lookup(id)).Some? && old(Lookup(id)).value.status == Active
      ensures ok ==> history == KeepLast(old(history) + [old(Lookup(id)).value.(
                status := Completed, actualEnd := Some(now), completion := Some(completion))],
                MaxHistoryItems)
      ensures ok ==> table == (if hasDb then old(table)[id := old(table)[id].(status := Completed)] else old(table))
      ensures ok ==> active == (if old(active).Some? && old(active).value.id == id then None else old(active))
      ensures !ok ==> active == old(active) && table == old(table) && history == old(history)
      ensures nextRowId == old(nextRowId)
    {
      var found := Lookup(id);
      if found.None? || found.value.status != Active {
        return false;
      }
      var w := found.value.(status := Completed, actualEnd := Some(now), completion := Some(completion));
      if hasDb {
        table := table[id := table[id].(status := Completed)];
      }
      if active.Some? && active.value.id == id {
        active := None;
      }
      AddToHistory(w);
      ok := true;
    }

    method CancelMaintenance(id: int) returns (ok: bool)
      requires Valid()
      modifies this
      ensures Valid()
      ensures ok <==> old(Lookup(id)).Some? && old(Lookup(id)).value.status in {Scheduled, Active}
      ensures ok ==> table == (if hasDb then old(table)[id := old(table)[id].(status := Cancelled)] else old(table))
      ensures ok ==> active == (if old(active).Some? && old(active).value.id == id then None else old(active))
      ensures !ok ==> active == old(active) && table == old(table)
      ensures history == old(history) && nextRowId == old(nextRowId)
    {
      var found := Lookup(id);
      if found.None? || found.value.status !in {Scheduled, Active} {
        return false;
      }
      if hasDb {
        table := table[id := table[id].(status := Cancelled)];
      }
      if active.Some? && active.value.id == id {
        active := None;
      }
      ok := true;
    }

    /** Inserts a scheduled row (id 1 when there is no database) and starts it
        at once when its start time is not in the future; a later start is the
        caller's `StartMaintenance` at that time. */
    method ScheduleMaintenance(message: string, duration: real, startTime: Option<real>, now: real)
      returns (id: int)
      requires Valid()
      modifies this
      ensures Valid()
      ensures var start := if startTime.Some? then startTime.value else now;
        var immediate := start <= now;
        if hasDb then
          id == old(nextRowId) && nextRowId == id + 1
          && table == old(table)[id := Row(start, start + duration, message,
                                           if immediate then Active else Scheduled)]
          && active == (if immediate
                        then Some(Window(id, start, start + duration, message, Active, Some(now), None, None))
                        else old(active))
        else
          id == 1 && table == old(table) && active == old(active) && nextRowId == old(nextRowId)
      ensures history == old(history)
    {
      var start := if startTime.Some? then startTime.value else now;
      id := 1;
      if hasDb {
        id := nextRowId;
        table := table[id := Row(start, start + duration, message, Scheduled)];
        nextRowId := nextRowId + 1;
      }
      if start <= now {
        var _ := StartMaintenance(id, now);
      }
    }

    /** `_add_to_history`: append a copy and keep the newest 100. */
    method AddToHistory(w: Window)
      requires |history| <= MaxHistoryItems
      modifies this
      ensures history == KeepLast(old(history) + [w], MaxHistoryItems)
      ensures |history| <= MaxHistoryItems && history[|history| - 1] == w
      ensures table == old(table) && active == old(active) && nextRowId == old(nextRowId)
    {
      AppendKeepLastNewest(history, w, MaxHistoryItems);
      history := KeepLast(history + [w], MaxHistoryItems);
    }

    /** `get_maintenance_history(limit)`: `history[-limit:]`, or the whole
        history when `limit` is 0. */
    function MaintenanceHistory(limit: int): (r: seq<Window>)
      reads this
      ensures limit == 0 ==> r == history
      ensures limit > 0 ==> r == KeepLast(history, limit)
      ensures limit < 0 ==> r == history[MinInt(-limit, |history|)..]
    {
      if limit > 0 then NegativeSliceIsKeepLast(history, limit); PySliceFrom(history, -limit)
      else if limit != 0 then PySliceFrom(history, -limit)
      else history
    }

    /** The ids of the rows still scheduled (none without a database). */
    function ScheduledIds(): (r: set<int>)
      reads this
      ensures !hasDb ==> r == {}
      ensures forall id :: id in r <==> hasDb && id in table && table[id].status == Scheduled
    {
      if hasDb then set id | id in table && table[id].status == Scheduled else {}
    }

    /** `get_scheduled_maintenances`: every row still scheduled, once each,
        read back as a window and ordered by start time (none without a
        database). */
    method ScheduledMaintenances() returns (r: seq<Window>)
      ensures StartOrdered(r)
      ensures !hasDb ==> r == []
      ensures forall w :: w in r <==> w.id in ScheduledIds() && w == RowWindow(w.id, table[w.id])
      ensures |r| == |ScheduledIds()|
    {
      r := OrderedWindows(table, ScheduledIds());
    }

    function MaintenanceStats(): (r: Stats)
      reads this
      ensures r.totalCompleted == |history|
      ensures r.activeMaintenance <==> active.Some?
      ensures r.activeMaintenanceId == (if active.Some? then Some(active.value.id) else None)
    {
      Stats(|history|, AverageDuration(history), active.Some?,
            if active.Some? then Some(active.value.id) else None)
    }

    /** Because `end_maintenance` re-reads the window from the table, which
        does not store the actual start time, every history entry is
        unmeasured and the reported average duration is always zero. */
    lemma AverageDurationAlwaysZero()
      requires Valid()
      ensures MaintenanceStats().averageDurationSeconds == 0.0
    {
      UnmeasuredHistoryAveragesZero(history);
    }
  }

  // -----------------------------------------------------------------------
  // Duration text

  /** The parts `_format_duration` shows: one unit, or a unit and the next
      smaller one. */
  datatype DurationText =
    | Seconds(seconds: int)
    | Minutes(minutes: int)
    | Hours(hours: int, minutes: int)
    | Days(days: int, hours: int)

  /** The unit is chosen by magnitude, and the parts shown never exceed the
      duration and fall short of it by less than the smallest unit shown. */
  function DurationParts(total: int): (d: DurationText)
    ensures total < 60 ==> d == Seconds(total)
    ensures 60 <= total < 3600 ==>
      d.Minutes? && 1 <= d.minutes < 60 && d.minutes * 60 <= total < d.minutes * 60 + 60
    ensures 3600 <= total < 86400 ==>
      d.Hours? && 1 <= d.hours < 24 && 0 <= d.minutes < 60
      && d.hours * 3600 + d.minutes * 60 <= total < d.hours * 3600 + d.minutes * 60 + 60
    ensures 86400 <= total ==>
      d.Days? && 1 <= d.days && 0 <= d.hours < 24
      && d.days * 86400 + d.hours * 3600 <= total < d.days * 86400 + d.hours * 3600 + 3600
  {
    if total < 60 then Seconds(total)
    else if total < 3600 then Minutes(total / 60)
    else if total < 86400 then Hours(total / 3600, (total % 3600) / 60)
    else Days(total / 86400, (total % 86400) / 3600)
  }

  /** The text; a zero minor part is omitted. */
  function Render(d: DurationText): string
  {
    match d
    case Seconds(s) => IntToString(s) + " seconds"
    case Minutes(m) => IntToString(m) + " minutes"
    case Hours(h, m) =>
      if m > 0 then IntToString(h) + " hours " + IntToString(m) + " minutes"
      else IntToString(h) + " hours"
    case Days(dd, h) =>
      if h > 0 then IntToString(dd) + " days " + IntToString(h) + " hours"
      else IntToString(dd) + " days"
  }

  /** `_format_duration`. */
  function FormatDuration(seconds: real): string
  {
    Render(DurationParts(TruncToInt(seconds)))
  }

  /** The text ends in the unit that the magnitude selects. */
  lemma FormatDurationUnit(seconds: real)
    ensures var t := TruncToInt(seconds); var s := FormatDuration(seconds);
      (t < 60 ==> EndsWith(s, " seconds"))
      && (60 <= t < 3600 ==> EndsWith(s, " minutes"))
      && (3600 <= t < 86400 ==> EndsWith(s, " minutes") || EndsWith(s, " hours"))
      && (86400 <= t ==> EndsWith(s, " hours") || EndsWith(s, " days"))
  {
    var t := TruncToInt(seconds);
    var d := DurationParts(t);
    match d
    case Seconds(n) =>
      assert FormatDuration(seconds) == IntToString(n) + " seconds";
    case Minutes(m) =>
      assert FormatDuration(seconds) == IntToString(m) + " minutes";
    case Hours(h, m) =>
      if m > 0 {
        assert FormatDuration(seconds) == IntToString(h) + " hours " + IntToString(m) + " minutes";
      } else {
        assert FormatDuration(seconds) == IntToString(h) + " hours";
      }
    case Days(dd, h) =>
      if h > 0 {
        assert FormatDuration(seconds) == IntToString(dd) + " days " + IntToString(h) + " hours";
      } else {
        assert FormatDuration(seconds) == IntToString(dd) + " days";
      }
  }
}

=== FILE: metrics_collector.dfy ===
/** Metrics collection: the five-second cache in front of the system
    snapshot, the threshold events a fresh snapshot raises, the per-stream
    metrics record, and the connection-quality and health-score ratings.

    The operating-system readings, the voice client's flags and the measured
    stream response time are parameters. */
module Metrics {
  import opened Util

  datatype ConnectionQuality =
    | Offline | ConnectedNotPlaying | Unknown | Excellent | Good | Fair | Poor

  /** Fixed readings of one snapshot (what psutil and the state manager report). */
  datatype SystemSample = SystemSample(
    cpuPercent: real,
    memoryPercent: real,
    memoryUsedMb: real,
    memoryTotalMb: real,
    activeGuilds: nat,
    totalGuilds: nat)

  datatype SystemMetrics = SystemMetrics(sample: SystemSample, uptimeSeconds: real)

  datatype ThresholdSeverity = ThresholdWarning | ThresholdCritical

  datatype ThresholdMetric = CpuUsage | MemoryUsage

  datatype ThresholdEvent = ThresholdEvent(metric: ThresholdMetric, value: real, threshold: real, severity: ThresholdSeverity)

  const CacheDurationSeconds: real := 5.0
  const DefaultCpuThreshold: real := 80.0
  const DefaultMemoryThreshold: real := 85.0

  // -----------------------------------------------------------------------
  // Ratings

  /** `_determine_connection_quality`. */
  function ConnectionQualityOf(responseMs: Option<real>, connected: bool, playing: bool): (q: ConnectionQuality)
    ensures !connected <==> q == Offline
    ensures connected && !playing <==> q == ConnectedNotPlaying
    ensures q == Unknown <==> connected && playing && responseMs.None?
    ensures connected && playing && responseMs.Some? ==>
      (q == Excellent <==> responseMs.value < 500.0)
      && (q == Good <==> 500.0 <= responseMs.value < 1000.0)
      && (q == Fair <==> 1000.0 <= responseMs.value < 2000.0)
      && (q == Poor <==> 2000.0 <= responseMs.value)
  {
    if !connected then Offline
    else if !playing then ConnectedNotPlaying
    else if responseMs.None? then Unknown
    else if responseMs.value < 500.0 then Excellent
    else if responseMs.value < 1000.0 then Good
    else if responseMs.value < 2000.0 then Fair
    else Poor
  }

  /** Points for a measured response time. */
  function ResponsePoints(ms: real): (p: real)
    ensures 0.1 <= p <= 0.4
  {
    if ms < 500.0 then 0.4 else if ms < 1000.0 then 0.3 else if ms < 2000.0 then 0.2 else 0.1
  }

  /** `_calculate_stream_health_score`, always within [0, 1]. */
  function HealthScore(connected: bool, playing: bool, responseMs: Option<real>): (s: real)
    ensures 0.0 <= s <= 1.0
    ensures !connected && !playing && responseMs.None? ==> s == 0.0
  {
    var base := (if connected then 0.3 else 0.0) + (if playing then 0.3 else 0.0);
    var rt := if responseMs.Some? then ResponsePoints(responseMs.value) else 0.0;
    MinReal(base + rt, 1.0)
  }

  /** A faster response never lowers the points. */
  lemma ResponsePointsMonotone(fast: real, slow: real)
    requires fast <= slow
    ensures ResponsePoints(fast) >= ResponsePoints(slow)
  {
  }

  /** A lower response time never gives a lower health score. */
  lemma HealthScoreMonotone(connected: bool, playing: bool, fast: real, slow: real)
    requires fast <= slow
    ensures HealthScore(connected, playing, Some(fast)) >= HealthScore(connected, playing, Some(slow))
  {
    ResponsePointsMonotone(fast, slow);
  }

  /** A connected, playing stream scores 0.6 plus the points of the quality tier
      its response time falls in. */
  lemma ScoreFollowsQuality(ms: real)
    ensures var q := ConnectionQualityOf(Some(ms), true, true);
      HealthScore(true, true, Some(ms)) == 0.6 + (match q
        case Excellent => 0.4
        case Good => 0.3
        case Fair => 0.2
        case _ => 0.1)
  {
  }

  // -----------------------------------------------------------------------
  // Thresholds

  /** CPU readings below 90 % are a warning, memory readings below 95 %. */
  function Severity(value: real, criticalFrom: real): ThresholdSeverity
  {
    if value < criticalFrom then ThresholdWarning else ThresholdCritical
  }

  /** The threshold configured under `key`, or the default. */
  function ThresholdOr(thresholds: map<string, real>, key: string, default: real): real
  {
    if key in thresholds then thresholds[key] else default
  }

  /** `_check_system_thresholds`: the events a snapshot raises, CPU first. */
  function ThresholdEvents(s: SystemSample, thresholds: map<string, real>): (es: seq<ThresholdEvent>)
    ensures |es| <= 2
    ensures forall i :: 0 <= i < |es| ==> es[i].value > es[i].threshold
    ensures forall i :: 0 <= i < |es| ==>
      (es[i].metric == CpuUsage ==> es[i].severity == Severity(s.cpuPercent, 90.0))
      && (es[i].metric == MemoryUsage ==> es[i].severity == Severity(s.memoryPercent, 95.0))
  {
    var cpuT := ThresholdOr(thresholds, "cpu_usage", DefaultCpuThreshold);
    var memT := ThresholdOr(thresholds, "memory_usage", DefaultMemoryThreshold);
    (if s.cpuPercent > cpuT
     then [ThresholdEvent(CpuUsage, s.cpuPercent, cpuT, Severity(s.cpuPercent, 90.0))] else [])
    + (if s.memoryPercent > memT
       then [ThresholdEvent(MemoryUsage, s.memoryPercent, memT, Severity(s.memoryPercent, 95.0))] else [])
  }

  /** An event is raised for a metric exactly when its reading exceeds the
      configured threshold (80 % CPU and 85 % memory by default). */
  lemma ThresholdEventsIff(s: SystemSample, thresholds: map<string, real>)
    ensures var es := ThresholdEvents(s, thresholds);
      ((exists i :: 0 <= i < |es| && es[i].metric == CpuUsage)
        <==> s.cpuPercent > ThresholdOr(thresholds, "cpu_usage", DefaultCpuThreshold))
      && ((exists i :: 0 <= i < |es| && es[i].metric == MemoryUsage)
        <==> s.memoryPercent > ThresholdOr(thresholds, "memory_usage", DefaultMemoryThreshold))
  {
    var es := ThresholdEvents(s, thresholds);
    var cpuT := ThresholdOr(thresholds, "cpu_usage", DefaultCpuThreshold);
    if s.cpuPercent > cpuT {
      assert es[0].metric == CpuUsage;
    }
    if s.memoryPercent > ThresholdOr(thresholds, "memory_usage", DefaultMemoryThreshold) {
      assert es[|es| - 1].metric == MemoryUsage;
    }
  }

  // -----------------------------------------------------------------------
  // Stream metrics

  /** The guild-state fields stream metrics read. */
  datatype StreamView = StreamView(url: Option<string>, startTime: Option<real>, lastUpdated: real)

  datatype StreamMetrics = StreamMetrics(
    guildId: int,
    url: Option<string>,
    connected: bool,
    playing: bool,
    quality: ConnectionQuality,
    responseMs: Option<real>,
    lastMetadataUpdate: Option<real>,
    uptimeSeconds: real)

  /** `collect_stream_metrics`: without a guild state everything stays at its
      default; the response time is probed, and quality rated, only when the
      state has a non-empty stream URL. `probe` is the measured response time
      (None when the probe failed). */
  function StreamMetricsOf(guild: int, state: Option<StreamView>, now: real,
                           voiceConnected: bool, voicePlaying: bool, probe: Option<real>): (m: StreamMetrics)
    ensures m.guildId == guild
    ensures state.None? ==> m == StreamMetrics(guild, None, false, false, Unknown, None, None, 0.0)
    ensures state.Some? ==> m.connected == voiceConnected && m.playing == voicePlaying
    ensures m.responseMs.Some? ==> state.Some? && state.value.url.Some? && state.value.url.value != []
    ensures state.Some? && state.value.url.Some? && state.value.url.value != [] ==>
      m.responseMs == probe && m.quality == ConnectionQualityOf(probe, voiceConnected, voicePlaying)
    ensures !(state.Some? && state.value.url.Some? && state.value.url.value != []) ==> m.quality == Unknown
  {
    match state
    case None => StreamMetrics(guild, None, false, false, Unknown, None, None, 0.0)
    case Some(st) =>
      var uptime := if st.startTime.Some? then now - st.startTime.value else 0.0;
      var probed := st.url.Some? && st.url.value != [];
      StreamMetrics(guild, st.url, voiceConnected, voicePlaying,
                    if probed then ConnectionQualityOf(probe, voiceConnected, voicePlaying) else Unknown,
                    if probed then probe else None,
                    Some(st.lastUpdated), uptime)
  }

  // -----------------------------------------------------------------------
  // The collector and its snapshot cache

  class MetricsCollector {
    const startupTime: real
    var lastSystemMetrics: Option<SystemMetrics>
    var cacheTime: real

    constructor (now: real)
      ensures startupTime == now && lastSystemMetrics == None && cacheTime == 0.0
    {
      startupTime := now;
      lastSystemMetrics := None;
      cacheTime := 0.0;
    }

    /** Whether a snapshot taken at `cacheTime` is still served at `now`. */
    predicate CacheFresh(now: real)
      reads this
    {
      lastSystemMetrics.Some? && now - cacheTime < CacheDurationSeconds
    }

    /** `collect_system_metrics`: a snapshot cached less than 5 s ago is
        returned as is and raises nothing; otherwise the sample is recorded,
        cached with `now`, and checked against the thresholds. */
    method CollectSystemMetrics(now: real, sample: SystemSample, thresholds: map<string, real>)
      returns (m: SystemMetrics, events: seq<ThresholdEvent>)
      modifies this
      ensures old(CacheFresh(now)) ==>
        m == old(lastSystemMetrics).value && events == []
        && lastSystemMetrics == old(lastSystemMetrics) && cacheTime == old(cacheTime)
      ensures !old(CacheFresh(now)) ==>
        m == SystemMetrics(sample, now - startupTime)
        && events == ThresholdEvents(sample, thresholds)
        && lastSystemMetrics == Some(m) && cacheTime == now
    {
      if CacheFresh(now) {
        return lastSystemMetrics.value, [];
      }
      m := SystemMetrics(sample, now - startupTime);
      lastSystemMetrics := Some(m);
      cacheTime := now;
      events := ThresholdEvents(sample, thresholds);
    }
  }

  /** After a fresh snapshot, a collection less than 5 s later returns the
      same snapshot, whatever its own sample says. */
  method CachedWithinWindow(c: MetricsCollector, t: real, dt: real, s1: SystemSample, s2: SystemSample,
                            thresholds: map<string, real>)
    returns (m1: SystemMetrics, m2: SystemMetrics)
    requires 0.0 <= dt < CacheDurationSeconds
    requires !c.CacheFresh(t)
    modifies c
    ensures m1 == m2
  {
    var e1, e2;
    m1, e1 := c.CollectSystemMetrics(t, s1, thresholds);
    m2, e2 := c.CollectSystemMetrics(t + dt, s2, thresholds);
  }
}

=== FILE: mixer.dfy ===
/** The multi-stream mixer (audio/mixer.py): per-guild stream lists with
    per-stream volumes and buffers, mixing weights for the four modes,
    crossfade state, and the mixing of PCM chunks with zero padding and
    int16 clipping. */
module Mixer {
  import opened Util
  import opened AudioTypes

  // ---------------------------------------------------------------------
  // Mixing weights (`_calculate_mix_weights`)

  function MaxPriority(s: seq<AudioStream>): (r: int)
    requires |s| > 0
    ensures forall i :: 0 <= i < |s| ==> s[i].priority <= r
    ensures exists i :: 0 <= i < |s| && s[i].priority == r
  {
    if |s| == 1 then s[0].priority
    else var m := MaxPriority(s[1..]); if s[0].priority >= m then s[0].priority else m
  }

  function TotalPriority(s: seq<AudioStream>): int
  {
    if s == [] then 0 else s[0].priority + TotalPriority(s[1..])
  }

  /** The weight one stream of the guild's list `all` receives in `mode`. */
  function StreamWeight(st: AudioStream, all: seq<AudioStream>, mode: MixingMode): real
    requires |all| > 0
  {
    match mode
    case Replace => if st.priority == MaxPriority(all) then 1.0 else 0.0
    case Overlay => (1.0 / |all| as real) * st.volume
    case Priority =>
      var total := TotalPriority(all);
      (if total > 0 then st.priority as real / total as real else 1.0 / |all| as real) * st.volume
    case CrossfadeMix => st.volume
  }

  /** The weight dictionary after assigning the streams of `prefix` in order
      (a later stream with the same id overwrites an earlier one). */
  function WeightsOf(prefix: seq<AudioStream>, all: seq<AudioStream>, mode: MixingMode): (w: map<string, real>)
    requires |all| > 0
    ensures forall i :: 0 <= i < |prefix| ==> prefix[i].streamId in w
    ensures forall id :: id in w ==> exists i :: 0 <= i < |prefix| && prefix[i].streamId == id
  {
    if prefix == [] then map[]
    else
      var last := prefix[|prefix| - 1];
      var w := WeightsOf(prefix[..|prefix| - 1], all, mode);
      assert forall i :: 0 <= i < |prefix| - 1 ==> prefix[..|prefix| - 1][i] == prefix[i];
      w[last.streamId := StreamWeight(last, all, mode)]
  }

  /** In REPLACE mode exactly the streams of maximal priority get weight 1,
      all others 0. */
  lemma ReplaceWeights(all: seq<AudioStream>, i: nat)
    requires i < |all|
    ensures StreamWeight(all[i], all, Replace) == 1.0 <==> all[i].priority == MaxPriority(all)
    ensures StreamWeight(all[i], all, Replace) == 0.0 <==> all[i].priority < MaxPriority(all)
  {
  }

  /** With distinct ids, every stream's dictionary entry is its own weight. */
  lemma {:induction false} WeightsOfLookup(prefix: seq<AudioStream>, all: seq<AudioStream>, mode: MixingMode, i: nat)
    requires |all| > 0 && i < |prefix|
    requires forall a, b :: 0 <= a < b < |prefix| ==> prefix[a].streamId != prefix[b].streamId
    ensures WeightsOf(prefix, all, mode)[prefix[i].streamId] == StreamWeight(prefix[i], all, mode)
  {
    if i < |prefix| - 1 {
      var front := prefix[..|prefix| - 1];
      WeightsOfLookup(front, all, mode, i);
      assert front[i] == prefix[i];
    }
  }

  function SumWeights(prefix: seq<AudioStream>, all: seq<AudioStream>, mode: MixingMode): real
    requires |all| > 0
  {
    if prefix == [] then 0.0 else StreamWeight(prefix[0], all, mode) + SumWeights(prefix[1..], all, mode)
  }

  predicate VolumesInUnit(s: seq<AudioStream>)
  {
    forall i :: 0 <= i < |s| ==> 0.0 <= s[i].volume <= 1.0
  }

  lemma {:induction false} OverlayPartialSum(prefix: seq<AudioStream>, all: seq<AudioStream>)
    requires |all| > 0 && VolumesInUnit(prefix)
    ensures 0.0 <= SumWeights(prefix, all, Overlay) <= |prefix| as real / |all| as real
  {
    if prefix != [] {
      OverlayPartialSum(prefix[1..], all);
      var v := prefix[0].volume;
      var b := 1.0 / |all| as real;
      assert 0.0 <= b * v <= b by {
        assert b > 0.0;
        assert b * v <= b * 1.0;
      }
      assert |prefix| as real / |all| as real == b + (|prefix| - 1) as real / |all| as real;
    }
  }

  /** OVERLAY weights sum to at most 1 when every volume is at most 1. */
  lemma OverlayWeightsBounded(all: seq<AudioStream>)
    requires |all| > 0 && VolumesInUnit(all)
    ensures 0.0 <= SumWeights(all, all, Overlay) <= 1.0
  {
    OverlayPartialSum(all, all);
  }

  predicate NonNegativePriorities(s: seq<AudioStream>)
  {
    forall i :: 0 <= i < |s| ==> s[i].priority >= 0
  }

  lemma {:induction false} PriorityPartialSum(prefix: seq<AudioStream>, all: seq<AudioStream>)
    requires |all| > 0 && TotalPriority(all) > 0
    requires VolumesInUnit(prefix) && NonNegativePriorities(prefix)
    ensures 0.0 <= SumWeights(prefix, all, Priority) <= TotalPriority(prefix) as real / TotalPriority(all) as real
  {
    if prefix != [] {
      var head, tail := prefix[0], prefix[1..];
      var t := TotalPriority(all) as real;
      PriorityPartialSum(tail, all);
      var w, rest := StreamWeight(head, all, Priority), SumWeights(tail, all, Priority);
      assert SumWeights(prefix, all, Priority) == w + rest;
      ShareBetween(head.priority, t, head.volume, w);
      assert TotalPriority(prefix) == head.priority + TotalPriority(tail);
      DivSplit(head.priority, TotalPriority(tail), t);
    }
  }

  /** A non-negative share scaled by a volume in [0, 1] stays within [0, share]. */
  lemma ShareBetween(n: int, t: real, v: real, w: real)
    requires n >= 0 && t > 0.0 && 0.0 <= v <= 1.0
    requires w == (n as real / t) * v
    ensures 0.0 <= w <= n as real / t
  {
    var p := n as real / t;
    assert p >= 0.0;
    assert p * v <= p * 1.0;
  }

  lemma DivSplit(a: int, b: int, t: real)
    requires t > 0.0
    ensures (a + b) as real / t == a as real / t + b as real / t
  {
  }

  /** PRIORITY weights (non-negative priorities, volumes at most 1) sum to at most 1. */
  lemma PriorityWeightsBounded(all: seq<AudioStream>)
    requires |all| > 0 && VolumesInUnit(all) && NonNegativePriorities(all)
    ensures 0.0 <= SumWeights(all, all, Priority) <= 1.0
  {
    if TotalPriority(all) > 0 {
      PriorityPartialSum(all, all);
    } else {
      assert forall i :: 0 <= i < |all| ==> StreamWeight(all[i], all, Priority) == StreamWeight(all[i], all, Overlay);
      SameWeightsSameSum(all, all);
      OverlayWeightsBounded(all);
    }
  }

  lemma {:induction false} SameWeightsSameSum(prefix: seq<AudioStream>, all: seq<AudioStream>)
    requires |all| > 0 && TotalPriority(all) <= 0
    ensures SumWeights(prefix, all, Priority) == SumWeights(prefix, all, Overlay)
  {
    if prefix != [] {
      SameWeightsSameSum(prefix[1..], all);
    }
  }

  // ---------------------------------------------------------------------
  // Mixing of PCM chunks (`mix_audio_streams`, `_mix_audio_arrays`)

  /** An entry of the ordered `audio_chunks` dictionary, samples as numbers. */
  datatype Chunk = Chunk(id: string, samples: seq<real>)

  function Ids(cs: seq<Chunk>): set<string>
  {
    set i | 0 <= i < |cs| :: cs[i].id
  }

  predicate IsReplaceChoice(streams: seq<AudioStream>, present: set<string>, k: nat)
  {
    && k < |streams|
    && streams[k].streamId in present && streams[k].priority > -1
    && (forall j :: 0 <= j < |streams| && streams[j].streamId in present ==> streams[j].priority <= streams[k].priority)
    && (forall j :: 0 <= j < k && streams[j].streamId in present ==> streams[j].priority < streams[k].priority)
  }

  /** The REPLACE choice of `_mix_audio_arrays`: walking the guild's streams
      in order, the first one present in the chunks whose priority beats
      every earlier candidate (starting from -1). */
  method PickHighestPriority(streams: seq<AudioStream>, present: set<string>) returns (pick: Option<nat>)
    ensures pick.Some? ==> IsReplaceChoice(streams, present, pick.value)
    ensures pick.None? ==> forall j :: 0 <= j < |streams| && streams[j].streamId in present ==> streams[j].priority <= -1
    ensures pick == ReplacePick(streams, present)
  {
    var best := -1;
    pick := None;
    var i := 0;
    while i < |streams|
      invariant 0 <= i <= |streams|
      invariant pick.Some? ==> pick.value < |streams| && streams[pick.value].streamId in present
      invariant ReplaceScan(streams, present, i, best, pick) == ReplacePick(streams, present)
      invariant pick.None? ==> best == -1
      invariant pick.Some? ==> pick.value < i && best == streams[pick.value].priority
                               && streams[pick.value].streamId in present && best > -1
      invariant forall j :: 0 <= j < i && streams[j].streamId in present ==> streams[j].priority <= best
      invariant pick.Some? ==> forall j :: 0 <= j < pick.value && streams[j].streamId in present ==> streams[j].priority < best
    {
      if streams[i].streamId in present && streams[i].priority > best {
        best := streams[i].priority;
        pick := Some(i);
      }
      i := i + 1;
    }
  }

  function Pad(a: seq<real>, n: nat): (r: seq<real>)
    requires |a| <= n
    ensures |r| == n && r[..|a|] == a
    ensures forall k :: |a| <= k < n ==> r[k] == 0.0
  {
    a + seq(n - |a|, _ => 0.0)
  }

  function MaxLen(cs: seq<Chunk>): (n: nat)
    ensures forall i :: 0 <= i < |cs| ==> |cs[i].samples| <= n
    ensures cs != [] ==> exists i :: 0 <= i < |cs| && |cs[i].samples| == n
  {
    if cs == [] then 0
    else var m := MaxLen(cs[1..]); if |cs[0].samples| >= m then |cs[0].samples| else m
  }

  function PadAll(cs: seq<Chunk>, n: nat): (r: seq<Chunk>)
    requires forall i :: 0 <= i < |cs| ==> |cs[i].samples| <= n
    ensures |r| == |cs|
    ensures forall i :: 0 <= i < |r| ==> r[i].id == cs[i].id && r[i].samples == Pad(cs[i].samples, n)
  {
    seq(|cs|, i requires 0 <= i < |cs| => Chunk(cs[i].id, Pad(cs[i].samples, n)))
  }

  /** Sample `k` of the weighted sum of equally long arrays. */
  function WeightedSumAt(arrays: seq<Chunk>, weights: map<string, real>, default: real, k: nat): real
    requires forall i :: 0 <= i < |arrays| ==> k < |arrays[i].samples|
  {
    if arrays == [] then 0.0
    else
      var w := if arrays[0].id in weights then weights[arrays[0].id] else default;
      arrays[0].samples[k] * w + WeightedSumAt(arrays[1..], weights, default, k)
  }

  function WeightedSum(arrays: seq<Chunk>, weights: map<string, real>, default: real, n: nat): (r: seq<real>)
    requires forall i :: 0 <= i < |arrays| ==> |arrays[i].samples| == n
    ensures |r| == n
  {
    seq(n, k requires 0 <= k < n => WeightedSumAt(arrays, weights, default, k))
  }

  /** `_crossfade_mix` and the default branch: a plain average. */
  function Average(arrays: seq<Chunk>, n: nat): (r: seq<real>)
    requires |arrays| > 0
    requires forall i :: 0 <= i < |arrays| ==> |arrays[i].samples| == n
    ensures |r| == n
  {
    WeightedSum(arrays, map[], 1.0 / |arrays| as real, n)
  }

  function ClipAll(xs: seq<real>): (r: seq<int>)
    ensures |r| == |xs|
    ensures forall k :: 0 <= k < |r| ==> -32768 <= r[k] <= 32767 && r[k] == ClipInt16(xs[k])
  {
    seq(|xs|, k requires 0 <= k < |xs| => ClipInt16(xs[k]))
  }

  /** The chunks that `mix_audio_streams` keeps: the non-empty ones, in order. */
  function NonEmpty(cs: seq<Chunk>): (r: seq<Chunk>)
    ensures |r| <= |cs|
    ensures forall i :: 0 <= i < |r| ==> r[i].samples != [] && r[i] in cs
  {
    Filter(cs, (c: Chunk) => c.samples != [])
  }

  /** A chunk as `mix_audio_streams` receives it: a stream id and its bytes. */
  datatype ByteChunk = ByteChunk(id: string, data: seq<uint8>)

  /** `.astype(np.float32)` of decoded int16 samples. */
  function Reals(s: seq<int>): (r: seq<real>)
    ensures |r| == |s|
    ensures forall k :: 0 <= k < |s| ==> r[k] == s[k] as real
  {
    seq(|s|, k requires 0 <= k < |s| => s[k] as real)
  }

  /** The arrays the conversion loop of `mix_audio_streams` builds, one per
      chunk (an empty chunk gives an empty array, which the mix then skips),
      or None when some chunk has an odd byte count and `np.frombuffer`
      raises. */
  function DecodeChunks(cs: seq<ByteChunk>): (r: Option<seq<Chunk>>)
    ensures r.None? <==> exists i :: 0 <= i < |cs| && |cs[i].data| % 2 == 1
    ensures r.Some? ==> |r.value| == |cs|
    ensures r.Some? ==> forall i :: 0 <= i < |cs| ==>
      r.value[i].id == cs[i].id && r.value[i].samples == Reals(FromBuffer(cs[i].data).value)
  {
    if cs == [] then Some([])
    else
      var rest := DecodeChunks(cs[1..]);
      assert forall i :: 1 <= i < |cs| ==> cs[i] == cs[1..][i - 1];
      match FromBuffer(cs[0].data)
      case None => None
      case Some(s) =>
        if rest.None? then None else Some([Chunk(cs[0].id, Reals(s))] + rest.value)
  }

  /** Where the `except` branch's search for a non-empty chunk stops: the
      first non-empty chunk, or the end when every chunk is empty. */
  function FirstNonEmptyIndex(cs: seq<ByteChunk>): (i: nat)
    ensures i <= |cs|
    ensures forall j :: 0 <= j < i ==> cs[j].data == []
    ensures i < |cs| ==> cs[i].data != []
  {
    if cs == [] then 0
    else if cs[0].data != [] then 0
    else 1 + FirstNonEmptyIndex(cs[1..])
  }

  /** The fallback of the `except` branch: the first non-empty chunk, or no
      bytes when every chunk is empty. */
  function FirstNonEmpty(cs: seq<ByteChunk>): (r: seq<uint8>)
    ensures r == [] <==> forall i :: 0 <= i < |cs| ==> cs[i].data == []
  {
    var i := FirstNonEmptyIndex(cs);
    if i == |cs| then [] else cs[i].data
  }

  /** Every sample multiplied by the fade factor `f`. */
  function Scale(xs: seq<real>, f: real): (r: seq<real>)
    ensures |r| == |xs|
    ensures forall k :: 0 <= k < |xs| ==> r[k] == xs[k] * f
  {
    seq(|xs|, k requires 0 <= k < |xs| => xs[k] * f)
  }

  /** Crossfade state of a guild: target stream, duration and start time. */
  datatype CrossfadeInfo = CrossfadeInfo(targetStreamId: string, duration: real, startTime: real)

  /** `_apply_crossfade`'s verdict at time `now`: finished (state is removed,
      audio unchanged), or a fade factor elapsed/duration. A zero duration
      reached with a negative elapsed time divides by zero, which the source
      catches and answers with the unchanged audio. */
  datatype FadeStep = FadeDone | FadeFactor(factor: real) | FadeUnchanged

  function CrossfadeStep(info: CrossfadeInfo, now: real): (f: FadeStep)
    ensures now - info.startTime >= info.duration <==> f == FadeDone
    ensures f.FadeFactor? ==> info.duration != 0.0 && f.factor == (now - info.startTime) / info.duration
    ensures f.FadeFactor? && now >= info.startTime ==> 0.0 <= f.factor < 1.0
    ensures f == FadeUnchanged ==> info.duration == 0.0 && now < info.startTime
  {
    var elapsed := now - info.startTime;
    if elapsed >= info.duration then FadeDone
    else if info.duration == 0.0 then FadeUnchanged
    else
      assert elapsed >= 0.0 ==> info.duration > 0.0 && elapsed / info.duration < 1.0 by {
        if elapsed >= 0.0 {
          assert info.duration > 0.0;
          var q := elapsed / info.duration;
          assert q * info.duration == elapsed;
        }
      }
      FadeFactor(elapsed / info.duration)
  }

  /** The REPLACE scan of `_mix_audio_arrays` from index `i`, with the best
      priority so far and the index holding it: a present stream of
      strictly higher priority takes over. */
  function ReplaceScan(streams: seq<AudioStream>, present: set<string>, i: nat, best: int, pick: Option<nat>)
    : (r: Option<nat>)
    requires i <= |streams|
    requires pick.Some? ==> pick.value < |streams| && streams[pick.value].streamId in present
    ensures r.Some? ==> r.value < |streams| && streams[r.value].streamId in present
    decreases |streams| - i
  {
    if i == |streams| then pick
    else if streams[i].streamId in present && streams[i].priority > best then
      ReplaceScan(streams, present, i + 1, streams[i].priority, Some(i))
    else ReplaceScan(streams, present, i + 1, best, pick)
  }

  /** The stream REPLACE mode plays: the scan from the start, best -1. */
  function ReplacePick(streams: seq<AudioStream>, present: set<string>): (r: Option<nat>)
    ensures r.Some? ==> r.value < |streams| && streams[r.value].streamId in present
  {
    ReplaceScan(streams, present, 0, -1, None)
  }

  /** The scan ends on the first present stream whose priority is above
      every earlier candidate's, or on nothing when no present stream has
      a priority above -1. */
  lemma {:induction false} ReplaceScanIsChoice(streams: seq<AudioStream>, present: set<string>, i: nat, best: int, pick: Option<nat>)
    requires i <= |streams|
    requires pick.None? ==> best == -1
    requires pick.Some? ==> pick.value < i && best == streams[pick.value].priority
                            && streams[pick.value].streamId in present && best > -1
    requires forall j :: 0 <= j < i && streams[j].streamId in present ==> streams[j].priority <= best
    requires pick.Some? ==> forall j :: 0 <= j < pick.value && streams[j].streamId in present ==> streams[j].priority < best
    ensures var r := ReplaceScan(streams, present, i, best, pick);
      && (r.Some? ==> IsReplaceChoice(streams, present, r.value))
      && (r.None? ==> forall j :: 0 <= j < |streams| && streams[j].streamId in present ==> streams[j].priority <= -1)
    decreases |streams| - i
  {
    if i < |streams| {
      if streams[i].streamId in present && streams[i].priority > best {
        ReplaceScanIsChoice(streams, present, i + 1, streams[i].priority, Some(i));
      } else {
        ReplaceScanIsChoice(streams, present, i + 1, best, pick);
      }
    }
  }

  /** At most one stream is the REPLACE choice. */
  lemma ReplaceChoiceUnique(streams: seq<AudioStream>, present: set<string>, k1: nat, k2: nat)
    requires IsReplaceChoice(streams, present, k1) && IsReplaceChoice(streams, present, k2)
    ensures k1 == k2
  {
  }

  /** The first chunk carrying `id` (the dictionary lookup), or the length
      when none does. */
  function ChunkIndex(cs: seq<Chunk>, id: string): (i: nat)
    ensures i <= |cs|
    ensures i < |cs| ==> cs[i].id == id
    ensures forall j :: 0 <= j < i ==> cs[j].id != id
    ensures id in Ids(cs) ==> i < |cs|
  {
    if cs == [] then 0
    else if cs[0].id == id then 0
    else
      assert id in Ids(cs) ==> id in Ids(cs[1..]) by {
        if id in Ids(cs) {
          var j :| 0 <= j < |cs| && cs[j].id == id;
          assert cs[1..][j - 1] == cs[j];
        }
      }
      1 + ChunkIndex(cs[1..], id)
  }

  /** REPLACE (or a single array): the chunk of the chosen stream when its
      id is truthy, else the first chunk. */
  function ReplaceMix(streams: seq<AudioStream>, arrays: seq<Chunk>): (r: seq<real>)
    requires |arrays| > 0
    ensures exists i :: 0 <= i < |arrays| && r == arrays[i].samples
  {
    var pick := ReplacePick(streams, Ids(arrays));
    if pick.Some? && streams[pick.value].streamId != "" then
      arrays[ChunkIndex(arrays, streams[pick.value].streamId)].samples
    else arrays[0].samples
  }

  /** `_mix_audio_arrays` on arrays of common length `n`, for a guild's
      mode, weights and streams. */
  function MixOf(mode: MixingMode, weights: map<string, real>, streams: seq<AudioStream>, arrays: seq<Chunk>, n: nat)
    : (r: seq<real>)
    requires |arrays| > 0
    requires forall i :: 0 <= i < |arrays| ==> |arrays[i].samples| == n
    ensures |r| == n
  {
    if mode == Replace || |arrays| == 1 then ReplaceMix(streams, arrays)
    else if mode == Overlay then WeightedSum(arrays, weights, 1.0 / |arrays| as real, n)
    else if mode == Priority then WeightedSum(arrays, weights, 0.0, n)
    else Average(arrays, n)
  }

  /** `_apply_crossfade`: a running crossfade scales the samples by its
      progress; a finished one, or none, leaves them as they are. */
  function Faded(mixed: seq<real>, fade: Option<CrossfadeInfo>, now: real): (r: seq<real>)
    ensures |r| == |mixed|
    ensures fade.None? || !CrossfadeStep(fade.value, now).FadeFactor? ==> r == mixed
    ensures fade.Some? && CrossfadeStep(fade.value, now).FadeFactor? ==>
      forall k :: 0 <= k < |r| ==> r[k] == mixed[k] * CrossfadeStep(fade.value, now).factor
  {
    if fade.Some? && CrossfadeStep(fade.value, now).FadeFactor? then Scale(mixed, CrossfadeStep(fade.value, now).factor)
    else mixed
  }

  /** The samples `mix_audio_streams` returns for non-empty chunks: padded
      to the longest, mixed, faded and clipped to int16. */
  function MixOutput(mode: MixingMode, weights: map<string, real>, streams: seq<AudioStream>,
                     fade: Option<CrossfadeInfo>, arrays: seq<Chunk>, now: real): (r: seq<int>)
    requires arrays != []
    ensures |r| == MaxLen(arrays)
    ensures forall k :: 0 <= k < |r| ==> -32768 <= r[k] <= 32767
  {
    var n := MaxLen(arrays);
    ClipAll(Faded(MixOf(mode, weights, streams, PadAll(arrays, n), n), fade, now))
  }

  /** Whatever the mode, a single chunk with no crossfade running comes out
      as its own samples clipped to int16. */
  lemma SingleChunkPassesThrough(mode: MixingMode, weights: map<string, real>, streams: seq<AudioStream>, c: Chunk, now: real)
    ensures MixOutput(mode, weights, streams, None, [c], now) == ClipAll(c.samples)
  {
    var n := MaxLen([c]);
    assert n == |c.samples|;
    var padded := PadAll([c], n);
    assert padded[0].samples == c.samples;
    var r := ReplaceMix(streams, padded);
    assert r == padded[0].samples;
  }

  /** The scan picks exactly the REPLACE choice when there is one. */
  lemma ReplacePickIsChoice(streams: seq<AudioStream>, present: set<string>, k: nat)
    requires IsReplaceChoice(streams, present, k)
    ensures ReplacePick(streams, present) == Some(k)
  {
    ReplaceScanIsChoice(streams, present, 0, -1, None);
    var r := ReplacePick(streams, present);
    assert r.Some? && IsReplaceChoice(streams, present, r.value);
    ReplaceChoiceUnique(streams, present, r.value, k);
  }

  /** With no stream of priority above -1 among the chunks, REPLACE plays
      the first chunk. */
  lemma ReplaceMixWithoutChoice(streams: seq<AudioStream>, arrays: seq<Chunk>)
    requires |arrays| > 0
    requires forall j :: 0 <= j < |streams| && streams[j].streamId in Ids(arrays) ==> streams[j].priority <= -1
    ensures ReplaceMix(streams, arrays) == arrays[0].samples
  {
    ReplaceScanIsChoice(streams, Ids(arrays), 0, -1, None);
  }

  /** When a stream with a non-empty id meets the REPLACE rule, REPLACE
      returns the first chunk carrying that id. */
  lemma ReplaceMixOfChoice(streams: seq<AudioStream>, arrays: seq<Chunk>, k: nat)
    requires |arrays| > 0
    requires IsReplaceChoice(streams, Ids(arrays), k) && streams[k].streamId != ""
    ensures exists i ::
              && 0 <= i < |arrays| && arrays[i].id == streams[k].streamId
              && (forall j :: 0 <= j < i ==> arrays[j].id != streams[k].streamId)
              && ReplaceMix(streams, arrays) == arrays[i].samples
  {
    ReplacePickIsChoice(streams, Ids(arrays), k);
    var i := ChunkIndex(arrays, streams[k].streamId);
    assert 0 <= i < |arrays| && ReplaceMix(streams, arrays) == arrays[i].samples;
  }

  /** The loop of `_calculate_mix_weights` over a non-empty stream list. */
  method BuildWeights(streams: seq<AudioStream>, mode: MixingMode) returns (weights: map<string, real>)
    requires |streams| > 0
    ensures weights == WeightsOf(streams, streams, mode)
  {
    weights := map[];
    var i := 0;
    while i < |streams|
      invariant 0 <= i <= |streams|
      invariant weights == WeightsOf(streams[..i], streams, mode)
    {
      assert streams[..i + 1][..i] == streams[..i];
      weights := weights[streams[i].streamId := StreamWeight(streams[i], streams, mode)];
      i := i + 1;
    }
    assert streams[..i] == streams;
  }

  /** The ids of a guild's streams. */
  function StreamIds(streams: seq<AudioStream>): set<string>
  {
    if streams == [] then {} else StreamIds(streams[..|streams| - 1]) + {streams[|streams| - 1].streamId}
  }

  /** An id is among the ids exactly when some stream carries it. */
  lemma {:induction false} StreamIdsMembers(streams: seq<AudioStream>, id: string)
    ensures id in StreamIds(streams) <==> exists i :: 0 <= i < |streams| && streams[i].streamId == id
  {
    if streams != [] {
      var init := streams[..|streams| - 1];
      StreamIdsMembers(init, id);
      if exists i :: 0 <= i < |streams| && streams[i].streamId == id {
        var i :| 0 <= i < |streams| && streams[i].streamId == id;
        if i < |init| {
          assert init[i] == streams[i];
        }
      }
      if exists i :: 0 <= i < |init| && init[i].streamId == id {
        var i :| 0 <= i < |init| && init[i].streamId == id;
        assert streams[i] == init[i];
      }
    }
  }

  /** The weights table once `_calculate_mix_weights` has run for guild
      `g` whose list is now `streams`: rebuilt for a non-empty list, kept
      for an empty one. */
  function Reweighed(weights: map<int, map<string, real>>, g: int, streams: seq<AudioStream>, mode: MixingMode)
    : (r: map<int, map<string, real>>)
    ensures forall h :: h != g ==> (h in r <==> h in weights) && (h in r ==> r[h] == weights[h])
    ensures streams != [] ==> g in r && r[g].Keys == set s | s in streams :: s.streamId
    ensures streams == [] ==> r == weights
  {
    if streams == [] then weights else weights[g := WeightsOf(streams, streams, mode)]
  }

  /** Two maps that agree away from `g` agree everywhere once `g` is set. */
  lemma SameOutsideUpdate<V>(m0: map<int, V>, m1: map<int, V>, g: int, v: V)
    requires m1 - {g} == m0 - {g}
    ensures m1[g := v] == m0[g := v]
  {
    assert forall h :: h != g ==> (h in m1 <==> h in m1 - {g});
    assert forall h :: h != g ==> (h in m0 <==> h in m0 - {g});
  }

  class AudioMixer {
    var activeStreams: map<int, seq<AudioStream>>
    var streamBuffers: map<string, seq<uint8>>
    var streamVolumes: map<string, real>
    var mixingModes: map<int, MixingMode>
    var crossfadeState: map<int, CrossfadeInfo>
    var mixWeights: map<int, map<string, real>>

    constructor ()
      ensures activeStreams == map[] && streamBuffers == map[] && streamVolumes == map[]
      ensures mixingModes == map[] && crossfadeState == map[] && mixWeights == map[]
    {
      activeStreams, streamBuffers, streamVolumes := map[], map[], map[];
      mixingModes, crossfadeState, mixWeights := map[], map[], map[];
    }

    function ModeOf(g: int): MixingMode
      reads this
    {
      if g in mixingModes then mixingModes[g] else Replace
    }

    function StreamsOf(g: int): seq<AudioStream>
      reads this
    {
      if g in activeStreams then activeStreams[g] else []
    }

    /** `_calculate_mix_weights`: nothing changes for a guild without streams;
        otherwise its dictionary is rebuilt stream by stream. */
    method CalculateMixWeights(g: int, mode: MixingMode)
      modifies this
      ensures StreamsOf(g) == [] ==> mixWeights == old(mixWeights)
      ensures StreamsOf(g) != [] ==> mixWeights == old(mixWeights)[g := WeightsOf(StreamsOf(g), StreamsOf(g), mode)]
      ensures activeStreams == old(activeStreams) && streamBuffers == old(streamBuffers)
      ensures streamVolumes == old(streamVolumes) && mixingModes == old(mixingModes)
      ensures crossfadeState == old(crossfadeState)
    {
      var streams := StreamsOf(g);
      if streams == [] {
        return;
      }
      var weights := BuildWeights(streams, mode);
      mixWeights := mixWeights[g := weights];
    }

    /** `_cleanup_stream_resources`. */
    method CleanupStreamResources(id: string)
      modifies this
      ensures streamBuffers == old(streamBuffers) - {id} && streamVolumes == old(streamVolumes) - {id}
      ensures activeStreams == old(activeStreams) && mixingModes == old(mixingModes)
      ensures crossfadeState == old(crossfadeState) && mixWeights == old(mixWeights)
    {
      streamBuffers := streamBuffers - {id};
      streamVolumes := streamVolumes - {id};
    }

    /** `_clear_all_streams`: drops every stream's resources, empties the list
        and the weights. */
    method ClearAllStreams(g: int)
      modifies this
      ensures g !in old(activeStreams) ==> unchanged(this)
      ensures g in old(activeStreams) ==>
        && activeStreams == old(activeStreams)[g := []]
        && mixWeights == old(mixWeights)[g := map[]]
        && streamBuffers == old(streamBuffers) - StreamIds(old(activeStreams)[g])
        && streamVolumes == old(streamVolumes) - StreamIds(old(activeStreams)[g])
      ensures mixingModes == old(mixingModes) && crossfadeState == old(crossfadeState)
    {
      if g !in activeStreams {
        return;
      }
      var streams := activeStreams[g];
      var i := 0;
      while i < |streams|
        invariant 0 <= i <= |streams|
        invariant streamBuffers == old(streamBuffers) - StreamIds(streams[..i])
        invariant streamVolumes == old(streamVolumes) - StreamIds(streams[..i])
        invariant activeStreams == old(activeStreams) && mixWeights == old(mixWeights)
        invariant mixingModes == old(mixingModes) && crossfadeState == old(crossfadeState)
      {
        CleanupStreamResources(streams[i].streamId);
        assert streams[..i + 1][..i] == streams[..i];
        i := i + 1;
      }
      assert streams[..i] == streams;
      activeStreams := activeStreams[g := []];
      mixWeights := mixWeights[g := map[]];
    }

    /** The append and the volume entry of `add_stream`. */
    method PushStream(g: int, stream: AudioStream)
      requires g in activeStreams
      modifies this
      ensures activeStreams == old(activeStreams)[g := old(activeStreams)[g] + [stream]]
      ensures streamVolumes == old(streamVolumes)[stream.streamId := stream.volume]
      ensures streamBuffers == old(streamBuffers) && mixingModes == old(mixingModes)
      ensures crossfadeState == old(crossfadeState) && mixWeights == old(mixWeights)
    {
      activeStreams := activeStreams[g := activeStreams[g] + [stream]];
      streamVolumes := streamVolumes[stream.streamId := stream.volume];
    }

    /** `add_stream` up to the weights: a new guild is set up under `mode`,
        REPLACE clears the guild, and the stream is appended. */
    method AdmitStream(g: int, stream: AudioStream, mode: MixingMode)
      modifies this
      ensures activeStreams == old(activeStreams)[g := (if mode == Replace then [] else old(StreamsOf(g))) + [stream]]
      ensures mixingModes == (if g in old(activeStreams) then old(mixingModes) else old(mixingModes)[g := mode])
      ensures streamVolumes == (if mode == Replace then old(streamVolumes) - StreamIds(old(StreamsOf(g))) else old(streamVolumes))
                               [stream.streamId := stream.volume]
      ensures streamBuffers == if mode == Replace then old(streamBuffers) - StreamIds(old(StreamsOf(g))) else old(streamBuffers)
      ensures mixWeights - {g} == old(mixWeights) - {g}
      ensures crossfadeState == old(crossfadeState)
    {
      ghost var streams0 := StreamsOf(g);
      ghost var weights0 := mixWeights;
      OpenGuild(g, mode);
      if mode == Replace {
        ghost var weights1 := mixWeights;
        ClearAllStreams(g);
        assert mixWeights - {g} == weights1 - {g};
      }
      PushStream(g, stream);
    }

    /** The set-up of a guild seen for the first time in `add_stream`. */
    method OpenGuild(g: int, mode: MixingMode)
      modifies this
      ensures g in activeStreams && activeStreams == old(activeStreams)[g := old(StreamsOf(g))]
      ensures mixingModes == (if g in old(activeStreams) then old(mixingModes) else old(mixingModes)[g := mode])
      ensures mixWeights - {g} == old(mixWeights) - {g}
      ensures streamVolumes == old(streamVolumes) && streamBuffers == old(streamBuffers)
      ensures crossfadeState == old(crossfadeState)
    {
      if g !in activeStreams {
        activeStreams := activeStreams[g := []];
        mixingModes := mixingModes[g := mode];
        mixWeights := mixWeights[g := map[]];
      }
    }

    /** `add_stream`: REPLACE first clears the guild (dropping the buffers
        and volumes of its streams), so the guild then holds exactly the new
        stream; the weights are computed for `mode`. */
    method AddStream(g: int, stream: AudioStream, mode: MixingMode) returns (id: string)
      modifies this
      ensures id == stream.streamId
      ensures activeStreams == old(activeStreams)[g := (if mode == Replace then [] else old(StreamsOf(g))) + [stream]]
      ensures mixingModes == (if g in old(activeStreams) then old(mixingModes) else old(mixingModes)[g := mode])
      ensures streamVolumes == (if mode == Replace then old(streamVolumes) - StreamIds(old(StreamsOf(g))) else old(streamVolumes))
                               [stream.streamId := stream.volume]
      ensures streamBuffers == (if mode == Replace then old(streamBuffers) - StreamIds(old(StreamsOf(g))) else old(streamBuffers))
                               [stream.streamId := []]
      ensures mixWeights == old(mixWeights)[g := WeightsOf(activeStreams[g], activeStreams[g], mode)]
      ensures crossfadeState == old(crossfadeState)
    {
      ghost var weights0 := mixWeights;
      AdmitStream(g, stream, mode);
      ghost var weights1 := mixWeights;
      assert StreamsOf(g) == activeStreams[g] != [];
      CalculateMixWeights(g, mode);
      ghost var w := WeightsOf(activeStreams[g], activeStreams[g], mode);
      assert mixWeights == weights1[g := w];
      SameOutsideUpdate(weights0, weights1, g, w);
      streamBuffers := streamBuffers[stream.streamId := []];
      id := stream.streamId;
    }

    /** `remove_stream`: False for an unknown guild or id; otherwise the first
        stream with that id is removed with its buffer and volume, and the
        weights are recomputed under the guild's mode. */
    method RemoveStream(g: int, id: string) returns (removed: bool)
      modifies this
      ensures removed <==> g in old(activeStreams) && exists i :: 0 <= i < |old(activeStreams)[g]| && old(activeStreams)[g][i].streamId == id
      ensures !removed ==> unchanged(this)
      ensures removed ==> exists i :: (0 <= i < |old(activeStreams)[g]|
        && old(activeStreams)[g][i].streamId == id
        && (forall j :: 0 <= j < i ==> old(activeStreams)[g][j].streamId != id)
        && activeStreams == old(activeStreams)[g := old(activeStreams)[g][..i] + old(activeStreams)[g][i + 1..]])
      ensures removed ==> streamBuffers == old(streamBuffers) - {id} && streamVolumes == old(streamVolumes) - {id}
      ensures removed ==> mixWeights == Reweighed(old(mixWeights), g, activeStreams[g], old(ModeOf(g)))
      ensures mixingModes == old(mixingModes) && crossfadeState == old(crossfadeState)
    {
      if g !in activeStreams {
        return false;
      }
      var streams := activeStreams[g];
      var i := 0;
      while i < |streams|
        invariant 0 <= i <= |streams|
        invariant forall j :: 0 <= j < i ==> streams[j].streamId != id
      {
        if streams[i].streamId == id {
          activeStreams := activeStreams[g := streams[..i] + streams[i + 1..]];
          CleanupStreamResources(id);
          CalculateMixWeights(g, ModeOf(g));
          return true;
        }
        i := i + 1;
      }
      return false;
    }

    /** `set_stream_volume`: the volume is clamped to [0, 1]; False when the
        guild has no stream with that id. */
    method SetStreamVolume(g: int, id: string, volume: real) returns (ok: bool)
      modifies this
      ensures ok <==> g in old(activeStreams) && exists i :: 0 <= i < |old(activeStreams)[g]| && old(activeStreams)[g][i].streamId == id
      ensures !ok ==> unchanged(this)
      ensures ok ==> streamVolumes == old(streamVolumes)[id := Clamp(volume, 0.0, 1.0)]
      ensures ok ==> exists i :: (0 <= i < |old(activeStreams)[g]|
        && old(activeStreams)[g][i].streamId == id
        && (forall j :: 0 <= j < i ==> old(activeStreams)[g][j].streamId != id)
        && activeStreams == old(activeStreams)[g := old(activeStreams)[g][i := old(activeStreams)[g][i].(volume := Clamp(volume, 0.0, 1.0))]])
      ensures ok ==> mixWeights == Reweighed(old(mixWeights), g, activeStreams[g], old(ModeOf(g)))
      ensures mixingModes == old(mixingModes) && crossfadeState == old(crossfadeState) && streamBuffers == old(streamBuffers)
    {
      var v := Clamp(volume, 0.0, 1.0);
      if g !in activeStreams {
        return false;
      }
      var streams := activeStreams[g];
      var i := 0;
      while i < |streams|
        invariant 0 <= i <= |streams|
        invariant forall j :: 0 <= j < i ==> streams[j].streamId != id
      {
        if streams[i].streamId == id {
          activeStreams := activeStreams[g := streams[i := streams[i].(volume := v)]];
          streamVolumes := streamVolumes[id := v];
          CalculateMixWeights(g, ModeOf(g));
          return true;
        }
        i := i + 1;
      }
      return false;
    }

    /** `crossfade_to_stream` at time `now`. */
    method CrossfadeToStream(g: int, target: string, duration: real, now: real) returns (ok: bool)
      modifies this
      ensures ok <==> g in old(activeStreams) && exists i :: 0 <= i < |old(activeStreams)[g]| && old(activeStreams)[g][i].streamId == target
      ensures ok ==> crossfadeState == old(crossfadeState)[g := CrossfadeInfo(target, duration, now)]
      ensures !ok ==> crossfadeState == old(crossfadeState)
      ensures activeStreams == old(activeStreams) && mixWeights == old(mixWeights) && mixingModes == old(mixingModes)
      ensures streamBuffers == old(streamBuffers) && streamVolumes == old(streamVolumes)
    {
      if g !in activeStreams {
        return false;
      }
      var streams := activeStreams[g];
      var i := 0;
      while i < |streams|
        invariant 0 <= i <= |streams|
        invariant forall j :: 0 <= j < i ==> streams[j].streamId != target
      {
        if streams[i].streamId == target {
          crossfadeState := crossfadeState[g := CrossfadeInfo(target, duration, now)];
          return true;
        }
        i := i + 1;
      }
      return false;
    }

    /** `set_mixing_mode`. */
    method SetMixingMode(g: int, mode: MixingMode) returns (ok: bool)
      modifies this
      ensures ok && mixingModes == old(mixingModes)[g := mode]
      ensures StreamsOf(g) != [] ==> mixWeights == old(mixWeights)[g := WeightsOf(StreamsOf(g), StreamsOf(g), mode)]
      ensures StreamsOf(g) == [] ==> mixWeights == old(mixWeights)
      ensures activeStreams == old(activeStreams) && streamBuffers == old(streamBuffers)
      ensures streamVolumes == old(streamVolumes) && crossfadeState == old(crossfadeState)
    {
      mixingModes := mixingModes[g := mode];
      CalculateMixWeights(g, mode);
      return true;
    }

    /** `get_active_streams`: a copy of the guild's list, empty for an unknown guild. */
    method GetActiveStreams(g: int) returns (s: seq<AudioStream>)
      ensures g in activeStreams ==> s == activeStreams[g]
      ensures g !in activeStreams ==> s == []
    {
      s := if g in activeStreams then activeStreams[g] else [];
    }

    /** `_mix_audio_arrays` on padded arrays of length `n`. */
    method MixArrays(g: int, arrays: seq<Chunk>, n: nat) returns (mixed: seq<real>)
      requires |arrays| > 0
      requires forall i :: 0 <= i < |arrays| ==> |arrays[i].samples| == n
      ensures mixed == MixOf(ModeOf(g), if g in mixWeights then mixWeights[g] else map[], StreamsOf(g), arrays, n)
      ensures |mixed| == n
      ensures ModeOf(g) == Replace || |arrays| == 1 ==>
        exists i :: 0 <= i < |arrays| && mixed == arrays[i].samples
      ensures ModeOf(g) != Replace && |arrays| > 1 && ModeOf(g) == Overlay ==>
        mixed == WeightedSum(arrays, if g in mixWeights then mixWeights[g] else map[], 1.0 / |arrays| as real, n)
      ensures ModeOf(g) != Replace && |arrays| > 1 && ModeOf(g) == Priority ==>
        mixed == WeightedSum(arrays, if g in mixWeights then mixWeights[g] else map[], 0.0, n)
      ensures ModeOf(g) != Replace && |arrays| > 1 && ModeOf(g) == CrossfadeMix ==>
        mixed == Average(arrays, n)
    {
      var mode := ModeOf(g);
      var weights := if g in mixWeights then mixWeights[g] else map[];
      if mode == Replace || |arrays| == 1 {
        var streams := StreamsOf(g);
        var pick := PickHighestPriority(streams, Ids(arrays));
        if pick.Some? && streams[pick.value].streamId != "" {
          return arrays[ChunkIndex(arrays, streams[pick.value].streamId)].samples;
        }
        return arrays[0].samples;
      } else if mode == Overlay {
        return WeightedSum(arrays, weights, 1.0 / |arrays| as real, n);
      } else if mode == Priority {
        return WeightedSum(arrays, weights, 0.0, n);
      } else {
        return Average(arrays, n);
      }
    }

    /** The mixed, faded and clipped samples of non-empty chunks at time
        `now`: as long as the longest chunk and within int16. */
    method FadedMix(g: int, arrays: seq<Chunk>, now: real) returns (out: seq<int>)
      requires arrays != []
      ensures out == MixOutput(ModeOf(g), if g in mixWeights then mixWeights[g] else map[], StreamsOf(g),
                               if g in crossfadeState then Some(crossfadeState[g]) else None, arrays, now)
      ensures |out| == MaxLen(arrays)
      ensures forall k :: 0 <= k < |out| ==> -32768 <= out[k] <= 32767
    {
      var n := MaxLen(arrays);
      var mixed := MixArrays(g, PadAll(arrays, n), n);
      if g in crossfadeState {
        var step := CrossfadeStep(crossfadeState[g], now);
        if step.FadeFactor? {
          mixed := Scale(mixed, step.factor);
        }
      }
      out := ClipAll(mixed);
    }

    /** `mix_audio_streams` at time `now` over the ordered chunk dictionary:
        empty chunks are skipped, the rest zero-padded to the longest, mixed,
        faded while a crossfade runs (a finished crossfade is removed), and
        clipped to int16. */
    method MixAudioStreams(g: int, chunks: seq<Chunk>, now: real) returns (out: seq<int>)
      modifies this
      ensures NonEmpty(chunks) == [] ==> out == [] && unchanged(this)
      ensures NonEmpty(chunks) != [] ==> |out| == MaxLen(NonEmpty(chunks))
      ensures NonEmpty(chunks) != [] ==>
        out == MixOutput(old(ModeOf(g)), if g in old(mixWeights) then old(mixWeights)[g] else map[], old(StreamsOf(g)),
                         if g in old(crossfadeState) then Some(old(crossfadeState)[g]) else None, NonEmpty(chunks), now)
      ensures forall k :: 0 <= k < |out| ==> -32768 <= out[k] <= 32767
      ensures (g in old(crossfadeState) && CrossfadeStep(old(crossfadeState)[g], now) == FadeDone
               && NonEmpty(chunks) != []) ==> crossfadeState == old(crossfadeState) - {g}
      ensures !(g in old(crossfadeState) && CrossfadeStep(old(crossfadeState)[g], now) == FadeDone)
              ==> crossfadeState == old(crossfadeState)
      ensures activeStreams == old(activeStreams) && mixWeights == old(mixWeights) && mixingModes == old(mixingModes)
      ensures streamBuffers == old(streamBuffers) && streamVolumes == old(streamVolumes)
    {
      var arrays := NonEmpty(chunks);
      if arrays == [] {
        return [];
      }
      out := FadedMix(g, arrays, now);
      EndFinishedCrossfade(g, now);
    }

    /** `mix_audio_streams` on the byte chunks it is handed: when a chunk
        has an odd byte count `np.frombuffer` raises before anything changes,
        and the `except` hands back the first non-empty chunk as it came
        (or no bytes); otherwise the decoded chunks are mixed as
        `MixAudioStreams` does and the samples written back as int16 bytes. */
    method MixAudioStreamsBytes(g: int, chunks: seq<ByteChunk>, now: real) returns (out: seq<uint8>)
      modifies this
      ensures DecodeChunks(chunks).None? ==> out == FirstNonEmpty(chunks) && unchanged(this)
      ensures DecodeChunks(chunks).Some? && NonEmpty(DecodeChunks(chunks).value) == [] ==>
        out == [] && unchanged(this)
      ensures DecodeChunks(chunks).Some? && NonEmpty(DecodeChunks(chunks).value) != [] ==>
        FromBuffer(out) == Some(MixOutput(old(ModeOf(g)), if g in old(mixWeights) then old(mixWeights)[g] else map[],
                                          old(StreamsOf(g)),
                                          if g in old(crossfadeState) then Some(old(crossfadeState)[g]) else None,
                                          NonEmpty(DecodeChunks(chunks).value), now))
      ensures DecodeChunks(chunks).Some? && NonEmpty(DecodeChunks(chunks).value) != []
              && g in old(crossfadeState) && CrossfadeStep(old(crossfadeState)[g], now) == FadeDone
              ==> crossfadeState == old(crossfadeState) - {g}
      ensures !(DecodeChunks(chunks).Some? && NonEmpty(DecodeChunks(chunks).value) != []
                && g in old(crossfadeState) && CrossfadeStep(old(crossfadeState)[g], now) == FadeDone)
              ==> crossfadeState == old(crossfadeState)
      ensures activeStreams == old(activeStreams) && mixWeights == old(mixWeights) && mixingModes == old(mixingModes)
      ensures streamBuffers == old(streamBuffers) && streamVolumes == old(streamVolumes)
    {
      var decoded := DecodeChunks(chunks);
      if decoded.None? {
        return FirstNonEmpty(chunks);
      }
      var mixed := MixAudioStreams(g, decoded.value, now);
      FromBufferToBytes(mixed);
      out := ToBytes(mixed);
    }

    /** The deletion in `_apply_crossfade` of a crossfade that has run its course. */
    method EndFinishedCrossfade(g: int, now: real)
      modifies this
      ensures crossfadeState == if g in old(crossfadeState) && CrossfadeStep(old(crossfadeState)[g], now) == FadeDone
        then old(crossfadeState) - {g} else old(crossfadeState)
      ensures activeStreams == old(activeStreams) && mixWeights == old(mixWeights) && mixingModes == old(mixingModes)
      ensures streamBuffers == old(streamBuffers) && streamVolumes == old(streamVolumes)
    {
      if g in crossfadeState && CrossfadeStep(crossfadeState[g], now) == FadeDone {
        crossfadeState := crossfadeState - {g};
      }
    }
  }
}

=== FILE: monitoring_types.dfy ===
/** Shared monitoring vocabulary: health levels, alert severities and the
    result of one health check. */
module MonitoringTypes {

  datatype HealthStatus = Healthy | Warning | Critical | Offline | Unknown

  datatype AlertSeverity = Info | SevWarning | SevCritical | Emergency

  /** The enum's string value. */
  function SeverityValue(s: AlertSeverity): (r: string)
    ensures ':' !in r
  {
    match s
    case Info => "info"
    case SevWarning => "warning"
    case SevCritical => "critical"
    case Emergency => "emergency"
  }

  lemma SeverityValueInjective(a: AlertSeverity, b: AlertSeverity)
    requires SeverityValue(a) == SeverityValue(b)
    ensures a == b
  {
    assert SeverityValue(a)[0] == SeverityValue(b)[0];
    assert |SeverityValue(a)| == |SeverityValue(b)|;
  }

  /** A health check result; the metrics dictionary and timestamp are not
      modelled, the details are reduced to their issue list. */
  datatype HealthCheck = HealthCheck(component: string, status: HealthStatus, message: string)

  predicate IsHealthy(c: HealthCheck)
  {
    c.status == Healthy
  }

  predicate RequiresAttention(c: HealthCheck)
  {
    c.status in {Warning, Critical, Offline}
  }

  /** No check both is healthy and needs attention, and an unknown status is neither. */
  lemma HealthyNeedsNoAttention(c: HealthCheck)
    ensures !(IsHealthy(c) && RequiresAttention(c))
    ensures c.status == Unknown ==> !IsHealthy(c) && !RequiresAttention(c)
  {
  }
}

=== FILE: parametric_eq.dfy ===
/** The multi-band parametric equalizer (audio/processing/parametric_eq.py):
    a registry of frequency bands under increasing ids, one filter per band
    kept in a filter bank, and the fixed EQ presets. */
module ParametricEq {
  import opened Util
  import opened AdvancedTypes
  import opened DigitalFilters

  predicate StrictlyIncreasing(s: seq<int>)
  {
    forall i, j :: 0 <= i < j < |s| ==> s[i] < s[j]
  }

  lemma {:induction false} RemoveFirstIncreasing(s: seq<int>, k: int)
    requires StrictlyIncreasing(s)
    ensures StrictlyIncreasing(RemoveFirst(s, k)) && k !in RemoveFirst(s, k)
  {
    if s != [] {
      var t := s[1..];
      TailIncreasing(s);
      HeadBelowTail(s);
      if s[0] != k {
        RemoveFirstIncreasing(t, k);
        var r := RemoveFirst(t, k);
        assert RemoveFirst(s, k) == [s[0]] + r;
        ConsIncreasing(s[0], r);
      }
    }
  }

  /** The head of an increasing sequence is below everything after it. */
  lemma HeadBelowTail(s: seq<int>)
    requires StrictlyIncreasing(s) && s != []
    ensures forall y :: y in s[1..] ==> s[0] < y
  {
    forall y | y in s[1..]
      ensures s[0] < y
    {
      var m :| 0 <= m < |s[1..]| && s[1..][m] == y;
      assert s[m + 1] == y;
    }
  }

  lemma TailIncreasing(s: seq<int>)
    requires StrictlyIncreasing(s) && s != []
    ensures StrictlyIncreasing(s[1..])
    ensures forall j :: 0 <= j < |s| - 1 ==> s[0] < s[1..][j]
  {
    forall i, j | 0 <= i < j < |s| - 1
      ensures s[1..][i] < s[1..][j]
    {
      assert s[1..][i] == s[i + 1] && s[1..][j] == s[j + 1];
    }
  }

  lemma ConsIncreasing(x: int, r: seq<int>)
    requires StrictlyIncreasing(r)
    requires forall j :: 0 <= j < |r| ==> x < r[j]
    ensures StrictlyIncreasing([x] + r)
  {
    var q := [x] + r;
    forall i, j | 0 <= i < j < |q|
      ensures q[i] < q[j]
    {
      assert q[j] == r[j - 1];
      if i > 0 {
        assert q[i] == r[i - 1];
      }
    }
  }

  lemma AppendLargerIncreasing(s: seq<int>, x: int)
    requires StrictlyIncreasing(s)
    requires forall i :: 0 <= i < |s| ==> s[i] < x
    ensures StrictlyIncreasing(s + [x])
  {
  }

  /** Scipy's design of a peaking filter for a band: `None` when it raises. */
  type BandDesigner = FrequencyBand -> Option<DigitalFilter>

  /** `_create_band_filter`: a band with less than 0.1 dB of gain, or one
      whose design fails, gets the pass-through filter. */
  function BandFilter(band: FrequencyBand, designBand: BandDesigner): (f: DigitalFilter)
    ensures -0.1 < band.gainDb < 0.1 ==> f == AllPass
    ensures designBand(band).None? ==> f == AllPass
    ensures !(-0.1 < band.gainDb < 0.1) && designBand(band).Some? ==> f == designBand(band).value
  {
    if -0.1 < band.gainDb < 0.1 then AllPass
    else match designBand(band)
      case None => AllPass
      case Some(f) => f
  }

  /** The designer as written: `_create_band_filter` asks for a Butterworth
      PEAK design, and `_design_butterworth` hands btype "peak" to
      `scipy.signal.butter`, which knows only low-, high-, band-pass and
      band-stop and raises; `design_filter` turns that into a
      FilterDesignError, so the design fails for every band. */
  function DesignAsWritten(band: FrequencyBand): (r: Option<DigitalFilter>)
    ensures r.None?
  {
    None
  }

  /** As written, every band's filter is the pass-through. */
  lemma BandFilterAsWritten(band: FrequencyBand)
    ensures BandFilter(band, DesignAsWritten) == AllPass
  {
  }

  /** As written, an equalizer loaded with any bands holds only pass-through
      filters. */
  lemma {:induction false} LoadedFiltersAsWritten(start: int, bs: seq<FrequencyBand>)
    ensures var fs := Extend(map[], start, BandFilters(bs, DesignAsWritten));
            forall k :: k in fs ==> fs[k] == AllPass
  {
    if bs != [] {
      var xs := BandFilters(bs, DesignAsWritten);
      assert xs[..|xs| - 1] == BandFilters(bs[..|bs| - 1], DesignAsWritten);
      LoadedFiltersAsWritten(start, bs[..|bs| - 1]);
      BandFilterAsWritten(bs[|bs| - 1]);
      assert xs[|xs| - 1] == AllPass;
      assert Extend(map[], start, xs) == Extend(map[], start, xs[..|xs| - 1])[start + |xs| - 1 := AllPass];
    }
  }

  /** A flat band never costs an IIR filter. */
  lemma FlatBandIsFir(band: FrequencyBand, designBand: BandDesigner)
    requires -0.1 < band.gainDb < 0.1
    ensures IsFir(BandFilter(band, designBand))
  {
  }

  /** `ParametricEqualizer`. The filter-bank key "band_{id}" is the band id
      itself here; the formatting is injective, so nothing is lost. */
  class ParametricEqualizer {
    const sampleRate: real
    var bands: map<int, FrequencyBand>
    /** The keys of `_bands` in dict (insertion) order. */
    var bandIds: seq<int>
    var filters: map<int, DigitalFilter>
    var bank: FilterBank<int>
    var nextBandId: int

    /** Every band has a filter and a bank entry; ids are below the counter,
        so they were handed out in increasing order. */
    ghost predicate Valid()
      reads this, bank
    {
      bank.Valid() && nextBandId >= 1
      && StrictlyIncreasing(bandIds)
      && (forall id :: id in bands <==> id in bandIds)
      && (forall id :: id in bands ==> 1 <= id < nextBandId)
      && filters.Keys == bands.Keys
      && bank.filters == filters
    }

    constructor(sampleRate: real)
      ensures Valid() && fresh(bank)
      ensures this.sampleRate == sampleRate && bands == map[] && nextBandId == 1
    {
      this.sampleRate := sampleRate;
      bands := map[];
      bandIds := [];
      filters := map[];
      bank := new FilterBank<int>();
      nextBandId := 1;
    }

    function BandCount(): (n: nat)
      reads this
      ensures n == |bands|
    {
      |bands|
    }

    /** `add_band`: the band gets the current counter value as its id, and
        the counter moves on, so a later band always gets a larger id. */
    method AddBand(band: FrequencyBand, designBand: BandDesigner) returns (id: int)
      requires Valid()
      modifies this, bank
      ensures Valid() && bank == old(bank)
      ensures id == old(nextBandId) && nextBandId == id + 1
      ensures id !in old(bands) && bands == old(bands)[id := band]
      ensures |bands| == |old(bands)| + 1
      ensures bandIds == old(bandIds) + [id]
      ensures filters == old(filters)[id := BandFilter(band, designBand)]
      ensures bank.order == old(bank.order) + [id]
    {
      id := nextBandId;
      forall i | 0 <= i < |bandIds| ensures bandIds[i] < id {
        assert bandIds[i] in bandIds;
      }
      AppendLargerIncreasing(bandIds, id);
      nextBandId := nextBandId + 1;
      bands := bands[id := band];
      var f := BandFilter(band, designBand);
      filters := filters[id := f];
      bank.AddFilter(id, f);
      bandIds := bandIds + [id];
    }

    /** `update_band`: false stands for the `ValueError` on an unknown id.
        A known band is replaced, and its filter is removed from the bank and
        added again, which moves it to the end of the processing order. */
    method UpdateBand(id: int, band: FrequencyBand, designBand: BandDesigner) returns (found: bool)
      requires Valid()
      modifies this, bank
      ensures Valid() && bank == old(bank)
      ensures found <==> id in old(bands)
      ensures !found ==> bands == old(bands) && filters == old(filters) && bank.order == old(bank.order)
      ensures found ==> bands == old(bands)[id := band]
                        && filters == old(filters)[id := BandFilter(band, designBand)]
                        && bank.order == RemoveFirst(old(bank.order), id) + [id]
      ensures bandIds == old(bandIds) && nextBandId == old(nextBandId)
    {
      if id !in bands {
        return false;
      }
      bands := bands[id := band];
      var f := BandFilter(band, designBand);
      filters := filters[id := f];
      bank.Readd(id, f);
      assert bank.filters == filters;
      found := true;
    }

    /** `remove_band`: false stands for the `ValueError` on an unknown id;
        a known band loses its configuration, its filter and its bank entry. */
    method RemoveBand(id: int) returns (found: bool)
      requires Valid()
      modifies this, bank
      ensures Valid() && bank == old(bank)
      ensures found <==> id in old(bands)
      ensures bands == old(bands) - {id} && filters == old(filters) - {id}
      ensures id !in bank.filters && id !in bank.order
      ensures bandIds == RemoveFirst(old(bandIds), id)
      ensures nextBandId == old(nextBandId)
    {
      if id !in bands {
        return false;
      }
      bands := bands - {id};
      filters := filters - {id};
      var _ := bank.RemoveFilter(id);
      RemoveFirstIncreasing(bandIds, id);
      bandIds := RemoveFirst(bandIds, id);
      found := true;
    }

    /** `reset`: no bands, a new empty bank, ids start again at 1. */
    method Reset()
      modifies this
      ensures Valid() && fresh(bank)
      ensures bands == map[] && filters == map[] && bandIds == [] && nextBandId == 1
      ensures bank.filters == map[] && bank.order == []
    {
      bands := map[];
      filters := map[];
      bandIds := [];
      bank := new FilterBank<int>();
      nextBandId := 1;
    }

    /** The first `i` bands of `bs` have been added, from id `start` on, to
        an equalizer that held `before`, `fs0`, `ids` and `order0`. */
    ghost predicate AddedUpTo(bs: seq<FrequencyBand>, designBand: BandDesigner, i: nat, start: int,
                              before: map<int, FrequencyBand>, fs0: map<int, DigitalFilter>,
                              ids: seq<int>, order0: seq<int>)
      reads this, bank
      requires i <= |bs|
    {
      nextBandId == start + i
      && bands == Extend(before, start, bs[..i])
      && filters == Extend(fs0, start, BandFilters(bs[..i], designBand))
      && bandIds == ids + IdRange(start, i)
      && bank.order == order0 + IdRange(start, i)
    }

    /** One turn of the band loop: band `i` joins under id `start + i`. */
    method AddNext(bs: seq<FrequencyBand>, designBand: BandDesigner, i: nat, ghost start: int,
                   ghost before: map<int, FrequencyBand>, ghost fs0: map<int, DigitalFilter>,
                   ghost ids: seq<int>, ghost order0: seq<int>)
      requires Valid() && i < |bs| && AddedUpTo(bs, designBand, i, start, before, fs0, ids, order0)
      modifies this, bank
      ensures Valid() && bank == old(bank)
      ensures AddedUpTo(bs, designBand, i + 1, start, before, fs0, ids, order0)
    {
      var _ := AddBand(bs[i], designBand);
      ExtendStep(before, start, bs, i);
      AddOneBand(fs0, start, bs, designBand, i);
      AppendRange(ids, start, i);
      AppendRange(order0, start, i);
    }

    /** The loop of `apply_eq_preset`: the bands are added in order under
        consecutive ids from the counter on; earlier bands stay. */
    method AddBands(bs: seq<FrequencyBand>, designBand: BandDesigner)
      requires Valid()
      modifies this, bank
      ensures Valid() && bank == old(bank)
      ensures nextBandId == old(nextBandId) + |bs|
      ensures bands == Extend(old(bands), old(nextBandId), bs)
      ensures filters == Extend(old(filters), old(nextBandId), BandFilters(bs, designBand))
      ensures bandIds == old(bandIds) + IdRange(old(nextBandId), |bs|)
      ensures bank.order == old(bank.order) + IdRange(old(nextBandId), |bs|)
    {
      ghost var start, before, ids, fs0, order0 := nextBandId, bands, bandIds, filters, bank.order;
      assert bs[..0] == [];
      var i := 0;
      while i < |bs|
        invariant 0 <= i <= |bs|
        invariant Valid() && bank == old(bank)
        invariant AddedUpTo(bs, designBand, i, start, before, fs0, ids, order0)
      {
        AddNext(bs, designBand, i, start, before, fs0, ids, order0);
        i := i + 1;
      }
      assert bs[..i] == bs;
    }

    /** `reset` followed by the band loop of `apply_eq_preset`: the
        equalizer then holds exactly `bs`, under ids 1, 2, ... in order, in a
        new filter bank. */
    method LoadBands(bs: seq<FrequencyBand>, designBand: BandDesigner)
      modifies this
      ensures Valid() && fresh(bank)
      ensures nextBandId == |bs| + 1
      ensures bands == Extend(map[], 1, bs)
      ensures filters == Extend(map[], 1, BandFilters(bs, designBand))
      ensures bandIds == IdRange(1, |bs|) && bank.order == IdRange(1, |bs|)
    {
      Reset();
      AddBands(bs, designBand);
    }

    /** The band count is the length of the id list. */
    lemma CountMatchesIds()
      requires Valid()
      ensures |bands| == |bandIds|
    {
      DistinctSize(bandIds, bands.Keys);
    }

    /** `process`: the input comes back unchanged without bands; otherwise it
        runs through the bank in series. */
    method Process(x: seq<real>, lfilter: LFilter) returns (y: seq<real>)
      requires Valid()
      ensures bands == map[] ==> y == x
      ensures bands != map[] ==> y == Series(bank.order, filters, x, lfilter)
    {
      if |bands| == 0 {
        return x;
      }
      y := bank.Process(x, lfilter);
    }

    /** `get_band_ids`: the registered ids, oldest (and smallest) first. */
    method GetBandIds() returns (ids: seq<int>)
      requires Valid()
      ensures StrictlyIncreasing(ids)
      ensures forall id :: id in ids <==> id in bands
      ensures |ids| == |bands|
    {
      ids := bandIds;
      DistinctSize(bandIds, bands.Keys);
    }

    /** `get_band`. */
    method GetBand(id: int) returns (b: Option<FrequencyBand>)
      ensures b.Some? <==> id in bands
      ensures b.Some? ==> b.value == bands[id]
    {
      b := if id in bands then Some(bands[id]) else None;
    }
  }

  /** `m` after storing `bs` under the ids start, start + 1, ... */
  function Extend<V>(m: map<int, V>, start: int, bs: seq<V>): map<int, V>
  {
    if bs == [] then m
    else Extend(m, start, bs[..|bs| - 1])[start + |bs| - 1 := bs[|bs| - 1]]
  }

  lemma ExtendStep<V>(m: map<int, V>, start: int, bs: seq<V>, i: nat)
    requires i < |bs|
    ensures Extend(m, start, bs[..i + 1]) == Extend(m, start, bs[..i])[start + i := bs[i]]
  {
    assert bs[..i + 1][..i] == bs[..i];
  }

  /** The j-th stored band sits under id start + j. */
  lemma {:induction false} ExtendLookup(m: map<int, FrequencyBand>, start: int, bs: seq<FrequencyBand>, j: nat)
    requires j < |bs|
    ensures start + j in Extend(m, start, bs) && Extend(m, start, bs)[start + j] == bs[j]
  {
    if j < |bs| - 1 {
      ExtendLookup(m, start, bs[..|bs| - 1], j);
    }
  }

  /** The ids start, start + 1, ..., start + n - 1, in order. */
  function IdRange(start: int, n: nat): (r: seq<int>)
    ensures |r| == n
  {
    if n == 0 then [] else IdRange(start, n - 1) + [start + n - 1]
  }

  /** The filter `_create_band_filter` gives each band, in order. */
  function BandFilters(bs: seq<FrequencyBand>, designBand: BandDesigner): (r: seq<DigitalFilter>)
    ensures |r| == |bs|
  {
    if bs == [] then []
    else BandFilters(bs[..|bs| - 1], designBand) + [BandFilter(bs[|bs| - 1], designBand)]
  }

  /** One more id at the end of a list ending in a range. */
  lemma AppendRange(pre: seq<int>, start: int, i: nat)
    ensures pre + IdRange(start, i + 1) == (pre + IdRange(start, i)) + [start + i]
  {
  }

  /** One more band stored: its filter joins the map. */
  lemma AddOneBand(fs0: map<int, DigitalFilter>, start: int, bs: seq<FrequencyBand>, designBand: BandDesigner, i: nat)
    requires i < |bs|
    ensures Extend(fs0, start, BandFilters(bs[..i + 1], designBand))
         == Extend(fs0, start, BandFilters(bs[..i], designBand))[start + i := BandFilter(bs[i], designBand)]
  {
    assert bs[..i + 1][..i] == bs[..i];
    var xs := BandFilters(bs[..i + 1], designBand);
    assert xs[..|xs| - 1] == BandFilters(bs[..i], designBand);
  }

  /** Storing n bands into an empty map gives exactly n entries. */
  lemma {:induction false} ExtendSize(start: int, bs: seq<FrequencyBand>)
    ensures |Extend(map[], start, bs)| == |bs|
    ensures forall id :: id in Extend(map[], start, bs) ==> start <= id < start + |bs|
  {
    if bs != [] {
      ExtendSize(start, bs[..|bs| - 1]);
    }
  }

  /** A duplicate-free sequence has as many elements as the set it lists. */
  lemma {:induction false} DistinctSize(s: seq<int>, keys: set<int>)
    requires StrictlyIncreasing(s)
    requires forall id :: id in keys <==> id in s
    ensures |s| == |keys|
  {
    if s == [] {
      assert forall x :: x !in keys;
      assert keys == {};
    } else {
      var rest := keys - {s[0]};
      forall id ensures id in rest <==> id in s[1..] {
        if id in s[1..] {
          var j :| 0 <= j < |s[1..]| && s[1..][j] == id;
          assert s[j + 1] == id && s[0] < s[j + 1];
        }
      }
      DistinctSize(s[1..], rest);
    }
  }

  // ---------------------------------------------------------------------
  // EQPresets

  const PresetNames: seq<string> :=
    ["flat", "bass_boost", "vocal_enhance", "classical", "rock", "electronic"]

  function Band(center: real, gainDb: real, q: real): FrequencyBand
  {
    FrequencyBand(center, gainDb, q, None)
  }

  /** The preset table, looked up with an already lowercased name; an
      unknown name gives the flat (empty) preset. */
  function PresetBands(name: string): (bands: seq<FrequencyBand>)
    ensures name !in PresetNames ==> bands == []
    ensures forall i :: 0 <= i < |bands| ==>
      ValidBand(bands[i].center, bands[i].gainDb, bands[i].q) && !HasBandwidth(bands[i])
    ensures forall i, j :: 0 <= i < j < |bands| ==> bands[i].center < bands[j].center
  {
    match name
    case "bass_boost" =>
      [Band(60.0, 6.0, 0.7), Band(120.0, 4.0, 0.7), Band(250.0, 2.0, 0.7)]
    case "vocal_enhance" =>
      [Band(200.0, -2.0, 0.5), Band(1000.0, 3.0, 1.0), Band(3000.0, 4.0, 1.2), Band(8000.0, 2.0, 0.8)]
    case "classical" =>
      [Band(50.0, 2.0, 0.6), Band(400.0, -1.0, 0.8), Band(2000.0, 1.0, 0.7),
       Band(6000.0, 2.0, 0.9), Band(12000.0, 3.0, 0.8)]
    case "rock" =>
      [Band(80.0, 4.0, 0.8), Band(250.0, -2.0, 1.0), Band(1500.0, 2.0, 0.9),
       Band(4000.0, 3.0, 1.1), Band(10000.0, 4.0, 0.7)]
    case "electronic" =>
      [Band(40.0, 5.0, 0.9), Band(100.0, 3.0, 0.8), Band(500.0, -1.0, 0.6),
       Band(2000.0, 1.0, 0.8), Band(8000.0, 3.0, 1.0), Band(16000.0, 2.0, 0.7)]
    case _ => []
  }

  /** `EQPresets.get_preset`: looked up by the lowercased name. */
  function GetPreset(name: string): seq<FrequencyBand>
  {
    PresetBands(Lower(name))
  }

  /** Lookup ignores letter case, and unknown names give the flat preset. */
  lemma GetPresetCaseInsensitive(name: string)
    ensures GetPreset(name) == GetPreset(Lower(name))
    ensures Lower(name) !in PresetNames ==> GetPreset(name) == []
  {
    LowerIdempotent(name);
  }

  /** Every named preset except "flat" has bands. */
  lemma NamedPresetsNonEmpty(name: string)
    requires name in PresetNames && name != "flat"
    ensures |PresetBands(name)| >= 3
  {
  }
}

=== FILE: permissions.dfy ===
/** Permissions of the Second Life bridge: a flat list of permission
    strings held by a caller, a one-level hierarchy in which a parent
    permission implies its children, and named permission groups. */
module Permissions {
  import opened Util

  datatype Permission =
    | StreamControl | StreamPlay | StreamStop | StreamStatus
    | FavoritesRead | FavoritesWrite | FavoritesDelete
    | AudioControl | AudioVolume | AudioEq | AudioInfo
    | AdminSettings | AdminTokens | AdminUsers
    | WebsocketConnect | WebsocketEvents

  function Value(p: Permission): string
  {
    match p
    case StreamControl => "stream_control"
    case StreamPlay => "stream_play"
    case StreamStop => "stream_stop"
    case StreamStatus => "stream_status"
    case FavoritesRead => "favorites_read"
    case FavoritesWrite => "favorites_write"
    case FavoritesDelete => "favorites_delete"
    case AudioControl => "audio_control"
    case AudioVolume => "audio_volume"
    case AudioEq => "audio_eq"
    case AudioInfo => "audio_info"
    case AdminSettings => "admin_settings"
    case AdminTokens => "admin_tokens"
    case AdminUsers => "admin_users"
    case WebsocketConnect => "websocket_connect"
    case WebsocketEvents => "websocket_events"
  }

  /** The string values of every member of the enum. */
  function AllValues(): (r: set<string>)
    ensures forall p :: Value(p) in r
    ensures forall s :: s in r ==> exists p :: Value(p) == s
  {
    set p: Permission | true :: Value(p)
  }

  /** The hierarchy: the permissions each parent implies (none for a
      permission that is not a parent). */
  function Children(p: Permission): seq<Permission>
  {
    match p
    case StreamControl => [StreamPlay, StreamStop, StreamStatus]
    case FavoritesWrite => [FavoritesRead]
    case AudioControl => [AudioVolume, AudioEq, AudioInfo]
    case AdminSettings => [AdminTokens, AdminUsers]
    case _ => []
  }

  /** The hierarchy's parents, in the source's order. */
  const Parents: seq<Permission> := [StreamControl, FavoritesWrite, AudioControl, AdminSettings]

  lemma ParentsAreExactlyThoseWithChildren(p: Permission)
    ensures p in Parents <==> Children(p) != []
  {
  }

  function ChildValues(p: Permission): set<string>
  {
    set c | c in Children(p) :: Value(c)
  }

  /** The hierarchy scan over `parents`: some held parent lists `required`. */
  function ImpliedBy(parents: seq<Permission>, required: string, user: seq<string>): (r: bool)
    ensures r <==> exists i :: 0 <= i < |parents| && Value(parents[i]) in user && required in ChildValues(parents[i])
  {
    if parents == [] then false
    else
      (Value(parents[0]) in user && required in ChildValues(parents[0]))
      || ImpliedBy(parents[1..], required, user)
  }

  /** `check_permission`: held directly, implied by a held parent, or
      `admin_settings` is held (which grants any string at all). */
  function CheckPermission(required: string, user: seq<string>): bool
  {
    required in user || ImpliedBy(Parents, required, user) || Value(AdminSettings) in user
  }

  /** The permission check stated against the hierarchy itself. */
  lemma CheckPermissionIff(required: string, user: seq<string>)
    ensures CheckPermission(required, user) <==>
      required in user || Value(AdminSettings) in user
      || exists p :: Value(p) in user && required in ChildValues(p)
  {
    if exists p :: Value(p) in user && required in ChildValues(p) {
      var p :| Value(p) in user && required in ChildValues(p);
      ParentsAreExactlyThoseWithChildren(p);
      var i :| 0 <= i < |Parents| && Parents[i] == p;
      assert ImpliedBy(Parents, required, user);
    }
  }

  /** `check_permissions`: every required permission passes. */
  function CheckPermissions(required: seq<string>, user: seq<string>): (r: bool)
    ensures r <==> forall i :: 0 <= i < |required| ==> CheckPermission(required[i], user)
    ensures required == [] ==> r
  {
    if required == [] then true
    else CheckPermission(required[0], user) && CheckPermissions(required[1..], user)
  }

  /** `get_permissions_for_group`; None for an unknown group. */
  function GroupPermissions(group: string): (r: Option<set<string>>)
    ensures r.None? <==> group !in {"basic", "user", "power_user", "admin"}
    ensures r.Some? ==> r.value <= AllValues()
    ensures group == "admin" ==> r == Some(AllValues())
  {
    if group == "basic" then
      Some({Value(StreamStatus), Value(FavoritesRead), Value(AudioInfo)})
    else if group == "user" then
      Some({Value(StreamControl), Value(FavoritesRead), Value(AudioVolume), Value(WebsocketConnect)})
    else if group == "power_user" then
      Some({Value(StreamControl), Value(FavoritesRead), Value(FavoritesWrite), Value(AudioControl),
            Value(WebsocketConnect), Value(WebsocketEvents)})
    else if group == "admin" then
      Some(AllValues())
    else None
  }

  /** Holding the admin group's permissions grants any permission string. */
  lemma AdminGroupGrantsEverything(required: string, user: seq<string>)
    requires forall s :: s in AllValues() ==> s in user
    ensures CheckPermission(required, user)
  {
    assert Value(AdminSettings) in AllValues();
  }

  /** `validate_permissions`: the known values, in input order. */
  function ValidatePermissions(ps: seq<string>): (r: seq<string>)
    ensures |r| <= |ps|
    ensures forall s :: s in r <==> s in ps && s in AllValues()
  {
    if ps == [] then []
    else if ps[0] in AllValues() then [ps[0]] + ValidatePermissions(ps[1..])
    else ValidatePermissions(ps[1..])
  }

  /** Validation keeps order: it is the input with the unknown values removed. */
  lemma {:induction false} ValidatePermissionsIsFilter(ps: seq<string>)
    ensures ValidatePermissions(ps) == Filter(ps, s => s in AllValues())
  {
    if ps != [] {
      ValidatePermissionsIsFilter(ps[1..]);
    }
  }

  lemma {:induction false} ValidatePermissionsIdempotent(ps: seq<string>)
    ensures ValidatePermissions(ValidatePermissions(ps)) == ValidatePermissions(ps)
  {
    if ps != [] {
      ValidatePermissionsIdempotent(ps[1..]);
    }
  }

  /** The children values of the held parents among `parents`. */
  function ImpliedValues(parents: seq<Permission>, user: seq<string>): (r: set<string>)
    ensures forall s :: s in r <==>
      exists i :: 0 <= i < |parents| && Value(parents[i]) in user && s in ChildValues(parents[i])
  {
    if parents == [] then {}
    else (if Value(parents[0]) in user then ChildValues(parents[0]) else {}) + ImpliedValues(parents[1..], user)
  }

  /** `expand_permissions`: the input plus one level of implied children. */
  function ExpandPermissions(ps: seq<string>): (r: set<string>)
    ensures forall s :: s in ps ==> s in r
    ensures forall s :: s in r <==> s in ps || exists p :: Value(p) in ps && s in ChildValues(p)
  {
    ExpandedHasChildren(ps);
    (set s | s in ps) + ImpliedValues(Parents, ps)
  }

  lemma ExpandedHasChildren(ps: seq<string>)
    ensures forall s :: s in ImpliedValues(Parents, ps) <==> exists p :: Value(p) in ps && s in ChildValues(p)
  {
    forall s | exists p :: Value(p) in ps && s in ChildValues(p)
      ensures s in ImpliedValues(Parents, ps)
    {
      var p :| Value(p) in ps && s in ChildValues(p);
      ParentsAreExactlyThoseWithChildren(p);
      var i :| 0 <= i < |Parents| && Parents[i] == p;
    }
  }

  /** The check and the expansion agree: outside the admin shortcut, a
      permission passes exactly when it is in the expanded set. */
  lemma CheckMatchesExpansion(required: string, user: seq<string>)
    ensures CheckPermission(required, user) <==> required in ExpandPermissions(user) || Value(AdminSettings) in user
  {
    CheckPermissionIff(required, user);
  }

  /** The enum's members, in declaration order. */
  const Members: seq<Permission> :=
    [StreamControl, StreamPlay, StreamStop, StreamStatus, FavoritesRead, FavoritesWrite, FavoritesDelete,
     AudioControl, AudioVolume, AudioEq, AudioInfo, AdminSettings, AdminTokens, AdminUsers,
     WebsocketConnect, WebsocketEvents]

  lemma MembersComplete(p: Permission)
    ensures p in Members
  {
  }

  /** The first member of `ps` whose value is `s`. */
  function FindValue(s: string, ps: seq<Permission>): (r: Option<Permission>)
    ensures r.Some? ==> r.value in ps && Value(r.value) == s
    ensures r.None? ==> forall i :: 0 <= i < |ps| ==> Value(ps[i]) != s
  {
    if ps == [] then None
    else if Value(ps[0]) == s then Some(ps[0])
    else FindValue(s, ps[1..])
  }

  /** The human-readable text of each permission. */
  function Description(p: Permission): string
  {
    match p
    case StreamControl => "Control audio stream playback"
    case StreamPlay => "Start audio streams"
    case StreamStop => "Stop audio streams"
    case StreamStatus => "View stream status"
    case FavoritesRead => "View favorite stations"
    case FavoritesWrite => "Add/modify favorite stations"
    case FavoritesDelete => "Delete favorite stations"
    case AudioControl => "Control audio settings"
    case AudioVolume => "Adjust volume"
    case AudioEq => "Adjust equalizer"
    case AudioInfo => "View audio configuration"
    case AdminSettings => "Modify system settings"
    case AdminTokens => "Manage API tokens"
    case AdminUsers => "Manage user access"
    case WebsocketConnect => "Connect to WebSocket"
    case WebsocketEvents => "Receive WebSocket events"
  }

  /** `get_permission_description`: known exactly for the enum's values, and
      then the text of the permission with that value. */
  function PermissionDescription(s: string): (r: Option<string>)
    ensures r.Some? <==> s in AllValues()
    ensures r.Some? ==> exists p :: Value(p) == s && r.value == Description(p)
  {
    var found := FindValue(s, Members);
    if found.Some? then Some(Description(found.value))
    else
      NotFoundIsUnknown(s);
      None
  }

  lemma NotFoundIsUnknown(s: string)
    requires FindValue(s, Members).None?
    ensures s !in AllValues()
  {
    forall p: Permission
      ensures Value(p) != s
    {
      MembersComplete(p);
      var i :| 0 <= i < |Members| && Members[i] == p;
    }
  }

  /** No parent implies `admin_settings`, so it is expanded only when held. */
  lemma AdminIsNoChild(user: seq<string>)
    ensures Value(AdminSettings) in ExpandPermissions(user) <==> Value(AdminSettings) in user
  {
    forall p: Permission
      ensures Value(AdminSettings) !in ChildValues(p)
    {
      forall c | c in Children(p)
        ensures Value(c) != Value(AdminSettings)
      {
        AdminIsNoParentsChild(p);
        AdminValueUnique(c);
      }
    }
  }

  lemma AdminIsNoParentsChild(p: Permission)
    ensures AdminSettings !in Children(p)
  {
  }

  lemma AdminValueUnique(c: Permission)
    requires c != AdminSettings
    ensures Value(c) != Value(AdminSettings)
  {
  }

  datatype GuildPermissions = GuildPermissions(
    guild: int, permissions: set<string>, isAdmin: bool,
    canStreamControl: bool, canManageFavorites: bool, canControlAudio: bool)

  /** `get_guild_permissions`: the expansion plus four derived flags. */
  function GuildPermissionsFor(guild: int, user: seq<string>): (r: GuildPermissions)
    ensures r.permissions == ExpandPermissions(user)
    ensures r.isAdmin <==> Value(AdminSettings) in user
    ensures r.isAdmin ==> r.canStreamControl && r.canManageFavorites && r.canControlAudio
    ensures r.guild == guild
    ensures r.canStreamControl == CheckPermission(Value(StreamControl), user)
    ensures r.canManageFavorites == CheckPermission(Value(FavoritesWrite), user)
    ensures r.canControlAudio == CheckPermission(Value(AudioControl), user)
  {
    var e := ExpandPermissions(user);
    AdminIsNoChild(user);
    GuildPermissions(guild, e, Value(AdminSettings) in e,
      CheckPermission(Value(StreamControl), user),
      CheckPermission(Value(FavoritesWrite), user),
      CheckPermission(Value(AudioControl), user))
  }
}

=== FILE: rate_limiter.dfy ===
/** Token-bucket rate limiting for the Second Life bridge: a global bucket
    checked first, then one bucket per rule and caller key, created full
    from the rule's burst and refilled continuously at requests/period.

    Time is the caller's `now` in seconds. A division by zero in the source
    raises, and `check_rate_limit` answers any exception by letting the
    request through; the model keeps that fail-open path. */
module RateLimiting {
  import opened Util

  /** `RateLimitRule`; `burst` is already defaulted to `requests`. */
  datatype Rule = Rule(requests: int, period: int, burst: int)

  /** The dataclass constructor: a missing burst becomes the request count. */
  function MakeRule(requests: int, period: int, burst: Option<int>): (r: Rule)
    ensures r.requests == requests && r.period == period
    ensures r.burst == (if burst.Some? then burst.value else requests)
  {
    Rule(requests, period, if burst.Some? then burst.value else requests)
  }

  datatype Bucket = Bucket(capacity: int, tokens: real, rate: real, lastRefill: real)

  const GlobalCapacity: int := 1000
  const GlobalRate: real := 100.0
  const ExpireAfterSeconds: real := 3600.0

  function DefaultRules(): map<string, Rule>
  {
    map[
      "auth.token_create" := MakeRule(10, 300, None),
      "auth.token_refresh" := MakeRule(20, 300, None),
      "stream.play" := MakeRule(30, 60, None),
      "stream.stop" := MakeRule(60, 60, None),
      "stream.status" := MakeRule(120, 60, None),
      "favorites.read" := MakeRule(100, 60, None),
      "favorites.write" := MakeRule(20, 60, None),
      "favorites.delete" := MakeRule(10, 60, None),
      "audio.volume" := MakeRule(60, 60, None),
      "audio.eq" := MakeRule(30, 60, None),
      "audio.info" := MakeRule(120, 60, None),
      "websocket.connect" := MakeRule(10, 60, None),
      "websocket.message" := MakeRule(300, 60, None),
      "default" := MakeRule(60, 60, None)
    ]
  }

  // -----------------------------------------------------------------------
  // The token bucket

  /** Tokens accrued since the last refill, capped at the capacity. */
  function Refill(b: Bucket, now: real): (r: Bucket)
    ensures r.capacity == b.capacity && r.rate == b.rate && r.lastRefill == now
    ensures r.tokens <= b.capacity as real
  {
    b.(tokens := MinReal(b.capacity as real, b.tokens + (now - b.lastRefill) * b.rate), lastRefill := now)
  }

  datatype Consumed = Consumed(ok: bool, bucket: Bucket)

  /** `TokenBucket.consume(n)`: refill, then take `n` tokens if there are that many. */
  function Consume(b: Bucket, n: int, now: real): (r: Consumed)
    ensures r.ok <==> Refill(b, now).tokens >= n as real
    ensures r.bucket == (if r.ok then Refill(b, now).(tokens := Refill(b, now).tokens - n as real) else Refill(b, now))
  {
    var f := Refill(b, now);
    if f.tokens >= n as real then Consumed(true, f.(tokens := f.tokens - n as real)) else Consumed(false, f)
  }

  predicate Bounded(b: Bucket)
  {
    0.0 <= b.tokens <= b.capacity as real && b.rate >= 0.0
  }

  /** With the clock not running backwards and a non-negative request, the
      tokens stay within [0, capacity]. */
  lemma ConsumeKeepsBounds(b: Bucket, n: int, now: real)
    requires Bounded(b) && b.lastRefill <= now && n >= 0
    ensures Bounded(Consume(b, n, now).bucket)
  {
    MulNonNeg(now - b.lastRefill, b.rate);
  }

  /** `time_until_available(n)`; None where the source divides by a zero rate. */
  function TimeUntilAvailable(b: Bucket, n: int): (r: Option<real>)
    ensures b.tokens >= n as real ==> r == Some(0.0)
    ensures b.tokens < n as real ==> (r.None? <==> b.rate == 0.0)
    ensures r.Some? ==> r.value >= 0.0 || b.rate < 0.0
  {
    if b.tokens >= n as real then Some(0.0)
    else if b.rate == 0.0 then None
    else
      var needed := n as real - b.tokens;
      if b.rate > 0.0 then DivPositive(needed, b.rate); Some(needed / b.rate)
      else Some(needed / b.rate)
  }

  lemma DivPositive(x: real, y: real)
    requires x > 0.0 && y > 0.0
    ensures x / y > 0.0
  {
  }

  /** Waiting the reported time is exactly enough: after it the bucket holds
      the requested tokens (when the request fits the capacity at all). */
  lemma WaitIsEnough(b: Bucket, n: int)
    requires Bounded(b) && b.rate > 0.0 && b.tokens < n as real && n <= b.capacity
    ensures var w := TimeUntilAvailable(b, n).value;
      w > 0.0 && Refill(b, b.lastRefill + w).tokens == n as real
  {
    var w := (n as real - b.tokens) / b.rate;
    assert w * b.rate == n as real - b.tokens;
  }

  /** A bucket for a new key: full, refilling at requests/period; None where
      the period is zero and the division raises. */
  function NewBucket(rule: Rule, now: real): (r: Option<Bucket>)
    ensures r.None? <==> rule.period == 0
    ensures r.Some? ==>
      r.value.capacity == (if rule.burst != 0 then rule.burst else rule.requests)
      && r.value.tokens == r.value.capacity as real && r.value.lastRefill == now
      && r.value.rate * (rule.period as real) == rule.requests as real
  {
    if rule.period == 0 then None
    else
      var cap := if rule.burst != 0 then rule.burst else rule.requests;
      Some(Bucket(cap, cap as real, (rule.requests as real) / (rule.period as real), now))
  }

  // -----------------------------------------------------------------------
  // Keys and rules

  /** `f"{rule_name}:{key}"`. */
  function BucketKey(ruleName: string, key: string): string
  {
    ruleName + ":" + key
  }

  /** `rules.get(name, rules["default"])`. */
  function RuleFor(rules: map<string, Rule>, name: string): Rule
    requires "default" in rules
  {
    if name in rules then rules[name] else rules["default"]
  }

  /** `reset_rate_limit(key)` resets every bucket whose name ends in ":key":
      the key's bucket under every rule, and also the bucket of every longer
      key that ends in ":key", whoever it belongs to. */
  lemma ResetReachesLongerKeys(rule: string, prefix: string, key: string)
    ensures EndsWith(BucketKey(rule, key), ":" + key)
    ensures EndsWith(BucketKey(rule, prefix + ":" + key), ":" + key)
  {
    assert BucketKey(rule, key) == (rule) + (":" + key);
    assert BucketKey(rule, prefix + ":" + key) == (rule + ":" + prefix) + (":" + key);
  }

  /** The dict `get_rate_limit_status` returns: the figures, or the error
      entry of its exception handler. */
  datatype StatusReport =
    | LimitStatus(limit: int, remaining: int, resetTime: real, period: int)
    | StatusFailed

  datatype CheckInfo =
    | GlobalLimited(retryAfter: real)
    | Allowed(remaining: int, limit: int, resetTime: real)
    | Limited(retryAfter: real, rule: string, key: string)
    | CheckFailed

  function ResetBucket(b: Bucket, now: real): Bucket
  {
    b.(tokens := b.capacity as real, lastRefill := now)
  }

  /** The buckets after resetting the selected keys among `done`. */
  function ResetAmong(m: map<string, Bucket>, done: set<string>, selected: string -> bool, now: real)
    : (r: map<string, Bucket>)
    ensures r.Keys == m.Keys
  {
    map k | k in m :: if k in done && selected(k) then ResetBucket(m[k], now) else m[k]
  }

  lemma ResetAmongStep(m: map<string, Bucket>, done: set<string>, k: string, selected: string -> bool, now: real)
    requires k in m
    ensures ResetAmong(m, done + {k}, selected, now)
      == ResetAmong(m, done, selected, now)[k := if selected(k) then ResetBucket(m[k], now) else m[k]]
  {
  }

  /** Refills the selected buckets, one key at a time. */
  method ResetBuckets(m: map<string, Bucket>, selected: string -> bool, now: real) returns (r: map<string, Bucket>)
    ensures r == ResetAmong(m, m.Keys, selected, now)
  {
    var todo := m.Keys;
    r := m;
    while todo != {}
      invariant todo <= m.Keys
      invariant r == ResetAmong(m, m.Keys - todo, selected, now)
      decreases |todo|
    {
      assert (forall h :: h !in todo) ==> todo == {};
      var k :| k in todo;
      ResetAmongStep(m, m.Keys - todo, k, selected, now);
      if selected(k) {
        r := r[k := ResetBucket(m[k], now)];
      } else {
        r := r[k := m[k]];
      }
      assert m.Keys - (todo - {k}) == (m.Keys - todo) + {k};
      todo := todo - {k};
    }
  }

  // -----------------------------------------------------------------------
  // The limiter

  class RateLimiter {
    var rules: map<string, Rule>
    var buckets: map<string, Bucket>
    var global: Bucket

    ghost predicate Valid()
      reads this
    {
      "default" in rules && global.rate == GlobalRate && global.capacity == GlobalCapacity
    }

    constructor (now: real)
      ensures Valid()
      ensures rules == DefaultRules() && buckets == map[]
      ensures global == Bucket(GlobalCapacity, GlobalCapacity as real, GlobalRate, now)
    {
      rules := DefaultRules();
      buckets := map[];
      global := Bucket(GlobalCapacity, GlobalCapacity as real, GlobalRate, now);
    }

    /** The bucket a check for `key` under `ruleName` works on: the stored
        one, or a new one (None where creating it divides by zero). */
    function KeyBucket(ruleName: string, key: string, now: real): Option<Bucket>
      reads this
      requires "default" in rules
    {
      var bk := BucketKey(ruleName, key);
      if bk in buckets then Some(buckets[bk]) else NewBucket(RuleFor(rules, ruleName), now)
    }

    /** `check_rate_limit`: the global bucket first; a global refusal
        touches no per-key bucket. An exception (a zero period or rate)
        lets the request through. */
    method CheckRateLimit(key: string, ruleName: string, n: int, now: real)
      returns (allowed: bool, info: CheckInfo)
      requires Valid()
      modifies this
      ensures Valid() && rules == old(rules)
      ensures global == Consume(old(global), n, now).bucket
      ensures !Consume(old(global), n, now).ok ==>
        !allowed && info == GlobalLimited(TimeUntilAvailable(global, n).value) && buckets == old(buckets)
      ensures Consume(old(global), n, now).ok && old(KeyBucket(ruleName, key, now)).None? ==>
        allowed && info == CheckFailed && buckets == old(buckets)
      ensures Consume(old(global), n, now).ok && old(KeyBucket(ruleName, key, now)).Some? ==>
        var c := Consume(old(KeyBucket(ruleName, key, now)).value, n, now);
        buckets == old(buckets)[BucketKey(ruleName, key) := c.bucket]
        && (allowed <==> c.ok || c.bucket.rate == 0.0)
        && (!allowed ==> info == Limited(TimeUntilAvailable(c.bucket, n).value, ruleName, key))
        && (c.ok && c.bucket.rate != 0.0 ==> info == Allowed(TruncToInt(c.bucket.tokens), c.bucket.capacity,
              now + (c.bucket.capacity as real - c.bucket.tokens) / c.bucket.rate))
    {
      var g := Consume(global, n, now);
      global := g.bucket;
      if !g.ok {
        return false, GlobalLimited(TimeUntilAvailable(global, n).value);
      }
      var bk := BucketKey(ruleName, key);
      if bk !in buckets {
        var created := NewBucket(RuleFor(rules, ruleName), now);
        if created.None? {
          return true, CheckFailed;
        }
        buckets := buckets[bk := created.value];
      }
      var c := Consume(buckets[bk], n, now);
      buckets := buckets[bk := c.bucket];
      if c.ok {
        if c.bucket.rate == 0.0 {
          return true, CheckFailed;
        }
        return true, Allowed(TruncToInt(c.bucket.tokens), c.bucket.capacity,
                             now + (c.bucket.capacity as real - c.bucket.tokens) / c.bucket.rate);
      }
      var wait := TimeUntilAvailable(c.bucket, n);
      if wait.None? {
        return true, CheckFailed;
      }
      return false, Limited(wait.value, ruleName, key);
    }

    /** `reset_rate_limit`: one rule's bucket, or with no rule name every
        bucket whose name ends in ":key", is refilled to capacity. */
    method ResetRateLimit(key: string, ruleName: Option<string>, now: real) returns (ok: bool)
      modifies this
      ensures ok && rules == old(rules) && global == old(global)
      ensures ruleName.Some? && ruleName.value != [] ==>
        var bk := BucketKey(ruleName.value, key);
        buckets == if bk in old(buckets) then old(buckets)[bk := ResetBucket(old(buckets)[bk], now)] else old(buckets)
      ensures !(ruleName.Some? && ruleName.value != []) ==>
        buckets == ResetAmong(old(buckets), old(buckets).Keys, k => EndsWith(k, ":" + key), now)
    {
      if ruleName.Some? && ruleName.value != [] {
        var bk := BucketKey(ruleName.value, key);
        if bk in buckets {
          buckets := buckets[bk := ResetBucket(buckets[bk], now)];
        }
      } else {
        buckets := ResetBuckets(buckets, k => EndsWith(k, ":" + key), now);
      }
      ok := true;
    }

    /** `get_rate_limit_status`: an unknown key reports its rule's limits;
        a known one is refilled first (a zero-token consume). A known bucket
        that refills at rate 0 divides by zero computing its reset time, and
        the error dict comes back (with the refill already stored). */
    method RateLimitStatus(key: string, ruleName: string, now: real) returns (r: StatusReport)
      requires Valid()
      modifies this
      ensures Valid() && rules == old(rules) && global == old(global)
      ensures BucketKey(ruleName, key) !in old(buckets) ==>
        buckets == old(buckets)
        && r == LimitStatus(RuleFor(rules, ruleName).requests, RuleFor(rules, ruleName).requests,
                            now + RuleFor(rules, ruleName).period as real, RuleFor(rules, ruleName).period)
      ensures BucketKey(ruleName, key) in old(buckets) ==>
        var b := Refill(old(buckets)[BucketKey(ruleName, key)], now);
        && buckets == old(buckets)[BucketKey(ruleName, key) := b]
        && (b.rate == 0.0 ==> r == StatusFailed)
        && (b.rate != 0.0 ==> r == LimitStatus(b.capacity, TruncToInt(b.tokens),
                                               now + (b.capacity as real - b.tokens) / b.rate, RuleFor(rules, ruleName).period))
    {
      var rule := RuleFor(rules, ruleName);
      var bk := BucketKey(ruleName, key);
      if bk !in buckets {
        return LimitStatus(rule.requests, rule.requests, now + rule.period as real, rule.period);
      }
      var c := Consume(buckets[bk], 0, now);
      buckets := buckets[bk := c.bucket];
      if c.bucket.rate == 0.0 {
        return StatusFailed;
      }
      r := LimitStatus(c.bucket.capacity, TruncToInt(c.bucket.tokens),
                       now + (c.bucket.capacity as real - c.bucket.tokens) / c.bucket.rate, rule.period);
    }

    /** One pass of the cleanup task: buckets idle for over an hour go. */
    method CleanupExpiredBuckets(now: real)
      modifies this
      ensures buckets == KeysWithout(old(buckets), k => k in old(buckets) && now - old(buckets)[k].lastRefill > ExpireAfterSeconds)
      ensures rules == old(rules) && global == old(global)
    {
      var m := buckets;
      buckets := DeleteKeys(m, k => k in m && now - m[k].lastRefill > ExpireAfterSeconds);
    }

    method AddRule(name: string, rule: Rule) returns (ok: bool)
      requires Valid()
      modifies this
      ensures Valid() && ok
      ensures rules == old(rules)[name := rule] && buckets == old(buckets) && global == old(global)
    {
      rules := rules[name := rule];
      ok := true;
    }

    /** `remove_rule`: refused for "default" and unknown names; otherwise the
        rule and every bucket named "name:..." are dropped. */
    method RemoveRule(name: string) returns (ok: bool)
      requires Valid()
      modifies this
      ensures Valid() && global == old(global)
      ensures ok <==> name in old(rules) && name != "default"
      ensures ok ==>
        rules == old(rules) - {name} && buckets == KeysWithout(old(buckets), k => StartsWith(k, name + ":"))
      ensures !ok ==> rules == old(rules) && buckets == old(buckets)
    {
      if name !in rules || name == "default" {
        return false;
      }
      rules := rules - {name};
      buckets := DeleteKeys(buckets, k => StartsWith(k, name + ":"));
      ok := true;
    }

    /** `get_statistics`. */
    function Statistics(): (r: (nat, int, int, nat))
      reads this
      ensures r.0 == |buckets.Keys| && r.1 == TruncToInt(global.tokens) && r.2 == global.capacity
      ensures r.3 == |rules.Keys|
    {
      (|buckets.Keys|, TruncToInt(global.tokens), global.capacity, |rules.Keys|)
    }
  }

  /** A rule allowing zero requests never limits anyone: its bucket starts
      empty with a zero rate, so the refusal's wait time divides by zero and
      the request is let through. */
  lemma ZeroRequestRuleFailsOpen(rule: Rule, now: real, n: int)
    requires rule.requests == 0 && rule.burst == 0 && rule.period > 0 && n > 0
    ensures var b := NewBucket(rule, now).value;
      b.rate == 0.0 && !Consume(b, n, now).ok && Consume(b, n, now).bucket.rate == 0.0
  {
    var b := NewBucket(rule, now).value;
    assert b.rate * (rule.period as real) == 0.0;
  }

  /** The status of a key's bucket is the error dict exactly when its rule
      allows zero requests: the bucket's rate is requests/period and stays
      the same through every refill. */
  lemma StatusFailsIffZeroRequests(rule: Rule, now: real, later: real)
    requires rule.period > 0
    ensures Refill(NewBucket(rule, now).value, later).rate == 0.0 <==> rule.requests == 0
  {
    var b := NewBucket(rule, now).value;
    assert b.rate * (rule.period as real) == rule.requests as real;
    if b.rate == 0.0 {
      assert rule.requests as real == 0.0;
    }
  }
}

=== FILE: recovery_manager.dfy ===
/** The automated recovery manager (monitoring/recovery_manager.py):
    per guild and issue kind it counts recovery attempts, refuses a fourth
    attempt until an hour has passed since the last one, waits an
    exponential backoff before retries, forgets the count on success and
    keeps a bounded history of results. */
module Recovery {
  import opened Util

  datatype IssueType =
    | StreamDisconnect | StateDesync | VoiceClientLost
    | StreamUnavailable | PermissionError | UnknownError

  /** The string key "guild_id:issue_type"; a pair is equally injective. */
  datatype AttemptKey = AttemptKey(guild: int, issue: IssueType)

  datatype RecoveryResult = RecoveryResult(
    guild: int, issue: IssueType, success: bool, attemptNumber: nat, timestamp: real)

  const MaxAttempts: nat := 3
  const MaxBackoff: real := 300.0
  const ResetAttemptsAfter: real := 3600.0
  const MaxHistoryItems: nat := 1000

  function CountOf(attempts: map<AttemptKey, nat>, k: AttemptKey): nat
  {
    if k in attempts then attempts[k] else 0
  }

  /** `can_attempt_recovery`: under the cap, or the cap was reached more than
      an hour after the last attempt (then the counter is reset first). */
  predicate CanAttempt(attempts: map<AttemptKey, nat>, last: map<AttemptKey, real>,
                       k: AttemptKey, now: real)
  {
    CountOf(attempts, k) < MaxAttempts
    || (k in last && now - last[k] >= ResetAttemptsAfter)
  }

  /** The attempt counter that a permitted attempt starts from. */
  function BaseCount(attempts: map<AttemptKey, nat>, k: AttemptKey): nat
  {
    if CountOf(attempts, k) >= MaxAttempts then 0 else CountOf(attempts, k)
  }

  /** The delay before attempt number `attempt`: none for the first one,
      then 2^(n-1) seconds, never more than five minutes. */
  function BackoffDelay(attempt: nat): (d: real)
    ensures attempt <= 1 ==> d == 0.0
    ensures 0.0 <= d <= MaxBackoff
    ensures attempt > 1 ==> d >= 2.0
  {
    if attempt <= 1 then 0.0
    else MinReal(Pow2(attempt - 1) as real, MaxBackoff)
  }

  /** Later attempts never wait less. */
  lemma BackoffMonotone(a: nat, b: nat)
    requires a <= b
    ensures BackoffDelay(a) <= BackoffDelay(b)
  {
    if a > 1 {
      Pow2Monotone(a - 1, b - 1);
    }
  }

  /** The counters after one call of `attempt_recovery` whose issue handler
      reported `recovered`. */
  function AttemptsAfter(attempts: map<AttemptKey, nat>, last: map<AttemptKey, real>,
                         k: AttemptKey, now: real, recovered: bool): map<AttemptKey, nat>
  {
    if !CanAttempt(attempts, last, k, now) then attempts
    else if recovered then attempts - {k}
    else attempts[k := BaseCount(attempts, k) + 1]
  }

  /** A refused attempt leaves the counter as it was; a permitted, failed one
      raises it by exactly one (from zero after an hourly reset); a success
      forgets it. */
  lemma AttemptsAfterCounts(attempts: map<AttemptKey, nat>, last: map<AttemptKey, real>,
                            k: AttemptKey, now: real, recovered: bool)
    ensures var a := AttemptsAfter(attempts, last, k, now, recovered);
      && (!CanAttempt(attempts, last, k, now) ==> a == attempts)
      && (CanAttempt(attempts, last, k, now) && recovered ==> k !in a)
      && (CountOf(attempts, k) < MaxAttempts && !recovered ==> CountOf(a, k) == CountOf(attempts, k) + 1)
      && (CanAttempt(attempts, last, k, now) && CountOf(attempts, k) >= MaxAttempts && !recovered ==> CountOf(a, k) == 1)
  {
  }

  /** Counters of distinct (guild, issue) keys never affect each other. */
  lemma AttemptsIndependent(attempts: map<AttemptKey, nat>, last: map<AttemptKey, real>,
                            k: AttemptKey, other: AttemptKey, now: real, recovered: bool)
    requires other != k
    ensures CountOf(AttemptsAfter(attempts, last, k, now, recovered), other) == CountOf(attempts, other)
  {
  }

  /** Without a success, at most three permitted attempts happen inside any
      hour: a key at the cap whose last attempt is recent is refused. */
  lemma CapHolds(attempts: map<AttemptKey, nat>, last: map<AttemptKey, real>, k: AttemptKey, now: real)
    requires CountOf(attempts, k) >= MaxAttempts
    requires k in last && now - last[k] < ResetAttemptsAfter
    ensures !CanAttempt(attempts, last, k, now)
    ensures AttemptsAfter(attempts, last, k, now, false) == attempts
  {
  }

  /** Summary of `get_recovery_stats`; success rates are fractions. */
  datatype RecoveryStats = RecoveryStats(
    totalAttempts: nat, successfulAttempts: nat, successRate: real,
    recentAttempts: nat, recentSuccessful: nat, recentSuccessRate: real)

  function SuccessCount(h: seq<RecoveryResult>): (n: nat)
    ensures n <= |h|
  {
    Count(h, (r: RecoveryResult) => r.success)
  }

  /** One more result adds one success exactly when it succeeded. */
  lemma {:induction false} SuccessCountAppend(h: seq<RecoveryResult>, r: RecoveryResult)
    ensures SuccessCount(h + [r]) == SuccessCount(h) + (if r.success then 1 else 0)
  {
    if h != [] {
      assert (h + [r])[1..] == h[1..] + [r];
      SuccessCountAppend(h[1..], r);
    }
  }

  /** The results of the last 24 hours (86400 s before `now` or later), in order. */
  function Recent(h: seq<RecoveryResult>, now: real): (r: seq<RecoveryResult>)
    ensures |r| <= |h|
    ensures forall i :: 0 <= i < |r| ==> r[i] in h && r[i].timestamp >= now - 86400.0
    ensures forall i :: 0 <= i < |h| && h[i].timestamp >= now - 86400.0 ==> h[i] in r
  {
    Filter(h, (x: RecoveryResult) => x.timestamp >= now - 86400.0)
  }

  /** A history lying wholly inside the window is its own recent part. */
  lemma {:induction false} RecentOfFreshHistory(h: seq<RecoveryResult>, now: real)
    requires forall i :: 0 <= i < |h| ==> h[i].timestamp >= now - 86400.0
    ensures Recent(h, now) == h
  {
    if h != [] {
      RecentOfFreshHistory(h[1..], now);
    }
  }

  function Rate(part: nat, whole: nat): (r: real)
    requires part <= whole
    ensures 0.0 <= r <= 1.0
    ensures whole == 0 ==> r == 0.0
    ensures whole > 0 ==> r * whole as real == part as real
  {
    if whole == 0 then 0.0 else part as real / whole as real
  }

  /** `get_recovery_stats`: counts over the whole history and its last 24
      hours, each rate being successes over attempts (0 when there are none). */
  function Stats(h: seq<RecoveryResult>, now: real): (s: RecoveryStats)
    ensures s.totalAttempts == |h| && s.successfulAttempts == SuccessCount(h)
    ensures s.recentAttempts == |Recent(h, now)| && s.recentSuccessful == SuccessCount(Recent(h, now))
    ensures s.successfulAttempts <= s.totalAttempts && s.recentSuccessful <= s.recentAttempts
    ensures s.recentAttempts <= s.totalAttempts
    ensures s.successRate == Rate(s.successfulAttempts, s.totalAttempts)
    ensures s.recentSuccessRate == Rate(s.recentSuccessful, s.recentAttempts)
    ensures h == [] ==> s == RecoveryStats(0, 0, 0.0, 0, 0, 0.0)
  {
    var recent := Recent(h, now);
    RecoveryStats(|h|, SuccessCount(h), Rate(SuccessCount(h), |h|),
                  |recent|, SuccessCount(recent), Rate(SuccessCount(recent), |recent|))
  }

  /** When every result is under 24 hours old the recent figures are the
      overall ones. */
  lemma FreshHistoryStats(h: seq<RecoveryResult>, now: real)
    requires forall i :: 0 <= i < |h| ==> h[i].timestamp >= now - 86400.0
    ensures var s := Stats(h, now);
      s.recentAttempts == s.totalAttempts && s.recentSuccessful == s.successfulAttempts
      && s.recentSuccessRate == s.successRate
  {
    RecentOfFreshHistory(h, now);
  }

  class RecoveryManager {
    var attempts: map<AttemptKey, nat>
    var lastAttemptTimes: map<AttemptKey, real>
    var history: seq<RecoveryResult>

    ghost predicate Valid()
      reads this
    {
      |history| <= MaxHistoryItems && attempts.Keys == lastAttemptTimes.Keys
    }

    constructor ()
      ensures Valid() && attempts == map[] && lastAttemptTimes == map[] && history == []
    {
      attempts := map[];
      lastAttemptTimes := map[];
      history := [];
    }

    /** `_add_to_history`: append, then keep the newest 1000. */
    method AddToHistory(r: RecoveryResult)
      requires Valid()
      modifies this
      ensures Valid()
      ensures history == KeepLast(old(history) + [r], MaxHistoryItems)
      ensures history[|history| - 1] == r
      ensures attempts == old(attempts) && lastAttemptTimes == old(lastAttemptTimes)
    {
      history := history + [r];
      if |history| > MaxHistoryItems {
        history := history[|history| - MaxHistoryItems..];
      }
    }

    /** `reset_recovery_attempts`: forget the counter and the last attempt time. */
    method ResetRecoveryAttempts(guild: int, issue: IssueType)
      requires Valid()
      modifies this
      ensures Valid()
      ensures attempts == old(attempts) - {AttemptKey(guild, issue)}
      ensures lastAttemptTimes == old(lastAttemptTimes) - {AttemptKey(guild, issue)}
      ensures history == old(history)
    {
      var k := AttemptKey(guild, issue);
      if k in attempts {
        attempts := attempts - {k};
      }
      if k in lastAttemptTimes {
        lastAttemptTimes := lastAttemptTimes - {k};
      }
    }

    /** `can_attempt_recovery` at time `now`; resets an expired counter. */
    method CanAttemptRecovery(guild: int, issue: IssueType, now: real) returns (ok: bool)
      requires Valid()
      modifies this
      ensures Valid()
      ensures ok == CanAttempt(old(attempts), old(lastAttemptTimes), AttemptKey(guild, issue), now)
      ensures var k := AttemptKey(guild, issue);
        if ok && CountOf(old(attempts), k) >= MaxAttempts
        then attempts == old(attempts) - {k} && lastAttemptTimes == old(lastAttemptTimes) - {k}
        else attempts == old(attempts) && lastAttemptTimes == old(lastAttemptTimes)
      ensures history == old(history)
    {
      var k := AttemptKey(guild, issue);
      var current := if k in attempts then attempts[k] else 0;
      if current >= MaxAttempts {
        if k in lastAttemptTimes {
          if now - lastAttemptTimes[k] >= ResetAttemptsAfter {
            ResetRecoveryAttempts(guild, issue);
            return true;
          }
        }
        return false;
      }
      return true;
    }

    /** `attempt_recovery` at time `now`. The issue-specific handler talks to
        Discord and the network, so its verdict is the parameter `recovered`;
        `delay` is the backoff slept before the handler runs. */
    method AttemptRecovery(guild: int, issue: IssueType, now: real, recovered: bool)
      returns (result: RecoveryResult, delay: real)
      requires Valid()
      modifies this
      ensures Valid()
      ensures var k := AttemptKey(guild, issue);
        attempts == AttemptsAfter(old(attempts), old(lastAttemptTimes), k, now, recovered)
      ensures var k := AttemptKey(guild, issue);
        !CanAttempt(old(attempts), old(lastAttemptTimes), k, now) ==>
          && result == RecoveryResult(guild, issue, false, CountOf(old(attempts), k), now)
          && lastAttemptTimes == old(lastAttemptTimes) && delay == 0.0
      ensures var k := AttemptKey(guild, issue);
        CanAttempt(old(attempts), old(lastAttemptTimes), k, now) ==>
          && result == RecoveryResult(guild, issue, recovered, BaseCount(old(attempts), k) + 1, now)
          && delay == BackoffDelay(BaseCount(old(attempts), k) + 1)
      ensures var k := AttemptKey(guild, issue);
        CanAttempt(old(attempts), old(lastAttemptTimes), k, now) ==>
          lastAttemptTimes == (if recovered then old(lastAttemptTimes) - {k}
                               else old(lastAttemptTimes)[k := now])
      ensures history == KeepLast(old(history) + [result], MaxHistoryItems)
    {
      var k := AttemptKey(guild, issue);
      ghost var a0, l0 := attempts, lastAttemptTimes;
      delay := 0.0;
      var can := CanAttemptRecovery(guild, issue, now);
      if !can {
        result := RecoveryResult(guild, issue, false, CountOf(attempts, k), now);
        AddToHistory(result);
        return;
      }
      ghost var a1, l1 := attempts, lastAttemptTimes;
      assert CountOf(a1, k) == BaseCount(a0, k);
      assert a1 - {k} == a0 - {k} && l1 - {k} == l0 - {k};
      var current := CountAttempt(guild, issue, now, recovered);
      if recovered {
        assert attempts == a0 - {k} && lastAttemptTimes == l0 - {k};
      } else {
        SameUpdate(a1, a0, k, current);
        SameUpdate(l1, l0, k, now);
        assert attempts == a0[k := current] && lastAttemptTimes == l0[k := now];
      }
      assert attempts == AttemptsAfter(a0, l0, k, now, recovered);
      if current > 1 {
        delay := BackoffDelay(current);
      }
      result := RecoveryResult(guild, issue, recovered, current, now);
      AddToHistory(result);
    }

    /** The bookkeeping of a permitted attempt: the counter goes up by one and
        the time is stamped, and both are forgotten at once on a success. */
    method CountAttempt(guild: int, issue: IssueType, now: real, recovered: bool) returns (current: nat)
      requires Valid()
      modifies this
      ensures Valid()
      ensures current == CountOf(old(attempts), AttemptKey(guild, issue)) + 1
      ensures recovered ==> attempts == old(attempts) - {AttemptKey(guild, issue)}
                            && lastAttemptTimes == old(lastAttemptTimes) - {AttemptKey(guild, issue)}
      ensures !recovered ==> attempts == old(attempts)[AttemptKey(guild, issue) := current]
                             && lastAttemptTimes == old(lastAttemptTimes)[AttemptKey(guild, issue) := now]
      ensures history == old(history)
    {
      var k := AttemptKey(guild, issue);
      current := CountOf(attempts, k) + 1;
      attempts := attempts[k := current];
      lastAttemptTimes := lastAttemptTimes[k := now];
      if recovered {
        ResetRecoveryAttempts(guild, issue);
        assert attempts == old(attempts) - {k};
        assert lastAttemptTimes == old(lastAttemptTimes) - {k};
      }
    }

    /** `get_recovery_history(guild_id, hours)`. */
    method GetRecoveryHistory(guild: int, hours: int, now: real) returns (rs: seq<RecoveryResult>)
      ensures forall i :: 0 <= i < |rs| ==> rs[i] in history && rs[i].guild == guild
                                            && rs[i].timestamp >= now - hours as real * 3600.0
      ensures forall i :: (0 <= i < |history| && history[i].guild == guild
                           && history[i].timestamp >= now - hours as real * 3600.0) ==> history[i] in rs
    {
      rs := Filter(history, (r: RecoveryResult) => r.guild == guild && r.timestamp >= now - hours as real * 3600.0);
    }
  }
}

=== FILE: request_models.dfy ===
/** The validators of the Second Life bridge's request payloads: each field
    validator either returns the (possibly normalised) value or raises
    ValueError with a message, and a request model collects the messages of
    every failing field, in field order. */
module RequestModels {
  import opened Util

  // ---------------------------------------------------------------------
  // Field validators

  predicate HasHttpScheme(v: string)
  {
    StartsWith(v, "http://") || StartsWith(v, "https://")
  }

  /** The check shared by the stream URL fields: not blank, starting with
      http:// or https:// before stripping, returned stripped. `field` names
      the field in the messages. */
  function CheckUrl(v: string, field: string): (r: Result<string, string>)
    ensures r.Ok? <==> Strip(v) != "" && HasHttpScheme(v)
    ensures Strip(v) == "" ==> r == Err(field + " cannot be empty")
    ensures Strip(v) != "" && !HasHttpScheme(v) ==> r == Err(field + " must start with http:// or https://")
    ensures r.Ok? ==> r.value == Strip(v)
  {
    if v == "" || Strip(v) == "" then Err(field + " cannot be empty")
    else if !HasHttpScheme(v) then Err(field + " must start with http:// or https://")
    else Ok(Strip(v))
  }

  /** Stripping a URL that passed keeps its scheme: the scheme has no
      whitespace to lose. */
  lemma StrippedUrlKeepsScheme(v: string, field: string)
    requires CheckUrl(v, field).Ok?
    ensures HasHttpScheme(CheckUrl(v, field).value)
  {
    SchemesAreWords();
    if StartsWith(v, "http://") {
      StripKeepsWord(v, "http://");
    } else {
      StripKeepsWord(v, "https://");
    }
  }

  /** Both schemes begin and end with a non-space. */
  lemma SchemesAreWords()
    ensures !IsSpace("http://"[0]) && !IsSpace("http://"[6])
    ensures !IsSpace("https://"[0]) && !IsSpace("https://"[7])
  {
  }

  /** Stripping never cuts into a prefix that begins and ends with a
      non-space. */
  lemma StripKeepsWord(v: string, p: string)
    requires StartsWith(v, p) && p != [] && !IsSpace(p[0]) && !IsSpace(p[|p| - 1])
    ensures StartsWith(Strip(v), p)
  {
    assert v[0] == v[..|p|][0] == p[0];
    assert TrimLeft(v) == v;
    TrimRightKeepsWord(v, p);
  }

  /** Trimming the right never cuts into a prefix that ends in a
      non-space. */
  lemma {:induction false} TrimRightKeepsWord(v: string, p: string)
    requires StartsWith(v, p) && p != [] && !IsSpace(p[|p| - 1])
    ensures StartsWith(TrimRight(v), p)
    decreases |v|
  {
    if v != [] && IsSpace(v[|v| - 1]) {
      assert |v| > |p|;
      assert v[..|v| - 1][..|p|] == v[..|p|];
      TrimRightKeepsWord(v[..|v| - 1], p);
    }
  }

  /** A URL with leading whitespace is refused even though its stripped
      form would pass: the scheme is checked before stripping. */
  lemma LeadingSpaceRefused(v: string, field: string)
    requires v != [] && v[0] == ' '
    ensures CheckUrl(v, field).Err?
  {
  }

  function ValidateUrl(v: string): Result<string, string>
  {
    CheckUrl(v, "URL")
  }

  const AllowedActions: seq<string> := ["stop", "pause", "resume", "refresh"]

  /** `validate_action`: matched without regard to case, returned
      lowercased. */
  function ValidateAction(v: string): (r: Result<string, string>)
    ensures r.Ok? <==> Lower(v) in AllowedActions
    ensures r.Ok? ==> r.value == Lower(v)
  {
    if Lower(v) !in AllowedActions then Err("Action must be one of: ['stop', 'pause', 'resume', 'refresh']")
    else Ok(Lower(v))
  }

  /** A validated action validates to itself. */
  lemma ValidateActionIdempotent(v: string)
    requires ValidateAction(v).Ok?
    ensures ValidateAction(ValidateAction(v).value) == ValidateAction(v)
  {
    LowerIdempotent(v);
  }

  function ValidateVolume(v: real): (r: Result<real, string>)
    ensures r.Ok? <==> 0.0 <= v <= 1.0
    ensures r.Ok? ==> r.value == v
  {
    if !(0.0 <= v <= 1.0) then Err("Volume must be between 0.0 and 1.0") else Ok(v)
  }

  /** `validate_eq_values` (bass, mid and treble): absent, or within 12 dB
      either way. */
  function ValidateEqValue(v: Option<real>): (r: Result<Option<real>, string>)
    ensures r.Ok? <==> v.None? || -12.0 <= v.value <= 12.0
    ensures r.Ok? ==> r.value == v
  {
    if v.Some? && !(-12.0 <= v.value <= 12.0) then Err("EQ values must be between -12.0 and 12.0 dB") else Ok(v)
  }

  const AllowedPresets: seq<string> :=
    ["flat", "rock", "pop", "jazz", "classical", "electronic", "bass_boost", "treble_boost", "vocal"]

  const PresetError: string :=
    "Preset must be one of: ['flat', 'rock', 'pop', 'jazz', 'classical', 'electronic', 'bass_boost', 'treble_boost', 'vocal']"

  /** `validate_preset`: absent, or one of the nine presets in any case,
      returned lowercased. */
  function ValidatePreset(v: Option<string>): (r: Result<Option<string>, string>)
    ensures v.None? ==> r == Ok(None)
    ensures v.Some? ==> (r.Ok? <==> Lower(v.value) in AllowedPresets)
    ensures v.Some? && r.Ok? ==> r.value == Some(Lower(v.value))
  {
    if v.None? then Ok(None)
    else if Lower(v.value) !in AllowedPresets then Err(PresetError)
    else Ok(Some(Lower(v.value)))
  }

  /** `validate_favorite_number`, shared by the three favorite requests. */
  function ValidateFavoriteNumber(n: int): (r: Result<int, string>)
    ensures r.Ok? <==> 1 <= n <= 99
    ensures r.Ok? ==> r.value == n
  {
    if !(1 <= n <= 99) then Err("Favorite number must be between 1 and 99") else Ok(n)
  }

  /** `validate_station_name`: not blank, returned stripped. */
  function ValidateStationName(v: string): (r: Result<string, string>)
    ensures r.Ok? <==> Strip(v) != ""
    ensures r.Ok? ==> r.value == Strip(v) && r.value != [] && !IsSpace(r.value[0]) && !IsSpace(r.value[|r.value| - 1])
  {
    if v == "" || Strip(v) == "" then Err("Station name cannot be empty") else Ok(Strip(v))
  }

  function ValidateStreamUrl(v: string): Result<string, string>
  {
    CheckUrl(v, "Stream URL")
  }

  const AllowedEvents: seq<string> :=
    ["stream_started", "stream_stopped", "stream_changed", "volume_changed", "eq_changed",
     "favorite_added", "favorite_removed", "audio_config_changed"]

  const AllowedEventsText: string :=
    "['stream_started', 'stream_stopped', 'stream_changed', 'volume_changed', 'eq_changed', 'favorite_added', 'favorite_removed', 'audio_config_changed']"

  function EventNotAllowed(e: string): string
  {
    "Event \"" + e + "\" not allowed. Must be one of: " + AllowedEventsText
  }

  /** `validate_events`: every event must be allowed; the first one that is
      not is named in the error. */
  method ValidateEvents(events: seq<string>) returns (r: Result<seq<string>, string>)
    ensures r.Ok? <==> forall i :: 0 <= i < |events| ==> events[i] in AllowedEvents
    ensures r.Ok? ==> r.value == events
    ensures r.Err? ==> exists i :: (0 <= i < |events| && events[i] !in AllowedEvents
      && r.error == EventNotAllowed(events[i]) && forall j :: 0 <= j < i ==> events[j] in AllowedEvents)
  {
    var i := 0;
    while i < |events|
      invariant 0 <= i <= |events|
      invariant forall j :: 0 <= j < i ==> events[j] in AllowedEvents
    {
      if events[i] !in AllowedEvents {
        return Err(EventNotAllowed(events[i]));
      }
      i := i + 1;
    }
    return Ok(events);
  }

  // ---------------------------------------------------------------------
  // Request models

  /** The error messages of the failing fields, in field order. */
  function Errors<T>(r: Result<T, string>): seq<string>
  {
    if r.Err? then [r.error] else []
  }

  datatype StreamPlayRequest = StreamPlayRequest(url: string, guildId: int, channelId: Option<int>)

  function NewStreamPlayRequest(url: string, guildId: int, channelId: Option<int>): (r: Result<StreamPlayRequest, seq<string>>)
    ensures r.Ok? <==> ValidateUrl(url).Ok?
    ensures r.Ok? ==> r.value == StreamPlayRequest(Strip(url), guildId, channelId)
  {
    var u := ValidateUrl(url);
    if u.Err? then Err([u.error]) else Ok(StreamPlayRequest(u.value, guildId, channelId))
  }

  datatype EqRequest = EqRequest(bass: Option<real>, mid: Option<real>, treble: Option<real>,
                                 preset: Option<string>, guildId: int)

  /** `EQRequest`: each of bass, mid, treble and preset is checked, and
      every failure is reported. */
  function NewEqRequest(bass: Option<real>, mid: Option<real>, treble: Option<real>,
                        preset: Option<string>, guildId: int): (r: Result<EqRequest, seq<string>>)
    ensures r.Ok? <==> ValidateEqValue(bass).Ok? && ValidateEqValue(mid).Ok? && ValidateEqValue(treble).Ok?
                       && ValidatePreset(preset).Ok?
    ensures r.Err? ==> 1 <= |r.error| <= 4
    ensures r.Ok? ==> r.value.preset == (if preset.Some? then Some(Lower(preset.value)) else None)
    ensures r.Ok? ==> r.value == EqRequest(bass, mid, treble, r.value.preset, guildId)
  {
    var b, m, t, p := ValidateEqValue(bass), ValidateEqValue(mid), ValidateEqValue(treble), ValidatePreset(preset);
    var errors := Errors(b) + Errors(m) + Errors(t) + Errors(p);
    if errors != [] then Err(errors) else Ok(EqRequest(b.value, m.value, t.value, p.value, guildId))
  }

  datatype FavoriteRequest = FavoriteRequest(number: int, stationName: string, streamUrl: string,
                                             guildId: int, category: Option<string>)

  /** `FavoriteRequest`: number, station name and stream URL are checked,
      and every failure is reported. */
  function NewFavoriteRequest(number: int, stationName: string, streamUrl: string, guildId: int,
                              category: Option<string>): (r: Result<FavoriteRequest, seq<string>>)
    ensures r.Ok? <==> 1 <= number <= 99 && Strip(stationName) != "" && ValidateStreamUrl(streamUrl).Ok?
    ensures r.Err? ==> 1 <= |r.error| <= 3
    ensures r.Ok? ==> r.value == FavoriteRequest(number, Strip(stationName), Strip(streamUrl), guildId, category)
  {
    var n, s, u := ValidateFavoriteNumber(number), ValidateStationName(stationName), ValidateStreamUrl(streamUrl);
    var errors := Errors(n) + Errors(s) + Errors(u);
    if errors != [] then Err(errors) else Ok(FavoriteRequest(n.value, s.value, u.value, guildId, category))
  }

  /** A request to add a favorite is refused for the slot number alone
      exactly when the number is outside 1 to 99. */
  lemma FavoriteNumberOnlyError(number: int, stationName: string, streamUrl: string, guildId: int,
                                category: Option<string>)
    requires Strip(stationName) != "" && ValidateStreamUrl(streamUrl).Ok?
    requires !(1 <= number <= 99)
    ensures NewFavoriteRequest(number, stationName, streamUrl, guildId, category)
      == Err(["Favorite number must be between 1 and 99"])
  {
    var n, s, u := ValidateFavoriteNumber(number), ValidateStationName(stationName), ValidateStreamUrl(streamUrl);
    assert Errors(n) + Errors(s) + Errors(u) == ["Favorite number must be between 1 and 99"] by {
      assert s.Ok? && u.Ok?;
    }
  }
}

=== FILE: response_formatter.dfy ===
/** The Second Life response formatter: responses are dictionaries whose
    strings are truncated, whose common keys are shortened and whose size
    is kept within the 2048-byte limit of an LSL HTTP response.

    Dictionaries keep their insertion order, so an object is a sequence of
    fields; assigning to a present key replaces its value in place. The
    length of the compact JSON text of a response is a parameter (`size`). */
module ResponseFormatting {
  import opened Util

  datatype Json =
    | JNull
    | JBool(b: bool)
    | JInt(i: int)
    | JReal(r: real)
    | JStr(s: string)
    /** A `datetime` object; `text` is what `str()` makes of it. It is not
        JSON-serializable. */
    | JTime(text: string)
    | JList(items: seq<Json>)
    | JObj(fields: seq<Field>)

  datatype Field = Field(key: string, value: Json)

  const MaxResponseSize: nat := 2048
  const MaxStringLength: nat := 200
  const ListLimit: nat := 10
  const FavoritesLimit: nat := 20
  const TotalDisplayLimit: int := 99

  // ---------------------------------------------------------------------
  // Objects as ordered fields

  /** The keys in order. */
  function Keys(fs: seq<Field>): (r: seq<string>)
    ensures |r| == |fs| && forall i :: 0 <= i < |fs| ==> r[i] == fs[i].key
  {
    seq(|fs|, i requires 0 <= i < |fs| => fs[i].key)
  }

  predicate DistinctKeys(fs: seq<Field>)
  {
    forall i, j :: 0 <= i < j < |fs| ==> fs[i].key != fs[j].key
  }

  /** The value stored under `k`, as `dict.get`. */
  function Get(fs: seq<Field>, k: string): (r: Option<Json>)
    ensures r.None? <==> k !in Keys(fs)
    ensures r.Some? ==> exists i :: 0 <= i < |fs| && fs[i] == Field(k, r.value)
  {
    if fs == [] then None
    else if fs[0].key == k then Some(fs[0].value)
    else Get(fs[1..], k)
  }

  /** `d[k] = v`: a present key keeps its place, a new key goes last. */
  function Put(fs: seq<Field>, k: string, v: Json): (r: seq<Field>)
    ensures |r| == if k in Keys(fs) then |fs| else |fs| + 1
    ensures forall i :: 0 <= i < |fs| ==> r[i].key == fs[i].key
    ensures k !in Keys(fs) ==> r[|fs|] == Field(k, v)
    ensures forall i :: 0 <= i < |fs| && fs[i].key != k ==> r[i] == fs[i]
  {
    if fs == [] then [Field(k, v)]
    else if fs[0].key == k then [Field(k, v)] + fs[1..]
    else [fs[0]] + Put(fs[1..], k, v)
  }

  lemma KeysCons(f: Field, t: seq<Field>)
    ensures Keys([f] + t) == [f.key] + Keys(t)
  {
  }

  /** `del d[k]`. */
  function Remove(fs: seq<Field>, k: string): (r: seq<Field>)
    ensures forall x :: x in Keys(r) <==> x in Keys(fs) && x != k
  {
    if fs == [] then []
    else
      assert fs == [fs[0]] + fs[1..];
      KeysCons(fs[0], fs[1..]);
      if fs[0].key == k then Remove(fs[1..], k)
      else
        KeysCons(fs[0], Remove(fs[1..], k));
        [fs[0]] + Remove(fs[1..], k)
  }

  /** Assigning adds the key, and only it, and keeps the keys distinct. */
  lemma PutKeys(fs: seq<Field>, k: string, v: Json)
    ensures forall x :: x in Keys(Put(fs, k, v)) <==> x in Keys(fs) || x == k
    ensures DistinctKeys(fs) ==> DistinctKeys(Put(fs, k, v))
  {
    if k in Keys(fs) {
      PutPresent(fs, k, v);
    } else {
      PutAbsent(fs, k, v);
      if DistinctKeys(fs) {
        var r := Put(fs, k, v);
        forall i, j | 0 <= i < j < |r|
          ensures r[i].key != r[j].key
        {
          if j == |fs| {
            assert Keys(fs)[i] == r[i].key;
          }
        }
      }
    }
  }

  /** Assigning to an absent key appends it to the keys. */
  lemma PutAbsent(fs: seq<Field>, k: string, v: Json)
    requires k !in Keys(fs)
    ensures Keys(Put(fs, k, v)) == Keys(fs) + [k]
  {
    var r := Put(fs, k, v);
    var ks := Keys(fs) + [k];
    var n := |fs|;
    assert |r| == n + 1 == |ks|;
    assert r[n] == Field(k, v);
    forall i | 0 <= i < |r|
      ensures Keys(r)[i] == ks[i]
    {
      if i < n {
        assert r[i].key == fs[i].key;
      }
    }
  }

  /** Assigning to a present key keeps the keys and every other field. */
  lemma PutPresent(fs: seq<Field>, k: string, v: Json)
    requires k in Keys(fs)
    ensures Keys(Put(fs, k, v)) == Keys(fs)
    ensures forall i :: 0 <= i < |fs| && fs[i].key != k ==> Put(fs, k, v)[i] == fs[i]
  {
    var r := Put(fs, k, v);
    assert |Keys(r)| == |Keys(fs)|;
    forall i | 0 <= i < |fs|
      ensures Keys(r)[i] == Keys(fs)[i]
    {
    }
  }

  /** A dictionary filled by assigning the pairs in order. */
  function FromPairs(ps: seq<Field>): seq<Field>
  {
    if ps == [] then [] else Put(FromPairs(ps[..|ps| - 1]), ps[|ps| - 1].key, ps[|ps| - 1].value)
  }

  /** Its keys are those of the pairs, each once. */
  lemma {:induction false} FromPairsKeys(ps: seq<Field>)
    ensures DistinctKeys(FromPairs(ps))
    ensures forall k :: k in Keys(FromPairs(ps)) <==> k in Keys(ps)
  {
    if ps != [] {
      var init, last := ps[..|ps| - 1], ps[|ps| - 1];
      FromPairsKeys(init);
      var built := FromPairs(init);
      assert FromPairs(ps) == Put(built, last.key, last.value);
      PutKeys(built, last.key, last.value);
      forall k
        ensures k in Keys(FromPairs(ps)) <==> k in Keys(ps)
      {
        KeysOfInit(ps, k);
      }
    }
  }

  /** A key of the pairs is a key of all but the last pair, or the last one's. */
  lemma KeysOfInit(ps: seq<Field>, k: string)
    requires ps != []
    ensures k in Keys(ps) <==> k in Keys(ps[..|ps| - 1]) || k == ps[|ps| - 1].key
  {
    var init := ps[..|ps| - 1];
    if k in Keys(ps) {
      var j :| 0 <= j < |ps| && Keys(ps)[j] == k;
      if j < |init| {
        assert Keys(init)[j] == k;
      }
    }
    if k in Keys(init) {
      var j :| 0 <= j < |init| && Keys(init)[j] == k;
      assert Keys(ps)[j] == k;
    }
    if k == ps[|ps| - 1].key {
      assert Keys(ps)[|ps| - 1] == k;
    }
  }

  /** Every field after an assignment is the assigned one or an old one. */
  lemma {:induction false} PutProvenance(fs: seq<Field>, k: string, v: Json)
    ensures forall f :: f in Put(fs, k, v) ==> f == Field(k, v) || f in fs
  {
    if fs != [] && fs[0].key != k {
      PutProvenance(fs[1..], k, v);
      assert Put(fs, k, v) == [fs[0]] + Put(fs[1..], k, v);
      forall f | f in Put(fs, k, v) && f != Field(k, v)
        ensures f in fs
      {
        if f != fs[0] {
          assert f in fs[1..];
        }
      }
    }
  }

  /** Every field of it is one of the pairs. */
  lemma {:induction false} FromPairsProvenance(ps: seq<Field>)
    ensures forall f :: f in FromPairs(ps) ==> f in ps
  {
    if ps != [] {
      var init := ps[..|ps| - 1];
      FromPairsProvenance(init);
      PutProvenance(FromPairs(init), ps[|ps| - 1].key, ps[|ps| - 1].value);
      forall f | f in FromPairs(ps)
        ensures f in ps
      {
        if f != ps[|ps| - 1] {
          assert f in FromPairs(init);
          assert f in init;
        }
      }
    }
  }

  // ---------------------------------------------------------------------
  // `_truncate_string`

  /** The effective limit: a missing or zero `max_length` means 200. */
  function Limit(maxLength: Option<int>): int
  {
    if maxLength.None? || maxLength.value == 0 then MaxStringLength else maxLength.value
  }

  function TruncateString(text: string, maxLength: Option<int>): (r: string)
    ensures text == "" ==> r == ""
    ensures |text| <= Limit(maxLength) ==> r == text
    ensures Limit(maxLength) >= 3 && |text| > Limit(maxLength) ==>
      |r| == Limit(maxLength) && r == text[..Limit(maxLength) - 3] + "..."
    ensures Limit(maxLength) >= 3 ==> |r| <= Limit(maxLength)
  {
    if text == "" then ""
    else if |text| <= Limit(maxLength) then text
    else PyPrefix(text, Limit(maxLength) - 3) + "..."
  }

  /** Truncating twice with the same (sensible) limit truncates once. */
  lemma TruncateIdempotent(text: string, maxLength: Option<int>)
    requires Limit(maxLength) >= 3
    ensures TruncateString(TruncateString(text, maxLength), maxLength) == TruncateString(text, maxLength)
  {
  }

  /** A truncated string keeps the text's beginning. */
  lemma TruncateKeepsPrefix(text: string, maxLength: Option<int>)
    requires Limit(maxLength) >= 3
    ensures var r := TruncateString(text, maxLength);
      r == text || (EndsWith(r, "...") && r[..|r| - 3] <= text)
  {
    var r := TruncateString(text, maxLength);
    if r != text {
      assert r[|r| - 3..] == "...";
      assert r[..|r| - 3] == text[..Limit(maxLength) - 3];
    }
  }

  // ---------------------------------------------------------------------
  // `_shorten_key`

  const KeyMapping: map<string, string> := map[
    "favorite_number" := "num", "station_name" := "name", "stream_url" := "url",
    "current_song" := "song", "guild_id" := "guild", "timestamp" := "time",
    "is_playing" := "playing", "connected_users" := "users", "voice_channel_id" := "channel"]

  function ShortenKey(key: string): string
  {
    if key in KeyMapping then KeyMapping[key] else key
  }

  /** Only the nine listed keys change, and each becomes shorter. */
  lemma ShortenKeyShortens(key: string)
    ensures |ShortenKey(key)| <= |key|
    ensures ShortenKey(key) != key <==> key in KeyMapping
  {
  }

  /** The mapping is not injective on all keys: a dictionary holding both
      "guild_id" and "guild" loses one of them when optimized. */
  lemma ShortenKeyCollides()
    ensures ShortenKey("guild_id") == ShortenKey("guild")
  {
  }

  /** No shortened key is "timestamp". */
  lemma TimestampIsNeverAShortKey(key: string)
    ensures ShortenKey(key) != "timestamp"
  {
  }

  // ---------------------------------------------------------------------
  // `_optimize_data`

  /** The text `str()` gives for a value that is neither a string, a
      number, a dictionary nor a list. */
  function StrOf(v: Json): string
  {
    match v
    case JTime(text) => text
    case _ => "None"
  }

  /** One value of `_optimize_data`'s loop; in a list, only the first ten
      items are kept, of which dictionaries are optimized. */
  function OptimizeValue(v: Json): Json
    decreases v, 1
  {
    match v
    case JStr(s) => JStr(TruncateString(s, None))
    case JInt(_) => v
    case JReal(_) => v
    case JBool(_) => v
    case JObj(fs) => JObj(FromPairs(OptimizedPairs(fs)))
    case JList(items) =>
      JList(seq(MinInt(|items|, ListLimit), j requires 0 <= j < MinInt(|items|, ListLimit) =>
        if items[j].JObj? then JObj(FromPairs(OptimizedPairs(items[j].fields))) else items[j]))
    case _ => JStr(TruncateString(StrOf(v), None))
  }

  /** What the loop of `_optimize_data` assigns, in order: each value,
      optimized, under its shortened key. */
  function OptimizedPairs(fs: seq<Field>): (r: seq<Field>)
    ensures |r| == |fs|
    decreases JObj(fs), 0
  {
    seq(|fs|, i requires 0 <= i < |fs| => Field(ShortenKey(fs[i].key), OptimizeValue(fs[i].value)))
  }

  /** `_optimize_data`: the keys are the shortened keys of the input, each
      once, and every field holds an optimized input value. */
  function OptimizeData(fs: seq<Field>): (r: seq<Field>)
    ensures DistinctKeys(r)
    ensures forall k :: k in Keys(r) <==> exists i :: 0 <= i < |fs| && k == ShortenKey(fs[i].key)
    ensures forall f :: f in r ==>
      exists i :: 0 <= i < |fs| && f == Field(ShortenKey(fs[i].key), OptimizeValue(fs[i].value))
  {
    var ps := OptimizedPairs(fs);
    FromPairsKeys(ps);
    FromPairsProvenance(ps);
    assert forall i :: 0 <= i < |ps| ==> Keys(ps)[i] == ShortenKey(fs[i].key);
    FromPairs(ps)
  }

  /** What `_optimize_data` guarantees: no string longer than 200
      characters directly in a dictionary and no list longer than ten items,
      through every level of dictionaries. */
  predicate WithinLimits(v: Json)
  {
    match v
    case JStr(s) => |s| <= MaxStringLength
    case JList(items) => |items| <= ListLimit && forall i :: 0 <= i < |items| && items[i].JObj? ==> WithinLimits(items[i])
    case JObj(fs) => forall i :: 0 <= i < |fs| ==> WithinLimits(fs[i].value)
    case _ => true
  }

  /** The optimized value is within the limits, at every depth. */
  lemma {:induction false} OptimizeValueWithinLimits(v: Json)
    ensures WithinLimits(OptimizeValue(v))
    decreases v, 1
  {
    match v
    case JObj(fs) => OptimizedPairsWithinLimits(fs);
    case JList(items) =>
      var r := OptimizeValue(v).items;
      forall j | 0 <= j < |r| && r[j].JObj?
        ensures WithinLimits(r[j])
      {
        if items[j].JObj? {
          OptimizedPairsWithinLimits(items[j].fields);
        }
      }
    case _ =>
  }

  /** The dictionary built from optimized pairs is within the limits. */
  lemma {:induction false} OptimizedPairsWithinLimits(fs: seq<Field>)
    ensures WithinLimits(JObj(FromPairs(OptimizedPairs(fs))))
    decreases JObj(fs), 0
  {
    var ps := OptimizedPairs(fs);
    var r := FromPairs(ps);
    FromPairsProvenance(ps);
    forall j | 0 <= j < |r|
      ensures WithinLimits(r[j].value)
    {
      assert r[j] in ps;
      var i :| 0 <= i < |ps| && ps[i] == r[j];
      OptimizeValueWithinLimits(fs[i].value);
    }
  }

  /** A missing value (None) is sent as the text "None". */
  lemma NoneBecomesText(k: string)
    ensures OptimizeData([Field(k, JNull)]) == [Field(ShortenKey(k), JStr("None"))]
  {
    var fs := [Field(k, JNull)];
    assert OptimizeValue(JNull) == JStr("None");
    var ps := OptimizedPairs(fs);
    assert ps == [Field(ShortenKey(k), JStr("None"))];
    assert ps[..0] == [];
    assert FromPairs(ps) == Put(FromPairs([]), ShortenKey(k), JStr("None"));
  }

  // ---------------------------------------------------------------------
  // `_ensure_size_limit`

  /** Fields dropped from the data, least important first. */
  const RemovalOrder: seq<string> := ["timestamp", "details", "metadata", "description", "category"]

  /** A `datetime` anywhere inside, which `json.dumps` cannot serialize. */
  predicate HasDatetime(v: Json)
  {
    match v
    case JTime(_) => true
    case JList(items) => exists i :: 0 <= i < |items| && HasDatetime(items[i])
    case JObj(fs) => exists i :: 0 <= i < |fs| && HasDatetime(fs[i].value)
    case _ => false
  }

  /** Optimizing never introduces a `datetime` (it turns one held directly
      in a dictionary into text). */
  lemma {:induction false} OptimizeValueNoDatetime(v: Json)
    requires !HasDatetime(v)
    ensures !HasDatetime(OptimizeValue(v))
    decreases v, 1
  {
    match v
    case JObj(fs) => OptimizedPairsNoDatetime(fs);
    case JList(items) =>
      var r := OptimizeValue(v).items;
      forall j | 0 <= j < |r|
        ensures !HasDatetime(r[j])
      {
        if items[j].JObj? {
          OptimizedPairsNoDatetime(items[j].fields);
        }
      }
    case _ =>
  }

  lemma {:induction false} OptimizedPairsNoDatetime(fs: seq<Field>)
    requires !HasDatetime(JObj(fs))
    ensures !HasDatetime(JObj(FromPairs(OptimizedPairs(fs))))
    decreases JObj(fs), 0
  {
    var ps := OptimizedPairs(fs);
    var r := FromPairs(ps);
    FromPairsProvenance(ps);
    forall j | 0 <= j < |r|
      ensures !HasDatetime(r[j].value)
    {
      assert r[j] in ps;
      var i :| 0 <= i < |ps| && ps[i] == r[j];
      OptimizeValueNoDatetime(fs[i].value);
    }
  }

  /** The reply when serializing raised. */
  function SizeFailed(): seq<Field>
  {
    [Field("success", JBool(false)), Field("error", JStr("Size optimization failed"))]
  }

  /** The last resort: success flag, message cut to 50 characters, note. */
  function Minimal(response: seq<Field>): seq<Field>
  {
    var success := match Get(response, "success") case Some(v) => v case None => JBool(false);
    var message := match Get(response, "message") case Some(JStr(m)) => m case _ => "";
    [Field("success", success), Field("message", JStr(TruncateString(message, Some(50)))),
     Field("error", JStr("Response truncated for SL"))]
  }

  /** The aggressive step: strings longer than 20 keep 15 characters. */
  function ShortenValue(v: Json): (r: Json)
    ensures r.JStr? ==> |r.s| <= 20
    ensures v.JStr? && |v.s| <= 20 ==> r == v
    ensures !v.JStr? ==> r == v
  {
    if v.JStr? && |v.s| > 20 then JStr(v.s[..15] + "...") else v
  }

  /** The aggressive truncation loop over the data's fields. */
  method ShortenLongStrings(data: seq<Field>) returns (r: seq<Field>)
    ensures Keys(r) == Keys(data)
    ensures forall i :: 0 <= i < |r| ==> r[i].value == ShortenValue(data[i].value)
  {
    r := data;
    var i := 0;
    while i < |r|
      invariant |r| == |data| && 0 <= i <= |r|
      invariant forall j :: 0 <= j < |r| ==> r[j].key == data[j].key
      invariant forall j :: 0 <= j < i ==> r[j].value == ShortenValue(data[j].value)
      invariant forall j :: i <= j < |r| ==> r[j] == data[j]
    {
      r := r[i := Field(r[i].key, ShortenValue(r[i].value))];
      i := i + 1;
    }
  }

  /** One step of the removal loop: the data field takes its new value and
      every other field stays as it was in the original response. */
  method ReplaceData(resp: seq<Field>, response: seq<Field>, v: Json) returns (r: seq<Field>)
    requires "data" in Keys(resp) && Keys(resp) == Keys(response)
    requires forall j :: 0 <= j < |resp| && resp[j].key != "data" ==> resp[j] == response[j]
    ensures Keys(r) == Keys(response)
    ensures forall j :: 0 <= j < |r| && r[j].key != "data" ==> r[j] == response[j]
  {
    PutPresent(resp, "data", v);
    r := Put(resp, "data", v);
  }

  /** The removal loop of `_ensure_size_limit`: the fields of the removal
      order present in the data are dropped one by one, and the loop stops
      as soon as the response fits. */
  method DropUntilFits(response: seq<Field>, data: seq<Field>, size: seq<Field> -> nat)
    returns (resp: seq<Field>, rest: seq<Field>, fits: bool)
    requires "data" in Keys(response)
    ensures Keys(resp) == Keys(response)
    ensures forall j :: 0 <= j < |resp| && resp[j].key != "data" ==> resp[j] == response[j]
    ensures fits ==> size(resp) <= MaxResponseSize
    ensures !fits ==> forall f :: f in RemovalOrder ==> f !in Keys(rest)
    ensures forall x :: x in Keys(rest) ==> x in Keys(data)
  {
    resp, rest, fits := response, data, false;
    var i := 0;
    while i < |RemovalOrder|
      invariant 0 <= i <= |RemovalOrder|
      invariant Keys(resp) == Keys(response)
      invariant forall j :: 0 <= j < |resp| && resp[j].key != "data" ==> resp[j] == response[j]
      invariant forall j :: 0 <= j < i ==> RemovalOrder[j] !in Keys(rest)
      invariant forall x :: x in Keys(rest) ==> x in Keys(data)
    {
      var f := RemovalOrder[i];
      if f in Keys(rest) {
        rest := Remove(rest, f);
        resp := ReplaceData(resp, response, JObj(rest));
        if size(resp) <= MaxResponseSize {
          return resp, rest, true;
        }
      }
      i := i + 1;
    }
  }

  /** `_ensure_size_limit`: a response that serializes within 2048 bytes is
      returned as it is; otherwise the data loses fields in removal order
      until it fits, then its long strings are shortened, and failing that
      the minimal response is returned. A response holding a `datetime`
      cannot be serialized at all. */
  method EnsureSizeLimit(response: seq<Field>, size: seq<Field> -> nat) returns (r: seq<Field>)
    ensures HasDatetime(JObj(response)) ==> r == SizeFailed()
    ensures !HasDatetime(JObj(response)) && size(response) <= MaxResponseSize ==> r == response
    ensures !HasDatetime(JObj(response)) ==> size(r) <= MaxResponseSize || r == Minimal(response)
    ensures !HasDatetime(JObj(response)) && r != Minimal(response) ==>
      Keys(r) == Keys(response) && forall i :: 0 <= i < |r| && r[i].key != "data" ==> r[i] == response[i]
  {
    if HasDatetime(JObj(response)) {
      return SizeFailed();
    }
    if size(response) <= MaxResponseSize {
      return response;
    }
    var d := Get(response, "data");
    if d.Some? && d.value.JObj? {
      var resp, data, fits := DropUntilFits(response, d.value.fields, size);
      if fits {
        return resp;
      }
      data := ShortenLongStrings(data);
      PutPresent(resp, "data", JObj(data));
      resp := Put(resp, "data", JObj(data));
      if size(resp) <= MaxResponseSize {
        return resp;
      }
    }
    r := Minimal(response);
  }

  /** The dictionary of an `SLResponse`, with the timestamp as the value
      given. */
  function SuccessResponse(message: string, data: seq<Field>, stamp: Json): seq<Field>
  {
    [Field("success", JBool(true)),
     Field("message", JStr(TruncateString(message, None))),
     Field("data", if data == [] then JNull else JObj(OptimizeData(data))),
     Field("timestamp", stamp)]
  }

  /** `format_success` as written: `.dict()` leaves the timestamp a
      `datetime`, which `json.dumps` rejects, so every response becomes the
      size-failure reply. */
  method FormatSuccessAsWritten(message: string, data: seq<Field>, now: string, size: seq<Field> -> nat)
    returns (r: seq<Field>)
    ensures r == SizeFailed()
    ensures Get(r, "success") == Some(JBool(false))
  {
    var response := SuccessResponse(message, data, JTime(now));
    assert HasDatetime(response[3].value);
    r := EnsureSizeLimit(response, size);
  }

  /** `format_success` with the timestamp serialized as its ISO text, as the
      response model's encoder intends: a response that fits is returned
      unchanged and reports success. */
  method FormatSuccess(message: string, data: seq<Field>, nowIso: string, size: seq<Field> -> nat)
    returns (r: seq<Field>)
    ensures var response := SuccessResponse(message, data, JStr(nowIso));
      !HasDatetime(JObj(data)) && size(response) <= MaxResponseSize ==>
        r == response && Get(r, "success") == Some(JBool(true))
    ensures var response := SuccessResponse(message, data, JStr(nowIso));
      !HasDatetime(JObj(data)) ==> size(r) <= MaxResponseSize || r == Minimal(response)
  {
    var response := SuccessResponse(message, data, JStr(nowIso));
    if !HasDatetime(JObj(data)) {
      NoDatetimeInSuccess(message, data, nowIso);
    }
    r := EnsureSizeLimit(response, size);
  }

  lemma NoDatetimeInSuccess(message: string, data: seq<Field>, nowIso: string)
    requires !HasDatetime(JObj(data))
    ensures !HasDatetime(JObj(SuccessResponse(message, data, JStr(nowIso))))
  {
    var resp := SuccessResponse(message, data, JStr(nowIso));
    if data != [] {
      OptimizedPairsNoDatetime(data);
      assert resp[2].value == JObj(FromPairs(OptimizedPairs(data)));
    }
    forall i | 0 <= i < |resp|
      ensures !HasDatetime(resp[i].value)
    {
    }
  }

  // ---------------------------------------------------------------------
  // `format_favorites_list`

  /** A favorite as passed in; a missing or None entry is None. */
  datatype FavoriteIn = FavoriteIn(number: Option<int>, stationName: Option<string>,
                                   streamUrl: Option<string>, category: Option<string>)

  function TextOr(s: Option<string>): string { if s.Some? then s.value else "" }

  /** One listed favorite: number, name cut to 30, URL cut to 80, and a
      category cut to 15 when one is present. */
  function SlFavorite(f: FavoriteIn): (r: seq<Field>)
    ensures |r| == 3 || |r| == 4
    ensures r[1].value.JStr? && |r[1].value.s| <= 30 && r[2].value.JStr? && |r[2].value.s| <= 80
    ensures |r| == 4 <==> TextOr(f.category) != ""
  {
    [Field("num", if f.number.Some? then JInt(f.number.value) else JNull),
     Field("name", JStr(TruncateString(TextOr(f.stationName), Some(30)))),
     Field("url", JStr(TruncateString(TextOr(f.streamUrl), Some(80))))]
    + (if TextOr(f.category) != "" then [Field("cat", JStr(TruncateString(f.category.value, Some(15))))] else [])
  }

  /** A listed favorite holds numbers and text only. */
  lemma SlFavoriteNoDatetime(f: FavoriteIn)
    ensures !HasDatetime(JObj(SlFavorite(f)))
  {
    var r := SlFavorite(f);
    forall i | 0 <= i < |r|
      ensures !HasDatetime(r[i].value)
    {
    }
  }

  /** The data of the favorites reply. */
  function FavoritesData(listed: seq<seq<Field>>, total: int, guild: int): seq<Field>
  {
    [Field("favorites", JList(seq(|listed|, i requires 0 <= i < |listed| => JObj(listed[i])))),
     Field("total", JInt(total)), Field("guild_id", JInt(guild))]
  }

  lemma FavoritesDataNoDatetime(favorites: seq<FavoriteIn>, listed: seq<seq<Field>>, total: int, guild: int)
    requires |listed| <= |favorites|
    requires forall i :: 0 <= i < |listed| ==> listed[i] == SlFavorite(favorites[i])
    ensures !HasDatetime(JObj(FavoritesData(listed, total, guild)))
  {
    var data := FavoritesData(listed, total, guild);
    var items := data[0].value.items;
    forall i | 0 <= i < |items|
      ensures !HasDatetime(items[i])
    {
      SlFavoriteNoDatetime(favorites[i]);
    }
    forall i | 0 <= i < |data|
      ensures !HasDatetime(data[i].value)
    {
    }
  }

  /** The listing loop: the first twenty favorites, in order. */
  method ListFavorites(favorites: seq<FavoriteIn>) returns (listed: seq<seq<Field>>)
    ensures |listed| == MinInt(|favorites|, FavoritesLimit)
    ensures forall i :: 0 <= i < |listed| ==> listed[i] == SlFavorite(favorites[i])
  {
    listed := [];
    var i := 0;
    var n := MinInt(|favorites|, FavoritesLimit);
    while i < n
      invariant 0 <= i <= n && |listed| == i
      invariant forall j :: 0 <= j < i ==> listed[j] == SlFavorite(favorites[j])
    {
      listed := listed + [SlFavorite(favorites[i])];
      i := i + 1;
    }
  }

  /** `format_favorites_list` as written: it ends in `format_success`, so
      whatever the favorites, the reply is the size-failure response. */
  method FormatFavoritesListAsWritten(favorites: seq<FavoriteIn>, totalCount: int, guild: int, now: string,
                                      size: seq<Field> -> nat)
    returns (r: seq<Field>)
    ensures r == SizeFailed()
  {
    var listed := ListFavorites(favorites);
    var data := FavoritesData(listed, MinInt(totalCount, TotalDisplayLimit), guild);
    r := FormatSuccessAsWritten("Found " + IntToString(|listed|) + " favorites", data, now, size);
  }

  /** `format_favorites_list` with the corrected `FormatSuccess`: at most
      twenty favorites in input order, the total capped at 99 for display. */
  method FormatFavoritesList(favorites: seq<FavoriteIn>, totalCount: int, guild: int, nowIso: string,
                             size: seq<Field> -> nat)
    returns (listed: seq<seq<Field>>, total: int, r: seq<Field>)
    ensures |listed| == MinInt(|favorites|, FavoritesLimit)
    ensures forall i :: 0 <= i < |listed| ==> listed[i] == SlFavorite(favorites[i])
    ensures total == MinInt(totalCount, TotalDisplayLimit) && total <= TotalDisplayLimit
    ensures var data := FavoritesData(listed, total, guild);
      var response := SuccessResponse("Found " + IntToString(|listed|) + " favorites", data, JStr(nowIso));
      size(response) <= MaxResponseSize ==> r == response
  {
    listed := ListFavorites(favorites);
    total := MinInt(totalCount, TotalDisplayLimit);
    var data := FavoritesData(listed, total, guild);
    FavoritesDataNoDatetime(favorites, listed, total, guild);
    r := FormatSuccess("Found " + IntToString(|listed|) + " favorites", data, nowIso, size);
  }
}

=== FILE: service_registry.dfy ===
/** The attribute table of the dependency-injection registry
    (core/service_registry.py), as far as the services that receive a
    registry look things up on it: a lookup of a name the registry does not
    have raises AttributeError. Registration and resolution themselves are
    not part of this model. */
module Registry {
  /** The attributes a `ServiceRegistry` instance has: the three fields its
      `__init__` sets and the methods of the class. */
  const Attributes: set<string> := {
    "_services", "_resolving", "_lock",
    "register", "register_instance", "get", "get_optional", "is_registered",
    "configure_service", "get_registered_services", "_resolve_service",
    "_create_from_factory", "_create_from_type", "_analyze_dependencies", "_is_abstract"
  }

  /** How a constructor's lookups on the registry end: every name found, or
      the AttributeError of the first name that is missing. */
  datatype Wiring = Wired | AttributeError(name: string)

  /** The position of the first name the registry lacks, or the length when
      it has them all. */
  function FirstMissing(names: seq<string>): (i: nat)
    ensures i <= |names|
    ensures forall j :: 0 <= j < i ==> names[j] in Attributes
    ensures i < |names| ==> names[i] !in Attributes
  {
    if names == [] then 0
    else if names[0] !in Attributes then 0
    else 1 + FirstMissing(names[1..])
  }

  /** The lookups `service_registry.<name>(...)` made one after the other:
      the first missing name raises, and nothing after it runs. */
  function Wire(names: seq<string>): (r: Wiring)
    ensures r.Wired? <==> forall i :: 0 <= i < |names| ==> names[i] in Attributes
    ensures r.AttributeError? ==> exists i :: 0 <= i < |names| && r.name == names[i] && names[i] !in Attributes
  {
    var i := FirstMissing(names);
    if i == |names| then Wired else AttributeError(names[i])
  }
}

=== FILE: sl_state_sync.dfy ===
/** State sync towards Second Life: per-guild sets of SL connection ids,
    and a queue of pending sync messages, at most one per guild and state
    type, flushed to the guild's connections by a periodic task. */
module SlStateSync {
  import opened Util
  import opened Values
  import opened Synchronizer

  datatype SyncMessage = SyncMessage(stateType: string, guild: int, data: Record, timestamp: string)

  /** `f"{guild_id}:{state_type}"`. */
  function SyncKey(guild: int, stateType: string): string
  {
    IntToString(guild) + ":" + stateType
  }

  /** One pending slot per guild and state type. */
  lemma SyncKeyInjective(g1: int, t1: string, g2: int, t2: string)
    ensures SyncKey(g1, t1) == SyncKey(g2, t2) <==> g1 == g2 && t1 == t2
  {
    if SyncKey(g1, t1) == SyncKey(g2, t2) {
      IntToStringChars(g1);
      IntToStringChars(g2);
      SplitAtFirst(IntToString(g1), t1, IntToString(g2), t2, ':');
      IntToStringInjective(g1, g2);
    }
  }

  /** `data.get(key)`. */
  function Get(data: Record, key: string): Value
  {
    if key in data then data[key] else VNone
  }

  /** A truthy integer guild id from an event's data. */
  function GuildOf(data: Record): (r: Option<int>)
    ensures r.Some? <==> "guild_id" in data && data["guild_id"].VInt? && data["guild_id"].i != 0
  {
    if "guild_id" in data && data["guild_id"].VInt? && data["guild_id"].i != 0 then Some(data["guild_id"].i) else None
  }

  /** The state record a stream event is reduced to. */
  function StreamStateData(event: string, data: Record): (r: Record)
    ensures r.Keys == {"is_playing", "current_song", "station_name", "stream_url", "event"}
    ensures r["is_playing"] == (if "is_playing" in data then data["is_playing"] else VBool(false))
    ensures r["event"] == VStr(event)
  {
    map["is_playing" := (if "is_playing" in data then data["is_playing"] else VBool(false)),
        "current_song" := Get(data, "current_song"), "station_name" := Get(data, "station_name"),
        "stream_url" := Get(data, "stream_url"), "event" := VStr(event)]
  }

  function AudioStateData(event: string, data: Record): (r: Record)
    ensures r.Keys == {"volume", "bass", "mid", "treble", "event"}
    ensures forall k :: k in r && k != "event" ==> r[k] == Get(data, k)
  {
    map["volume" := Get(data, "volume"), "bass" := Get(data, "bass"), "mid" := Get(data, "mid"),
        "treble" := Get(data, "treble"), "event" := VStr(event)]
  }

  function FavoritesStateData(event: string, data: Record): (r: Record)
    ensures r.Keys == {"favorite_number", "station_name", "stream_url", "event"}
    ensures forall k :: k in r && k != "event" ==> r[k] == Get(data, k)
  {
    map["favorite_number" := Get(data, "favorite_number"), "station_name" := Get(data, "station_name"),
        "stream_url" := Get(data, "stream_url"), "event" := VStr(event)]
  }

  /** The record a handler of the given state type reduces its event to. */
  function StateData(kind: string, event: string, data: Record): (r: Record)
    ensures "event" in r && r["event"] == VStr(event)
    ensures kind == "stream" ==> r == StreamStateData(event, data)
    ensures kind == "audio" ==> r == AudioStateData(event, data)
    ensures kind != "stream" && kind != "audio" ==> r == FavoritesStateData(event, data)
  {
    if kind == "stream" then StreamStateData(event, data)
    else if kind == "audio" then AudioStateData(event, data)
    else FavoritesStateData(event, data)
  }

  /** `sync_state_from_sl`: the state key written and the event emitted,
      or None while sync is disabled. */
  function SyncFromSl(enabled: bool, guild: int, stateType: string): (r: Option<(string, string)>)
    ensures r.None? <==> !enabled
    ensures r.Some? ==> StartsWith(r.value.0, "sl_sync:") && StartsWith(r.value.1, "sl_state_sync:")
    ensures r.Some? ==> EndsWith(r.value.0, ":" + stateType) && EndsWith(r.value.1, ":" + stateType)
  {
    if !enabled then None
    else
      var key := "sl_sync:" + IntToString(guild) + ":" + stateType;
      var event := "sl_state_sync:" + stateType;
      assert key[..8] == "sl_sync:" && event[..14] == "sl_state_sync:";
      assert key[|key| - |":" + stateType|..] == ":" + stateType;
      assert event[|event| - |":" + stateType|..] == ":" + stateType;
      Some((key, event))
  }

  /** `sync_state_from_sl` as written: `StateManager` has no `set_state`,
      so the first call raises, the error is logged, and neither the state
      is written nor the event emitted (the emit after it passes its
      payload positionally to the keyword-only `EventBus.emit` and would
      fail as well). */
  function SyncFromSlAsWritten(enabled: bool, guild: int, stateType: string): (r: Option<(string, string)>)
    ensures r.None?
  {
    None
  }

  /** With sync enabled, the intended call writes and emits for every guild
      and state type, and the call as written does neither. */
  lemma SyncFromSlDiscrepancy(guild: int, stateType: string)
    ensures SyncFromSl(true, guild, stateType) == Some(("sl_sync:" + IntToString(guild) + ":" + stateType, "sl_state_sync:" + stateType))
    ensures SyncFromSlAsWritten(true, guild, stateType) == None
  {
  }

  /** The messages of `keys`, in order, whose guild still has connections. */
  function Deliverable(keys: seq<string>, pending: map<string, SyncMessage>, connections: map<int, set<string>>)
    : (r: seq<SyncMessage>)
    ensures forall m :: m in r ==> m.guild in connections
    ensures |r| <= |keys|
    decreases |keys|
  {
    if keys == [] then []
    else
      (if keys[0] in pending && pending[keys[0]].guild in connections then [pending[keys[0]]] else [])
      + Deliverable(keys[1..], pending, connections)
  }

  lemma {:induction false} DeliverableAppend(keys: seq<string>, k: string, pending: map<string, SyncMessage>,
                                             connections: map<int, set<string>>)
    ensures Deliverable(keys + [k], pending, connections)
      == Deliverable(keys, pending, connections)
         + (if k in pending && pending[k].guild in connections then [pending[k]] else [])
    decreases |keys|
  {
    if keys == [] {
      assert [k][1..] == [];
    } else {
      assert (keys + [k])[1..] == keys[1..] + [k];
      DeliverableAppend(keys[1..], k, pending, connections);
    }
  }

  /** The send loop of one processing cycle. */
  method CollectDeliverable(keys: seq<string>, current: map<string, SyncMessage>, connections: map<int, set<string>>)
    returns (out: seq<SyncMessage>)
    ensures out == Deliverable(keys, current, connections)
  {
    out := [];
    var i := 0;
    while i < |keys|
      invariant 0 <= i <= |keys|
      invariant out == Deliverable(keys[..i], current, connections)
    {
      DeliverableAppend(keys[..i], keys[i], current, connections);
      assert keys[..i + 1] == keys[..i] + [keys[i]];
      if keys[i] in current && current[keys[i]].guild in connections {
        out := out + [current[keys[i]]];
      }
      i := i + 1;
    }
    assert keys[..i] == keys;
  }

  class SlStateSynchronizer {
    var connections: map<int, set<string>>
    var metadata: map<string, Record>
    var syncEnabled: bool
    var syncDelay: real
    var pending: map<string, SyncMessage>
    /** The pending keys in dictionary (first insertion) order. */
    var pendingOrder: seq<string>
    /** The messages sent to SL connections, oldest first. */
    var sent: seq<SyncMessage>

    ghost predicate Valid()
      reads this
    {
      (forall g :: g in connections ==> connections[g] != {})
      && (forall k :: k in pending <==> k in pendingOrder)
      && (forall i, j :: 0 <= i < j < |pendingOrder| ==> pendingOrder[i] != pendingOrder[j])
      && syncDelay >= 0.0
    }

    constructor ()
      ensures Valid() && connections == map[] && metadata == map[] && pending == map[] && sent == []
      ensures syncEnabled && syncDelay == 0.1
    {
      connections := map[];
      metadata := map[];
      syncEnabled := true;
      syncDelay := 0.1;
      pending := map[];
      pendingOrder := [];
      sent := [];
    }

    /** `register_sl_connection`: the id joins the guild's set, with its
        metadata (empty when none is given). */
    method RegisterConnection(guild: int, id: string, meta: Option<Record>)
      requires Valid()
      modifies this
      ensures Valid()
      ensures connections == old(connections)[guild := (if guild in old(connections) then old(connections)[guild] else {}) + {id}]
      ensures metadata == old(metadata)[id := if meta.Some? then meta.value else map[]]
      ensures pending == old(pending) && pendingOrder == old(pendingOrder) && sent == old(sent)
      ensures syncEnabled == old(syncEnabled) && syncDelay == old(syncDelay)
    {
      var s := if guild in connections then connections[guild] else {};
      connections := connections[guild := s + {id}];
      metadata := metadata[id := if meta.Some? then meta.value else map[]];
    }

    /** `unregister_sl_connection`: the id leaves the guild's set, and a
        guild left without connections is removed. */
    method UnregisterConnection(guild: int, id: string)
      requires Valid()
      modifies this
      ensures Valid()
      ensures guild in old(connections) && old(connections)[guild] - {id} == {} ==>
        connections == old(connections) - {guild}
      ensures guild in old(connections) && old(connections)[guild] - {id} != {} ==>
        connections == old(connections)[guild := old(connections)[guild] - {id}]
      ensures guild !in old(connections) ==> connections == old(connections)
      ensures metadata == old(metadata) - {id}
      ensures pending == old(pending) && pendingOrder == old(pendingOrder) && sent == old(sent)
      ensures syncEnabled == old(syncEnabled) && syncDelay == old(syncDelay)
    {
      if guild in connections {
        var s := connections[guild] - {id};
        if s == {} {
          connections := connections - {guild};
        } else {
          connections := connections[guild := s];
        }
      }
      metadata := metadata - {id};
    }

    /** `sync_state_to_sl`: nothing while disabled or for a guild without
        connections; otherwise the message takes the guild and type's slot,
        replacing an older pending one. */
    method SyncStateToSl(guild: int, stateType: string, data: Record, stamp: string)
      requires Valid()
      modifies this
      ensures Valid()
      ensures connections == old(connections) && metadata == old(metadata) && sent == old(sent)
      ensures syncEnabled == old(syncEnabled) && syncDelay == old(syncDelay)
      ensures !syncEnabled || guild !in connections ==> pending == old(pending) && pendingOrder == old(pendingOrder)
      ensures syncEnabled && guild in connections ==>
        pending == old(pending)[SyncKey(guild, stateType) := SyncMessage(stateType, guild, data, stamp)]
        && pendingOrder == old(pendingOrder) + (if SyncKey(guild, stateType) in old(pending) then [] else [SyncKey(guild, stateType)])
    {
      if !syncEnabled || guild !in connections || connections[guild] == {} {
        return;
      }
      var key := SyncKey(guild, stateType);
      if key !in pending {
        pendingOrder := pendingOrder + [key];
      }
      pending := pending[key := SyncMessage(stateType, guild, data, stamp)];
    }

    /** One cycle of `_process_sync_queue`: the queue is emptied and each
        message, in order, goes to its guild if it still has connections. */
    method ProcessSyncQueue()
      requires Valid()
      modifies this
      ensures Valid() && pending == map[] && pendingOrder == []
      ensures sent == old(sent) + Deliverable(old(pendingOrder), old(pending), connections)
      ensures connections == old(connections) && metadata == old(metadata)
      ensures syncEnabled == old(syncEnabled) && syncDelay == old(syncDelay)
    {
      var keys := pendingOrder;
      var current := pending;
      pending := map[];
      pendingOrder := [];
      var out := CollectDeliverable(keys, current, connections);
      sent := sent + out;
    }

    /** The stream, audio and favorites handlers: a truthy guild id queues
        the reduced state record under the handler's state type, as
        `SyncStateToSl` does; nothing is queued while sync is disabled or
        for a guild without connections. */
    method OnStateEvent(kind: string, event: string, data: Record, stamp: string)
      requires Valid()
      requires kind in {"stream", "audio", "favorites"}
      modifies this
      ensures Valid()
      ensures GuildOf(data).None? || !syncEnabled || GuildOf(data).value !in connections ==>
        pending == old(pending) && pendingOrder == old(pendingOrder)
      ensures GuildOf(data).Some? && syncEnabled && GuildOf(data).value in connections ==>
        var key := SyncKey(GuildOf(data).value, kind);
        && pending == old(pending)[key := SyncMessage(kind, GuildOf(data).value, StateData(kind, event, data), stamp)]
        && pendingOrder == old(pendingOrder) + (if key in old(pending) then [] else [key])
      ensures connections == old(connections) && metadata == old(metadata) && sent == old(sent)
      ensures syncEnabled == old(syncEnabled) && syncDelay == old(syncDelay)
    {
      var g := GuildOf(data);
      if g.None? {
        return;
      }
      SyncStateToSl(g.value, kind, StateData(kind, event, data), stamp);
    }

    /** `_on_connection_event`: established registers, closed unregisters,
        each only with a truthy guild and connection id. */
    method OnConnectionEvent(event: string, guild: Option<int>, id: Option<string>, meta: Option<Record>)
      requires Valid()
      modifies this
      ensures Valid()
      ensures (guild.None? || guild.value == 0 || id.None? || id.value == []
               || event !in {"sl_connection_established", "sl_connection_closed"}) ==>
        connections == old(connections) && metadata == old(metadata)
      ensures guild.Some? && guild.value != 0 && id.Some? && id.value != [] && event == "sl_connection_established" ==>
        var g := guild.value;
        && connections == old(connections)[g := (if g in old(connections) then old(connections)[g] else {}) + {id.value}]
        && metadata == old(metadata)[id.value := if meta.Some? then meta.value else map[]]
      ensures guild.Some? && guild.value != 0 && id.Some? && id.value != [] && event == "sl_connection_closed" ==>
        var g := guild.value;
        && connections == (if g !in old(connections) then old(connections)
                           else if old(connections)[g] - {id.value} == {} then old(connections) - {g}
                           else old(connections)[g := old(connections)[g] - {id.value}])
        && metadata == old(metadata) - {id.value}
      ensures pending == old(pending) && pendingOrder == old(pendingOrder) && sent == old(sent)
      ensures syncEnabled == old(syncEnabled) && syncDelay == old(syncDelay)
    {
      if guild.None? || guild.value == 0 || id.None? || id.value == [] {
        return;
      }
      if event == "sl_connection_established" {
        RegisterConnection(guild.value, id.value, if meta.Some? && meta.value != map[] then meta else None);
      } else if event == "sl_connection_closed" {
        UnregisterConnection(guild.value, id.value);
      }
    }

    /** `get_sync_stats`: the counts, the batching delay and the number of
        connections of each guild; every active guild has at least one. */
    method SyncStats() returns (enabled: bool, activeGuilds: nat, totalConnections: nat, pendingCount: nat,
                                delay: real, byGuild: map<int, nat>)
      requires Valid()
      ensures enabled == syncEnabled && activeGuilds == |connections.Keys| && pendingCount == |pending.Keys|
      ensures delay == syncDelay
      ensures byGuild.Keys == connections.Keys && forall g :: g in byGuild ==> byGuild[g] == |connections[g]| && byGuild[g] >= 1
      ensures totalConnections == SumValues(byGuild)
      ensures totalConnections >= activeGuilds
    {
      byGuild := map g | g in connections :: |connections[g]|;
      totalConnections := SumMapValues(byGuild);
      assert byGuild.Keys == connections.Keys;
      forall g | g in byGuild
        ensures byGuild[g] >= 1
      {
        assert connections[g] != {};
        assert |connections[g]| >= 1;
      }
      SumValuesAtLeastKeys(byGuild);
      enabled, activeGuilds, pendingCount, delay := syncEnabled, |connections.Keys|, |pending.Keys|, syncDelay;
    }

    method SetSyncEnabled(enabled: bool)
      requires Valid()
      modifies this
      ensures Valid() && syncEnabled == enabled && syncDelay == old(syncDelay)
      ensures connections == old(connections) && pending == old(pending) && pendingOrder == old(pendingOrder)
      ensures metadata == old(metadata) && sent == old(sent)
    {
      syncEnabled := enabled;
    }

    /** `set_sync_delay`: a negative delay is ignored. */
    method SetSyncDelay(delay: real)
      requires Valid()
      modifies this
      ensures Valid() && syncDelay == (if delay >= 0.0 then delay else old(syncDelay))
      ensures syncEnabled == old(syncEnabled)
      ensures connections == old(connections) && pending == old(pending) && pendingOrder == old(pendingOrder)
      ensures metadata == old(metadata) && sent == old(sent)
    {
      if delay >= 0.0 {
        syncDelay := delay;
      }
    }
  }
}

=== FILE: state_manager.dfy ===
/** Guild state (core/state_manager.py). A `GuildState` is its attribute
    dictionary, since `update_guild_state` sets attributes by name; the
    `last_updated` stamp is kept apart because every access rewrites it.
    Wall-clock time is the parameter `now` (seconds); the per-guild locks are
    the set of guilds that have one. */
module StateManagement {
  import opened Util
  import opened Values

  /** The dataclass fields of `GuildState` other than `last_updated`. */
  datatype Field =
    | GuildId | CurrentStreamUrl | CurrentStreamResponse | CurrentSong | StartTime | TextChannel
    | VoiceClient | CleaningUp | MetadataListenerActive | VolumeLevel | AudioEffectsEnabled
    | CrossfadeEnabled | AudioConfig | SessionStart | TotalPlayTime | StreamsPlayed | CustomData
    | CreatedAt

  /** The attribute an update key names, if `hasattr` finds a data field. */
  function FieldNamed(name: string): Option<Field>
  {
    match name
    case "guild_id" => Some(GuildId)
    case "current_stream_url" => Some(CurrentStreamUrl)
    case "current_stream_response" => Some(CurrentStreamResponse)
    case "current_song" => Some(CurrentSong)
    case "start_time" => Some(StartTime)
    case "text_channel" => Some(TextChannel)
    case "voice_client" => Some(VoiceClient)
    case "cleaning_up" => Some(CleaningUp)
    case "metadata_listener_active" => Some(MetadataListenerActive)
    case "volume_level" => Some(VolumeLevel)
    case "audio_effects_enabled" => Some(AudioEffectsEnabled)
    case "crossfade_enabled" => Some(CrossfadeEnabled)
    case "audio_config" => Some(AudioConfig)
    case "session_start" => Some(SessionStart)
    case "total_play_time" => Some(TotalPlayTime)
    case "streams_played" => Some(StreamsPlayed)
    case "custom_data" => Some(CustomData)
    case "created_at" => Some(CreatedAt)
    case _ => None
  }

  datatype GuildState = GuildState(attrs: map<Field, Value>, lastUpdated: real)

  function Get(s: GuildState, f: Field): Value
  {
    if f in s.attrs then s.attrs[f] else VNone
  }

  /** `GuildState(guild_id=g, custom_data=custom)` created at `now`. */
  function NewState(g: int, now: real, custom: Value): (s: GuildState)
    ensures s.lastUpdated == now
    ensures Get(s, CustomData) == custom && Get(s, GuildId) == VInt(g)
    ensures Get(s, CurrentStreamUrl) == VNone && Get(s, VoiceClient) == VNone
    ensures Get(s, MetadataListenerActive) == VBool(false) && Get(s, CleaningUp) == VBool(false)
  {
    GuildState(map[
      GuildId := VInt(g), CurrentStreamUrl := VNone, CurrentStreamResponse := VNone,
      CurrentSong := VNone, StartTime := VNone, TextChannel := VNone, VoiceClient := VNone,
      CleaningUp := VBool(false), MetadataListenerActive := VBool(false),
      VolumeLevel := VReal(1.0), AudioEffectsEnabled := VBool(true),
      CrossfadeEnabled := VBool(true), AudioConfig := VNone, SessionStart := VReal(now),
      TotalPlayTime := VReal(0.0), StreamsPlayed := VInt(0), CustomData := custom,
      CreatedAt := VReal(now)], now)
  }

  /** `is_streaming`: a URL is set and no cleanup is running. */
  predicate IsStreaming(s: GuildState)
  {
    Get(s, CurrentStreamUrl) != VNone && !Truthy(Get(s, CleaningUp))
  }

  /** `is_active`: streaming, connected to voice, or listening for metadata. */
  predicate IsActive(s: GuildState)
  {
    IsStreaming(s) || Get(s, VoiceClient) != VNone || Truthy(Get(s, MetadataListenerActive))
  }

  lemma StreamingImpliesActive(s: GuildState)
    ensures IsStreaming(s) ==> IsActive(s)
  {
  }

  /** A freshly created state is idle. */
  lemma NewStateIsIdle(g: int, now: real, custom: Value)
    ensures !IsActive(NewState(g, now, custom))
  {
  }

  /** One `(field, new_value)` pair of `update_guild_state`. A dictionary
      given for `custom_data` is merged into a dictionary already there when
      `merge_custom` is set; names that are not attributes are ignored, and
      so is `last_updated`, which the call overwrites at its end anyway. */
  function ApplyUpdate(s: GuildState, name: string, v: Value, mergeCustom: bool): (r: GuildState)
    ensures r.lastUpdated == s.lastUpdated
  {
    match FieldNamed(name)
    case None => s
    case Some(f) =>
      if f == CustomData && mergeCustom && Get(s, f).VDict? && v.VDict? then
        s.(attrs := s.attrs[f := VDict(Get(s, f).entries + v.entries)])
      else s.(attrs := s.attrs[f := v])
  }

  function ApplyUpdates(s: GuildState, updates: seq<(string, Value)>, mergeCustom: bool): GuildState
    decreases updates
  {
    if updates == [] then s
    else ApplyUpdates(ApplyUpdate(s, updates[0].0, updates[0].1, mergeCustom), updates[1..], mergeCustom)
  }

  /** The loop of `update_guild_state`: the updates are applied in order. */
  method ApplyEach(s0: GuildState, updates: seq<(string, Value)>, mergeCustom: bool) returns (s: GuildState)
    ensures s == ApplyUpdates(s0, updates, mergeCustom)
  {
    s := s0;
    var i := 0;
    while i < |updates|
      invariant 0 <= i <= |updates|
      invariant ApplyUpdates(s0, updates, mergeCustom) == ApplyUpdates(s, updates[i..], mergeCustom)
    {
      assert updates[i..][0] == updates[i] && updates[i..][1..] == updates[i + 1..];
      s := ApplyUpdate(s, updates[i].0, updates[i].1, mergeCustom);
      i := i + 1;
    }
  }

  /** A named attribute other than a merged `custom_data` takes the new value
      and no other attribute changes. */
  lemma SetKnownField(s: GuildState, name: string, v: Value, mergeCustom: bool)
    requires FieldNamed(name).Some?
    requires !(FieldNamed(name).value == CustomData && mergeCustom && Get(s, CustomData).VDict? && v.VDict?)
    ensures Get(ApplyUpdate(s, name, v, mergeCustom), FieldNamed(name).value) == v
    ensures forall h :: h != FieldNamed(name).value ==> Get(ApplyUpdate(s, name, v, mergeCustom), h) == Get(s, h)
  {
  }

  /** Merging `custom_data` keeps the old keys and lets the new values win. */
  lemma MergeCustomData(s: GuildState, v: Value)
    requires Get(s, CustomData).VDict? && v.VDict?
    ensures var c := Get(ApplyUpdate(s, "custom_data", v, true), CustomData);
            c.VDict? && c.entries.Keys == Get(s, CustomData).entries.Keys + v.entries.Keys
            && (forall k :: k in v.entries ==> c.entries[k] == v.entries[k])
            && (forall k :: k in Get(s, CustomData).entries && k !in v.entries ==>
                  c.entries[k] == Get(s, CustomData).entries[k])
  {
  }

  /** Without `merge_custom`, a dictionary replaces `custom_data` outright. */
  lemma ReplaceCustomData(s: GuildState, v: Value)
    ensures Get(ApplyUpdate(s, "custom_data", v, false), CustomData) == v
  {
  }

  /** Updates naming no attribute change nothing. */
  lemma {:induction false} UnknownUpdatesIgnored(s: GuildState, updates: seq<(string, Value)>, mergeCustom: bool)
    requires forall i :: 0 <= i < |updates| ==> FieldNamed(updates[i].0).None?
    ensures ApplyUpdates(s, updates, mergeCustom) == s
    decreases updates
  {
    if updates != [] {
      UnknownUpdatesIgnored(s, updates[1..], mergeCustom);
    }
  }

  /** The guilds `cleanup_stale_state` removes. */
  function StaleGuilds(states: map<int, GuildState>, cutoff: real): (r: set<int>)
    ensures forall g :: g in r <==> g in states && !IsActive(states[g]) && states[g].lastUpdated < cutoff
  {
    set g | g in states && !IsActive(states[g]) && states[g].lastUpdated < cutoff
  }

  /** Taking a guild's `threading.Lock` while holding the locks of `held`:
      the lock is not re-entrant, so asking again for one already held
      waits for ever (None); otherwise it joins the held locks. */
  function AcquireLock(held: set<int>, g: int): (r: Option<set<int>>)
    ensures r.None? <==> g in held
    ensures r.Some? ==> r.value == held + {g} && g in r.value
  {
    if g in held then None else Some(held + {g})
  }

  /** The nesting of `update_guild_state`: the guild's lock is free to the
      outer `with`, and the inner one in `get_guild_state` then waits. */
  lemma NestedAcquireBlocks(g: int)
    ensures AcquireLock({}, g) == Some({g})
    ensures AcquireLock({g}, g) == None
  {
    assert {} + {g} == {g};
  }

  class StateManager {
    var states: map<int, GuildState>
    var locks: set<int>

    constructor()
      ensures states == map[] && locks == {}
    {
      states := map[];
      locks := {};
    }

    /** `get_guild_state`: a missing guild gets a fresh state only when
        `create` is set, otherwise None; a state handed out has its
        `last_updated` stamp moved to `now`. The guild's lock is created
        either way. */
    method GetGuildState(g: int, create: bool, now: real) returns (r: Option<GuildState>)
      modifies this
      ensures locks == old(locks) + {g}
      ensures g !in old(states) && !create ==> r == None && states == old(states)
      ensures g in old(states) || create ==>
        var base := if g in old(states) then old(states)[g] else NewState(g, now, VDict(map[]));
        r == Some(base.(lastUpdated := now)) && states == old(states)[g := r.value]
    {
      locks := locks + {g};
      if g !in states && !create {
        return None;
      }
      var base := if g in states then states[g] else NewState(g, now, VDict(map[]));
      var s := base.(lastUpdated := now);
      states := states[g := s];
      r := Some(s);
    }

    /** `update_guild_state`: the state (created if missing) takes each
        update in turn and is stamped with `now`. */
    method UpdateGuildState(g: int, updates: seq<(string, Value)>, mergeCustom: bool, now: real)
      returns (s: GuildState)
      modifies this
      ensures locks == old(locks) + {g}
      ensures var base := if g in old(states) then old(states)[g] else NewState(g, now, VDict(map[]));
              s == ApplyUpdates(base.(lastUpdated := now), updates, mergeCustom).(lastUpdated := now)
      ensures states == old(states)[g := s]
    {
      var cur := GetGuildState(g, true, now);
      s := ApplyEach(cur.value, updates, mergeCustom);
      s := s.(lastUpdated := now);
      states := states[g := s];
    }

    /** `update_guild_state` as written: the guild's lock is taken (183)
        and `get_guild_state` is called with it held, which asks for the
        same lock again (153); the call never returns (None) and changes
        nothing but the lock table. `set_guild_state_field` and the
        module-level `update_guild_state` go through it. */
    method UpdateGuildStateAsWritten(g: int, updates: seq<(string, Value)>, mergeCustom: bool, now: real)
      returns (s: Option<GuildState>)
      modifies this
      ensures s == None
      ensures states == old(states) && locks == old(locks) + {g}
    {
      locks := locks + {g};
      var outer := AcquireLock({}, g);
      var inner := AcquireLock(outer.value, g);
      // `inner` is None: the call waits here for ever.
      s := None;
    }

    /** `clear_guild_state`: false without a state; otherwise the guild gets
        a fresh state, keeping `custom_data` only when asked to. */
    method ClearGuildState(g: int, preserveCustom: bool, now: real) returns (cleared: bool)
      modifies this
      ensures locks == old(locks) + {g}
      ensures cleared <==> g in old(states)
      ensures !cleared ==> states == old(states)
      ensures cleared ==> states == old(states)[g := NewState(g, now,
        if preserveCustom then Get(old(states)[g], CustomData) else VDict(map[]))]
    {
      locks := locks + {g};
      if g !in states {
        return false;
      }
      var custom := if preserveCustom then Get(states[g], CustomData) else VDict(map[]);
      states := states[g := NewState(g, now, custom)];
      cleared := true;
    }

    /** `remove_guild_state`: true iff the guild had a state; the state and
        its lock are gone. */
    method RemoveGuildState(g: int) returns (removed: bool)
      modifies this
      ensures removed <==> g in old(states)
      ensures states == old(states) - {g}
      ensures removed ==> locks == old(locks) - {g}
      ensures !removed ==> locks == old(locks)
    {
      if g in states {
        states := states - {g};
        locks := locks - {g};
        return true;
      }
      return false;
    }

    /** `get_active_guilds`. */
    method GetActiveGuilds() returns (r: set<int>)
      ensures forall g :: g in r <==> g in states && IsActive(states[g])
    {
      r := {};
      var todo := states.Keys;
      while todo != {}
        invariant todo <= states.Keys
        invariant forall g :: g in r <==> g in states && g !in todo && IsActive(states[g])
        decreases |todo|
      {
        assert (forall h :: h !in todo) ==> todo == {};
        var g :| g in todo;
        if IsActive(states[g]) {
          r := r + {g};
        }
        todo := todo - {g};
      }
    }

    /** `get_streaming_guilds`; every streaming guild is also active. */
    method GetStreamingGuilds() returns (r: set<int>)
      ensures forall g :: g in r <==> g in states && IsStreaming(states[g])
      ensures forall g :: g in r ==> IsActive(states[g])
    {
      r := {};
      var todo := states.Keys;
      while todo != {}
        invariant todo <= states.Keys
        invariant forall g :: g in r <==> g in states && g !in todo && IsStreaming(states[g])
        decreases |todo|
      {
        assert (forall h :: h !in todo) ==> todo == {};
        var g :| g in todo;
        if IsStreaming(states[g]) {
          r := r + {g};
        }
        todo := todo - {g};
      }
    }

    /** `cleanup_stale_state`: removes every inactive state last touched more
        than `maxAgeHours` before `now` and counts them; an active state is
        never removed. */
    method CleanupStaleState(now: real, maxAgeHours: real) returns (cleaned: nat)
      modifies this
      ensures var stale := StaleGuilds(old(states), now - maxAgeHours * 3600.0);
              states == old(states) - stale && locks == old(locks) - stale && cleaned == |stale|
      ensures forall g :: g in old(states) && IsActive(old(states)[g]) ==> g in states && states[g] == old(states)[g]
    {
      var stale := StaleGuilds(states, now - maxAgeHours * 3600.0);
      ghost var oldStates := states;
      var todo := stale;
      ghost var done: set<int> := {};
      cleaned := 0;
      while todo != {}
        invariant done + todo == stale && done !! todo
        invariant states == oldStates - done
        invariant locks == old(locks) - done
        invariant cleaned == |done|
        decreases |todo|
      {
        assert (forall h :: h !in todo) ==> todo == {};
        var g :| g in todo;
        assert g in states;
        var removed := RemoveGuildState(g);
        MapMinusOneMore(oldStates, done, g);
        SetMinusOneMore(old(locks), done, g);
        MoveToDone({}, done, todo, g);
        assert |done + {g}| == |done| + 1;
        done := done + {g};
        cleaned := cleaned + 1;
        todo := todo - {g};
      }
    }
  }
}

=== FILE: state_synchronizer.dfy ===
/** Cross-platform state synchronisation: updates from Discord, Second Life
    or the API are checked against a pending update of the same guild and
    type, the winner is applied to the guild's synchronised state and
    broadcast, and stale pending updates are cleaned up.

    Dictionaries of dynamically typed values are modelled as maps from
    names to `Value`; a guild's synchronised state is such a map over the
    dataclass's attribute names. */
module Synchronizer {
  import opened Util
  import Registry
  import opened Values

  datatype Platform = Discord | SecondLife | Api | UnknownPlatform

  function PlatformValue(p: Platform): string
  {
    match p
    case Discord => "discord"
    case SecondLife => "second_life"
    case Api => "api"
    case UnknownPlatform => "unknown"
  }

  /** A dynamically typed payload value. */

  type Record = map<string, Value>

  datatype StateUpdate = StateUpdate(
    platform: Platform, guild: int, updateType: string, data: Record, timestamp: real, priority: int)

  const ConflictResolutionTimeout: real := 1.0
  const MaxPendingUpdates: nat := 100

  /** The attributes of `SynchronizedState`. */
  const Attributes: set<string> := {"guild_id", "audio_config", "audio_metrics", "current_stream",
                                    "volume_level", "is_playing", "last_updated", "last_platform"}

  /** A fresh state with the dataclass defaults. */
  function DefaultState(guild: int, lastUpdated: Value): (r: Record)
    ensures r.Keys == Attributes
    ensures r["volume_level"] == VReal(0.8) && r["is_playing"] == VBool(false) && r["current_stream"] == VNone
  {
    map["guild_id" := VInt(guild), "audio_config" := VNone, "audio_metrics" := VNone,
        "current_stream" := VNone, "volume_level" := VReal(0.8), "is_playing" := VBool(false),
        "last_updated" := lastUpdated, "last_platform" := VNone]
  }

  /** `SynchronizedState(**saved)`: None where the constructor raises (an
      unknown keyword, or no guild id); missing fields take their defaults. */
  function Restore(saved: Record): (r: Option<Record>)
    ensures r.Some? <==> saved.Keys <= Attributes && "guild_id" in saved
    ensures r.Some? ==> r.value.Keys == Attributes && forall k :: k in saved ==> r.value[k] == saved[k]
  {
    if saved.Keys <= Attributes && "guild_id" in saved then
      var d := DefaultState(0, VNone);
      Some(map k | k in Attributes :: if k in saved then saved[k] else d[k])
    else None
  }

  // -----------------------------------------------------------------------
  // Pending keys and conflict resolution

  /** `f"{guild_id}_{update_type}"`. */
  function PendingKey(guild: int, updateType: string): string
  {
    IntToString(guild) + "_" + updateType
  }

  /** Distinct guild/type pairs never share a pending slot. */
  lemma PendingKeyInjective(g1: int, t1: string, g2: int, t2: string)
    ensures PendingKey(g1, t1) == PendingKey(g2, t2) <==> g1 == g2 && t1 == t2
  {
    if PendingKey(g1, t1) == PendingKey(g2, t2) {
      IntToStringChars(g1);
      IntToStringChars(g2);
      SplitAtFirst(IntToString(g1), t1, IntToString(g2), t2, '_');
      IntToStringInjective(g1, g2);
    }
  }

  /** `a` would win against `b`: higher priority, or equal priority and
      strictly newer. */
  predicate Beats(a: StateUpdate, b: StateUpdate)
  {
    a.priority > b.priority || (a.priority == b.priority && a.timestamp > b.timestamp)
  }

  /** `_resolve_conflict`: ties stay with the existing update. */
  function ResolveUpdates(newUpdate: StateUpdate, existing: StateUpdate): (r: StateUpdate)
    ensures r == newUpdate || r == existing
    ensures !Beats(newUpdate, existing) ==> r == existing
  {
    if newUpdate.priority > existing.priority then newUpdate
    else if existing.priority > newUpdate.priority then existing
    else if newUpdate.timestamp > existing.timestamp then newUpdate
    else existing
  }

  /** The resolved update is beaten by neither candidate, and the new one
      wins exactly when it beats the existing one. */
  lemma ResolvedIsUnbeaten(n: StateUpdate, e: StateUpdate)
    ensures !Beats(n, ResolveUpdates(n, e)) && !Beats(e, ResolveUpdates(n, e))
    ensures Beats(n, e) ==> ResolveUpdates(n, e) == n
  {
  }

  // -----------------------------------------------------------------------
  // Applying an update

  /** Copy `data[from]` into `state[to]` when present. */
  function CopyIfPresent(state: Record, data: Record, from: string, to: string): (r: Record)
    ensures r.Keys == state.Keys + (if from in data then {to} else {})
    ensures from in data ==> r[to] == data[from]
    ensures forall k :: k in state && (k != to || from !in data) ==> r[k] == state[k]
  {
    if from in data then state[to := data[from]] else state
  }

  /** `_apply_audio_update`. */
  function ApplyAudio(state: Record, data: Record): (r: Record)
  {
    var s1 := CopyIfPresent(state, data, "volume", "volume_level");
    var s2 := CopyIfPresent(s1, data, "audio_config", "audio_config");
    var s3 := CopyIfPresent(s2, data, "audio_metrics", "audio_metrics");
    CopyIfPresent(s3, data, "is_playing", "is_playing")
  }

  /** Audio keys are copied only when present; nothing else changes. */
  lemma ApplyAudioFields(state: Record, data: Record)
    requires state.Keys == Attributes
    ensures ApplyAudio(state, data).Keys == Attributes
    ensures ApplyAudio(state, data)["volume_level"] ==
      (if "volume" in data then data["volume"] else state["volume_level"])
    ensures ApplyAudio(state, data)["is_playing"] ==
      (if "is_playing" in data then data["is_playing"] else state["is_playing"])
    ensures ApplyAudio(state, data)["current_stream"] == state["current_stream"]
    ensures ApplyAudio(state, data)["guild_id"] == state["guild_id"]
  {
  }

  /** `_apply_stream_update`. */
  function ApplyStream(state: Record, data: Record, updateType: string): (r: Record)
  {
    var s1 := CopyIfPresent(state, data, "current_stream", "current_stream");
    var s2 := if Contains(updateType, "stream_started") then
      s1["is_playing" := VBool(true)]["current_stream" := if "stream" in data then data["stream"] else VNone]
    else s1;
    if Contains(updateType, "stream_stopped") then s2["is_playing" := VBool(false)] else s2
  }

  /** A started stream plays, a stopped one does not (a type naming both
      ends stopped, the later check). */
  lemma ApplyStreamPlaying(state: Record, data: Record, updateType: string)
    requires state.Keys == Attributes
    ensures ApplyStream(state, data, updateType).Keys == Attributes
    ensures Contains(updateType, "stream_stopped") ==> ApplyStream(state, data, updateType)["is_playing"] == VBool(false)
    ensures Contains(updateType, "stream_started") && !Contains(updateType, "stream_stopped") ==>
      ApplyStream(state, data, updateType)["is_playing"] == VBool(true)
      && ApplyStream(state, data, updateType)["current_stream"] == (if "stream" in data then data["stream"] else VNone)
    ensures !Contains(updateType, "stream_started") && !Contains(updateType, "stream_stopped") ==>
      ApplyStream(state, data, updateType)["is_playing"] == state["is_playing"]
  {
  }

  /** `_apply_full_sync_update`: every data field naming an attribute is set. */
  function ApplyFullSync(state: Record, data: Record): (r: Record)
    ensures r.Keys == state.Keys
    ensures forall k :: k in state ==> r[k] == (if k in data then data[k] else state[k])
  {
    map k | k in state :: if k in data then data[k] else state[k]
  }

  /** `_apply_state_update` on an existing state: dispatch on the type's
      prefix, then stamp the time and platform. */
  function ApplyUpdate(state: Record, u: StateUpdate): (r: Record)
    requires state.Keys == Attributes
    ensures r.Keys == Attributes
    ensures r["last_updated"] == VReal(u.timestamp) && r["last_platform"] == VStr(PlatformValue(u.platform))
    ensures !StartsWith(u.updateType, "audio_") && !StartsWith(u.updateType, "stream_") && u.updateType != "full_sync" ==>
      forall k :: k in state && k !in {"last_updated", "last_platform"} ==> r[k] == state[k]
  {
    var s :=
      if StartsWith(u.updateType, "audio_") then ApplyAudioFields(state, u.data); ApplyAudio(state, u.data)
      else if StartsWith(u.updateType, "stream_") then ApplyStreamPlaying(state, u.data, u.updateType); ApplyStream(state, u.data, u.updateType)
      else if u.updateType == "full_sync" then ApplyFullSync(state, u.data)
      else state;
    s["last_updated" := VReal(u.timestamp)]["last_platform" := VStr(PlatformValue(u.platform))]
  }

  /** Re-applying a full sync of a state's own record changes only the stamp. */
  lemma FullSyncOfOwnState(state: Record, now: real)
    requires state.Keys == Attributes
    ensures var r := ApplyUpdate(state, StateUpdate(Discord, 0, "full_sync", state, now, 10));
      forall k :: k in state && k !in {"last_updated", "last_platform"} ==> r[k] == state[k]
  {
    assert !StartsWith("full_sync", "audio_");
    assert !StartsWith("full_sync", "stream_");
  }

  // -----------------------------------------------------------------------
  // What one synchronisation step does to the synchroniser's tables

  /** The state `_initialize_guild_state` creates for a guild: the saved
      record restored when there is a non-empty one (None when it cannot be
      restored), else the defaults stamped `now`. */
  function Initialized(guild: int, now: real, saved: Option<Record>): (r: Option<Record>)
    ensures r.None? <==> saved.Some? && saved.value != map[] && Restore(saved.value).None?
    ensures r.Some? ==> r.value.Keys == Attributes
    ensures r.Some? && saved.Some? && saved.value != map[] ==> forall k :: k in saved.value ==> r.value[k] == saved.value[k]
  {
    if saved.Some? && saved.value != map[] then Restore(saved.value)
    else Some(DefaultState(guild, VReal(now)))
  }

  /** The state `get_guild_state` hands out: the guild's own, or the one
      it is initialised with. */
  function StateFor(states: map<int, Record>, guild: int, now: real, saved: Option<Record>): Option<Record>
  {
    if guild in states then Some(states[guild]) else Initialized(guild, now, saved)
  }

  /** The table with `s` stored for `guild` when there is one. */
  function WithState(states: map<int, Record>, guild: int, s: Option<Record>): map<int, Record>
  {
    if s.Some? then states[guild := s.value] else states
  }

  /** The pending table once `_check_for_conflicts` has seen `u`. */
  function Recorded(pending: map<string, StateUpdate>, u: StateUpdate): map<string, StateUpdate>
  {
    if PendingKey(u.guild, u.updateType) in pending then pending else pending[PendingKey(u.guild, u.updateType) := u]
  }

  /** The update `sync_state_update` goes on with: `u`, or the winner
      against the pending update of its guild and type. */
  function Winner(pending: map<string, StateUpdate>, u: StateUpdate): (r: StateUpdate)
    ensures PendingKey(u.guild, u.updateType) !in pending ==> r == u
    ensures PendingKey(u.guild, u.updateType) in pending ==>
      var e := pending[PendingKey(u.guild, u.updateType)];
      (r == u || r == e) && !Beats(u, r) && !Beats(e, r)
  {
    var key := PendingKey(u.guild, u.updateType);
    if key in pending then
      ResolvedIsUnbeaten(u, pending[key]);
      ResolveUpdates(u, pending[key])
    else u
  }

  /** The tables after `sync_state_update` of `u`: when the guild has (or
      is given) a state, the winner is applied to it and broadcast, and the
      pending table, with `u` recorded, is cleaned up; otherwise only `u`
      is recorded as pending. */
  ghost predicate Synced(states0: map<int, Record>, pending0: map<string, StateUpdate>, broadcasts0: seq<StateUpdate>,
                         u: StateUpdate, now: real, saved: Option<Record>,
                         states: map<int, Record>, pending: map<string, StateUpdate>, broadcasts: seq<StateUpdate>)
  {
    var w := Winner(pending0, u);
    var base := StateFor(states0, u.guild, now, saved);
    if base.Some? && base.value.Keys == Attributes then
      && states == states0[u.guild := ApplyUpdate(base.value, w)]
      && broadcasts == broadcasts0 + [w]
      && TrimmedOldest(Unexpired(Recorded(pending0, u), now), pending, MaxPendingUpdates)
    else
      states == states0 && broadcasts == broadcasts0 && pending == Recorded(pending0, u)
  }

  /** `Synced`, case by case. */
  lemma SyncedByParts(states0: map<int, Record>, pending0: map<string, StateUpdate>, broadcasts0: seq<StateUpdate>,
                      u: StateUpdate, now: real, saved: Option<Record>,
                      states: map<int, Record>, pending: map<string, StateUpdate>, broadcasts: seq<StateUpdate>)
    requires StateFor(states0, u.guild, now, saved).None? ==>
      states == states0 && broadcasts == broadcasts0 && pending == Recorded(pending0, u)
    requires StateFor(states0, u.guild, now, saved).Some? ==>
      && StateFor(states0, u.guild, now, saved).value.Keys == Attributes
      && states == states0[u.guild := ApplyUpdate(StateFor(states0, u.guild, now, saved).value, Winner(pending0, u))]
      && broadcasts == broadcasts0 + [Winner(pending0, u)]
      && TrimmedOldest(Unexpired(Recorded(pending0, u), now), pending, MaxPendingUpdates)
    ensures Synced(states0, pending0, broadcasts0, u, now, saved, states, pending, broadcasts)
  {
  }

  /** A synchronised guild carries the winner's time and platform, other
      guilds keep their states, and the pending table stays within its
      limit; a guild that had no state and no saved record always gets one. */
  lemma {:induction false} SyncedOutcome(states0: map<int, Record>, pending0: map<string, StateUpdate>, broadcasts0: seq<StateUpdate>,
                                         u: StateUpdate, now: real, saved: Option<Record>,
                                         states: map<int, Record>, pending: map<string, StateUpdate>, broadcasts: seq<StateUpdate>)
    requires forall g :: g in states0 ==> states0[g].Keys == Attributes
    requires Synced(states0, pending0, broadcasts0, u, now, saved, states, pending, broadcasts)
    ensures StateFor(states0, u.guild, now, saved).Some? <==> |broadcasts| == |broadcasts0| + 1
    ensures StateFor(states0, u.guild, now, saved).Some? ==>
      && u.guild in states && states[u.guild].Keys == Attributes
      && states[u.guild]["last_updated"] == VReal(Winner(pending0, u).timestamp)
      && states[u.guild]["last_platform"] == VStr(PlatformValue(Winner(pending0, u).platform))
      && |pending.Keys| <= MaxPendingUpdates
    ensures forall g :: g != u.guild ==> (g in states <==> g in states0)
    ensures forall g :: g != u.guild && g in states ==> states[g] == states0[g]
    ensures u.guild !in states0 && saved.None? ==> u.guild in states
  {
    var base := StateFor(states0, u.guild, now, saved);
    if base.Some? {
      assert base.value.Keys == Attributes;
      var w := Winner(pending0, u);
      assert states[u.guild] == ApplyUpdate(base.value, w);
    }
  }

  // -----------------------------------------------------------------------
  // The synchroniser

  class StateSynchronizer {
    var guildStates: map<int, Record>
    var pending: map<string, StateUpdate>
    var connections: map<Platform, set<string>>
    /** The updates emitted on the event bus, oldest first. */
    var broadcasts: seq<StateUpdate>

    ghost predicate Valid()
      reads this
    {
      connections.Keys == {Discord, SecondLife, Api}
      && (forall g :: g in guildStates ==> guildStates[g].Keys == Attributes)
      && forall k :: k in pending ==> k == PendingKey(pending[k].guild, pending[k].updateType)
    }

    constructor ()
      ensures Valid()
      ensures guildStates == map[] && pending == map[] && broadcasts == []
      ensures connections == map[Discord := {}, SecondLife := {}, Api := {}]
    {
      guildStates := map[];
      pending := map[];
      connections := map[Discord := {}, SecondLife := {}, Api := {}];
      broadcasts := [];
    }

    /** `register_platform_connection`; the unknown platform has no set and
        the lookup's error is swallowed. */
    method RegisterConnection(p: Platform, id: string)
      requires Valid()
      modifies this
      ensures Valid() && guildStates == old(guildStates) && pending == old(pending) && broadcasts == old(broadcasts)
      ensures connections == if p in old(connections) then old(connections)[p := old(connections)[p] + {id}] else old(connections)
    {
      if p in connections {
        connections := connections[p := connections[p] + {id}];
      }
    }

    method UnregisterConnection(p: Platform, id: string)
      requires Valid()
      modifies this
      ensures Valid() && guildStates == old(guildStates) && pending == old(pending) && broadcasts == old(broadcasts)
      ensures connections == if p in old(connections) then old(connections)[p := old(connections)[p] - {id}] else old(connections)
    {
      if p in connections {
        connections := connections[p := connections[p] - {id}];
      }
    }

    /** `_initialize_guild_state`: restore the saved record when there is a
        non-empty one, else start from the defaults stamped `now`. */
    method InitializeGuildState(guild: int, now: real, saved: Option<Record>)
      requires Valid()
      modifies this
      ensures Valid() && pending == old(pending) && connections == old(connections) && broadcasts == old(broadcasts)
      ensures guildStates == WithState(old(guildStates), guild, Initialized(guild, now, saved))
    {
      var r := Initialized(guild, now, saved);
      if r.Some? {
        guildStates := guildStates[guild := r.value];
      }
    }

    /** `get_guild_state`: a guild without state is initialised first. */
    method GuildState(guild: int, now: real, saved: Option<Record>) returns (r: Option<Record>)
      requires Valid()
      modifies this
      ensures Valid() && pending == old(pending) && connections == old(connections) && broadcasts == old(broadcasts)
      ensures r == StateFor(old(guildStates), guild, now, saved)
      ensures guildStates == WithState(old(guildStates), guild, r)
      ensures r.Some? <==> guild in guildStates
      ensures r.Some? ==> r.value == guildStates[guild] && r.value.Keys == Attributes
    {
      if guild !in guildStates {
        InitializeGuildState(guild, now, saved);
      }
      r := if guild in guildStates then Some(guildStates[guild]) else None;
    }

    /** `_check_for_conflicts`: the first update of a guild and type is
        recorded as pending; a later one is answered with that pending update. */
    method CheckForConflicts(u: StateUpdate) returns (r: Option<StateUpdate>)
      requires Valid()
      modifies this
      ensures Valid()
      ensures r.Some? ==> r.value.guild == u.guild && r.value.updateType == u.updateType
      ensures guildStates == old(guildStates) && connections == old(connections) && broadcasts == old(broadcasts)
      ensures PendingKey(u.guild, u.updateType) in old(pending) ==>
        r == Some(old(pending)[PendingKey(u.guild, u.updateType)]) && pending == old(pending)
      ensures PendingKey(u.guild, u.updateType) !in old(pending) ==>
        r == None && pending == old(pending)[PendingKey(u.guild, u.updateType) := u]
    {
      var key := PendingKey(u.guild, u.updateType);
      if key in pending {
        PendingKeyInjective(u.guild, u.updateType, pending[key].guild, pending[key].updateType);
        return Some(pending[key]);
      }
      pending := pending[key := u];
      return None;
    }

    /** `_apply_state_update`: the update is applied to the guild's state
        (initialised first when missing); it fails only when there is none. */
    method ApplyStateUpdate(u: StateUpdate, now: real, saved: Option<Record>) returns (ok: bool)
      requires Valid()
      modifies this
      ensures Valid() && pending == old(pending) && connections == old(connections) && broadcasts == old(broadcasts)
      ensures ok <==> StateFor(old(guildStates), u.guild, now, saved).Some?
      ensures ok ==> guildStates == old(guildStates)[u.guild := ApplyUpdate(StateFor(old(guildStates), u.guild, now, saved).value, u)]
      ensures !ok ==> guildStates == old(guildStates)
    {
      var st := GuildState(u.guild, now, saved);
      if st.None? {
        return false;
      }
      guildStates := guildStates[u.guild := ApplyUpdate(st.value, u)];
      return true;
    }

    /** `sync_state_update`: a conflicting update is replaced by the winner
        of the two, which is applied and broadcast, and the pending table
        is cleaned up. */
    method SyncStateUpdate(u: StateUpdate, now: real, saved: Option<Record>) returns (ok: bool)
      requires Valid()
      modifies this
      ensures Valid() && connections == old(connections)
      ensures ok <==> StateFor(old(guildStates), u.guild, now, saved).Some?
      ensures Synced(old(guildStates), old(pending), old(broadcasts), u, now, saved, guildStates, pending, broadcasts)
    {
      ghost var states0, pending0, broadcasts0 := guildStates, pending, broadcasts;
      ghost var base := StateFor(guildStates, u.guild, now, saved);
      ghost var w := Winner(pending, u);
      var conflict := CheckForConflicts(u);
      assert pending == Recorded(pending0, u);
      var applied := u;
      if conflict.Some? {
        applied := ResolveUpdates(u, conflict.value);
      }
      assert applied == w;
      ok := ApplyStateUpdate(applied, now, saved);
      if !ok {
        SyncedByParts(states0, pending0, broadcasts0, u, now, saved, guildStates, pending, broadcasts);
        return;
      }
      assert base.value.Keys == Attributes;
      ghost var states1 := guildStates;
      assert states1 == states0[u.guild := ApplyUpdate(base.value, w)];
      broadcasts := broadcasts + [applied];
      ghost var pending1 := pending;
      CleanupPendingUpdates(now);
      assert guildStates == states1 && pending1 == Recorded(pending0, u);
      SyncedByParts(states0, pending0, broadcasts0, u, now, saved, guildStates, pending, broadcasts);
    }

    /** `force_full_sync`: broadcast the guild's whole state (initialised
        first when missing) as a Discord full sync at priority 10. */
    method ForceFullSync(guild: int, now: real, saved: Option<Record>)
      requires Valid()
      modifies this
      ensures Valid() && pending == old(pending) && connections == old(connections)
      ensures guildStates == WithState(old(guildStates), guild, StateFor(old(guildStates), guild, now, saved))
      ensures broadcasts == old(broadcasts)
        + (if StateFor(old(guildStates), guild, now, saved).Some?
           then [StateUpdate(Discord, guild, "full_sync", StateFor(old(guildStates), guild, now, saved).value, now, 10)]
           else [])
    {
      var st := GuildState(guild, now, saved);
      if st.None? {
        return;
      }
      broadcasts := broadcasts + [StateUpdate(Discord, guild, "full_sync", st.value, now, 10)];
    }

    /** The audio, stream and favorites handlers: a Discord update at
        priority 0, synchronised as `SyncStateUpdate` does, unless the
        guild id is missing or 0. */
    method OnDataEvent(event: string, guildId: Option<int>, data: Record, now: real, saved: Option<Record>)
      requires Valid()
      modifies this
      ensures Valid() && connections == old(connections)
      ensures guildId.None? || guildId.value == 0 ==>
        guildStates == old(guildStates) && pending == old(pending) && broadcasts == old(broadcasts)
      ensures guildId.Some? && guildId.value != 0 ==>
        Synced(old(guildStates), old(pending), old(broadcasts), StateUpdate(Discord, guildId.value, event, data, now, 0),
               now, saved, guildStates, pending, broadcasts)
    {
      if guildId.None? || guildId.value == 0 {
        return;
      }
      var ok := SyncStateUpdate(StateUpdate(Discord, guildId.value, event, data, now, 0), now, saved);
    }

    /** `_on_guild_event`: "guild_added" initialises, "guild_removed"
        deletes the guild's state. */
    method OnGuildEvent(event: string, guildId: Option<int>, now: real, saved: Option<Record>)
      requires Valid()
      modifies this
      ensures Valid() && pending == old(pending) && connections == old(connections) && broadcasts == old(broadcasts)
      ensures guildId.Some? && guildId.value != 0 && event == "guild_added" ==>
        guildStates == WithState(old(guildStates), guildId.value, Initialized(guildId.value, now, saved))
      ensures guildId.Some? && guildId.value != 0 && event == "guild_removed" ==>
        guildStates == old(guildStates) - {guildId.value}
      ensures guildId.None? || guildId.value == 0 || event !in {"guild_added", "guild_removed"} ==>
        guildStates == old(guildStates)
    {
      if guildId.None? || guildId.value == 0 {
        return;
      }
      if event == "guild_added" {
        InitializeGuildState(guildId.value, now, saved);
      } else if event == "guild_removed" {
        guildStates := guildStates - {guildId.value};
      }
    }

    // As written, `_initialize_guild_state` awaits the synchronous
    // `StateManager.get_guild_state`, whose result cannot be awaited, so it
    // always fails and stores nothing; `_apply_state_update` calls
    // `set_guild_state`, which `StateManager` does not have; and
    // `_broadcast_state_update` passes its payload positionally to
    // `EventBus.emit`, which takes keywords only. Every error is caught and
    // logged. The members below model that behaviour.

    /** `get_guild_state` as written: a guild without state stays without. */
    method GuildStateAsWritten(guild: int) returns (r: Option<Record>)
      requires Valid()
      ensures r.Some? <==> guild in guildStates
      ensures r.Some? ==> r.value == guildStates[guild] && r.value.Keys == Attributes
    {
      r := if guild in guildStates then Some(guildStates[guild]) else None;
    }

    /** `_apply_state_update` as written: always false; a state already
        held is changed in place before the failing persistence call. */
    method ApplyStateUpdateAsWritten(u: StateUpdate) returns (ok: bool)
      requires Valid()
      modifies this
      ensures Valid() && pending == old(pending) && connections == old(connections) && broadcasts == old(broadcasts)
      ensures !ok
      ensures guildStates == if u.guild in old(guildStates)
        then old(guildStates)[u.guild := ApplyUpdate(old(guildStates)[u.guild], u)] else old(guildStates)
    {
      var st := GuildStateAsWritten(u.guild);
      if st.None? {
        return false;
      }
      guildStates := guildStates[u.guild := ApplyUpdate(st.value, u)];
      return false;
    }

    /** `sync_state_update` as written: always false, nothing is broadcast
        and the pending table is never cleaned up, so the first update of a
        guild and type stays pending for good. */
    method SyncStateUpdateAsWritten(u: StateUpdate) returns (ok: bool)
      requires Valid()
      modifies this
      ensures Valid() && connections == old(connections) && broadcasts == old(broadcasts)
      ensures !ok
      ensures pending == Recorded(old(pending), u)
      ensures guildStates == if u.guild in old(guildStates)
        then old(guildStates)[u.guild := ApplyUpdate(old(guildStates)[u.guild], Winner(old(pending), u))] else old(guildStates)
    {
      ghost var w := Winner(pending, u);
      var conflict := CheckForConflicts(u);
      var applied := u;
      if conflict.Some? {
        applied := ResolveUpdates(u, conflict.value);
      }
      assert applied == w;
      ok := ApplyStateUpdateAsWritten(applied);
    }

    /** `_on_guild_event` as written: "guild_added" stores nothing, and
        "guild_removed" still deletes. */
    method OnGuildEventAsWritten(event: string, guildId: Option<int>)
      requires Valid()
      modifies this
      ensures Valid() && pending == old(pending) && connections == old(connections) && broadcasts == old(broadcasts)
      ensures guildStates == if guildId.Some? && guildId.value != 0 && event == "guild_removed"
        then old(guildStates) - {guildId.value} else old(guildStates)
    {
      if guildId.Some? && guildId.value != 0 && event == "guild_removed" {
        guildStates := guildStates - {guildId.value};
      }
    }

    /** `_cleanup_pending_updates`: drop the updates older than a second,
        then, past the limit, the oldest ones until 100 remain. */
    method CleanupPendingUpdates(now: real)
      requires Valid()
      modifies this
      ensures Valid()
      ensures guildStates == old(guildStates) && connections == old(connections) && broadcasts == old(broadcasts)
      ensures TrimmedOldest(Unexpired(old(pending), now), pending, MaxPendingUpdates)
      ensures |pending.Keys| <= MaxPendingUpdates
    {
      var p := pending;
      var fresh1 := DeleteKeys(p, k => k in p && now - p[k].timestamp > ConflictResolutionTimeout);
      assert fresh1 == Unexpired(p, now);
      pending := TrimOldest(fresh1, MaxPendingUpdates);
    }
  }

  /** The registry lookups `__init__` makes as written, one for each of the
      state manager, event bus and configuration manager, and the lookups
      it evidently means. */
  const InitLookupsAsWritten: seq<string> := ["get_service", "get_service", "get_service"]
  const InitLookups: seq<string> := ["get", "get", "get"]

  /** As written, building a synchroniser raises AttributeError at its first
      lookup, since the registry has no `get_service`, so the bridge service
      that builds one never gets it; through the registry's `get` every
      lookup is found and the constructor goes on to the empty synchroniser
      it describes. */
  lemma ConstructionDiscrepancy()
    ensures Registry.Wire(InitLookupsAsWritten) == Registry.AttributeError("get_service")
    ensures Registry.Wire(InitLookups) == Registry.Wired
  {
    assert Registry.FirstMissing(InitLookupsAsWritten) == 0;
  }

  /** The same update on two new synchronisers, one as written and one as
      intended: only the intended one applies and broadcasts it. */
  method SyncDiscrepancy(u: StateUpdate) returns (intended: bool, asWritten: bool, intendedBroadcasts: nat, asWrittenBroadcasts: nat)
    ensures intended && intendedBroadcasts == 1
    ensures !asWritten && asWrittenBroadcasts == 0
  {
    var fixed := new StateSynchronizer();
    intended := fixed.SyncStateUpdate(u, u.timestamp, None);
    intendedBroadcasts := |fixed.broadcasts|;
    var buggy := new StateSynchronizer();
    asWritten := buggy.SyncStateUpdateAsWritten(u);
    asWrittenBroadcasts := |buggy.broadcasts|;
  }

  // -----------------------------------------------------------------------
  // Keeping the newest pending updates

  /** The pending updates not older than the conflict window at `now`. */
  function Unexpired(m: map<string, StateUpdate>, now: real): map<string, StateUpdate>
  {
    KeysWithout(m, k => k in m && now - m[k].timestamp > ConflictResolutionTimeout)
  }

  /** `after` is `before` with its oldest entries removed down to `limit`. */
  ghost predicate TrimmedOldest(before: map<string, StateUpdate>, after: map<string, StateUpdate>, limit: nat)
  {
    after.Keys <= before.Keys
    && (forall k :: k in after ==> after[k] == before[k])
    && |after.Keys| == MinInt(|before.Keys|, limit)
    && forall gone, kept :: gone in before && gone !in after && kept in after ==>
         before[gone].timestamp <= after[kept].timestamp
  }

  /** The key of an entry with the smallest timestamp. */
  method OldestKey(m: map<string, StateUpdate>) returns (k: string)
    requires m.Keys != {}
    ensures k in m && forall j :: j in m ==> m[k].timestamp <= m[j].timestamp
  {
    var todo := m.Keys;
    assert (forall h :: h !in todo) ==> todo == {};
    k :| k in todo;
    todo := todo - {k};
    while todo != {}
      invariant todo <= m.Keys && k in m
      invariant forall j :: j in m && j !in todo ==> m[k].timestamp <= m[j].timestamp
      decreases todo
    {
      assert (forall h :: h !in todo) ==> todo == {};
      var j :| j in todo;
      if m[j].timestamp < m[k].timestamp {
        k := j;
      }
      todo := todo - {j};
    }
  }

  /** Removes the oldest entry until at most `limit` remain (ties in any order). */
  method TrimOldest(m: map<string, StateUpdate>, limit: nat) returns (r: map<string, StateUpdate>)
    ensures TrimmedOldest(m, r, limit)
    ensures |r.Keys| <= limit
  {
    r := m;
    while |r.Keys| > limit
      invariant r.Keys <= m.Keys
      invariant forall k :: k in r ==> r[k] == m[k]
      invariant |r.Keys| >= MinInt(|m.Keys|, limit)
      invariant |r.Keys| < |m.Keys| ==> |r.Keys| >= limit
      invariant forall gone, kept :: gone in m && gone !in r && kept in r ==> m[gone].timestamp <= r[kept].timestamp
      decreases |r.Keys|
    {
      var o := OldestKey(r);
      assert r.Keys == (r - {o}).Keys + {o};
      r := r - {o};
    }
  }
}

=== FILE: status_line.dfy ===
/** The status-line reader of the ICY-tolerant HTTP response: SHOUTcast v1
    servers answer "ICY 200 OK" where section 4 of RFC 9112 expects
    "HTTP/1.x 200 OK", so a version starting with "ICY" is rewritten to
    "HTTP/1.0" before the usual checks of Python's `http.client`.

    The connection is a parameter: `data` is what the server sends, decoded
    as ISO-8859-1 (one character per byte). */
module StatusLine {
  import opened Util

  /** `http.client._MAXLINE`. */
  const MaxLine: nat := 65536

  datatype StatusError =
    | LineTooLong
    | RemoteDisconnected
    /** `BadStatusLine(line)`; `connectionClosed` tells whether the reader
        closed the connection before raising. */
    | BadStatusLine(line: string, connectionClosed: bool)

  datatype Status = Status(version: string, status: int, reason: string)

  // ---------------------------------------------------------------------
  // Reading and splitting the line

  /** `readline(limit)`: up to and including the first newline, at most
      `limit` characters. */
  function ReadLine(data: string, limit: nat): (r: string)
    ensures r <= data && |r| <= limit
    ensures '\n' !in data[..MinInt(limit, |data|)] ==> r == data[..MinInt(limit, |data|)]
    ensures forall i :: 0 <= i < |r| - 1 ==> r[i] != '\n'
    ensures |r| < MinInt(limit, |data|) ==> r != [] && r[|r| - 1] == '\n'
  {
    if data == [] || limit == 0 then []
    else if data[0] == '\n' then [data[0]]
    else [data[0]] + ReadLine(data[1..], limit - 1)
  }

  /** Python's `str.isspace` on ISO-8859-1 characters. */
  predicate IsWhitespace(c: char)
  {
    c == ' ' || '\t' <= c <= '\r' || '\U{001C}' <= c <= '\U{001F}' || c == '\U{0085}' || c == '\U{00A0}'
  }

  function SkipWhitespace(s: string): (r: string)
    ensures |r| <= |s|
    ensures r != [] ==> !IsWhitespace(r[0])
    ensures s != [] && !IsWhitespace(s[0]) ==> r == s
  {
    if s != [] && IsWhitespace(s[0]) then SkipWhitespace(s[1..]) else s
  }

  /** Where the leading run of non-whitespace ends. */
  function TokenEnd(s: string): (k: nat)
    ensures k <= |s|
    ensures forall i :: 0 <= i < k ==> !IsWhitespace(s[i])
    ensures k < |s| ==> IsWhitespace(s[k])
    ensures s != [] && !IsWhitespace(s[0]) ==> k >= 1
  {
    if s == [] || IsWhitespace(s[0]) then 0 else 1 + TokenEnd(s[1..])
  }

  /** `s.split(None, maxsplit)`: at most `maxsplit` words, then the rest
      from its first non-whitespace character, trailing whitespace kept. */
  function SplitWhitespace(s: string, maxsplit: nat): (r: seq<string>)
    ensures |r| <= maxsplit + 1
    decreases |s|
  {
    var t := SkipWhitespace(s);
    if t == [] then []
    else if maxsplit == 0 then [t]
    else
      var k := TokenEnd(t);
      [t[..k]] + SplitWhitespace(t[k..], maxsplit - 1)
  }

  // ---------------------------------------------------------------------
  // `int(status)`

  predicate IsDigitOrUnderscore(c: char) { IsDigit(c) || c == '_' }

  /** Digits, with single underscores between them. */
  predicate DigitGroups(d: string)
  {
    d != [] && IsDigit(d[0]) && IsDigit(d[|d| - 1])
    && (forall i :: 0 <= i < |d| ==> IsDigitOrUnderscore(d[i]))
    && (forall i, j :: 0 <= i < |d| && 0 <= j < |d| && j == i + 1 ==> d[i] == '_' ==> d[j] != '_')
  }

  function DropUnderscores(d: string): (r: string)
    requires forall i :: 0 <= i < |d| ==> IsDigitOrUnderscore(d[i])
    ensures forall i :: 0 <= i < |r| ==> IsDigit(r[i])
    ensures (forall i :: 0 <= i < |d| ==> IsDigit(d[i])) ==> r == d
  {
    if d == [] then []
    else if d[0] == '_' then DropUnderscores(d[1..])
    else
      assert IsDigitOrUnderscore(d[0]);
      var rest := DropUnderscores(d[1..]);
      assert forall i :: 0 <= i < |rest| ==> ([d[0]] + rest)[i + 1] == rest[i];
      assert d == [d[0]] + d[1..];
      [d[0]] + rest
  }

  function Strip(s: string): string
  {
    var t := SkipWhitespace(s);
    t[..|t| - TrailingWhitespace(t)]
  }

  function TrailingWhitespace(s: string): (n: nat)
    ensures n <= |s|
  {
    if s != [] && IsWhitespace(s[|s| - 1]) then 1 + TrailingWhitespace(s[..|s| - 1]) else 0
  }

  /** Python's `int(s)` on text: surrounding whitespace, an optional sign,
      and decimal digits in underscore-separated groups; None where `int`
      raises ValueError. */
  function PyInt(s: string): Option<int>
  {
    var t := Strip(s);
    var negative := t != [] && t[0] == '-';
    var body := if t != [] && (t[0] == '+' || t[0] == '-') then t[1..] else t;
    if DigitGroups(body) then
      var n: int := DigitsValue(DropUnderscores(body));
      Some(if negative then -n else n)
    else None
  }

  // ---------------------------------------------------------------------
  // The status line

  /** `version.replace(pattern, replacement)`: every non-overlapping occurrence,
      left to right. */
  function ReplaceAll(s: string, pattern: string, replacement: string): (r: string)
    requires pattern != []
    ensures StartsWith(s, pattern) ==> StartsWith(r, replacement)
    decreases |s|
  {
    if s == [] then []
    else if StartsWith(s, pattern) then replacement + ReplaceAll(s[|pattern|..], pattern, replacement)
    else [s[0]] + ReplaceAll(s[1..], pattern, replacement)
  }

  /** The three parts of a line: version, status text (None when there is
      none) and reason. A line of fewer than two words has an empty version. */
  function Fields(line: string): (r: (string, Option<string>, string))
    ensures r.1.None? ==> r.0 == "" && r.2 == ""
  {
    var three := SplitWhitespace(line, 2);
    if |three| == 3 then (three[0], Some(three[1]), three[2])
    else
      var two := SplitWhitespace(line, 1);
      if |two| == 2 then (two[0], Some(two[1]), "") else ("", None, "")
  }

  /** The version after the SHOUTcast rewrite. */
  function Version(v: string): (r: string)
    ensures StartsWith(v, "ICY") ==> StartsWith(r, "HTTP/")
    ensures !StartsWith(v, "ICY") ==> r == v
  {
    if StartsWith(v, "ICY") then ReplaceAll(v, "ICY", "HTTP/1.0") else v
  }

  /** `_read_status` on a complete line. */
  function ParseStatusLine(line: string): (r: Result<Status, StatusError>)
    ensures r.Ok? ==> StartsWith(r.value.version, "HTTP/") && 100 <= r.value.status <= 999
    ensures r.Err? ==> r.error.BadStatusLine? && r.error.line == line
  {
    var (v, status, reason) := Fields(line);
    var version := Version(v);
    if !StartsWith(version, "HTTP/") then Err(BadStatusLine(line, true))
    else if status.None? then Err(BadStatusLine(line, false))
    else
      match PyInt(status.value)
      case None => Err(BadStatusLine(line, false))
      case Some(code) =>
        if code < 100 || code > 999 then Err(BadStatusLine(line, false))
        else Ok(Status(version, code, reason))
  }

  /** `IcylessHTTPResponse._read_status`: a line longer than `_MAXLINE` is
      refused, an empty read means the server hung up, and anything else is
      parsed. */
  function ReadStatus(data: string): (r: Result<Status, StatusError>)
    ensures r == Err(LineTooLong) <==> |ReadLine(data, MaxLine + 1)| > MaxLine
    ensures r == Err(RemoteDisconnected) <==> data == []
    ensures r.Ok? ==> StartsWith(r.value.version, "HTTP/") && 100 <= r.value.status <= 999
  {
    var line := ReadLine(data, MaxLine + 1);
    if |line| > MaxLine then Err(LineTooLong)
    else if line == [] then Err(RemoteDisconnected)
    else ParseStatusLine(line)
  }

  // ---------------------------------------------------------------------
  // Properties

  /** A line of exactly two words has an empty reason. */
  lemma TwoWordsEmptyReason(line: string)
    requires |SplitWhitespace(line, 2)| == 2
    ensures |SplitWhitespace(line, 1)| == 2 && Fields(line).2 == ""
  {
    var t := SkipWhitespace(line);
    var k := TokenEnd(t);
    assert SplitWhitespace(line, 2) == [t[..k]] + SplitWhitespace(t[k..], 1);
    assert SplitWhitespace(t[k..], 1) != [];
  }

  predicate Word(w: string)
  {
    w != [] && forall i :: 0 <= i < |w| ==> !IsWhitespace(w[i])
  }

  /** `int` reads a plain run of digits as its decimal value. */
  lemma PyIntOfDigits(s: string)
    requires s != [] && forall i :: 0 <= i < |s| ==> IsDigit(s[i])
    ensures PyInt(s) == Some(DigitsValue(s))
  {
    StripDigits(s);
    DigitsAreGroups(s);
    var t := Strip(s);
    assert t == s;
    assert !(t[0] == '+' || t[0] == '-');
  }

  lemma StripDigits(s: string)
    requires s != [] && forall i :: 0 <= i < |s| ==> IsDigit(s[i])
    ensures Strip(s) == s
  {
    assert IsDigit(s[0]) && IsDigit(s[|s| - 1]);
    assert SkipWhitespace(s) == s;
    assert TrailingWhitespace(s) == 0;
    assert s[..|s|] == s;
  }

  lemma DigitsAreGroups(s: string)
    requires s != [] && forall i :: 0 <= i < |s| ==> IsDigit(s[i])
    ensures DigitGroups(s) && DropUnderscores(s) == s
  {
    assert forall i :: 0 <= i < |s| ==> IsDigitOrUnderscore(s[i]);
  }

  /** A leading space is skipped. */
  lemma SplitAfterSpace(t: string, maxsplit: nat)
    ensures SplitWhitespace(" " + t, maxsplit) == SplitWhitespace(t, maxsplit)
  {
    assert (" " + t)[1..] == t;
    assert SkipWhitespace(" " + t) == SkipWhitespace(t);
  }

  /** A word followed by whitespace ends where the word ends. */
  lemma {:induction false} TokenEndOfWord(w: string, rest: string)
    requires forall i :: 0 <= i < |w| ==> !IsWhitespace(w[i])
    requires rest == [] || IsWhitespace(rest[0])
    ensures TokenEnd(w + rest) == |w|
    decreases |w|
  {
    if w != [] {
      assert (w + rest)[1..] == w[1..] + rest;
      TokenEndOfWord(w[1..], rest);
    }
  }

  /** A word, a space and more: the word is split off first. */
  lemma SplitWord(w: string, rest: string, maxsplit: nat)
    requires Word(w) && maxsplit > 0
    ensures SplitWhitespace(w + " " + rest, maxsplit) == [w] + SplitWhitespace(rest, maxsplit - 1)
  {
    var s := w + (" " + rest);
    assert w + " " + rest == s;
    assert SkipWhitespace(s) == s;
    TokenEndOfWord(w, " " + rest);
    assert s[..|w|] == w && s[|w|..] == " " + rest;
    SplitAfterSpace(rest, maxsplit - 1);
  }

  /** "v c r" splits into its three parts, the reason keeping whatever
      follows it. */
  lemma SplitThree(v: string, c: string, r: string)
    requires Word(v) && Word(c) && r != [] && !IsWhitespace(r[0])
    ensures SplitWhitespace(v + " " + c + " " + r, 2) == [v, c, r]
  {
    var tail := c + " " + r;
    assert v + " " + c + " " + r == v + " " + tail;
    SplitWord(v, tail, 2);
    SplitWord(c, r, 1);
    assert SkipWhitespace(r) == r;
    assert SplitWhitespace(r, 0) == [r];
    assert SplitWhitespace(tail, 1) == [c, r];
  }

  /** The status line a SHOUTcast v1 server sends is accepted as HTTP/1.0
      with its code and reason. */
  lemma IcyLineAccepted(code: nat, reason: string)
    requires 100 <= code <= 999
    requires reason != [] && !IsWhitespace(reason[0])
    ensures ParseStatusLine("ICY " + NatToString(code) + " " + reason) == Ok(Status("HTTP/1.0", code, reason))
  {
    var digits := NatToString(code);
    IcyVersion();
    assert "ICY " + digits == "ICY" + " " + digits;
    CodeFields("ICY", code, reason);
    ParseOfFields("ICY" + " " + digits + " " + reason, "ICY", code, reason);
  }

  /** Parsing recovers what an HTTP status line was made from: version,
      three-digit code and reason. */
  lemma ParseFormattedLine(version: string, code: nat, reason: string)
    requires Word(version) && StartsWith(version, "HTTP/")
    requires 100 <= code <= 999
    requires reason != [] && !IsWhitespace(reason[0])
    ensures ParseStatusLine(version + " " + NatToString(code) + " " + reason) == Ok(Status(version, code, reason))
  {
    HttpVersionKept(version);
    CodeFields(version, code, reason);
    ParseOfFields(version + " " + NatToString(code) + " " + reason, version, code, reason);
  }

  /** A version word, a code and a reason split into the three fields, and
      the code's text reads back as the code. */
  lemma CodeFields(version: string, code: nat, reason: string)
    requires Word(version)
    requires reason != [] && !IsWhitespace(reason[0])
    ensures Fields(version + " " + NatToString(code) + " " + reason) == (version, Some(NatToString(code)), reason)
    ensures PyInt(NatToString(code)) == Some(code)
  {
    var digits := NatToString(code);
    assert Word(digits) by {
      forall i | 0 <= i < |digits|
        ensures !IsWhitespace(digits[i])
      {
        assert IsDigit(digits[i]);
      }
    }
    SplitThree(version, digits, reason);
    DigitsOfNatToString(code);
    PyIntOfDigits(digits);
  }

  lemma HttpVersionKept(version: string)
    requires StartsWith(version, "HTTP/")
    ensures Version(version) == version
  {
    assert version[0] == 'H';
  }

  lemma IcyVersion()
    ensures Word("ICY") && Version("ICY") == "HTTP/1.0"
  {
    assert ReplaceAll("ICY"[3..], "ICY", "HTTP/1.0") == [];
  }

  /** The steps of `_read_status` on a line whose fields are known. */
  lemma ParseOfFields(line: string, v: string, code: nat, reason: string)
    requires Fields(line) == (v, Some(NatToString(code)), reason)
    requires PyInt(NatToString(code)) == Some(code)
    requires StartsWith(Version(v), "HTTP/") && 100 <= code <= 999
    ensures ParseStatusLine(line) == Ok(Status(Version(v), code, reason))
  {
  }
}

=== FILE: stream_service.dfy ===
/** The stream service's bookkeeping (services/stream_service.py): which
    errors are worth a reconnect, the recovery retry schedule, the voice
    connection retry loop, and the stream fields it writes into the guild
    state. Discord, the stream probes and the sleeps are parameters or the
    returned list of waits. */
module StreamService {
  import opened Util
  import opened Values
  import opened StateManagement

  // ---------------------------------------------------------------------
  // _is_recoverable_error

  const NetworkKeywords: seq<string> := [
    "connection reset", "connection timed out", "network is unreachable", "temporary failure",
    "connection refused", "timeout", "connection lost", "connection dropped"]

  const FfmpegKeywords: seq<string> := [
    "av_interleaved_write_frame", "error writing trailer", "input/output error",
    "resource temporarily unavailable"]

  const FatalKeywords: seq<string> := [
    "not found", "404", "forbidden", "403", "unauthorized", "401", "invalid url", "malformed",
    "unsupported format", "codec not found"]

  /** Every keyword that makes an error recoverable. */
  const RecoverableKeywords: seq<string> := ["broken pipe"] + NetworkKeywords + FfmpegKeywords

  /** `any(keyword in s for keyword in keys)`. */
  predicate AnyIn(keys: seq<string>, s: string)
  {
    keys != [] && (Contains(s, keys[0]) || AnyIn(keys[1..], s))
  }

  lemma {:induction false} AnyInMeansSome(keys: seq<string>, s: string)
    ensures AnyIn(keys, s) <==> exists i :: 0 <= i < |keys| && Contains(s, keys[i])
  {
    if keys != [] {
      AnyInMeansSome(keys[1..], s);
      if Contains(s, keys[0]) {
        assert 0 < |keys| && Contains(s, keys[0]);
      }
      if exists i :: 0 <= i < |keys| && Contains(s, keys[i]) {
        var i :| 0 <= i < |keys| && Contains(s, keys[i]);
        if i > 0 {
          assert keys[1..][i - 1] == keys[i];
        }
      }
    }
  }

  lemma {:induction false} AnyInAppend(a: seq<string>, b: seq<string>, s: string)
    ensures AnyIn(a + b, s) <==> AnyIn(a, s) || AnyIn(b, s)
  {
    if a == [] {
      assert a + b == b;
    } else {
      assert (a + b)[0] == a[0] && (a + b)[1..] == a[1..] + b;
      AnyInAppend(a[1..], b, s);
    }
  }

  /** `_is_recoverable_error`: checked on the lowercased message, the
      recoverable keyword groups first, then the fatal ones; an error that
      names none of them is treated as recoverable. */
  function IsRecoverableError(error: string): bool
  {
    var e := Lower(error);
    if Contains(e, "broken pipe") then true
    else if AnyIn(NetworkKeywords, e) then true
    else if AnyIn(FfmpegKeywords, e) then true
    else if AnyIn(FatalKeywords, e) then false
    else true
  }

  /** The classification as a whole: an error is unrecoverable exactly when
      its lowercased text names a fatal keyword and no recoverable one, so a
      recoverable keyword always wins. */
  lemma RecoverableIff(error: string)
    ensures !IsRecoverableError(error) <==>
      !AnyIn(RecoverableKeywords, Lower(error)) && AnyIn(FatalKeywords, Lower(error))
  {
    var e := Lower(error);
    AnyInAppend(["broken pipe"] + NetworkKeywords, FfmpegKeywords, e);
    AnyInAppend(["broken pipe"], NetworkKeywords, e);
    assert AnyIn(["broken pipe"], e) <==> Contains(e, "broken pipe") by {
      assert ["broken pipe"][1..] == [];
    }
  }

  /** One recoverable keyword anywhere in the message is enough. */
  lemma RecoverableKeywordWins(error: string, i: nat)
    requires i < |RecoverableKeywords| && Contains(Lower(error), RecoverableKeywords[i])
    ensures IsRecoverableError(error)
  {
    RecoverableIff(error);
    AnyInMeansSome(RecoverableKeywords, Lower(error));
  }

  /** The check ignores case. */
  lemma RecoverableIgnoresCase(error: string)
    ensures IsRecoverableError(Lower(error)) == IsRecoverableError(error)
  {
    LowerIdempotent(error);
  }

  // ---------------------------------------------------------------------
  // _attempt_stream_recovery

  const MaxRecoveryRetries: nat := 3
  const RetryDelays: seq<nat> := [5, 10, 20]

  /** The wait before retry `retryCount`: the list entry, or its last entry
      beyond the list. */
  function RetryDelay(retryCount: nat): (d: nat)
    ensures retryCount < 3 ==> d == RetryDelays[retryCount]
    ensures retryCount >= 3 ==> d == 20
  {
    if retryCount < |RetryDelays| then RetryDelays[retryCount] else RetryDelays[|RetryDelays| - 1]
  }

  /** What one recovery attempt finds after its wait. */
  datatype Probe =
    | StationOffline      // station status <= 0
    | NoStreamConnection  // no new HTTP response
    | ProbeRaised         // an exception inside the attempt
    | BotMissing          // no bot instance registered
    | VoiceClientMissing  // the guild has no voice client any more
    | Restarted           // playback started again

  datatype RecoveryOutcome = NoStreamUrl | RetriesExhausted | BotUnavailable | VoiceClientLost | Recovered(attempt: nat)

  /** The waits taken and how the chain of attempts ended. */
  datatype RecoveryRun = RecoveryRun(delays: seq<nat>, outcome: RecoveryOutcome)

  predicate Transient(p: Probe)
  {
    p == StationOffline || p == NoStreamConnection || p == ProbeRaised
  }

  /** `_attempt_stream_recovery(guild, error, retryCount)` for a guild that
      does (`hasUrl`) or does not have a stream URL; `probe(k)` is what the
      attempt with retry count k finds. Transient failures recurse with the
      count plus one. */
  function AttemptStreamRecovery(hasUrl: bool, retryCount: nat, probe: nat -> Probe): (r: RecoveryRun)
    decreases if retryCount < MaxRecoveryRetries then MaxRecoveryRetries - retryCount else 0
  {
    if !hasUrl then RecoveryRun([], NoStreamUrl)
    else if retryCount >= MaxRecoveryRetries then RecoveryRun([], RetriesExhausted)
    else
      var d := RetryDelay(retryCount);
      match probe(retryCount)
      case Restarted => RecoveryRun([d], Recovered(retryCount + 1))
      case BotMissing => RecoveryRun([d], BotUnavailable)
      case VoiceClientMissing => RecoveryRun([d], VoiceClientLost)
      case _ =>
        var rest := AttemptStreamRecovery(hasUrl, retryCount + 1, probe);
        RecoveryRun([d] + rest.delays, rest.outcome)
  }

  /** The schedule: the k-th wait is the delay for retry count
      `retryCount + k`, there are at most 3 - retryCount of them, and a
      recovery happens on an attempt numbered at most 3. */
  lemma {:induction false} RecoverySchedule(hasUrl: bool, retryCount: nat, probe: nat -> Probe)
    ensures var r := AttemptStreamRecovery(hasUrl, retryCount, probe);
            |r.delays| <= (if retryCount < MaxRecoveryRetries then MaxRecoveryRetries - retryCount else 0)
            && (forall k :: 0 <= k < |r.delays| ==> r.delays[k] == RetryDelay(retryCount + k))
            && (r.outcome.Recovered? ==> retryCount < r.outcome.attempt <= MaxRecoveryRetries)
    decreases if retryCount < MaxRecoveryRetries then MaxRecoveryRetries - retryCount else 0
  {
    if hasUrl && retryCount < MaxRecoveryRetries && Transient(probe(retryCount)) {
      RecoverySchedule(hasUrl, retryCount + 1, probe);
      var rest := AttemptStreamRecovery(hasUrl, retryCount + 1, probe);
      var r := AttemptStreamRecovery(hasUrl, retryCount, probe);
      assert r.delays == [RetryDelay(retryCount)] + rest.delays;
      forall k | 0 < k < |r.delays| ensures r.delays[k] == RetryDelay(retryCount + k) {
        assert r.delays[k] == rest.delays[k - 1];
      }
    }
  }

  /** A stream that keeps failing transiently is given up after waiting 5,
      10 and 20 seconds. */
  lemma GiveUpAfterThreeTransientFailures(probe: nat -> Probe)
    requires Transient(probe(0)) && Transient(probe(1)) && Transient(probe(2))
    ensures AttemptStreamRecovery(true, 0, probe) == RecoveryRun([5, 10, 20], RetriesExhausted)
  {
    assert AttemptStreamRecovery(true, 3, probe) == RecoveryRun([], RetriesExhausted);
    assert AttemptStreamRecovery(true, 2, probe) == RecoveryRun([20], RetriesExhausted);
    assert AttemptStreamRecovery(true, 1, probe) == RecoveryRun([10, 20], RetriesExhausted);
  }

  // ---------------------------------------------------------------------
  // _connect_to_voice_with_retry

  /** What `voice_channel.connect` does on one attempt. */
  datatype ConnectOutcome = Connected(client: nat) | TimedOut | ConnectionClosed(code: int) | ConnectFailed

  /** The sleeps around attempt a: 2a seconds before every retry, and 5 more
      after a close with code 4006. */
  function SleepsBefore(a: nat): seq<real>
  {
    if a > 0 then [2.0 * a as real] else []
  }

  function SleepsAfter(o: ConnectOutcome): seq<real>
  {
    if o.ConnectionClosed? && o.code == 4006 then [5.0] else []
  }

  /** Attempts a, a + 1, ... below `maxRetries`: the first connection, or the
      last error (None when no attempt was made), with every sleep taken. */
  function VoiceConnect(connect: nat -> ConnectOutcome, a: nat, maxRetries: nat, last: Option<ConnectOutcome>)
    : (Result<nat, Option<ConnectOutcome>>, seq<real>)
    decreases maxRetries - a
  {
    if a >= maxRetries then (Err(last), [])
    else
      var o := connect(a);
      if o.Connected? then (Ok(o.client), SleepsBefore(a))
      else
        var rest := VoiceConnect(connect, a + 1, maxRetries, Some(o));
        (rest.0, SleepsBefore(a) + SleepsAfter(o) + rest.1)
  }

  /** The connection succeeds exactly when some attempt below the limit
      connects, and then with the first such attempt's client. */
  lemma {:induction false} VoiceConnectFirstSuccess(connect: nat -> ConnectOutcome, a: nat, maxRetries: nat,
                                                   last: Option<ConnectOutcome>)
    ensures var r := VoiceConnect(connect, a, maxRetries, last).0;
            (r.Ok? <==> exists k :: a <= k < maxRetries && connect(k).Connected?)
            && (r.Ok? ==> exists k :: a <= k < maxRetries && connect(k).Connected? && r.value == connect(k).client
                                      && forall j :: a <= j < k ==> !connect(j).Connected?)
    decreases maxRetries - a
  {
    if a < maxRetries && !connect(a).Connected? {
      VoiceConnectFirstSuccess(connect, a + 1, maxRetries, Some(connect(a)));
      var r := VoiceConnect(connect, a + 1, maxRetries, Some(connect(a))).0;
      if r.Ok? {
        var k :| a + 1 <= k < maxRetries && connect(k).Connected? && r.value == connect(k).client
                 && forall j :: a + 1 <= j < k ==> !connect(j).Connected?;
        assert forall j :: a <= j < k ==> !connect(j).Connected?;
      }
    }
  }

  /** A first attempt that connects costs no sleep; with no attempts allowed
      the call fails without any error to report. */
  lemma VoiceConnectEdges(connect: nat -> ConnectOutcome, maxRetries: nat)
    ensures maxRetries > 0 && connect(0).Connected? ==> VoiceConnect(connect, 0, maxRetries, None) == (Ok(connect(0).client), [])
    ensures maxRetries == 0 ==> VoiceConnect(connect, 0, maxRetries, None) == (Err(None), [])
  {
  }

  /** `_connect_to_voice_with_retry`: the attempt loop, returning the voice
      client or the last error, and the sleeps it took. */
  method ConnectToVoiceWithRetry(connect: nat -> ConnectOutcome, maxRetries: nat)
    returns (r: Result<nat, Option<ConnectOutcome>>, sleeps: seq<real>)
    ensures (r, sleeps) == VoiceConnect(connect, 0, maxRetries, None)
    ensures r.Ok? <==> exists k :: 0 <= k < maxRetries && connect(k).Connected?
  {
    var last: Option<ConnectOutcome> := None;
    sleeps := [];
    assert sleeps + VoiceConnect(connect, 0, maxRetries, last).1 == VoiceConnect(connect, 0, maxRetries, last).1;
    var attempt := 0;
    while attempt < maxRetries
      invariant 0 <= attempt <= maxRetries
      invariant VoiceConnect(connect, 0, maxRetries, None).0 == VoiceConnect(connect, attempt, maxRetries, last).0
      invariant VoiceConnect(connect, 0, maxRetries, None).1 == sleeps + VoiceConnect(connect, attempt, maxRetries, last).1
    {
      ghost var done := sleeps;
      if attempt > 0 {
        sleeps := sleeps + [2.0 * attempt as real];
      }
      assert sleeps == done + SleepsBefore(attempt);
      var o := connect(attempt);
      if o.Connected? {
        r := Ok(o.client);
        VoiceConnectFirstSuccess(connect, 0, maxRetries, None);
        return;
      }
      var rest := VoiceConnect(connect, attempt + 1, maxRetries, Some(o));
      assert VoiceConnect(connect, attempt, maxRetries, last).1 == SleepsBefore(attempt) + SleepsAfter(o) + rest.1;
      sleeps := sleeps + SleepsAfter(o);
      assert done + (SleepsBefore(attempt) + SleepsAfter(o) + rest.1) == sleeps + rest.1;
      last := Some(o);
      attempt := attempt + 1;
    }
    r := Err(last);
    assert VoiceConnect(connect, attempt, maxRetries, last) == (Err(last), []);
    assert sleeps + [] == sleeps;
    VoiceConnectFirstSuccess(connect, 0, maxRetries, None);
  }

  // ---------------------------------------------------------------------
  // Stream fields of the guild state

  /** `_clear_stream_state` on one state. It writes `stream_response`, an
      attribute that is not the dataclass's `current_stream_response`, so
      that field keeps its value. */
  function StreamCleared(s: GuildState): (r: GuildState)
  {
    s.(attrs := s.attrs[CurrentStreamUrl := VNone][TextChannel := VNone][StartTime := VNone]
                       [CurrentSong := VNone][CleaningUp := VBool(false)])
  }

  /** After clearing, the guild no longer streams and is active only through
      its voice client or metadata listener. */
  lemma ClearedStopsStreaming(s: GuildState)
    ensures !IsStreaming(StreamCleared(s))
    ensures IsActive(StreamCleared(s)) <==> Get(s, VoiceClient) != VNone || Truthy(Get(s, MetadataListenerActive))
    ensures Get(StreamCleared(s), CurrentStreamResponse) == Get(s, CurrentStreamResponse)
  {
  }

  /** `_update_stream_state` on one state. */
  function StreamStarted(s: GuildState, url: string, channel: Value, now: real): (r: GuildState)
  {
    s.(attrs := s.attrs[CurrentStreamUrl := VStr(url)][TextChannel := channel][StartTime := VReal(now)]
                       [CleaningUp := VBool(false)], lastUpdated := now)
  }

  /** Starting a stream stamps the state, whatever stamp it had. */
  lemma StartedRestamps(s: GuildState, t: real, url: string, channel: Value, now: real)
    ensures StreamStarted(s.(lastUpdated := t), url, channel, now) == StreamStarted(s, url, channel, now)
  {
  }

  /** A started stream streams, and clearing it undoes that. */
  lemma StartThenClear(s: GuildState, url: string, channel: Value, now: real)
    ensures IsStreaming(StreamStarted(s, url, channel, now))
    ensures Get(StreamCleared(StreamStarted(s, url, channel, now)), CurrentStreamUrl) == VNone
  {
  }

  /** One entry of `get_active_streams`. */
  datatype StreamInfo = StreamInfo(url: Value, startTime: Value, lastUpdated: real, currentSong: Value)

  /** The entry for a state looked up at `now`. */
  function Entry(s: GuildState, now: real): StreamInfo
  {
    StreamInfo(Get(s, CurrentStreamUrl), Get(s, StartTime), now, Get(s, CurrentSong))
  }

  /** The states after the guilds in `done` have been looked up at `now`. */
  function Stamped(m: map<int, GuildState>, done: set<int>, now: real): (r: map<int, GuildState>)
    ensures r.Keys == m.Keys
  {
    map g | g in m :: if g in done then m[g].(lastUpdated := now) else m[g]
  }

  /** The entries collected for the guilds in `done`: those with a truthy
      stream URL. */
  function ActiveEntries(m: map<int, GuildState>, done: set<int>, now: real): (r: map<int, StreamInfo>)
    ensures forall g :: g in r <==> g in m && g in done && Truthy(Get(m[g], CurrentStreamUrl))
    ensures forall g :: g in r ==> r[g] == Entry(m[g], now)
  {
    map g | g in m && g in done && Truthy(Get(m[g], CurrentStreamUrl)) :: Entry(m[g], now)
  }

  lemma StampStep(m: map<int, GuildState>, done: set<int>, g: int, now: real)
    requires g in m
    ensures Stamped(m, done + {g}, now) == Stamped(m, done, now)[g := m[g].(lastUpdated := now)]
  {
    var a := Stamped(m, done + {g}, now);
    var b := Stamped(m, done, now)[g := m[g].(lastUpdated := now)];
    assert a.Keys == b.Keys;
    assert forall h :: h in a ==> a[h] == b[h];
  }

  lemma EntriesStep(m: map<int, GuildState>, done: set<int>, g: int, now: real)
    requires g in m
    ensures ActiveEntries(m, done + {g}, now) ==
      if Truthy(Get(m[g], CurrentStreamUrl)) then ActiveEntries(m, done, now)[g := Entry(m[g], now)]
      else ActiveEntries(m, done, now)
  {
    var a := ActiveEntries(m, done + {g}, now);
    var b := if Truthy(Get(m[g], CurrentStreamUrl)) then ActiveEntries(m, done, now)[g := Entry(m[g], now)]
             else ActiveEntries(m, done, now);
    assert a.Keys == b.Keys;
    assert forall h :: h in a ==> a[h] == b[h];
  }

  /** Looking up every guild stamps each of them. */
  lemma StampedAll(m: map<int, GuildState>, now: real)
    ensures Stamped(m, m.Keys, now) == map g | g in m :: m[g].(lastUpdated := now)
  {
  }

  class StreamService {
    const stateManager: StateManager

    constructor(stateManager: StateManager)
      ensures this.stateManager == stateManager
    {
      this.stateManager := stateManager;
    }

    /** `_update_stream_state`: the guild's state (created if missing) holds
        the new URL, channel and start time. */
    method UpdateStreamState(g: int, url: string, channel: Value, now: real)
      modifies stateManager
      ensures var base := if g in old(stateManager.states) then old(stateManager.states)[g]
                          else NewState(g, now, VDict(map[]));
              stateManager.states == old(stateManager.states)[g := StreamStarted(base, url, channel, now)]
      ensures IsStreaming(stateManager.states[g])
      ensures stateManager.locks == old(stateManager.locks) + {g}
    {
      ghost var base := if g in stateManager.states then stateManager.states[g] else NewState(g, now, VDict(map[]));
      var st := stateManager.GetGuildState(g, true, now);
      StartedRestamps(base, now, url, channel, now);
      StartThenClear(base, url, channel, now);
      stateManager.states := stateManager.states[g := StreamStarted(st.value, url, channel, now)];
    }

    /** `_clear_stream_state`: the guild's state (created if missing, as the
        lookup creates by default) no longer streams. */
    method ClearStreamState(g: int, now: real)
      modifies stateManager
      ensures var base := if g in old(stateManager.states) then old(stateManager.states)[g]
                          else NewState(g, now, VDict(map[]));
              stateManager.states == old(stateManager.states)[g := StreamCleared(base.(lastUpdated := now))]
      ensures !IsStreaming(stateManager.states[g])
      ensures stateManager.locks == old(stateManager.locks) + {g}
    {
      var st := stateManager.GetGuildState(g, true, now);
      stateManager.states := stateManager.states[g := StreamCleared(st.value)];
      ClearedStopsStreaming(st.value);
    }

    /** One guild of `get_active_streams`: the lookup stamps the state with
        `now`; a guild with a truthy stream URL yields its entry. */
    method StreamEntry(g: int, now: real) returns (info: Option<StreamInfo>)
      requires g in stateManager.states
      modifies stateManager
      ensures var s := old(stateManager.states)[g];
              stateManager.states == old(stateManager.states)[g := s.(lastUpdated := now)]
              && info == if Truthy(Get(s, CurrentStreamUrl)) then Some(Entry(s, now)) else None
      ensures stateManager.locks == old(stateManager.locks) + {g}
    {
      var st := stateManager.GetGuildState(g, true, now);
      var s := st.value;
      if Truthy(Get(s, CurrentStreamUrl)) {
        info := Some(StreamInfo(Get(s, CurrentStreamUrl), Get(s, StartTime), s.lastUpdated, Get(s, CurrentSong)));
      } else {
        info := None;
      }
    }

    /** `get_active_streams`: exactly the guilds whose stream URL is set (a
        truthy value); looking each guild up stamps it with `now`. */
    method GetActiveStreams(now: real) returns (r: map<int, StreamInfo>)
      modifies stateManager
      ensures r == ActiveEntries(old(stateManager.states), old(stateManager.states).Keys, now)
      ensures forall g :: g in r <==> g in old(stateManager.states) && Truthy(Get(old(stateManager.states)[g], CurrentStreamUrl))
      ensures stateManager.states == Stamped(old(stateManager.states), old(stateManager.states).Keys, now)
      ensures stateManager.locks == old(stateManager.locks) + old(stateManager.states).Keys
    {
      r := map[];
      ghost var before, locks0 := stateManager.states, stateManager.locks;
      ghost var done: set<int> := {};
      var todo := stateManager.states.Keys;
      assert Stamped(before, {}, now) == before;
      assert ActiveEntries(before, {}, now) == map[];
      while todo != {}
        invariant done + todo == before.Keys && done !! todo
        invariant stateManager.states == Stamped(before, done, now)
        invariant r == ActiveEntries(before, done, now)
        invariant stateManager.locks == locks0 + done
        decreases |todo|
      {
        assert (forall h :: h !in todo) ==> todo == {};
        var g :| g in todo;
        var info := StreamEntry(g, now);
        StampStep(before, done, g, now);
        EntriesStep(before, done, g, now);
        if info.Some? {
          r := r[g := info.value];
        }
        MoveToDone(locks0, done, todo, g);
        todo := todo - {g};
        done := done + {g};
      }
      assert done == before.Keys;
    }
  }
}

=== FILE: ui_components.dfy ===
/** The base of every Discord UI component: a visual state that follows the
    enabled flag, a value, per-event handler lists, and the text, style and
    emoji helpers the concrete components render with.

    Handlers are identified by a number; emitting an event is recorded as
    the list of handlers notified. The theme and its colours are not part of
    this model. */
module Components {
  import opened Util
  import opened Values
  import opened UiInterfaces

  // ---------------------------------------------------------------------
  // Text

  /** A word-boundary cut: `k` is the last space among the first `max - 3`
      characters and lies past `max / 2`. */
  predicate CutAtSpace(text: string, maxLength: int, k: int)
  {
    maxLength > 3 && maxLength - 3 <= |text|
    && maxLength / 2 < k < maxLength - 3 && text[k] == ' '
    && forall j :: k < j < maxLength - 3 ==> text[j] != ' '
  }

  /** `_truncate_text`: text that fits is kept; otherwise it is cut to leave
      room for "...", at the last space of the kept part when that space is
      past half the limit, else at the limit. */
  function TruncateText(text: string, maxLength: int): (r: string)
    ensures |text| <= maxLength ==> r == text
    ensures |text| > maxLength >= 3 ==> |r| <= maxLength && EndsWith(r, "...") && r[..|r| - 3] <= text
    ensures forall k :: |text| > maxLength && CutAtSpace(text, maxLength, k) ==> r == text[..k] + "..."
    ensures |text| > maxLength > 3 && (forall k :: !CutAtSpace(text, maxLength, k)) ==>
      r == text[..maxLength - 3] + "..."
  {
    if |text| <= maxLength then text
    else
      var cut := if maxLength > 3 then LastIndexOfChar(text[..maxLength - 3], ' ') else -1;
      if maxLength > 3 && cut > maxLength / 2 then
        assert CutAtSpace(text, maxLength, cut);
        text[..maxLength - 3][..cut] + "..."
      else
        assert maxLength > 3 ==> forall k :: !CutAtSpace(text, maxLength, k);
        PyPrefix(text, maxLength - 3) + "..."
  }

  /** There is at most one word-boundary cut. */
  lemma CutAtSpaceUnique(text: string, maxLength: int, k1: int, k2: int)
    requires CutAtSpace(text, maxLength, k1) && CutAtSpace(text, maxLength, k2)
    ensures k1 == k2
  {
  }

  /** A limit below 3 is not honoured: the negative slice keeps all but the
      last characters. (The only caller passes 80.) */
  lemma ShortLimitOverflows()
    ensures TruncateText("abcd", 2) == "abc..."
    ensures |TruncateText("abcd", 2)| > 2
  {
    assert PyPrefix("abcd", -1) == "abc";
  }

  // ---------------------------------------------------------------------
  // State-dependent rendering

  datatype ButtonStyle = Primary | Secondary | Success | Danger

  /** `_get_button_style`: defined for every state. */
  function ButtonStyleFor(s: ComponentState): (r: ButtonStyle)
    ensures r == ButtonStyle.Primary <==> s == Active
    ensures r == ButtonStyle.Danger <==> s == Error
    ensures r == ButtonStyle.Success <==> s == ComponentState.Success
    ensures r == ButtonStyle.Secondary <==> s == ComponentState.Normal || s == Disabled || s == Loading
  {
    match s
    case Disabled => ButtonStyle.Secondary
    case Active => ButtonStyle.Primary
    case Error => ButtonStyle.Danger
    case Success => ButtonStyle.Success
    case _ => ButtonStyle.Secondary
  }

  /** `_get_state_emoji` (emoji are always used): every state but NORMAL has
      its own emoji. */
  function StateEmoji(s: ComponentState): (r: Option<string>)
    ensures r.None? <==> s == ComponentState.Normal
  {
    match s
    case Normal => None
    case Active => Some("\U{1F535}")
    case Disabled => Some("\U{26AB}")
    case Loading => Some("\U{1F504}")
    case Error => Some("\U{274C}")
    case Success => Some("\U{2705}")
  }

  /** Different states show different emoji. */
  lemma StateEmojiInjective(a: ComponentState, b: ComponentState)
    requires StateEmoji(a) == StateEmoji(b)
    ensures a == b
  {
  }

  /** The state after `set_enabled`: disabling moves any state to DISABLED;
      enabling moves DISABLED back to NORMAL and keeps every other state. */
  function EnabledState(s: ComponentState, enabled: bool): (r: ComponentState)
    ensures !enabled ==> r == Disabled
    ensures enabled && s == Disabled ==> r == ComponentState.Normal
    ensures enabled && s != Disabled ==> r == s
  {
    if !enabled && s != Disabled then Disabled
    else if enabled && s == Disabled then ComponentState.Normal
    else s
  }

  /** Disabling and enabling again ends in NORMAL, whatever the state was. */
  lemma DisableThenEnable(s: ComponentState)
    ensures EnabledState(EnabledState(s, false), true) == ComponentState.Normal
  {
  }

  // ---------------------------------------------------------------------
  // Handler lists

  function HandlersFor(hs: map<UIEvent, seq<nat>>, e: UIEvent): seq<nat>
  {
    if e in hs then hs[e] else []
  }

  /** `list.remove(x)`: the first occurrence goes. */
  function RemoveFirst(s: seq<nat>, x: nat): (r: seq<nat>)
    ensures x in s ==> |r| == |s| - 1 && multiset(r) == multiset(s) - multiset{x}
    ensures x !in s ==> r == s
  {
    if s == [] then []
    else
      assert s == [s[0]] + s[1..];
      if s[0] == x then s[1..]
      else [s[0]] + RemoveFirst(s[1..], x)
  }

  /** `add_event_handler`: appended to the event's list. */
  function AddHandler(hs: map<UIEvent, seq<nat>>, e: UIEvent, h: nat): (r: map<UIEvent, seq<nat>>)
    ensures HandlersFor(r, e) == HandlersFor(hs, e) + [h]
    ensures forall e' :: e' != e ==> HandlersFor(r, e') == HandlersFor(hs, e')
  {
    hs[e := HandlersFor(hs, e) + [h]]
  }

  /** `remove_event_handler`: removed iff registered; the first occurrence
      goes and every other list is kept. */
  function RemoveHandler(hs: map<UIEvent, seq<nat>>, e: UIEvent, h: nat): (r: (bool, map<UIEvent, seq<nat>>))
    ensures r.0 <==> h in HandlersFor(hs, e)
    ensures !r.0 ==> r.1 == hs
    ensures r.0 ==> (|HandlersFor(r.1, e)| == |HandlersFor(hs, e)| - 1
      && multiset(HandlersFor(r.1, e)) == multiset(HandlersFor(hs, e)) - multiset{h})
    ensures forall e' :: e' != e ==> HandlersFor(r.1, e') == HandlersFor(hs, e')
  {
    if h in HandlersFor(hs, e) then (true, hs[e := RemoveFirst(hs[e], h)]) else (false, hs)
  }

  /** Removing a handler just added restores the event's handlers, up to
      order. */
  lemma AddThenRemove(hs: map<UIEvent, seq<nat>>, e: UIEvent, h: nat)
    ensures var r := RemoveHandler(AddHandler(hs, e, h), e, h);
      r.0 && multiset(HandlersFor(r.1, e)) == multiset(HandlersFor(hs, e))
  {
    var added := AddHandler(hs, e, h);
    assert HandlersFor(added, e)[|HandlersFor(hs, e)|] == h;
  }

  const AllEvents: seq<UIEvent> :=
    [ComponentClicked, ComponentChanged, ViewOpened, ViewClosed, LayoutChanged, ThemeChanged, DeviceChanged]

  function CountOver(hs: map<UIEvent, seq<nat>>, events: seq<UIEvent>): nat
  {
    if events == [] then 0 else |HandlersFor(hs, events[0])| + CountOver(hs, events[1..])
  }

  /** The `event_handler_count` of `get_component_info`. */
  function HandlerCount(hs: map<UIEvent, seq<nat>>): nat
  {
    CountOver(hs, AllEvents)
  }

  /** Changing one event's list changes the count by the change in its
      length. */
  lemma {:induction false} CountOverUpdate(hs: map<UIEvent, seq<nat>>, events: seq<UIEvent>, e: UIEvent, l: seq<nat>)
    requires forall i, j :: 0 <= i < j < |events| ==> events[i] != events[j]
    ensures e in events ==> CountOver(hs[e := l], events) + |HandlersFor(hs, e)| == CountOver(hs, events) + |l|
    ensures e !in events ==> CountOver(hs[e := l], events) == CountOver(hs, events)
  {
    if events != [] {
      CountOverUpdate(hs, events[1..], e, l);
      if events[0] == e {
        assert e !in events[1..];
      }
    }
  }

  lemma AllEventsListed(e: UIEvent)
    ensures e in AllEvents && forall i, j :: 0 <= i < j < |AllEvents| ==> AllEvents[i] != AllEvents[j]
  {
  }

  /** Adding a handler counts one more. */
  lemma AddHandlerCount(hs: map<UIEvent, seq<nat>>, e: UIEvent, h: nat)
    ensures HandlerCount(AddHandler(hs, e, h)) == HandlerCount(hs) + 1
  {
    AllEventsListed(e);
    CountOverUpdate(hs, AllEvents, e, HandlersFor(hs, e) + [h]);
  }

  /** Removing a registered handler counts one fewer; removing an unknown
      one changes nothing. */
  lemma RemoveHandlerCount(hs: map<UIEvent, seq<nat>>, e: UIEvent, h: nat)
    ensures var r := RemoveHandler(hs, e, h);
      HandlerCount(r.1) == if r.0 then HandlerCount(hs) - 1 else HandlerCount(hs)
  {
    if h in HandlersFor(hs, e) {
      AllEventsListed(e);
      CountOverUpdate(hs, AllEvents, e, RemoveFirst(hs[e], h));
    }
  }

  // ---------------------------------------------------------------------
  // The component

  /** What a COMPONENT_CHANGED event for a state change carries. */
  datatype StateChange = StateChange(componentId: string, oldState: ComponentState, newState: ComponentState, at: real)

  class BaseComponent {
    const componentId: string
    var state: ComponentState
    var enabled: bool
    var visible: bool
    var value: Value
    var handlers: map<UIEvent, seq<nat>>
    var interactionCallback: Option<nat>
    var accessibilityLabel: Option<string>
    var accessibilityDescription: Option<string>
    const createdAt: real
    var lastUpdated: real

    constructor (id: string, now: real)
      ensures componentId == id && state == ComponentState.Normal && enabled && visible && value == VNone
      ensures handlers == map[] && interactionCallback == None
      ensures accessibilityLabel == None && accessibilityDescription == None
      ensures createdAt == now && lastUpdated == now
    {
      componentId := id;
      state := ComponentState.Normal;
      enabled := true;
      visible := true;
      value := VNone;
      handlers := map[];
      interactionCallback := None;
      accessibilityLabel := None;
      accessibilityDescription := None;
      createdAt := now;
      lastUpdated := now;
    }

    /** `update_state`: the change is announced to the COMPONENT_CHANGED
        handlers, in registration order. */
    method UpdateState(s: ComponentState, now: real) returns (notified: seq<nat>, change: StateChange)
      modifies this
      ensures state == s && lastUpdated == now
      ensures change == StateChange(componentId, old(state), s, now)
      ensures notified == HandlersFor(handlers, ComponentChanged)
      ensures enabled == old(enabled) && visible == old(visible) && value == old(value) && handlers == old(handlers)
      ensures interactionCallback == old(interactionCallback)
      ensures accessibilityLabel == old(accessibilityLabel) && accessibilityDescription == old(accessibilityDescription)
    {
      change := StateChange(componentId, state, s, now);
      state := s;
      lastUpdated := now;
      notified := HandlersFor(handlers, ComponentChanged);
    }

    /** `set_enabled`: the state follows `EnabledState`, and the handlers
        hear of it only when the state changes. */
    method SetEnabled(e: bool, now: real) returns (notified: seq<nat>)
      modifies this
      ensures enabled == e && lastUpdated == now
      ensures state == EnabledState(old(state), e)
      ensures notified == if state != old(state) then HandlersFor(handlers, ComponentChanged) else []
      ensures visible == old(visible) && value == old(value) && handlers == old(handlers)
      ensures interactionCallback == old(interactionCallback)
      ensures accessibilityLabel == old(accessibilityLabel) && accessibilityDescription == old(accessibilityDescription)
    {
      enabled := e;
      lastUpdated := now;
      notified := [];
      if !e && state != Disabled {
        var change;
        notified, change := UpdateState(Disabled, now);
      } else if e && state == Disabled {
        var change;
        notified, change := UpdateState(ComponentState.Normal, now);
      }
    }

    /** `set_value`: always announced to the COMPONENT_CHANGED handlers. */
    method SetValue(v: Value, now: real) returns (notified: seq<nat>)
      modifies this
      ensures value == v && lastUpdated == now
      ensures notified == HandlersFor(handlers, ComponentChanged)
      ensures state == old(state) && enabled == old(enabled) && visible == old(visible) && handlers == old(handlers)
      ensures interactionCallback == old(interactionCallback)
      ensures accessibilityLabel == old(accessibilityLabel) && accessibilityDescription == old(accessibilityDescription)
    {
      value := v;
      lastUpdated := now;
      notified := HandlersFor(handlers, ComponentChanged);
    }

    method SetVisible(v: bool, now: real)
      modifies this
      ensures visible == v && lastUpdated == now
      ensures state == old(state) && enabled == old(enabled) && value == old(value) && handlers == old(handlers)
      ensures interactionCallback == old(interactionCallback)
      ensures accessibilityLabel == old(accessibilityLabel) && accessibilityDescription == old(accessibilityDescription)
    {
      visible := v;
      lastUpdated := now;
    }

    method SetAccessibilityLabel(text: string)
      modifies this
      ensures accessibilityLabel == Some(text) && accessibilityDescription == old(accessibilityDescription)
      ensures state == old(state) && enabled == old(enabled) && visible == old(visible) && value == old(value)
      ensures handlers == old(handlers) && interactionCallback == old(interactionCallback) && lastUpdated == old(lastUpdated)
    {
      accessibilityLabel := Some(text);
    }

    method SetAccessibilityDescription(text: string)
      modifies this
      ensures accessibilityDescription == Some(text) && accessibilityLabel == old(accessibilityLabel)
      ensures state == old(state) && enabled == old(enabled) && visible == old(visible) && value == old(value)
      ensures handlers == old(handlers) && interactionCallback == old(interactionCallback) && lastUpdated == old(lastUpdated)
    {
      accessibilityDescription := Some(text);
    }

    method AddEventHandler(e: UIEvent, h: nat)
      modifies this
      ensures handlers == AddHandler(old(handlers), e, h)
      ensures state == old(state) && enabled == old(enabled) && visible == old(visible) && value == old(value)
      ensures interactionCallback == old(interactionCallback) && lastUpdated == old(lastUpdated)
      ensures accessibilityLabel == old(accessibilityLabel) && accessibilityDescription == old(accessibilityDescription)
    {
      handlers := AddHandler(handlers, e, h);
    }

    method RemoveEventHandler(e: UIEvent, h: nat) returns (removed: bool)
      modifies this
      ensures (removed, handlers) == RemoveHandler(old(handlers), e, h)
      ensures removed <==> h in HandlersFor(old(handlers), e)
      ensures state == old(state) && enabled == old(enabled) && visible == old(visible) && value == old(value)
      ensures interactionCallback == old(interactionCallback) && lastUpdated == old(lastUpdated)
      ensures accessibilityLabel == old(accessibilityLabel) && accessibilityDescription == old(accessibilityDescription)
    {
      var r := RemoveHandler(handlers, e, h);
      removed, handlers := r.0, r.1;
    }

    method SetInteractionCallback(callback: nat)
      modifies this
      ensures interactionCallback == Some(callback)
      ensures state == old(state) && enabled == old(enabled) && visible == old(visible) && value == old(value)
      ensures handlers == old(handlers) && lastUpdated == old(lastUpdated)
      ensures accessibilityLabel == old(accessibilityLabel) && accessibilityDescription == old(accessibilityDescription)
    {
      interactionCallback := Some(callback);
    }

    /** `handle_interaction`: the COMPONENT_CLICKED handlers are notified,
        then the callback is called; a callback that raises puts the
        component in the ERROR state. */
    method HandleInteraction(callbackRaises: bool, now: real)
      returns (clicked: seq<nat>, calledBack: bool, changed: seq<nat>)
      modifies this
      ensures clicked == HandlersFor(handlers, ComponentClicked)
      ensures calledBack <==> interactionCallback.Some?
      ensures state == if calledBack && callbackRaises then Error else old(state)
      ensures changed == if calledBack && callbackRaises then HandlersFor(handlers, ComponentChanged) else []
      ensures lastUpdated == if calledBack && callbackRaises then now else old(lastUpdated)
      ensures enabled == old(enabled) && visible == old(visible) && value == old(value) && handlers == old(handlers)
      ensures interactionCallback == old(interactionCallback)
      ensures accessibilityLabel == old(accessibilityLabel) && accessibilityDescription == old(accessibilityDescription)
    {
      clicked := HandlersFor(handlers, ComponentClicked);
      calledBack := interactionCallback.Some?;
      changed := [];
      if calledBack && callbackRaises {
        var change;
        changed, change := UpdateState(Error, now);
      }
    }

    function Style(): ButtonStyle
      reads this
    {
      ButtonStyleFor(state)
    }

    function Emoji(): Option<string>
      reads this
    {
      StateEmoji(state)
    }

    /** `get_component_info`'s handler count. */
    function EventHandlerCount(): nat
      reads this
    {
      HandlerCount(handlers)
    }
  }
}

=== FILE: ui_interfaces.dfy ===
/** The UI vocabulary shared by the Discord components: device kinds,
    layout modes, component states and UI events, with the device
    detection from a user-agent text and the layout chosen for a device. */
module UiInterfaces {
  import opened Util

  datatype DeviceType = Desktop | Mobile | Tablet | Unknown

  datatype LayoutMode = Compact | Normal | Expanded | Minimal

  datatype ComponentState = Normal | Active | Disabled | Loading | Error | Success

  datatype UIEvent =
    | ComponentClicked | ComponentChanged | ViewOpened | ViewClosed
    | LayoutChanged | ThemeChanged | DeviceChanged

  const MobileKeywords: seq<string> := ["mobile", "android", "iphone", "ipod"]
  const TabletKeywords: seq<string> := ["tablet", "ipad"]

  /** `any(k in s for k in keywords)`. */
  predicate MentionsAny(s: string, keywords: seq<string>)
  {
    exists i :: 0 <= i < |keywords| && Contains(s, keywords[i])
  }

  /** `detect_device_type`: no (or an empty) user agent is UNKNOWN; a mobile
      keyword anywhere in the lowercased text wins over a tablet keyword;
      anything else is a desktop. */
  function DetectDeviceType(userAgent: Option<string>): (r: DeviceType)
    ensures r == Unknown <==> userAgent == None || userAgent == Some("")
    ensures r == Mobile <==> userAgent.Some? && userAgent.value != "" && MentionsAny(Lower(userAgent.value), MobileKeywords)
    ensures r == Tablet <==> (userAgent.Some? && userAgent.value != ""
      && !MentionsAny(Lower(userAgent.value), MobileKeywords) && MentionsAny(Lower(userAgent.value), TabletKeywords))
    ensures r == Desktop <==> (userAgent.Some? && userAgent.value != ""
      && !MentionsAny(Lower(userAgent.value), MobileKeywords) && !MentionsAny(Lower(userAgent.value), TabletKeywords))
  {
    if userAgent.None? || userAgent.value == "" then Unknown
    else
      var lower := Lower(userAgent.value);
      if MentionsAny(lower, MobileKeywords) then Mobile
      else if MentionsAny(lower, TabletKeywords) then Tablet
      else Desktop
  }

  /** Detection ignores the case of the user agent. */
  lemma DetectIgnoresCase(userAgent: string)
    ensures DetectDeviceType(Some(Lower(userAgent))) == DetectDeviceType(Some(userAgent))
  {
    LowerIdempotent(userAgent);
    assert |Lower(userAgent)| == |userAgent|;
  }

  /** Any user agent that starts with "Android", an Android tablet's
      included, is taken for a phone: the mobile keywords are looked at
      first. */
  lemma AndroidIsMobile(userAgent: string)
    requires StartsWith(userAgent, "Android")
    ensures DetectDeviceType(Some(userAgent)) == Mobile
  {
    var lower := Lower(userAgent);
    assert lower[..7] == "android" by {
      forall i | 0 <= i < 7
        ensures lower[i] == "android"[i]
      {
        assert lower[i] == LowerChar(userAgent[i]);
        assert userAgent[i] == "Android"[i];
      }
    }
    assert Contains(lower, MobileKeywords[1]);
  }

  /** `get_optimal_layout`: a user preference always wins; otherwise phones
      get the compact layout, desktops the expanded one and everything else
      the normal one. MINIMAL is only ever chosen by preference. */
  function OptimalLayout(device: DeviceType, preference: Option<LayoutMode>): (r: LayoutMode)
    ensures preference.Some? ==> r == preference.value
    ensures preference.None? ==>
      (r == Compact <==> device == Mobile)
      && (r == Expanded <==> device == Desktop)
      && (r == LayoutMode.Normal <==> device == Tablet || device == Unknown)
      && r != Minimal
  {
    if preference.Some? then preference.value
    else
      match device
      case Mobile => Compact
      case Tablet => LayoutMode.Normal
      case Desktop => Expanded
      case Unknown => LayoutMode.Normal
  }
}

=== FILE: util.dfy ===
/** Small shared vocabulary: optional values, error results, clamps,
    bounded histories and the ASCII string helpers the services use. */
module Util {

  datatype Option<+T> = None | Some(value: T)

  datatype Result<+T, +E> = Ok(value: T) | Err(error: E)

  function MinInt(a: int, b: int): int { if a <= b then a else b }
  function MaxInt(a: int, b: int): int { if a >= b then a else b }
  function MinReal(a: real, b: real): real { if a <= b then a else b }
  function MaxReal(a: real, b: real): real { if a >= b then a else b }

  /** Python's `int(x)` and numpy's float-to-int cast: truncation toward zero. */
  function TruncToInt(x: real): (r: int)
    ensures x >= 0.0 ==> r >= 0 && r as real <= x < r as real + 1.0
    ensures x < 0.0 ==> r <= 0 && r as real - 1.0 < x <= r as real
  {
    if x >= 0.0 then x.Floor else -((-x).Floor)
  }

  /** Python's `max(lo, min(x, hi))`. */
  function Clamp(x: real, lo: real, hi: real): (r: real)
    requires lo <= hi
    ensures lo <= r <= hi
    ensures lo <= x <= hi ==> r == x
    ensures x < lo ==> r == lo
    ensures x > hi ==> r == hi
  {
    MaxReal(lo, MinReal(x, hi))
  }

  /** The idiom `if len(h) > n: h = h[-n:]`: keep at most the newest `n` entries. */
  function KeepLast<T>(s: seq<T>, n: nat): (r: seq<T>)
    ensures |r| <= n && |r| <= |s|
    ensures |s| <= n ==> r == s
    ensures r == s[|s| - |r|..]
    ensures |s| > n ==> |r| == n
  {
    if |s| > n then s[|s| - n..] else s
  }

  /** Appending to a capped history keeps the new entry as the newest one. */
  lemma AppendKeepLastNewest<T>(s: seq<T>, x: T, n: nat)
    requires n > 0
    ensures var r := KeepLast(s + [x], n); |r| > 0 && r[|r| - 1] == x
  {
  }

  /** Python's `s[start:]`, negative starts counting from the end. */
  function PySliceFrom<T>(s: seq<T>, start: int): (r: seq<T>)
    ensures |r| <= |s| && r == s[|s| - |r|..]
    ensures start < 0 ==> |r| == MinInt(-start, |s|)
    ensures 0 <= start ==> |r| == MaxInt(|s| - start, 0)
  {
    if start >= 0 then (if start <= |s| then s[start..] else [])
    else if -start <= |s| then s[|s| + start..] else s
  }

  /** `s[-n:]` for a positive `n` keeps the newest `n` entries. */
  lemma NegativeSliceIsKeepLast<T>(s: seq<T>, n: nat)
    requires n > 0
    ensures PySliceFrom(s, -(n as int)) == KeepLast(s, n)
  {
  }

  lemma MulNonNeg(a: real, b: real)
    requires a >= 0.0 && b >= 0.0
    ensures a * b >= 0.0
  {
  }

  /** Number of elements of `s` satisfying `p`. */
  function Count<T>(s: seq<T>, p: T -> bool): (c: nat)
    ensures c <= |s|
  {
    if s == [] then 0 else (if p(s[0]) then 1 else 0) + Count(s[1..], p)
  }

  function Filter<T>(s: seq<T>, p: T -> bool): (r: seq<T>)
    ensures |r| <= |s|
    ensures forall i :: 0 <= i < |r| ==> r[i] in s && p(r[i])
    ensures forall i :: 0 <= i < |s| && p(s[i]) ==> s[i] in r
  {
    if s == [] then [] else (if p(s[0]) then [s[0]] else []) + Filter(s[1..], p)
  }

  function SumReal(s: seq<real>): real
  {
    if s == [] then 0.0 else s[0] + SumReal(s[1..])
  }

  function SumNat(s: seq<nat>): nat
  {
    if s == [] then 0 else s[0] + SumNat(s[1..])
  }

  // ---------------------------------------------------------------------
  // Strings (ASCII view of Python's str methods)

  function LowerChar(c: char): char
  {
    if 'A' <= c <= 'Z' then (c as int + 32) as char else c
  }

  /** `s.lower()` on the ASCII letters. */
  function Lower(s: string): (r: string)
    ensures |r| == |s|
    ensures forall i :: 0 <= i < |s| ==> r[i] == LowerChar(s[i])
  {
    if s == [] then [] else [LowerChar(s[0])] + Lower(s[1..])
  }

  /** Lowercasing twice is lowercasing once. */
  lemma LowerIdempotent(s: string)
    ensures Lower(Lower(s)) == Lower(s)
  {
    assert forall i :: 0 <= i < |s| ==> LowerChar(LowerChar(s[i])) == LowerChar(s[i]);
  }

  function UpperChar(c: char): char
  {
    if 'a' <= c <= 'z' then (c as int - 32) as char else c
  }

  /** `s.upper()` on the ASCII letters. */
  function Upper(s: string): (r: string)
    ensures |r| == |s|
    ensures forall i :: 0 <= i < |s| ==> r[i] == UpperChar(s[i])
  {
    if s == [] then [] else [UpperChar(s[0])] + Upper(s[1..])
  }

  predicate StartsWith(s: string, prefix: string)
  {
    |prefix| <= |s| && s[..|prefix|] == prefix
  }

  predicate EndsWith(s: string, suffix: string)
  {
    |suffix| <= |s| && s[|s| - |suffix|..] == suffix
  }

  /** Python's `sub in s`. */
  predicate Contains(s: string, sub: string)
  {
    StartsWith(s, sub) || (|s| > 0 && Contains(s[1..], sub))
  }

  /** Python's `s[:n]`, a negative `n` counting from the end. */
  function PyPrefix(s: string, n: int): (r: string)
    ensures r <= s
    ensures 0 <= n <= |s| ==> r == s[..n]
  {
    if n >= 0 then s[..MinInt(n, |s|)] else s[..MaxInt(|s| + n, 0)]
  }

  /** `s.rfind(c)`: where `c` last occurs in `s`, or -1. */
  function LastIndexOfChar(s: string, c: char): (i: int)
    ensures -1 <= i < |s|
    ensures i >= 0 ==> s[i] == c
    ensures forall j :: i < j < |s| ==> s[j] != c
  {
    if s == [] then -1
    else if s[|s| - 1] == c then |s| - 1
    else LastIndexOfChar(s[..|s| - 1], c)
  }

  /** Where `c` first occurs in `s`, or `|s|` when it does not. */
  function IndexOfChar(s: string, c: char): (i: nat)
    ensures i <= |s|
    ensures i < |s| ==> s[i] == c
    ensures forall j :: 0 <= j < i ==> s[j] != c
  {
    if s == [] then 0 else if s[0] == c then 0 else 1 + IndexOfChar(s[1..], c)
  }

  /** Text joined around a separator that the left part does not contain
      splits back into the same parts. */
  lemma SplitAtFirst(a1: string, b1: string, a2: string, b2: string, c: char)
    requires c !in a1 && c !in a2
    requires a1 + [c] + b1 == a2 + [c] + b2
    ensures a1 == a2 && b1 == b2
  {
    var s := a1 + [c] + b1;
    assert s[|a1|] == c && forall j :: 0 <= j < |a1| ==> s[j] == a1[j];
    assert s[|a2|] == c && forall j :: 0 <= j < |a2| ==> s[j] == a2[j];
    assert IndexOfChar(s, c) == |a1|;
    assert IndexOfChar(s, c) == |a2|;
    assert a1 == s[..|a1|] && a2 == s[..|a2|];
    assert b1 == s[|a1| + 1..] && b2 == s[|a2| + 1..];
  }

  predicate IsSpace(c: char)
  {
    c == ' ' || c == '\t' || c == '\n' || c == '\r' || c == '\U{000B}' || c == '\U{000C}'
  }

  function TrimLeft(s: string): (r: string)
    ensures |r| <= |s| && r == s[|s| - |r|..]
    ensures r != [] ==> !IsSpace(r[0])
  {
    if s != [] && IsSpace(s[0]) then TrimLeft(s[1..]) else s
  }

  function TrimRight(s: string): (r: string)
    ensures |r| <= |s| && r == s[..|r|]
    ensures r != [] ==> !IsSpace(r[|r| - 1])
  {
    if s != [] && IsSpace(s[|s| - 1]) then TrimRight(s[..|s| - 1]) else s
  }

  /** `s.strip()`. */
  function Strip(s: string): (r: string)
    ensures |r| <= |s|
    ensures r != [] ==> !IsSpace(r[0]) && !IsSpace(r[|r| - 1])
  {
    TrimRight(TrimLeft(s))
  }

  // ---------------------------------------------------------------------
  // Decimal text

  predicate IsDigit(c: char) { '0' <= c <= '9' }

  function DigitChar(d: nat): char
    requires d < 10
  {
    ('0' as int + d) as char
  }

  /** `str(n)` for a natural number. */
  function NatToString(n: nat): (r: string)
    ensures r != [] && forall i :: 0 <= i < |r| ==> IsDigit(r[i])
    decreases n
  {
    if n < 10 then [DigitChar(n)] else NatToString(n / 10) + [DigitChar(n % 10)]
  }

  /** `str(n)`. */
  function IntToString(n: int): string
  {
    if n < 0 then "-" + NatToString(-n) else NatToString(n)
  }

  function DigitValue(c: char): nat
    requires IsDigit(c)
  {
    c as int - '0' as int
  }

  /** Value of a run of decimal digits, read from the left. */
  function DigitsValue(s: string): nat
    requires forall i :: 0 <= i < |s| ==> IsDigit(s[i])
  {
    if s == [] then 0 else DigitsValue(s[..|s| - 1]) * 10 + DigitValue(s[|s| - 1])
  }

  lemma {:induction false} DigitsOfNatToString(n: nat)
    ensures DigitsValue(NatToString(n)) == n
    decreases n
  {
    if n >= 10 {
      DigitsOfNatToString(n / 10);
      var s := NatToString(n);
      assert s[..|s| - 1] == NatToString(n / 10);
    }
  }

  /** `str(n)` holds digits and at most a leading minus sign. */
  lemma IntToStringChars(n: int)
    ensures forall i :: 0 <= i < |IntToString(n)| ==> IntToString(n)[i] == '-' || IsDigit(IntToString(n)[i])
  {
  }

  /** `str(n)` is injective. */
  lemma IntToStringInjective(a: int, b: int)
    requires IntToString(a) == IntToString(b)
    ensures a == b
  {
    var sa := NatToString(if a < 0 then -a else a);
    var sb := NatToString(if b < 0 then -b else b);
    assert IsDigit(sa[0]) && IsDigit(sb[0]);
    assert (a < 0) == (IntToString(a)[0] == '-');
    assert (b < 0) == (IntToString(b)[0] == '-');
    if a < 0 {
      assert sa == IntToString(a)[1..] == IntToString(b)[1..] == sb;
    }
    DigitsOfNatToString(if a < 0 then -a else a);
    DigitsOfNatToString(if b < 0 then -b else b);
  }

  /** `2 ** n` for natural exponents. */
  function Pow2(n: nat): (r: nat)
    ensures r >= 1
  {
    if n == 0 then 1 else 2 * Pow2(n - 1)
  }

  lemma {:induction false} Pow2Monotone(a: nat, b: nat)
    requires a <= b
    ensures Pow2(a) <= Pow2(b)
  {
    if a < b {
      Pow2Monotone(a, b - 1);
    }
  }

  // ---------------------------------------------------------------------
  // Sums over dictionaries (`sum(d.values())`)

  /** Some key of a non-empty map. */
  ghost function PickKey<K>(m: map<K, nat>): (k: K)
    requires m.Keys != {}
    ensures k in m
  {
    var k :| k in m; k
  }

  /** The sum of a map's values; the order of the keys does not matter
      (SumValuesRemove). */
  ghost function SumValues<K>(m: map<K, nat>): nat
    decreases m.Keys
  {
    if m.Keys == {} then 0
    else
      var k := PickKey(m);
      m[k] + SumValues(m - {k})
  }

  /** Any key may be taken out first. */
  lemma {:induction false} SumValuesRemove<K>(m: map<K, nat>, k: K)
    requires k in m
    ensures SumValues(m) == m[k] + SumValues(m - {k})
    decreases m.Keys
  {
    var j := PickKey(m);
    if j != k {
      SumValuesRemove(m - {j}, k);
      SumValuesRemove(m - {k}, j);
      assert m - {j} - {k} == m - {k} - {j};
    }
  }

  /** Adds up a map's values one key at a time. */
  method SumMapValues<K>(m: map<K, nat>) returns (total: nat)
    ensures total == SumValues(m)
  {
    total := 0;
    var rest := m;
    while rest.Keys != {}
      invariant total + SumValues(rest) == SumValues(m)
      decreases rest.Keys
    {
      var k :| k in rest;
      SumValuesRemove(rest, k);
      total := total + rest[k];
      rest := rest - {k};
    }
  }

  /** Every value at most `b` bounds the sum by `b` per key. */
  lemma {:induction false} SumValuesBound<K>(m: map<K, nat>, b: nat)
    requires forall k :: k in m ==> m[k] <= b
    ensures SumValues(m) <= b * |m.Keys|
    decreases m.Keys
  {
    if m.Keys != {} {
      var k := PickKey(m);
      var rest := m - {k};
      var n := |rest.Keys|;
      assert m.Keys == rest.Keys + {k};
      assert |m.Keys| == n + 1;
      SumValuesBound(rest, b);
      assert SumValues(m) == m[k] + SumValues(rest);
      MulSucc(b, n);
    }
  }

  /** Every value positive: the sum is at least the number of keys. */
  lemma {:induction false} SumValuesAtLeastKeys<K>(m: map<K, nat>)
    requires forall k :: k in m ==> m[k] >= 1
    ensures SumValues(m) >= |m.Keys|
    decreases m.Keys
  {
    if m.Keys != {} {
      var k := PickKey(m);
      var rest := m - {k};
      assert m.Keys == rest.Keys + {k};
      SumValuesAtLeastKeys(rest);
    }
  }

  lemma MulSucc(b: nat, n: nat)
    ensures b * (n + 1) == b * n + b
  {
  }

  // ---------------------------------------------------------------------
  // Visiting the elements of a set one at a time

  /** Two maps that agree away from `k` agree once `k` is set. */
  lemma SameUpdate<K, V>(m1: map<K, V>, m2: map<K, V>, k: K, v: V)
    requires m1 - {k} == m2 - {k}
    ensures m1[k := v] == m2[k := v]
  {
    assert forall x :: x in m1 && x != k ==> x in m1 - {k};
    assert forall x :: x in m2 && x != k ==> x in m2 - {k};
  }

  /** Moving one element from the `todo` part to the `done` part keeps the
      two parts disjoint with the same union, and adds the element to any
      set accumulated alongside `done`. */
  lemma MoveToDone<T>(acc: set<T>, done: set<T>, todo: set<T>, g: T)
    requires g in todo && done !! todo
    ensures (done + {g}) + (todo - {g}) == done + todo && (done + {g}) !! (todo - {g})
    ensures acc + done + {g} == acc + (done + {g})
  {
  }

  /** Removing the keys `done` and then `g` removes `done + {g}`. */
  lemma MapMinusOneMore<K, V>(m: map<K, V>, done: set<K>, g: K)
    ensures m - done - {g} == m - (done + {g})
  {
  }

  /** The same for a set. */
  lemma SetMinusOneMore<T>(s: set<T>, done: set<T>, g: T)
    ensures s - done - {g} == s - (done + {g})
  {
  }

  // ---------------------------------------------------------------------
  // Deleting dictionary entries in a loop

  /** `m` without the keys `drop` selects. */
  function KeysWithout<K(!new), V>(m: map<K, V>, drop: K -> bool): (r: map<K, V>)
    ensures forall k :: k in r <==> k in m && !drop(k)
    ensures forall k :: k in r ==> r[k] == m[k]
  {
    map k | k in m && !drop(k) :: m[k]
  }

  /** Deletes the entries `drop` selects, one key at a time. */
  method DeleteKeys<K(!new), V>(m: map<K, V>, drop: K -> bool) returns (r: map<K, V>)
    ensures r == KeysWithout(m, drop)
  {
    var todo := m.Keys;
    r := m;
    while todo != {}
      invariant todo <= m.Keys && r.Keys <= m.Keys
      invariant forall k :: k in r ==> r[k] == m[k]
      invariant forall k :: k in todo ==> k in r
      invariant forall k :: k in m && k !in todo ==> (k in r <==> !drop(k))
      decreases todo
    {
      assert (forall h :: h !in todo) ==> todo == {};
      var k :| k in todo;
      if drop(k) {
        r := r - {k};
      }
      todo := todo - {k};
    }
    forall k
      ensures k in r <==> k in KeysWithout(m, drop)
    {
      assert k !in todo;
    }
    assert r.Keys == KeysWithout(m, drop).Keys;
  }
}

=== FILE: values.dfy ===
/** Python's dynamically typed values, as far as the guild state, the
    configuration dictionaries and event payloads use them. */
module Values {
  datatype Value =
    | VNone
    | VBool(b: bool)
    | VInt(i: int)
    | VReal(r: real)
    | VStr(s: string)
    | VList(items: seq<Value>)
    | VDict(entries: map<string, Value>)
    | VObj(id: nat)  // an object known only by identity (a Discord channel, a voice client, a response)

  /** Python truthiness. */
  predicate Truthy(v: Value)
  {
    match v
    case VNone => false
    case VBool(b) => b
    case VInt(i) => i != 0
    case VReal(r) => r != 0.0
    case VStr(s) => s != []
    case VList(items) => items != []
    case VDict(entries) => entries != map[]
    case VObj(_) => true
  }

  /** `d.get(key)` with None for a missing key. */
  function Lookup(d: map<string, Value>, key: string): (v: Value)
    ensures key !in d ==> v == VNone
    ensures key in d ==> v == d[key]
  {
    if key in d then d[key] else VNone
  }
}

=== FILE: volume_manager.dfy ===
/** Per-guild volume control (audio/volume_manager.py): clamped master
    volume with a smooth ramp between levels, normalization target,
    automatic gain control and compression settings, the volume pipeline
    applied to int16 samples, and the bounded RMS history with its summary
    statistics. */
module Volume {
  import opened Util
  import opened AudioTypes

  const DefaultVolume: real := 0.8
  const DefaultLufsTarget: real := -23.0
  /** The only ramp length `set_master_volume` asks for, in seconds. */
  const RampDuration: real := 0.5
  const MaxHistory: nat := 100

  // ---------------------------------------------------------------------
  // Smooth ramp (`_get_current_smooth_volume`)

  /** Cubic ease p^2 (3 - 2p). */
  function Smoothstep(p: real): real
  {
    p * p * (3.0 - 2.0 * p)
  }

  /** The ease maps [0, 1] into [0, 1], fixing both ends. */
  lemma SmoothstepBounds(p: real)
    requires 0.0 <= p <= 1.0
    ensures 0.0 <= Smoothstep(p) <= 1.0
    ensures Smoothstep(0.0) == 0.0 && Smoothstep(1.0) == 1.0
  {
    MulNonNeg(p, p);
    MulNonNeg(p * p, 3.0 - 2.0 * p);
    MulNonNeg(1.0 - p, 1.0 - p);
    MulNonNeg((1.0 - p) * (1.0 - p), 1.0 + 2.0 * p);
    assert 1.0 - Smoothstep(p) == (1.0 - p) * (1.0 - p) * (1.0 + 2.0 * p);
  }

  /** Volume `s` of the way from `start` to `target`. */
  function Interpolate(start: real, target: real, s: real): real
  {
    start + (target - start) * s
  }

  /** For 0 <= s <= 1 the interpolated volume lies between start and target. */
  lemma InterpolateBetween(start: real, target: real, s: real)
    requires 0.0 <= s <= 1.0
    ensures MinReal(start, target) <= Interpolate(start, target, s) <= MaxReal(start, target)
  {
    if start <= target {
      MulNonNeg(target - start, s);
      MulNonNeg(target - start, 1.0 - s);
    } else {
      MulNonNeg(start - target, s);
      MulNonNeg(start - target, 1.0 - s);
    }
  }

  datatype Ramp = Ramp(startVolume: real, targetVolume: real, duration: real, startTime: real)

  /** Where a ramp stands at `now`: finished, or the eased volume. */
  datatype RampStep = RampDone(finalVolume: real) | RampAt(volume: real)

  function StepRamp(r: Ramp, now: real): (st: RampStep)
    requires r.duration > 0.0
    ensures now - r.startTime >= r.duration <==> st.RampDone?
    ensures st.RampDone? ==> st.finalVolume == r.targetVolume
    ensures st.RampAt? && now >= r.startTime ==>
      MinReal(r.startVolume, r.targetVolume) <= st.volume <= MaxReal(r.startVolume, r.targetVolume)
  {
    var elapsed := now - r.startTime;
    if elapsed >= r.duration then RampDone(r.targetVolume)
    else
      var p := elapsed / r.duration;
      EasedBetween(r, elapsed, p);
      RampAt(Interpolate(r.startVolume, r.targetVolume, Smoothstep(p)))
  }

  lemma EasedBetween(r: Ramp, elapsed: real, p: real)
    requires 0.0 < r.duration && elapsed < r.duration && p == elapsed / r.duration
    ensures elapsed >= 0.0 ==>
      MinReal(r.startVolume, r.targetVolume) <= Interpolate(r.startVolume, r.targetVolume, Smoothstep(p))
                                             <= MaxReal(r.startVolume, r.targetVolume)
  {
    if elapsed >= 0.0 {
      assert p * r.duration == elapsed;
      SmoothstepBounds(p);
      InterpolateBetween(r.startVolume, r.targetVolume, Smoothstep(p));
    }
  }

  /** At the start of a ramp the volume is still the start volume. */
  lemma RampStartsAtStart(r: Ramp)
    requires r.duration > 0.0
    ensures StepRamp(r, r.startTime) == RampAt(r.startVolume)
  {
    assert 0.0 / r.duration == 0.0;
  }

  // ---------------------------------------------------------------------
  // Statistics (`_calculate_variance`, `get_volume_metrics`)

  /** The mean: the value that, taken once per entry, gives the sum. */
  function Mean(xs: seq<real>): (r: real)
    requires |xs| > 0
    ensures r * |xs| as real == SumReal(xs)
  {
    SumReal(xs) / |xs| as real
  }

  function SumSquaredDeviation(xs: seq<real>, m: real): real
  {
    if xs == [] then 0.0 else (xs[0] - m) * (xs[0] - m) + SumSquaredDeviation(xs[1..], m)
  }

  lemma {:induction false} SumSquaredDeviationNonNeg(xs: seq<real>, m: real)
    ensures SumSquaredDeviation(xs, m) >= 0.0
  {
    if xs != [] {
      SumSquaredDeviationNonNeg(xs[1..], m);
      MulNonNeg(if xs[0] >= m then xs[0] - m else m - xs[0], if xs[0] >= m then xs[0] - m else m - xs[0]);
      assert (xs[0] - m) * (xs[0] - m) == (m - xs[0]) * (m - xs[0]);
    }
  }

  /** `_calculate_variance`: population variance, 0 below two values, never negative. */
  function Variance(xs: seq<real>): (v: real)
    ensures |xs| < 2 ==> v == 0.0
    ensures v >= 0.0
  {
    if |xs| < 2 then 0.0
    else
      SumSquaredDeviationNonNeg(xs, Mean(xs));
      SumSquaredDeviation(xs, Mean(xs)) / |xs| as real
  }

  /** Equal values have no variance. */
  lemma {:induction false} ConstantHasNoVariance(xs: seq<real>, c: real)
    requires forall i :: 0 <= i < |xs| ==> xs[i] == c
    ensures SumSquaredDeviation(xs, c) == 0.0
  {
    if xs != [] {
      ConstantHasNoVariance(xs[1..], c);
    }
  }

  function MaxOf(xs: seq<real>): (m: real)
    requires |xs| > 0
    ensures forall i :: 0 <= i < |xs| ==> xs[i] <= m
  {
    if |xs| == 1 then xs[0] else MaxReal(xs[0], MaxOf(xs[1..]))
  }

  function MinOf(xs: seq<real>): (m: real)
    requires |xs| > 0
    ensures forall i :: 0 <= i < |xs| ==> m <= xs[i]
  {
    if |xs| == 1 then xs[0] else MinReal(xs[0], MinOf(xs[1..]))
  }

  /** The extremes are values of the sequence, so the dynamic range is the
      spread between two actual entries. */
  lemma {:induction false} ExtremesAttained(xs: seq<real>)
    requires |xs| > 0
    ensures exists i :: 0 <= i < |xs| && xs[i] == MaxOf(xs)
    ensures exists i :: 0 <= i < |xs| && xs[i] == MinOf(xs)
  {
    if |xs| > 1 {
      ExtremesAttained(xs[1..]);
      var j :| 0 <= j < |xs[1..]| && xs[1..][j] == MaxOf(xs[1..]);
      var k :| 0 <= k < |xs[1..]| && xs[1..][k] == MinOf(xs[1..]);
      assert xs[j + 1] == MaxOf(xs[1..]) && xs[k + 1] == MinOf(xs[1..]);
    } else {
      assert xs[0] == MaxOf(xs) && xs[0] == MinOf(xs);
    }
  }

  lemma {:induction false} SumBetween(xs: seq<real>, lo: real, hi: real)
    requires forall i :: 0 <= i < |xs| ==> lo <= xs[i] <= hi
    ensures |xs| as real * lo <= SumReal(xs) <= |xs| as real * hi
  {
    if xs != [] {
      SumBetween(xs[1..], lo, hi);
      assert |xs| as real * lo == lo + (|xs| - 1) as real * lo;
      assert |xs| as real * hi == hi + (|xs| - 1) as real * hi;
    }
  }

  /** The mean lies between the smallest and the largest value. */
  lemma {:induction false} MeanBetween(xs: seq<real>, lo: real, hi: real)
    requires |xs| > 0
    requires forall i :: 0 <= i < |xs| ==> lo <= xs[i] <= hi
    ensures lo <= Mean(xs) <= hi
  {
    SumBetween(xs, lo, hi);
    ProductBetween(Mean(xs), |xs| as real, SumReal(xs), lo, hi);
  }

  lemma MulPos(a: real, b: real)
    requires a > 0.0 && b > 0.0
    ensures a * b > 0.0
  {
  }

  lemma ProductBetween(q: real, n: real, s: real, lo: real, hi: real)
    requires n > 0.0 && q * n == s && n * lo <= s <= n * hi
    ensures lo <= q <= hi
  {
    if q < lo {
      MulPos(lo - q, n);
    }
    if q > hi {
      MulPos(q - hi, n);
    }
  }

  /** The summary `get_volume_metrics` adds once there is history. */
  datatype Summary = Summary(average: real, variance: real, dynamicRange: real)

  /** Average, variance and range of the newest ten history entries. */
  function Summarize(history: seq<real>): (s: Option<Summary>)
    ensures history == [] <==> s.None?
    ensures s.Some? ==> s.value.dynamicRange >= 0.0 && s.value.variance >= 0.0
    ensures s.Some? ==> var recent := KeepLast(history, 10);
      MinOf(recent) <= s.value.average <= MaxOf(recent)
  {
    if history == [] then None
    else
      var recent := KeepLast(history, 10);
      MeanBetween(recent, MinOf(recent), MaxOf(recent));
      Some(Summary(Mean(recent), Variance(recent), MaxOf(recent) - MinOf(recent)))
  }

  /** `metrics.update(...)` with the three derived figures. */
  function WithSummary(m: map<string, real>, s: Summary): (r: map<string, real>)
    ensures r.Keys == m.Keys + {"average_volume", "volume_variance", "dynamic_range"}
    ensures r["average_volume"] == s.average && r["volume_variance"] == s.variance
    ensures r["dynamic_range"] == s.dynamicRange
    ensures forall k :: k in m && k !in {"average_volume", "volume_variance", "dynamic_range"} ==> r[k] == m[k]
  {
    m["average_volume" := s.average]["volume_variance" := s.variance]["dynamic_range" := s.dynamicRange]
  }

  /** Merging the same summary again changes nothing, so asking for a
      guild's metrics twice without new history gives the same answer. */
  lemma WithSummaryIdempotent(m: map<string, real>, s: Summary)
    ensures WithSummary(WithSummary(m, s), s) == WithSummary(m, s)
  {
    var once := WithSummary(m, s);
    var twice := WithSummary(once, s);
    assert twice.Keys == once.Keys;
    assert forall k :: k in once ==> twice[k] == once[k];
  }

  // ---------------------------------------------------------------------
  // The volume pipeline (`_apply_volume_pipeline`)

  /** RMS- and LUFS-dependent gains (square roots and logarithms) arrive as
      parameters: `agcRaw` is 0.1 / rms, None when the block is silent;
      `normRaw` is 10 ** ((target - lufs) / 20). */
  datatype PipelineGains = PipelineGains(agcRaw: Option<real>, normRaw: real)

  /** One int16 sample through scaling to [-1, 1], AGC, compression, the
      smoothed master volume and normalization, then the final limiter. */
  function PipelineSample(x: int, agc: bool, ratio: real, volume: real, normalize: bool, g: PipelineGains): (y: real)
    ensures -1.0 <= y <= 1.0
  {
    var a0 := x as real / 32768.0;
    var a1 := if agc && g.agcRaw.Some? then a0 * Clamp(g.agcRaw.value, 0.1, 10.0) else a0;
    var a2 := if ratio > 0.0 then Compress(a1, 0.7, ratio) else a1;
    var a3 := a2 * volume;
    var a4 := if normalize then a3 * Clamp(g.normRaw, 0.1, 3.0) else a3;
    Clamp(a4, -1.0, 1.0)
  }

  /** The limited sample back in int16 units: `astype(int16)` of y * 32767. */
  function PipelineOut(y: real): (r: int)
    requires -1.0 <= y <= 1.0
    ensures -32767 <= r <= 32767
  {
    MulNonNeg(if y >= 0.0 then y else -y, 32767.0);
    TruncToInt(y * 32767.0)
  }

  /** With every stage neutral (no AGC, no compression, unit volume, no
      normalization) a sample comes back as itself, scaled by 32767/32768
      and truncated. */
  lemma NeutralPipeline(x: int, g: PipelineGains)
    requires -32768 <= x <= 32767
    ensures PipelineSample(x, false, 0.0, 1.0, false, g) == x as real / 32768.0
  {
  }

  /** The volume `_get_current_smooth_volume` reports at `now`: a ramp's
      target once it is over, its eased volume while it runs, otherwise the
      last smoothed volume (0.8 by default). */
  function SmoothVolume(ramps: map<int, Ramp>, smoothing: map<int, real>, g: int, now: real): (v: real)
    requires g in ramps ==> ramps[g].duration > 0.0
    ensures g in ramps && now - ramps[g].startTime >= ramps[g].duration ==> v == ramps[g].targetVolume
    ensures g in ramps && now >= ramps[g].startTime ==>
      MinReal(ramps[g].startVolume, ramps[g].targetVolume) <= v <= MaxReal(ramps[g].startVolume, ramps[g].targetVolume)
    ensures g !in ramps && g !in smoothing ==> v == DefaultVolume
  {
    if g in ramps then
      match StepRamp(ramps[g], now)
      case RampDone(f) => f
      case RampAt(x) => x
    else if g in smoothing then smoothing[g] else DefaultVolume
  }

  class VolumeManager {
    var volumeSettings: map<int, real>
    var normalizationTargets: map<int, real>
    var agcEnabled: map<int, bool>
    var compressionRatios: map<int, real>
    var volumeSmoothing: map<int, real>
    var targetVolumes: map<int, real>
    var volumeRamps: map<int, Ramp>
    var volumeMetrics: map<int, map<string, real>>
    var volumeHistory: map<int, seq<real>>
    var lastAnalysisTime: map<int, real>
    /** The audio configs of the guilds whose state carries one. */
    var configs: map<int, AudioConfig>

    ghost predicate Valid()
      reads this
    {
      && (forall g :: g in volumeHistory ==> |volumeHistory[g]| <= MaxHistory)
      && (forall g :: g in volumeRamps ==> volumeRamps[g].duration == RampDuration)
      && (forall g :: g in volumeSettings ==> 0.0 <= volumeSettings[g] <= 1.0)
    }

    constructor (configs: map<int, AudioConfig>)
      ensures Valid() && this.configs == configs
      ensures volumeSettings == map[] && volumeRamps == map[] && volumeHistory == map[]
      ensures normalizationTargets == map[] && agcEnabled == map[] && compressionRatios == map[]
      ensures volumeSmoothing == map[]
    {
      volumeSettings, normalizationTargets, agcEnabled, compressionRatios := map[], map[], map[], map[];
      volumeSmoothing, targetVolumes, volumeRamps := map[], map[], map[];
      volumeMetrics, volumeHistory, lastAnalysisTime := map[], map[], map[];
      this.configs := configs;
    }

    /** `get_master_volume`: 0.8 for a guild never set. */
    function MasterVolume(g: int): (v: real)
      reads this
      ensures g !in volumeSettings ==> v == DefaultVolume
      ensures Valid() ==> 0.0 <= v <= 1.0
    {
      if g in volumeSettings then volumeSettings[g] else DefaultVolume
    }

    /** `set_master_volume` at time `now`: the volume is clamped to [0, 1]
        and a half-second ramp from the previous volume starts. */
    method SetMasterVolume(g: int, volume: real, now: real) returns (ok: bool)
      requires Valid()
      modifies this
      ensures Valid() && ok
      ensures volumeSettings == old(volumeSettings)[g := Clamp(volume, 0.0, 1.0)]
      ensures volumeRamps == old(volumeRamps)[g := Ramp(old(MasterVolume(g)), Clamp(volume, 0.0, 1.0), RampDuration, now)]
      ensures targetVolumes == old(targetVolumes)[g := Clamp(volume, 0.0, 1.0)]
      ensures volumeHistory == old(volumeHistory) && volumeSmoothing == old(volumeSmoothing)
      ensures normalizationTargets == old(normalizationTargets) && agcEnabled == old(agcEnabled)
      ensures compressionRatios == old(compressionRatios) && volumeMetrics == old(volumeMetrics)
      ensures lastAnalysisTime == old(lastAnalysisTime) && configs == old(configs)
    {
      var v := Clamp(volume, 0.0, 1.0);
      var previous := MasterVolume(g);
      volumeSettings := volumeSettings[g := v];
      volumeRamps := volumeRamps[g := Ramp(previous, v, RampDuration, now)];
      targetVolumes := targetVolumes[g := v];
      ok := true;
    }

    /** `set_normalization_target`: clamped to [-30, -16] LUFS. */
    method SetNormalizationTarget(g: int, lufs: real) returns (ok: bool)
      requires Valid()
      modifies this
      ensures Valid() && ok
      ensures normalizationTargets == old(normalizationTargets)[g := Clamp(lufs, -30.0, -16.0)]
      ensures configs == if g in old(configs)
        then old(configs)[g := old(configs)[g].(normalizationTargetLufs := Clamp(lufs, -30.0, -16.0))]
        else old(configs)
      ensures volumeSettings == old(volumeSettings) && volumeRamps == old(volumeRamps)
      ensures volumeHistory == old(volumeHistory)
    {
      var t := Clamp(lufs, -30.0, -16.0);
      normalizationTargets := normalizationTargets[g := t];
      if g in configs {
        configs := configs[g := configs[g].(normalizationTargetLufs := t)];
      }
      ok := true;
    }

    /** `enable_auto_gain_control`. */
    method EnableAutoGainControl(g: int, enabled: bool) returns (ok: bool)
      requires Valid()
      modifies this
      ensures Valid() && ok
      ensures agcEnabled == old(agcEnabled)[g := enabled]
      ensures configs == if g in old(configs)
        then old(configs)[g := old(configs)[g].(autoGainControl := enabled)]
        else old(configs)
      ensures volumeSettings == old(volumeSettings) && volumeRamps == old(volumeRamps)
      ensures volumeHistory == old(volumeHistory)
    {
      agcEnabled := agcEnabled[g := enabled];
      if g in configs {
        configs := configs[g := configs[g].(autoGainControl := enabled)];
      }
      ok := true;
    }

    /** `set_dynamic_range_compression`: the ratio is clamped to [0, 1]. */
    method SetDynamicRangeCompression(g: int, ratio: real) returns (ok: bool)
      requires Valid()
      modifies this
      ensures Valid() && ok
      ensures compressionRatios == old(compressionRatios)[g := Clamp(ratio, 0.0, 1.0)]
      ensures configs == if g in old(configs)
        then old(configs)[g := old(configs)[g].(dynamicRangeCompression := Clamp(ratio, 0.0, 1.0))]
        else old(configs)
      ensures volumeSettings == old(volumeSettings) && volumeRamps == old(volumeRamps)
      ensures volumeHistory == old(volumeHistory)
    {
      var r := Clamp(ratio, 0.0, 1.0);
      compressionRatios := compressionRatios[g := r];
      if g in configs {
        configs := configs[g := configs[g].(dynamicRangeCompression := r)];
      }
      ok := true;
    }

    /** `_get_current_smooth_volume` at time `now`: a finished ramp is
        deleted and yields its target; a running one yields the eased
        volume; without a ramp the last smoothed volume (0.8 by default). */
    method CurrentSmoothVolume(g: int, now: real) returns (v: real)
      requires Valid()
      modifies this
      ensures Valid()
      ensures v == SmoothVolume(old(volumeRamps), old(volumeSmoothing), g, now)
      ensures g !in old(volumeRamps) ==> unchanged(this)
      ensures g in old(volumeRamps) ==> volumeSmoothing == old(volumeSmoothing)[g := v]
      ensures g in old(volumeRamps) && StepRamp(old(volumeRamps)[g], now).RampDone? ==>
        volumeRamps == old(volumeRamps) - {g}
      ensures g in old(volumeRamps) && StepRamp(old(volumeRamps)[g], now).RampAt? ==>
        volumeRamps == old(volumeRamps)
      ensures volumeSettings == old(volumeSettings) && volumeHistory == old(volumeHistory)
      ensures configs == old(configs) && agcEnabled == old(agcEnabled)
      ensures compressionRatios == old(compressionRatios) && normalizationTargets == old(normalizationTargets)
    {
      if g in volumeRamps {
        var step := StepRamp(volumeRamps[g], now);
        if step.RampDone? {
          v := step.finalVolume;
          volumeRamps := volumeRamps - {g};
        } else {
          v := step.volume;
        }
        volumeSmoothing := volumeSmoothing[g := v];
      } else {
        v := if g in volumeSmoothing then volumeSmoothing[g] else DefaultVolume;
      }
    }

    /** `_update_volume_metrics` at time `now`: the metrics are stored and,
        when they carry an RMS value, it joins the history, which keeps its
        newest 100 entries. */
    method UpdateVolumeMetrics(g: int, metrics: map<string, real>, now: real)
      requires Valid()
      modifies this
      ensures Valid()
      ensures volumeMetrics == old(volumeMetrics)[g := metrics]
      ensures lastAnalysisTime == old(lastAnalysisTime)[g := now]
      ensures "rms" in metrics ==> volumeHistory == old(volumeHistory)[g :=
        KeepLast((if g in old(volumeHistory) then old(volumeHistory)[g] else []) + [metrics["rms"]], MaxHistory)]
      ensures "rms" !in metrics ==> volumeHistory == old(volumeHistory)
      ensures volumeSettings == old(volumeSettings) && volumeRamps == old(volumeRamps)
      ensures volumeSmoothing == old(volumeSmoothing) && configs == old(configs)
      ensures agcEnabled == old(agcEnabled) && compressionRatios == old(compressionRatios)
      ensures normalizationTargets == old(normalizationTargets)
    {
      volumeMetrics := volumeMetrics[g := metrics];
      if "rms" in metrics {
        var history := if g in volumeHistory then volumeHistory[g] else [];
        volumeHistory := volumeHistory[g := KeepLast(history + [metrics["rms"]], MaxHistory)];
      }
      lastAnalysisTime := lastAnalysisTime[g := now];
    }

    /** `get_volume_metrics`: the guild's stored metrics (an empty dict when
        there are none) with the summary of its history merged in. The
        stored dict is the one merged into, so a guild with stored metrics
        keeps the merged figures; a fresh empty dict is not stored. */
    method GetVolumeMetrics(g: int) returns (m: map<string, real>)
      modifies this`volumeMetrics
      ensures var base := if g in old(volumeMetrics) then old(volumeMetrics)[g] else map[];
        var s := Summarize(if g in volumeHistory then volumeHistory[g] else []);
        m == if s.None? then base else WithSummary(base, s.value)
      ensures volumeMetrics == if g in old(volumeMetrics) then old(volumeMetrics)[g := m] else old(volumeMetrics)
    {
      m := if g in volumeMetrics then volumeMetrics[g] else map[];
      var s := Summarize(if g in volumeHistory then volumeHistory[g] else []);
      if s.Some? {
        m := WithSummary(m, s.value);
        if g in volumeMetrics {
          volumeMetrics := volumeMetrics[g := m];
        }
      }
    }

    /** `process_audio_volume` at time `now` with the block's analysis
        `metrics`: an empty block comes back empty with no metrics and no
        state change; otherwise each sample runs the pipeline with the
        guild's settings and the metrics are recorded. */
    method ProcessAudioVolume(g: int, samples: seq<int>, config: AudioConfig, gains: PipelineGains,
                              metrics: map<string, real>, now: real)
      returns (out: seq<int>, reported: map<string, real>)
      requires Valid()
      modifies this
      ensures Valid()
      ensures samples == [] ==> out == [] && reported == map[] && unchanged(this)
      ensures samples != [] ==> reported == metrics && |out| == |samples|
      ensures samples != [] ==> g in volumeMetrics && volumeMetrics[g] == metrics
      ensures forall k :: 0 <= k < |out| ==> -32767 <= out[k] <= 32767
      ensures samples != [] ==> forall k :: 0 <= k < |out| ==>
        out[k] == PipelineOut(PipelineSample(samples[k],
          if g in old(agcEnabled) then old(agcEnabled)[g] else true,
          if g in old(compressionRatios) then old(compressionRatios)[g] else 0.0,
          SmoothVolume(old(volumeRamps), old(volumeSmoothing), g, now), config.normalizationEnabled, gains))
    {
      if samples == [] {
        return [], map[];
      }
      var agc := if g in agcEnabled then agcEnabled[g] else true;
      var ratio := if g in compressionRatios then compressionRatios[g] else 0.0;
      var volume := CurrentSmoothVolume(g, now);
      out := seq(|samples|, k requires 0 <= k < |samples| =>
        PipelineOut(PipelineSample(samples[k], agc, ratio, volume, config.normalizationEnabled, gains)));
      UpdateVolumeMetrics(g, metrics, now);
      reported := metrics;
    }

    /** `process_audio_volume` on the bytes it is handed: an odd byte count
        makes `np.frombuffer` raise before anything is recorded, and the
        `except` hands back the input with empty metrics; otherwise the
        decoded samples go through `ProcessAudioVolume` and are written back. */
    method ProcessAudioVolumeBytes(g: int, data: seq<uint8>, config: AudioConfig, gains: PipelineGains,
                                   metrics: map<string, real>, now: real)
      returns (out: seq<uint8>, reported: map<string, real>)
      requires Valid()
      modifies this
      ensures Valid()
      ensures |out| == |data|
      ensures |data| % 2 == 1 || data == [] ==> out == data && reported == map[] && unchanged(this)
      ensures |data| % 2 == 0 && data != [] ==>
        var samples := FromBuffer(data).value;
        && reported == metrics && g in volumeMetrics && volumeMetrics[g] == metrics
        && FromBuffer(out).Some? && |FromBuffer(out).value| == |samples|
        && forall k :: 0 <= k < |samples| ==>
             FromBuffer(out).value[k] == PipelineOut(PipelineSample(samples[k],
               if g in old(agcEnabled) then old(agcEnabled)[g] else true,
               if g in old(compressionRatios) then old(compressionRatios)[g] else 0.0,
               SmoothVolume(old(volumeRamps), old(volumeSmoothing), g, now), config.normalizationEnabled, gains))
    {
      var decoded := FromBuffer(data);
      if decoded.None? || data == [] {
        return data, map[];
      }
      var processed;
      processed, reported := ProcessAudioVolume(g, decoded.value, config, gains, metrics, now);
      FromBufferToBytes(processed);
      out := ToBytes(processed);
    }
  }
}

=== FILE: webhook_manager.dfy ===
/** Outbound webhooks: registered endpoints, the deliveries created for an
    event, the per-delivery retry policy and the worker step that attempts
    a delivery. The HTTP request itself is a parameter: the response status
    received, or None when the request raised. */
module Webhooks {
  import opened Util
  import Registry

  datatype EventType =
    | StreamStarted | StreamStopped | StreamError | AudioVolumeChanged
    | FavoriteAdded | FavoriteRemoved | GuildJoined | GuildLeft
    | MaintenanceStarted | MaintenanceCompleted | HealthStatusChanged

  function EventTypeValue(t: EventType): string
  {
    match t
    case StreamStarted => "stream_started"
    case StreamStopped => "stream_stopped"
    case StreamError => "stream_error"
    case AudioVolumeChanged => "audio_volume_changed"
    case FavoriteAdded => "favorite_added"
    case FavoriteRemoved => "favorite_removed"
    case GuildJoined => "guild_joined"
    case GuildLeft => "guild_left"
    case MaintenanceStarted => "maintenance_started"
    case MaintenanceCompleted => "maintenance_completed"
    case HealthStatusChanged => "health_status_changed"
  }

  datatype DeliveryStatus = Pending | Delivered | Failed | Retrying | Expired

  datatype WebhookEvent = WebhookEvent(id: string, eventType: EventType, guild: Option<int>)

  datatype Endpoint = Endpoint(
    id: string, url: string, secret: Option<string>, eventTypes: seq<EventType>,
    active: bool, maxRetries: int, timeout: int, guild: Option<int>)

  datatype Delivery = Delivery(
    id: string, webhookId: string, eventId: string, status: DeliveryStatus,
    attempts: nat, createdAt: real, lastAttempt: Option<real>,
    nextRetry: Option<real>, responseCode: Option<int>)

  /** A unit of work for the delivery workers: the endpoint and event are
      copies, the delivery is referred to by its identifier. */
  datatype Queued = Queued(endpoint: Endpoint, event: WebhookEvent, deliveryId: string)

  const RetryDelays: seq<nat> := [30, 60, 300, 900]
  const MaxConcurrentDeliveries: nat := 10

  // ---------------------------------------------------------------------
  // URL validation: the scheme and network location of `urlparse`

  predicate IsLetter(c: char) { 'a' <= c <= 'z' || 'A' <= c <= 'Z' }

  predicate SchemeChar(c: char) { IsLetter(c) || IsDigit(c) || c == '+' || c == '-' || c == '.' }

  predicate NetlocDelimiter(c: char) { c == '/' || c == '?' || c == '#' }

  /** The text before the first '/', '?' or '#'. */
  function UntilDelimiter(s: string): (r: string)
    ensures r <= s
    ensures forall j :: 0 <= j < |r| ==> !NetlocDelimiter(r[j])
    ensures |r| < |s| ==> NetlocDelimiter(s[|r|])
  {
    if s == [] || NetlocDelimiter(s[0]) then [] else [s[0]] + UntilDelimiter(s[1..])
  }

  /** The scheme (empty when the text before the first ':' is not one) and
      the network location (empty unless "//" follows the scheme). */
  function SplitSchemeNetloc(url: string): (string, string)
  {
    var i := IndexOfChar(url, ':');
    var hasScheme := 0 < i < |url| && IsLetter(url[0]) && forall j :: 0 <= j < i ==> SchemeChar(url[j]);
    var scheme := if hasScheme then url[..i] else "";
    var rest := if hasScheme then url[i + 1..] else url;
    var netloc := if StartsWith(rest, "//") then UntilDelimiter(rest[2..]) else "";
    (scheme, netloc)
  }

  /** The check of `register_webhook`: both a scheme and a host. */
  predicate ValidUrl(url: string)
  {
    var (scheme, netloc) := SplitSchemeNetloc(url);
    scheme != "" && netloc != ""
  }

  /** `url` reads `<scheme>://<host>...` with the "://" at position `k`: a
      letter, then scheme characters, then "://" and a first host character
      that is not a path, query or fragment delimiter. */
  predicate SchemeHostAt(url: string, k: int)
  {
    0 < k && k + 3 < |url| && IsLetter(url[0])
    && (forall j :: 0 <= j < k ==> SchemeChar(url[j]))
    && url[k..k + 3] == "://" && !NetlocDelimiter(url[k + 3])
  }

  /** An accepted URL has the shape `<scheme>://<host>...`. */
  lemma ValidUrlHasShape(url: string)
    requires ValidUrl(url)
    ensures SchemeHostAt(url, IndexOfChar(url, ':'))
  {
    var i := IndexOfChar(url, ':');
    assert SplitSchemeNetloc(url).0 != "";
    assert 0 < i < |url| && IsLetter(url[0]) && forall j :: 0 <= j < i ==> SchemeChar(url[j]);
    var rest := url[i + 1..];
    assert StartsWith(rest, "//");
    var host := rest[2..];
    assert UntilDelimiter(host) != [];
    assert url[i + 3] == host[0] && !NetlocDelimiter(host[0]);
    assert url[i] == ':' && url[i + 1] == rest[..2][0] == '/' && url[i + 2] == rest[..2][1] == '/';
    SchemeSeparatorAt(url, i);
  }

  lemma SchemeSeparatorAt(s: string, i: nat)
    requires i + 3 <= |s| && s[i] == ':' && s[i + 1] == '/' && s[i + 2] == '/'
    ensures s[i..i + 3] == "://"
  {
  }

  /** Every URL of the shape `<scheme>://<host>...` is accepted. */
  lemma ShapeIsValidUrl(url: string, k: int)
    requires SchemeHostAt(url, k)
    ensures ValidUrl(url)
  {
    var i := IndexOfChar(url, ':');
    assert url[k] == ':' by {
      assert url[k..k + 3][0] == url[k];
    }
    forall j | 0 <= j < k
      ensures url[j] != ':'
    {
      assert SchemeChar(url[j]);
    }
    assert i == k;
    var rest := url[k + 1..];
    assert rest[..2] == "//" by {
      assert rest[..2] == url[k..k + 3][1..];
    }
    var host := rest[2..];
    assert host[0] == url[k + 3];
    assert UntilDelimiter(host) != [];
    assert 0 < i < |url| && IsLetter(url[0]) && forall j :: 0 <= j < i ==> SchemeChar(url[j]);
    assert StartsWith(rest, "//");
    assert SplitSchemeNetloc(url).0 == url[..k];
    assert SplitSchemeNetloc(url).1 == UntilDelimiter(host);
  }

  lemma ValidUrlIff(url: string)
    ensures ValidUrl(url) <==> exists k :: SchemeHostAt(url, k)
  {
    if ValidUrl(url) {
      ValidUrlHasShape(url);
    }
    if exists k :: SchemeHostAt(url, k) {
      var k :| SchemeHostAt(url, k);
      ShapeIsValidUrl(url, k);
    }
  }

  // ---------------------------------------------------------------------
  // Matching endpoints and creating deliveries

  /** `send_webhook`'s filter: active, subscribed to the type, and, when the
      endpoint is bound to a (non-zero) guild, the event is of that guild. */
  predicate Matches(w: Endpoint, e: WebhookEvent)
  {
    w.active && e.eventType in w.eventTypes
    && !(w.guild.Some? && w.guild.value != 0 && Some(w.guild.value) != e.guild)
  }

  /** An endpoint bound to a guild only ever sees that guild's events, and
      an unbound one sees the events of every guild alike. */
  lemma GuildScoping(w: Endpoint, e: WebhookEvent, g: int)
    ensures w.guild.Some? && w.guild.value != 0 && Matches(w, e) ==> e.guild == w.guild
    ensures w.guild.None? || w.guild == Some(0) ==>
      (Matches(w, e) <==> Matches(w, e.(guild := Some(g))))
  {
  }

  /** The matching endpoints, in registration order. */
  function Matching(order: seq<string>, webhooks: map<string, Endpoint>, e: WebhookEvent): (r: seq<Endpoint>)
    ensures |r| <= |order|
    ensures forall w :: w in r ==> Matches(w, e) && exists k :: k in order && k in webhooks && webhooks[k] == w
    ensures forall k :: k in order && k in webhooks && Matches(webhooks[k], e) ==> webhooks[k] in r
  {
    if order == [] then []
    else
      var k := order[|order| - 1];
      var init := order[..|order| - 1];
      assert forall x :: x in order ==> x in init || x == k;
      Matching(init, webhooks, e) + (if k in webhooks && Matches(webhooks[k], e) then [webhooks[k]] else [])
  }

  function DeliveryId(eventId: string, endpointId: string): string
  {
    eventId + "_" + endpointId
  }

  /** The deliveries of one event have distinct identifiers. */
  lemma DeliveryIdInjective(eventId: string)
    ensures forall a, b :: DeliveryId(eventId, a) == DeliveryId(eventId, b) ==> a == b
  {
    forall a, b | DeliveryId(eventId, a) == DeliveryId(eventId, b)
      ensures a == b
    {
      assert a == DeliveryId(eventId, a)[|eventId| + 1..];
      assert b == DeliveryId(eventId, b)[|eventId| + 1..];
    }
  }

  function NewDelivery(e: WebhookEvent, endpointId: string, now: real): Delivery
  {
    Delivery(DeliveryId(e.id, endpointId), endpointId, e.id, Pending, 0, now, None, None, None)
  }

  /** The pending deliveries after recording one new delivery per endpoint
      of `ms`, later ones overwriting earlier entries of the same key. */
  function AddDeliveries(p: map<string, Delivery>, ms: seq<Endpoint>, e: WebhookEvent, now: real)
    : (r: map<string, Delivery>)
    ensures r.Keys == p.Keys + set w | w in ms :: DeliveryId(e.id, w.id)
  {
    if ms == [] then p
    else
      var w := ms[|ms| - 1];
      var init := ms[..|ms| - 1];
      assert forall x :: x in ms ==> x in init || x == w;
      AddDeliveries(p, init, e, now)[DeliveryId(e.id, w.id) := NewDelivery(e, w.id, now)]
  }

  /** Each endpoint of `ms` has its new delivery recorded; endpoints with
      the same identifier share one entry. */
  lemma {:induction false} AddDeliveriesRecords(p: map<string, Delivery>, ms: seq<Endpoint>, e: WebhookEvent, now: real, w: Endpoint)
    requires w in ms
    ensures AddDeliveries(p, ms, e, now)[DeliveryId(e.id, w.id)] == NewDelivery(e, w.id, now)
    decreases |ms|
  {
    var last := ms[|ms| - 1];
    var init := ms[..|ms| - 1];
    assert ms == init + [last];
    if w.id != last.id {
      assert w in init;
      DeliveryIdInjective(e.id);
      AddDeliveriesRecords(p, init, e, now, w);
    }
  }

  /** Entries not keyed by a delivery of `ms` are kept as they were. */
  lemma {:induction false} AddDeliveriesKeeps(p: map<string, Delivery>, ms: seq<Endpoint>, e: WebhookEvent, now: real, k: string)
    requires k in p && forall w :: w in ms ==> k != DeliveryId(e.id, w.id)
    ensures AddDeliveries(p, ms, e, now)[k] == p[k]
    decreases |ms|
  {
    if ms != [] {
      var init := ms[..|ms| - 1];
      assert forall x :: x in init ==> x in ms;
      AddDeliveriesKeeps(p, init, e, now, k);
    }
  }

  /** The queue entries for the endpoints of `ms`, in order. */
  function QueuedFor(ms: seq<Endpoint>, e: WebhookEvent): (r: seq<Queued>)
    ensures |r| == |ms|
    ensures forall i :: 0 <= i < |ms| ==> r[i] == Queued(ms[i], e, DeliveryId(e.id, ms[i].id))
  {
    seq(|ms|, i requires 0 <= i < |ms| => Queued(ms[i], e, DeliveryId(e.id, ms[i].id)))
  }

  // ---------------------------------------------------------------------
  // Attempting a delivery and the retry policy

  /** `_schedule_retry`: the delay after the given attempt, the last one
      repeating. */
  function RetryDelay(attempts: nat): (r: nat)
    requires attempts >= 1
    ensures r in RetryDelays
    ensures attempts >= |RetryDelays| ==> r == RetryDelays[|RetryDelays| - 1]
  {
    RetryDelays[MinInt(attempts - 1, |RetryDelays| - 1)]
  }

  /** A later attempt never waits less than an earlier one. */
  lemma RetryDelayMonotone(a: nat, b: nat)
    requires 1 <= a <= b
    ensures RetryDelay(a) <= RetryDelay(b)
  {
  }

  predicate IsSuccess(code: int) { 200 <= code < 300 }

  /** `_deliver_webhook`: one more attempt; delivered exactly on a 2xx
      response, failed on any other response or on an exception. */
  function AfterAttempt(d: Delivery, now: real, response: Option<int>): (r: Delivery)
    ensures r.attempts == d.attempts + 1 && r.lastAttempt == Some(now)
    ensures r.status == Delivered <==> response.Some? && IsSuccess(response.value)
    ensures r.status == Delivered || r.status == Failed
    ensures r.responseCode == if response.Some? then response else d.responseCode
    ensures r.id == d.id && r.webhookId == d.webhookId && r.eventId == d.eventId && r.createdAt == d.createdAt
    ensures r.nextRetry == d.nextRetry
  {
    var tried := d.(attempts := d.attempts + 1, lastAttempt := Some(now),
                    status := if d.attempts + 1 > 1 then Retrying else Pending);
    match response
    case None => tried.(status := Failed)
    case Some(code) => tried.(responseCode := Some(code), status := if IsSuccess(code) then Delivered else Failed)
  }

  datatype Settled = Settled(delivery: Delivery, retry: bool)

  /** `_delivery_worker` after an attempt: a failure is retried while the
      attempts are below the endpoint's limit and expires otherwise. */
  function Settle(d: Delivery, maxRetries: int, now: real): (r: Settled)
    requires d.attempts >= 1
    ensures r.retry <==> d.status != Delivered && d.attempts < maxRetries
    ensures r.retry ==> r.delivery == d.(nextRetry := Some(now + RetryDelay(d.attempts) as real))
    ensures !r.retry && d.status != Delivered ==> r.delivery == d.(status := Expired)
    ensures d.status == Delivered ==> r.delivery == d
  {
    if d.status != Delivered && d.attempts < maxRetries then
      Settled(d.(nextRetry := Some(now + RetryDelay(d.attempts) as real)), true)
    else if d.status != Delivered then Settled(d.(status := Expired), false)
    else Settled(d, false)
  }

  function WorkerStep(d: Delivery, maxRetries: int, now: real, response: Option<int>): Settled
  {
    Settle(AfterAttempt(d, now, response), maxRetries, now)
  }

  /** After the worker's step a delivery is delivered (2xx), failed and
      awaiting a retry, or expired. */
  lemma WorkerStepOutcome(d: Delivery, maxRetries: int, now: real, response: Option<int>)
    ensures var s := WorkerStep(d, maxRetries, now, response);
      && (s.delivery.status == Delivered <==> response.Some? && IsSuccess(response.value))
      && (s.delivery.status == Failed <==> s.retry)
      && (s.delivery.status == Expired <==> !s.retry && !(response.Some? && IsSuccess(response.value)))
      && s.delivery.attempts == d.attempts + 1
  {
  }

  /** The delivery after every attempt fails until the worker gives up. */
  function RunFailing(d: Delivery, maxRetries: int, now: real): Delivery
    decreases maxRetries - d.attempts
  {
    var s := WorkerStep(d, maxRetries, now, None);
    if s.retry then RunFailing(s.delivery, maxRetries, now) else s.delivery
  }

  /** A delivery that keeps failing is attempted until it has made
      `max_retries` attempts (at least one), and then expires. */
  lemma {:induction false} RunFailingBound(d: Delivery, maxRetries: int, now: real)
    ensures RunFailing(d, maxRetries, now).status == Expired
    ensures RunFailing(d, maxRetries, now).attempts == MaxInt(maxRetries, d.attempts + 1)
    decreases maxRetries - d.attempts
  {
    var s := WorkerStep(d, maxRetries, now, None);
    if s.retry {
      RunFailingBound(s.delivery, maxRetries, now);
    }
  }

  // ---------------------------------------------------------------------
  // Internal events that trigger webhooks

  datatype Family = StreamFamily | AudioFamily | FavoritesFamily | GuildFamily | MaintenanceFamily | HealthFamily

  function FamilyOf(t: EventType): Family
  {
    match t
    case StreamStarted | StreamStopped | StreamError => StreamFamily
    case AudioVolumeChanged => AudioFamily
    case FavoriteAdded | FavoriteRemoved => FavoritesFamily
    case GuildJoined | GuildLeft => GuildFamily
    case MaintenanceStarted | MaintenanceCompleted => MaintenanceFamily
    case HealthStatusChanged => HealthFamily
  }

  /** The prefix of the event identifiers each handler creates. */
  function FamilyPrefix(f: Family): string
  {
    match f
    case StreamFamily => "stream"
    case AudioFamily => "audio"
    case FavoritesFamily => "favorites"
    case GuildFamily => "guild"
    case MaintenanceFamily => "maintenance"
    case HealthFamily => "health"
  }

  /** The `_on_*_event` handlers' lookup tables: an internal event name is
      turned into the webhook type of that family whose value it is. */
  function MapEventName(f: Family, name: string): (r: Option<EventType>)
    ensures forall t :: r == Some(t) <==> FamilyOf(t) == f && EventTypeValue(t) == name
  {
    match f
    case StreamFamily =>
      if name == "stream_started" then Some(StreamStarted)
      else if name == "stream_stopped" then Some(StreamStopped)
      else if name == "stream_error" then Some(StreamError)
      else None
    case AudioFamily => if name == "audio_volume_changed" then Some(AudioVolumeChanged) else None
    case FavoritesFamily =>
      if name == "favorite_added" then Some(FavoriteAdded)
      else if name == "favorite_removed" then Some(FavoriteRemoved)
      else None
    case GuildFamily =>
      if name == "guild_joined" then Some(GuildJoined)
      else if name == "guild_left" then Some(GuildLeft)
      else None
    case MaintenanceFamily =>
      if name == "maintenance_started" then Some(MaintenanceStarted)
      else if name == "maintenance_completed" then Some(MaintenanceCompleted)
      else None
    case HealthFamily => if name == "health_status_changed" then Some(HealthStatusChanged) else None
  }

  /** Every webhook type is reachable from exactly one handler. */
  lemma EveryTypeHasAHandler(t: EventType)
    ensures MapEventName(FamilyOf(t), EventTypeValue(t)) == Some(t)
  {
  }

  function EventTypeValues(ts: seq<EventType>): (r: seq<string>)
    ensures |r| == |ts| && forall i :: 0 <= i < |ts| ==> r[i] == EventTypeValue(ts[i])
  {
    seq(|ts|, i requires 0 <= i < |ts| => EventTypeValue(ts[i]))
  }

  datatype WebhookStatusInfo = WebhookStatusInfo(
    id: string, url: string, active: bool, eventTypes: seq<string>,
    total: nat, successful: nat, failed: nat, successRate: real)

  /** The identifiers among `within` of recorded deliveries to endpoint `id`. */
  function Owned(pending: map<string, Delivery>, within: set<string>, id: string): set<string>
  {
    set k | k in within && k in pending && pending[k].webhookId == id
  }

  function OwnedWith(pending: map<string, Delivery>, within: set<string>, id: string, s: DeliveryStatus): set<string>
  {
    set k | k in within && k in pending && pending[k].webhookId == id && pending[k].status == s
  }

  /** The identifiers of the recorded deliveries to endpoint `id`. */
  function DeliveriesOf(pending: map<string, Delivery>, id: string): set<string>
  {
    Owned(pending, pending.Keys, id)
  }

  function DeliveriesWithStatus(pending: map<string, Delivery>, id: string, s: DeliveryStatus): set<string>
  {
    OwnedWith(pending, pending.Keys, id, s)
  }

  datatype HealthInfo = HealthInfo(healthy: bool, activeWebhooks: nat, pendingDeliveries: nat,
                                   deliveryWorkers: nat, queueSize: nat)

  class WebhookManager {
    var webhooks: map<string, Endpoint>
    /** The endpoint identifiers in the order they were first registered. */
    var order: seq<string>
    var pending: map<string, Delivery>
    var queue: seq<Queued>
    /** Deliveries whose retry is sleeping before it re-enters the queue. */
    var waiting: seq<Queued>
    var workers: nat
    var running: bool

    ghost predicate Valid()
      reads this
    {
      RegistryOk(webhooks, order)
      && (forall i :: 0 <= i < |queue| ==> queue[i].deliveryId in pending)
      && (forall i :: 0 <= i < |waiting| ==> waiting[i].deliveryId in pending)
    }

    constructor ()
      ensures Valid() && webhooks == map[] && order == [] && pending == map[]
      ensures queue == [] && waiting == [] && workers == 0 && !running
    {
      webhooks := map[];
      order := [];
      pending := map[];
      queue := [];
      waiting := [];
      workers := 0;
      running := false;
    }

    /** `initialize`: the delivery workers are started and the manager runs. */
    method Initialize()
      requires Valid()
      modifies this
      ensures Valid() && running && workers == old(workers) + MaxConcurrentDeliveries
      ensures webhooks == old(webhooks) && order == old(order) && pending == old(pending)
      ensures queue == old(queue) && waiting == old(waiting)
    {
      workers := workers + MaxConcurrentDeliveries;
      running := true;
    }

    /** `shutdown`: the workers stop taking work (the list of worker tasks is kept). */
    method Shutdown()
      requires Valid()
      modifies this
      ensures Valid() && !running && workers == old(workers)
      ensures webhooks == old(webhooks) && order == old(order) && pending == old(pending)
      ensures queue == old(queue) && waiting == old(waiting)
    {
      running := false;
    }

    /** `register_webhook`: stored under its identifier when its URL has a
      scheme and a host; a re-registration keeps its place in the order. */
    method RegisterWebhook(w: Endpoint) returns (ok: bool)
      requires Valid()
      modifies this
      ensures Valid()
      ensures ok <==> ValidUrl(w.url)
      ensures ok ==> webhooks == old(webhooks)[w.id := w]
      ensures ok ==> order == old(order) + (if w.id in old(webhooks) then [] else [w.id])
      ensures !ok ==> webhooks == old(webhooks) && order == old(order)
      ensures pending == old(pending) && queue == old(queue) && waiting == old(waiting)
      ensures workers == old(workers) && running == old(running)
    {
      if !ValidUrl(w.url) {
        return false;
      }
      RegisterKeepsRegistry(webhooks, order, w);
      if w.id !in webhooks {
        order := order + [w.id];
      }
      webhooks := webhooks[w.id := w];
      ok := true;
    }

    /** `unregister_webhook`: true exactly when the endpoint was registered. */
    method UnregisterWebhook(id: string) returns (ok: bool)
      requires Valid()
      modifies this
      ensures Valid()
      ensures ok <==> id in old(webhooks)
      ensures webhooks == old(webhooks) - {id}
      ensures order == DropId(old(order), id)
      ensures pending == old(pending) && queue == old(queue) && waiting == old(waiting)
      ensures workers == old(workers) && running == old(running)
    {
      ok := id in webhooks;
      var kept := DropId(order, id);
      UnregisterKeepsRegistry(webhooks, order, id);
      webhooks := webhooks - {id};
      order := kept;
    }

    // As written, `initialize` awaits `HealthMonitor.register_component`,
    // `register_webhook` awaits `StateManager.set_global_state` and
    // `unregister_webhook` awaits `StateManager.delete_global_state`; none
    // of the three exists, so each call raises after the work before it is
    // done. The members below model that behaviour.

    /** `initialize` as written: the delivery tasks are created, then the
        error is re-raised before the manager is marked running, so those
        workers leave their loop at once. */
    method InitializeAsWritten() returns (failed: bool)
      requires Valid()
      modifies this
      ensures Valid() && failed && running == old(running) && workers == old(workers) + MaxConcurrentDeliveries
      ensures webhooks == old(webhooks) && order == old(order) && pending == old(pending)
      ensures queue == old(queue) && waiting == old(waiting)
    {
      workers := workers + MaxConcurrentDeliveries;
      failed := true;
    }

    /** `register_webhook` as written: an endpoint with a valid URL is
        stored, yet the call reports failure every time. */
    method RegisterWebhookAsWritten(w: Endpoint) returns (ok: bool)
      requires Valid()
      modifies this
      ensures Valid() && !ok
      ensures ValidUrl(w.url) ==> webhooks == old(webhooks)[w.id := w]
      ensures ValidUrl(w.url) ==> order == old(order) + (if w.id in old(webhooks) then [] else [w.id])
      ensures !ValidUrl(w.url) ==> webhooks == old(webhooks) && order == old(order)
      ensures pending == old(pending) && queue == old(queue) && waiting == old(waiting)
      ensures workers == old(workers) && running == old(running)
    {
      var stored := RegisterWebhook(w);
      ok := false;
    }

    /** `unregister_webhook` as written: a registered endpoint is removed,
        yet the call reports failure every time. */
    method UnregisterWebhookAsWritten(id: string) returns (ok: bool)
      requires Valid()
      modifies this
      ensures Valid() && !ok
      ensures webhooks == old(webhooks) - {id}
      ensures order == DropId(old(order), id)
      ensures pending == old(pending) && queue == old(queue) && waiting == old(waiting)
      ensures workers == old(workers) && running == old(running)
    {
      var removed := UnregisterWebhook(id);
      ok := false;
    }

    /** `send_webhook`: one pending delivery and one queue entry for every
        matching endpoint, in registration order. */
    method SendWebhook(e: WebhookEvent, now: real)
      requires Valid()
      modifies this
      ensures Valid()
      ensures var ms := Matching(old(order), old(webhooks), e);
        && pending == AddDeliveries(old(pending), ms, e, now)
        && queue == old(queue) + QueuedFor(ms, e)
      ensures webhooks == old(webhooks) && order == old(order) && waiting == old(waiting)
      ensures workers == old(workers) && running == old(running)
    {
      var ms := CollectMatching(order, webhooks, e);
      var p, q := RecordDeliveries(pending, queue, ms, e, now);
      QueuedAreRecorded(queue, pending, ms, e, now);
      pending := p;
      queue := q;
    }

    /** `get_webhook_status`: None for an unknown endpoint; otherwise the
        counts of its recorded deliveries and the percentage delivered. */
    method WebhookStatus(id: string) returns (r: Option<WebhookStatusInfo>)
      requires Valid()
      ensures r.None? <==> id !in webhooks
      ensures r.Some? ==>
        && r.value.url == webhooks[id].url && r.value.active == webhooks[id].active
        && r.value.eventTypes == EventTypeValues(webhooks[id].eventTypes)
        && r.value.total == |DeliveriesOf(pending, id)|
        && r.value.successful == |DeliveriesWithStatus(pending, id, Delivered)|
        && r.value.failed == |DeliveriesWithStatus(pending, id, Failed)|
        && r.value.successful + r.value.failed <= r.value.total
        && (r.value.total == 0 ==> r.value.successRate == 0.0)
        && (r.value.total > 0 ==> r.value.successRate == r.value.successful as real / r.value.total as real * 100.0)
        && 0.0 <= r.value.successRate <= 100.0
    {
      if id !in webhooks {
        return None;
      }
      var total, successful, failed := CountDeliveries(pending, id);
      var w := webhooks[id];
      var rate := if total > 0 then successful as real / total as real * 100.0 else 0.0;
      if total > 0 {
        RateBound(successful, total);
      }
      r := Some(WebhookStatusInfo(id, w.url, w.active,
        EventTypeValues(w.eventTypes),
        total, successful, failed, rate));
    }

    /** One step of a delivery worker while the manager runs: the oldest
        queued delivery is attempted (`response` is the HTTP status received,
        None when the request raised); a failure below the endpoint's retry
        limit waits for a retry, any other failure expires. */
    method ProcessDelivery(now: real, response: Option<int>) returns (processed: bool, delivered: bool)
      requires Valid()
      modifies this
      ensures Valid()
      ensures processed <==> old(running) && old(queue) != []
      ensures !processed ==> queue == old(queue) && pending == old(pending) && waiting == old(waiting) && !delivered
      ensures processed ==>
        var item := old(queue)[0];
        var s := WorkerStep(old(pending)[item.deliveryId], item.endpoint.maxRetries, now, response);
        && queue == old(queue)[1..]
        && pending == old(pending)[item.deliveryId := s.delivery]
        && waiting == old(waiting) + (if s.retry then [item] else [])
        && (delivered <==> response.Some? && IsSuccess(response.value))
      ensures webhooks == old(webhooks) && order == old(order)
      ensures workers == old(workers) && running == old(running)
    {
      if !running || queue == [] {
        return false, false;
      }
      var item := queue[0];
      queue := queue[1..];
      var tried := AfterAttempt(pending[item.deliveryId], now, response);
      delivered := tried.status == Delivered;
      var s := Settle(tried, item.endpoint.maxRetries, now);
      pending := pending[item.deliveryId := s.delivery];
      if s.retry {
        waiting := waiting + [item];
      }
      processed := true;
    }

    /** `_delayed_retry`: after its delay a waiting delivery re-enters the
        queue. */
    method RetryDue(i: nat)
      requires Valid() && i < |waiting|
      modifies this
      ensures Valid()
      ensures waiting == old(waiting)[..i] + old(waiting)[i + 1..]
      ensures queue == old(queue) + [old(waiting)[i]]
      ensures webhooks == old(webhooks) && order == old(order) && pending == old(pending)
      ensures workers == old(workers) && running == old(running)
    {
      queue := queue + [waiting[i]];
      waiting := waiting[..i] + waiting[i + 1..];
    }

    /** An `_on_*_event` handler: a recognised event name becomes a webhook
        event of the event's guild, sent to the matching endpoints. */
    method OnEvent(f: Family, name: string, guild: Option<int>, stamp: string, now: real)
      requires Valid()
      modifies this
      ensures Valid()
      ensures MapEventName(f, name).None? ==>
        pending == old(pending) && queue == old(queue)
      ensures MapEventName(f, name).Some? ==>
        var e := WebhookEvent(FamilyPrefix(f) + "_" + stamp, MapEventName(f, name).value, guild);
        var ms := Matching(old(order), old(webhooks), e);
        && pending == AddDeliveries(old(pending), ms, e, now)
        && queue == old(queue) + QueuedFor(ms, e)
      ensures webhooks == old(webhooks) && order == old(order) && waiting == old(waiting)
      ensures workers == old(workers) && running == old(running)
    {
      var t := MapEventName(f, name);
      if t.Some? {
        SendWebhook(WebhookEvent(FamilyPrefix(f) + "_" + stamp, t.value, guild), now);
      }
    }

    /** `_health_check_callback`. */
    function Health(): (r: HealthInfo)
      reads this
      ensures r.healthy == running
      ensures r.activeWebhooks == |set k | k in webhooks && webhooks[k].active|
      ensures r.activeWebhooks <= |webhooks.Keys|
      ensures r.pendingDeliveries == |pending.Keys| && r.queueSize == |queue| && r.deliveryWorkers == workers
    {
      var active := set k | k in webhooks && webhooks[k].active;
      assert active <= webhooks.Keys;
      SubsetCard(active, webhooks.Keys);
      HealthInfo(running, |active|, |pending.Keys|, workers, |queue|)
    }
  }

  /** The first loop of `send_webhook`: the matching endpoints in order. */
  method CollectMatching(order: seq<string>, webhooks: map<string, Endpoint>, e: WebhookEvent)
    returns (ms: seq<Endpoint>)
    ensures ms == Matching(order, webhooks, e)
  {
    ms := [];
    var i := 0;
    while i < |order|
      invariant 0 <= i <= |order|
      invariant ms == Matching(order[..i], webhooks, e)
    {
      MatchingStep(order, i, webhooks, e);
      var k := order[i];
      if k in webhooks && Matches(webhooks[k], e) {
        ms := ms + [webhooks[k]];
      }
      i := i + 1;
    }
    assert order[..i] == order;
  }

  /** One more endpoint id scanned by `CollectMatching`. */
  lemma MatchingStep(order: seq<string>, i: nat, webhooks: map<string, Endpoint>, e: WebhookEvent)
    requires i < |order|
    ensures Matching(order[..i + 1], webhooks, e)
      == Matching(order[..i], webhooks, e)
         + (if order[i] in webhooks && Matches(webhooks[order[i]], e) then [webhooks[order[i]]] else [])
  {
    assert order[..i + 1][..i] == order[..i];
  }

  /** The second loop of `send_webhook`: a pending delivery and a queue
      entry per matching endpoint. */
  method RecordDeliveries(pending: map<string, Delivery>, queue: seq<Queued>, ms: seq<Endpoint>,
                          e: WebhookEvent, now: real)
    returns (p: map<string, Delivery>, q: seq<Queued>)
    ensures p == AddDeliveries(pending, ms, e, now)
    ensures q == queue + QueuedFor(ms, e)
  {
    p, q := pending, queue;
    var j := 0;
    while j < |ms|
      invariant 0 <= j <= |ms|
      invariant p == AddDeliveries(pending, ms[..j], e, now)
      invariant q == queue + QueuedFor(ms[..j], e)
    {
      var w := ms[j];
      var d := NewDelivery(e, w.id, now);
      DeliveriesStep(pending, ms, e, now, j);
      p := p[d.id := d];
      q := q + [Queued(w, e, d.id)];
      j := j + 1;
    }
    assert ms[..j] == ms;
  }

  /** One more endpoint adds its delivery and its queue entry. */
  lemma DeliveriesStep(pending: map<string, Delivery>, ms: seq<Endpoint>, e: WebhookEvent, now: real, j: nat)
    requires j < |ms|
    ensures AddDeliveries(pending, ms[..j + 1], e, now)
      == AddDeliveries(pending, ms[..j], e, now)[DeliveryId(e.id, ms[j].id) := NewDelivery(e, ms[j].id, now)]
    ensures QueuedFor(ms[..j + 1], e) == QueuedFor(ms[..j], e) + [Queued(ms[j], e, DeliveryId(e.id, ms[j].id))]
  {
    assert ms[..j + 1][..j] == ms[..j];
  }

  /** The counting loop of `get_webhook_status`. */
  method CountDeliveries(pending: map<string, Delivery>, id: string) returns (total: nat, successful: nat, failed: nat)
    ensures total == |DeliveriesOf(pending, id)|
    ensures successful == |DeliveriesWithStatus(pending, id, Delivered)|
    ensures failed == |DeliveriesWithStatus(pending, id, Failed)|
    ensures successful + failed <= total
  {
    total, successful, failed := 0, 0, 0;
    var rest := pending.Keys;
    while rest != {}
      invariant rest <= pending.Keys
      invariant total == |Owned(pending, pending.Keys - rest, id)|
      invariant successful == |OwnedWith(pending, pending.Keys - rest, id, Delivered)|
      invariant failed == |OwnedWith(pending, pending.Keys - rest, id, Failed)|
      invariant successful + failed <= total
      decreases rest
    {
      var k :| k in rest;
      ghost var seen := pending.Keys - rest;
      assert pending.Keys - (rest - {k}) == seen + {k};
      var d := pending[k];
      CountStep(seen, k, pending, id);
      CountStatusStep(seen, k, pending, id, Delivered);
      CountStatusStep(seen, k, pending, id, Failed);
      if d.webhookId == id {
        total := total + 1;
        if d.status == Delivered {
          successful := successful + 1;
        } else if d.status == Failed {
          failed := failed + 1;
        }
      }
      rest := rest - {k};
    }
    assert pending.Keys - rest == pending.Keys;
  }

  /** Every queue entry a send adds has its delivery recorded. */
  lemma QueuedAreRecorded(queue: seq<Queued>, pending: map<string, Delivery>, ms: seq<Endpoint>, e: WebhookEvent, now: real)
    requires forall i :: 0 <= i < |queue| ==> queue[i].deliveryId in pending
    ensures var q := queue + QueuedFor(ms, e);
      forall i :: 0 <= i < |q| ==> q[i].deliveryId in AddDeliveries(pending, ms, e, now)
  {
    var q := queue + QueuedFor(ms, e);
    var p := AddDeliveries(pending, ms, e, now);
    forall x | 0 <= x < |q|
      ensures q[x].deliveryId in p
    {
      if x >= |queue| {
        assert ms[x - |queue|] in ms;
      }
    }
  }

  lemma SubsetCard<T>(a: set<T>, b: set<T>)
    requires a <= b
    ensures |a| <= |b|
  {
    if a != {} {
      var x :| x in a;
      SubsetCard(a - {x}, b - {x});
    }
  }

  lemma RateBound(successful: nat, total: nat)
    requires 0 < total && successful <= total
    ensures 0.0 <= successful as real / total as real * 100.0 <= 100.0
  {
    assert successful as real / total as real <= 1.0;
  }

  lemma CountStep(seen: set<string>, k: string, pending: map<string, Delivery>, id: string)
    requires k in pending && k !in seen
    ensures |Owned(pending, seen + {k}, id)|
      == |Owned(pending, seen, id)| + (if pending[k].webhookId == id then 1 else 0)
  {
    var before, after := Owned(pending, seen, id), Owned(pending, seen + {k}, id);
    assert k !in before;
    if pending[k].webhookId == id {
      assert after == before + {k};
    } else {
      assert after == before;
    }
  }

  lemma CountStatusStep(seen: set<string>, k: string, pending: map<string, Delivery>, id: string, s: DeliveryStatus)
    requires k in pending && k !in seen
    ensures |OwnedWith(pending, seen + {k}, id, s)|
      == |OwnedWith(pending, seen, id, s)| + (if pending[k].webhookId == id && pending[k].status == s then 1 else 0)
  {
    var before := OwnedWith(pending, seen, id, s);
    assert k !in before;
    if pending[k].webhookId == id && pending[k].status == s {
      OwnedWithGrows(seen, k, pending, id, s);
      assert |before + {k}| == |before| + 1;
    } else {
      OwnedWithSkips(seen, k, pending, id, s);
    }
  }

  lemma OwnedWithGrows(seen: set<string>, k: string, pending: map<string, Delivery>, id: string, s: DeliveryStatus)
    requires k in pending && pending[k].webhookId == id && pending[k].status == s
    ensures OwnedWith(pending, seen + {k}, id, s) == OwnedWith(pending, seen, id, s) + {k}
  {
  }

  lemma OwnedWithSkips(seen: set<string>, k: string, pending: map<string, Delivery>, id: string, s: DeliveryStatus)
    requires k in pending && !(pending[k].webhookId == id && pending[k].status == s)
    ensures OwnedWith(pending, seen + {k}, id, s) == OwnedWith(pending, seen, id, s)
  {
  }

  /** The registry's shape: the order lists each registered identifier
      once, and every endpoint is stored under its own identifier. */
  ghost predicate RegistryOk(webhooks: map<string, Endpoint>, order: seq<string>)
  {
    (forall k :: k in order <==> k in webhooks)
    && (forall i, j :: 0 <= i < j < |order| ==> order[i] != order[j])
    && (forall k :: k in webhooks ==> webhooks[k].id == k)
  }

  lemma RegisterKeepsRegistry(webhooks: map<string, Endpoint>, order: seq<string>, w: Endpoint)
    requires RegistryOk(webhooks, order)
    ensures RegistryOk(webhooks[w.id := w], order + (if w.id in webhooks then [] else [w.id]))
  {
  }

  lemma UnregisterKeepsRegistry(webhooks: map<string, Endpoint>, order: seq<string>, id: string)
    requires RegistryOk(webhooks, order)
    ensures RegistryOk(webhooks - {id}, DropId(order, id))
  {
    FilterKeepsDistinct(order, id);
  }

  /** The insertion order of the table once `unregister_webhook` deletes
      `id`: the other identifiers keep their places. */
  function DropId(order: seq<string>, id: string): (r: seq<string>)
    ensures forall k :: k in r <==> k in order && k != id
  {
    if order == [] then [] else (if order[0] != id then [order[0]] else []) + DropId(order[1..], id)
  }

  predicate DistinctIds(s: seq<string>)
  {
    forall i, j :: 0 <= i < j < |s| ==> s[i] != s[j]
  }

  lemma {:induction false} FilterKeepsDistinct(order: seq<string>, id: string)
    requires DistinctIds(order)
    ensures DistinctIds(DropId(order, id))
  {
    if order != [] {
      FilterKeepsDistinct(order[1..], id);
      var t := DropId(order[1..], id);
      assert order[0] !in t;
      if order[0] != id {
        var r := [order[0]] + t;
        assert DropId(order, id) == r;
        forall i, j | 0 <= i < j < |r|
          ensures r[i] != r[j]
        {
          if i > 0 {
            assert r[i] == t[i - 1] && r[j] == t[j - 1];
          } else {
            assert r[j] == t[j - 1];
          }
        }
      } else {
        assert DropId(order, id) == t;
      }
    }
  }

  /** The registry lookups `__init__` makes as written, one for each of the
      state manager, event bus, configuration manager, health monitor and
      metrics collector, and the lookups it evidently means. */
  const InitLookupsAsWritten: seq<string> := ["get_service", "get_service", "get_service", "get_service", "get_service"]
  const InitLookups: seq<string> := ["get", "get", "get", "get", "get"]

  /** As written, building a manager raises AttributeError at its first
      lookup, since the registry has no `get_service`, so no manager is ever
      built; through the registry's `get` every lookup is found and the
      constructor goes on to the empty manager it describes. */
  lemma ConstructionDiscrepancy()
    ensures Registry.Wire(InitLookupsAsWritten) == Registry.AttributeError("get_service")
    ensures Registry.Wire(InitLookups) == Registry.Wired
  {
    assert Registry.FirstMissing(InitLookupsAsWritten) == 0;
  }

  /** One endpoint with a valid URL registered, then unregistered, on two
      new managers that were initialised, one as written and one as
      intended: the intended one runs and reports both calls as
      successful; the one as written never runs and reports both as
      failed, though it stored and removed the endpoint all the same. */
  method RegistrationDiscrepancy(w: Endpoint)
    returns (intendedRuns: bool, intendedRegistered: bool, intendedUnregistered: bool,
             asWrittenRuns: bool, asWrittenRegistered: bool, asWrittenUnregistered: bool, asWrittenStored: bool)
    requires ValidUrl(w.url)
    ensures intendedRuns && intendedRegistered && intendedUnregistered
    ensures !asWrittenRuns && !asWrittenRegistered && !asWrittenUnregistered && asWrittenStored
  {
    var fixed := new WebhookManager();
    fixed.Initialize();
    intendedRuns := fixed.running;
    intendedRegistered := fixed.RegisterWebhook(w);
    intendedUnregistered := fixed.UnregisterWebhook(w.id);
    var buggy := new WebhookManager();
    var failed := buggy.InitializeAsWritten();
    asWrittenRuns := buggy.running;
    asWrittenRegistered := buggy.RegisterWebhookAsWritten(w);
    asWrittenStored := w.id in buggy.webhooks;
    asWrittenUnregistered := buggy.UnregisterWebhookAsWritten(w.id);
  }
}
